=== FILE: README.md ===
# aeon-core, modelled in Dafny

This project models the core of aeon-core, a Python framework for agents governed by "axioms". An agent's
tool calls pass through a chain of validators (the executive) before they run. The model covers the
pieces around that chain:

- the agent turn and the autonomous loop;
- the safety, human-in-the-loop, trust, reasoning and citation axioms;
- message routing and the event hub;
- sessions and the gateway, authentication and permissions;
- the caches;
- pricing, cost tracking and token tracking;
- health checks and metrics;
- the CLI command interface and table formatter;
- extensions and provider integrations;
- the scheduler;
- dialogue context and archive;
- the swarm broker;
- situational context;
- the assistant example's rate limiter and content rules.

Every component is one Dafny module of pure functions over immutable datatypes. The Python objects'
mutation is modelled as a function from the old state to the new one.

Conventions used throughout:

- A Python `dict` is `OrderedMap.Dict`: a map together with the insertion order of its keys.
- A raised exception is the `Err` case of `Common.Result`, carrying the exception class and its message.
- Strings are `seq<char>`. Lower-casing is ASCII-only.
- Clocks (`datetime.now()`, `time.time()`) become a `now` parameter in whole seconds.
- Fresh identifiers (`uuid4`, `secrets`) become parameters.
- Awaited collaborators become function-valued parameters that return the collaborator's outcome.
  This covers language models, tool servers, hooks, handlers and providers.
- Prices and costs are exact reals. Binary floating-point rounding is not modelled.

## Model

| member | source | states |
|---|---|---|
| Pricing.ProviderName | src/aeon/economics/pricing.py:8-14 | every provider has a non-empty value string |
| Pricing.Basic | src/aeon/economics/pricing.py:18-36 | a pricing built with the dataclass defaults keeps the given id, provider and prices, and has a 128000-token context window and output limit |
| Pricing.InputCost | src/aeon/economics/pricing.py:38-54 | cached tokens are billed at the cached price only when that price is present and non-zero; otherwise they are subtracted and not billed at all |
| Pricing.OutputCost | src/aeon/economics/pricing.py:56-75 | reasoning tokens are billed at the reasoning price when it is non-zero, and otherwise at the output price, which gives the plain output cost of all tokens |
| Pricing.TotalCost | src/aeon/economics/pricing.py:77-97 | the total is the input cost plus the output cost; with no cached or reasoning tokens it is the input tokens at the input price plus the output tokens at the output price, per million |
| Pricing.CachedFreeWithoutPrice | src/aeon/economics/pricing.py:48-52 | without a cached price, cached tokens cost exactly what removing them from the count costs |
| Pricing.CacheAtFullPrice | src/aeon/economics/pricing.py:48-52 | a cached price equal to the input price makes the cached split irrelevant |
| Pricing.ReasoningSplitIrrelevant | src/aeon/economics/pricing.py:66-73 | without a reasoning price, how many output tokens are reasoning tokens never changes the cost |
| Pricing.CostNonNegative | src/aeon/economics/pricing.py:38-97 | with non-negative prices and cached and reasoning tokens within their totals, every total cost is non-negative |
| Pricing.RegisterModel | src/aeon/economics/pricing.py:197-203 | register_model maps the model id to the pricing, keeps an existing id in place and appends a new one, and keeps every pricing under its own id |
| Pricing.RegisterAll | src/aeon/economics/pricing.py:188-195 | loading a list keeps pricings under their own ids, and every stored pricing is either unchanged or from the list |
| Pricing.RegisterAllKeeps | src/aeon/economics/pricing.py:193-195 | loading a list never touches a stored pricing whose id no list entry uses |
| Pricing.RegisterAllKeys | src/aeon/economics/pricing.py:193-195 | loading pricings with distinct new ids appends exactly those ids, in list order |
| Pricing.RegisterAllStores | src/aeon/economics/pricing.py:193-195 | loading pricings with distinct new ids stores each under its own id |
| Pricing.RegisterAllIntoEmpty | src/aeon/economics/pricing.py:188-195 | loading pricings with distinct ids into an empty registry gives exactly their ids in order, each with its pricing |
| Pricing.DefaultIdsDistinct | src/aeon/economics/pricing.py:104-186 | no two default pricings share a model id |
| Pricing.NewRegistry | src/aeon/economics/pricing.py:188-195 | the default registry lists the default ids in load order, stores every default pricing under its own id, and keeps each pricing under its own id |
| Pricing.GetModelPricing | src/aeon/economics/pricing.py:205-214 | the lookup finds the stored pricing exactly for registered ids |
| Pricing.ListModels | src/aeon/economics/pricing.py:231-246 | without a provider, all ids in registration order; with one, exactly the ids of that provider; never a repeated id |
| Pricing.GetModelsByProvider | src/aeon/economics/pricing.py:216-229 | exactly the entries of the provider, with their pricings, in registry order |
| Pricing.EstimateCost | src/aeon/economics/pricing.py:248-286 | None exactly for unknown models; otherwise the total equals the breakdown's total, which is the input cost plus the output cost, and the breakdown echoes the token counts |
| Pricing.RegisterThenGet | src/aeon/economics/pricing.py:197-214 | after registering a pricing, looking it up returns it, and other ids are unaffected |
| Pricing.FoundAfterRegisterAll | src/aeon/economics/pricing.py:188-214 | a registry loaded from pricings with distinct ids finds exactly those ids, each with its own pricing |
| Pricing.DefaultsFound | src/aeon/economics/pricing.py:188-214 | a fresh registry finds a model id exactly when it is a default one, and returns that default pricing |
| Pricing.OllamaModelsFree | src/aeon/economics/pricing.py:166-185 | every default local model costs nothing for any token counts |
| Pricing.DefaultPricesNonNegative | src/aeon/economics/pricing.py:104-186 | every default pricing has non-negative prices |
| Pricing.Gpt5Figure | src/aeon/economics/pricing.py:106-114 | one million input plus one million output gpt-5 tokens cost 11.25 |
| CostTracker.NewTracker | src/aeon/economics/tracker.py:111-118 | a new tracker has no executions and uses the given registry, or the default one |
| CostTracker.RecordExecution | src/aeon/economics/tracker.py:120-175 | ValueError "Unknown model: <id>" exactly for unknown models; otherwise one record is appended with the given counts and the costs the model's pricing gives |
| CostTracker.Clear | src/aeon/economics/tracker.py:244-246 | clearing empties the executions and keeps the pricing |
| CostTracker.AddTo | src/aeon/economics/tracker.py:210-212 | adding to a dict entry starts it at 0.0 when absent |
| CostTracker.Totals | src/aeon/economics/tracker.py:222 | the list of per-execution costs, in order |
| CostTracker.DefaultReport | src/aeon/economics/tracker.py:54-84 | the empty report has zero executions, tokens and cost, no per-model entries and no start time |
| CostTracker.GetReport | src/aeon/economics/tracker.py:177-242 | an empty tracker gives the empty report; otherwise the execution count, and first and last timestamps as the start and end |
| CostTracker.AddToSum | src/aeon/economics/tracker.py:210-212 | adding a cost to a per-key dict raises the sum of its values by that cost |
| CostTracker.CostByModel | src/aeon/economics/tracker.py:208-212 | the cost_by_model loop, a definition without its own contract: each execution adds its total cost to its model's entry, a new model entering at the end; CostByModelSums, CostByModelTotal and CostByModelKeys state what it holds |
| CostTracker.Saving | src/aeon/economics/tracker.py:224-234 | one execution's saving from the cache, a definition: nothing unless its model is priced and it used cached tokens; otherwise the cached tokens at the input price minus the same tokens at the cached price, or at half the input price when the cached price is missing or zero |
| CostTracker.CostByModelSums | src/aeon/economics/tracker.py:194-212 | the per-model costs add up to the total cost, and their keys are exactly the models recorded |
| CostTracker.CostByModelTotal | src/aeon/economics/tracker.py:201-212 | the per-model costs add up to the report's total cost |
| CostTracker.CostByModelKeys | src/aeon/economics/tracker.py:210-212 | a model has a per-model entry exactly when some execution used it |
| CostTracker.SumOfTotals | src/aeon/economics/tracker.py:201-222 | the accumulated total cost is the sum of the per-execution cost list |
| CostTracker.ReportStatsOrdered | src/aeon/economics/tracker.py:236-240 | for a non-empty tracker, the minimum cost is at most the average, which is at most the maximum |
| CostTracker.TokensExcludeCached | src/aeon/economics/tracker.py:196-200 | the token total is input plus output plus reasoning tokens; cached tokens are left out |
| CostTracker.RecordKeepsConsistent | src/aeon/economics/tracker.py:154-156 | recording keeps every record's total equal to its input plus output cost |
| CostTracker.SplitSum | src/aeon/economics/tracker.py:201-207 | when each record's total is its input plus output cost, the sums split the same way |
| CostTracker.ReportTotalSplits | src/aeon/economics/tracker.py:201-207 | in a consistent tracker the report's total cost is its input cost plus its output cost |
| CostTracker.RecordGrowsReport | src/aeon/economics/tracker.py:120-242 | recording one execution adds one execution, its cost and its non-cached tokens to the next report |
| CostTracker.UnknownModelRecordsNothing | src/aeon/economics/tracker.py:149-151 | recording an unknown model fails and leaves the executions as they were |
| Hooks.EventValue | src/aeon/observability/hook.py:11-45 | every lifecycle event has a non-empty dotted value |
| Hooks.NewContext | src/aeon/observability/hook.py:49-81 | a new context is pending, at the execution-start event, stamped now, with every counter at zero, no errors or warnings and no duration |
| Hooks.Stamped | src/aeon/observability/hook.py:85-90 | a logged line is the bracketed ISO time, a space and the text |
| Hooks.AddError | src/aeon/observability/hook.py:83-86 | add_error appends the stamped error, marks the context failed and changes nothing else |
| Hooks.AddWarning | src/aeon/observability/hook.py:88-90 | add_warning appends the stamped warning and changes nothing else, not even the status |
| Hooks.IncrementInteraction | src/aeon/observability/hook.py:92-94 | the interaction count goes up by one and nothing else changes |
| Hooks.IncrementToolCall | src/aeon/observability/hook.py:96-98 | the tool-call count goes up by one and nothing else changes |
| Hooks.Register | src/aeon/observability/hook.py:185-192 | register appends a hook that is absent and ignores one already registered, so hooks never repeat |
| Hooks.RemoveFirst | src/aeon/observability/hook.py:201 | list.remove drops one occurrence, and with no duplicates the hook is gone afterwards |
| Hooks.Unregister | src/aeon/observability/hook.py:194-201 | unregister is a no-op for an absent hook and otherwise removes it, keeping the others |
| Hooks.Emit | src/aeon/observability/hook.py:203-241 | every registered hook is called in registration order, and only called hooks can be reported as failing |
| Hooks.EmitConcat | src/aeon/observability/hook.py:205-209 | a raising hook does not stop the emission: emitting over two lists is emitting over the first and continuing over the second from the context it left |
| Hooks.AllRaisingStillAllCalled | src/aeon/observability/hook.py:205-209 | when every hook raises, all of them are still called and all are reported |
| Hooks.RegisterIdempotentAndUndone | src/aeon/observability/hook.py:185-201 | registering twice is registering once, and unregistering undoes a fresh registration |
| TokenTracking.Add | src/aeon/observability/tracker.py:21-27 | adding usages adds each of the five counters |
| TokenTracking.AddMonoid | src/aeon/observability/tracker.py:21-27 | adding usages is associative and commutative, with the zero usage as its unit |
| TokenTracking.UsageOf | src/aeon/observability/tracker.py:62-70 | an execution's usage copies its four counters, and its total leaves cached tokens out |
| TokenTracking.NewTokenTracker | src/aeon/observability/tracker.py:43-48 | a new tracker has no executions, zero usage and a zero count |
| TokenTracking.OnExecutionStart | src/aeon/observability/tracker.py:50-53 | the context becomes running and nothing else changes |
| TokenTracking.OnExecutionEnd | src/aeon/observability/tracker.py:55-71 | the context becomes completed and is stored, the count goes up by one, and the input, output and reasoning tokens are added to the total |
| TokenTracking.OnEvent | src/aeon/observability/tracker.py:79-86 | only the reasoning, validation and safety-check start events are counted, each in its own counter; all other events change nothing |
| TokenTracking.OnToolCall | src/aeon/observability/tracker.py:88-91 | the context's tool-call count goes up by one and nothing else changes |
| TokenTracking.OnError | src/aeon/observability/tracker.py:93-96 | the error text is recorded and the context marked failed |
| TokenTracking.GetExecutionSummary | src/aeon/observability/tracker.py:102-108 | the summary reports the tracker's count, usage and executions |
| TokenTracking.EndKeepsAccounted | src/aeon/observability/tracker.py:55-71 | ending an execution keeps the count equal to the number of stored executions and the usage equal to the sum of their usages |
| TokenTracking.TotalExcludesCached | src/aeon/observability/tracker.py:68-71 | the accumulated total is always input plus output plus reasoning tokens |
| TokenTracking.TruncatedArgs | src/aeon/observability/tracker.py:170 | the logged arguments are a prefix of their rendering, at most 200 characters, and the whole rendering when it fits |
| TokenTracking.LogStart | src/aeon/observability/tracker.py:124-133 | one start entry with the execution id and agent name is appended |
| TokenTracking.LogEnd | src/aeon/observability/tracker.py:135-149 | one end entry with the id, agent, status and duration is appended |
| TokenTracking.LogEvent | src/aeon/observability/tracker.py:151-161 | a verbose logger appends the event's value and a quiet one records nothing |
| TokenTracking.LogToolCall | src/aeon/observability/tracker.py:163-174 | every tool call appends exactly one entry, verbose or not: the stamp, the execution id, the tool name and the rendered arguments cut to their first 200 characters, after the earlier entries |
| TokenTracking.LogError | src/aeon/observability/tracker.py:176-185 | one error entry with the error text is appended |
| TokenTracking.ClearEvents | src/aeon/observability/tracker.py:191-193 | clearing empties the log |
| TokenTracking.LoggingKeepsArgsBounded | src/aeon/observability/tracker.py:124-185 | every logging operation keeps all recorded argument texts within 200 characters |
| TokenTracking.QuietIgnoresEvents | src/aeon/observability/tracker.py:151-161 | on_event grows the log by one entry exactly when the logger is verbose |
| Auth.NewToken | src/aeon/security/auth.py:34-42 | a new token carries the fresh id, is issued now and expires one hour later |
| Auth.RegisterKey | src/aeon/security/auth.py:83-90 | the key is stored with its scopes, its metadata (or an empty one) and the current time, and other keys are untouched |
| Auth.IsExpired | src/aeon/security/auth.py:44-46 | is_expired, a definition: the time is strictly after the expiry; IssueThenValidate and ExpiredNotRefreshed state its consequences |
| Auth.ApiKeyAuthenticate | src/aeon/security/auth.py:92-110 | a token is issued exactly for a non-empty registered key; it carries the key's scopes and metadata, the username from the metadata or "api_user", and has not expired |
| Auth.ProviderAuthenticate | src/aeon/security/auth.py:92-110 | the provider's authenticate, a definition: the API-key provider is ApiKeyAuthenticate, whose contract states it, and any other provider answers through its parameter |
| Auth.ProviderValidate | src/aeon/security/auth.py:112-114 | the provider's validate_token, a definition: the API-key provider accepts exactly the tokens that have not expired, any other provider answers through its parameter |
| Auth.ProviderRefresh | src/aeon/security/auth.py:116-127 | the provider's refresh_token, a definition: the API-key provider refuses an expired token and otherwise issues a new one with the same type, subject, scopes and metadata; ExpiredNotRefreshed and RefreshKeepsActiveCount state the consequences |
| Auth.NewManager | src/aeon/security/auth.py:137-145 | a new manager has no tokens and all four counters at zero |
| Auth.RegisterProvider | src/aeon/security/auth.py:147-150 | the provider is stored under its name and nothing else changes |
| Auth.Authenticate | src/aeon/security/auth.py:152-169 | an unknown provider gives None and changes nothing; for a registered provider the result is exactly what that provider's authenticate returns, an issued token is stored under its id and counted once, and a refusal changes nothing |
| Auth.ValidateToken | src/aeon/security/auth.py:171-185 | true exactly when the token and provider exist and the provider accepts the token; only a true answer is counted |
| Auth.RefreshToken | src/aeon/security/auth.py:187-204 | a missing token or provider gives None; otherwise the result is exactly what that provider's refresh returns for the stored token, a refreshed token replaces the old one and is counted once, and a refusal changes nothing |
| Auth.RevokeToken | src/aeon/security/auth.py:206-217 | an unknown id changes nothing; a stored token is removed and counted, with or without a provider |
| Auth.GetToken | src/aeon/security/auth.py:219-221 | returns the stored token exactly for stored ids |
| Auth.GetStats | src/aeon/security/auth.py:223-228 | reports the four counters and the number of stored tokens as the active count |
| Auth.RefreshKeepsActiveCount | src/aeon/security/auth.py:197-202 | a refresh whose new id is fresh keeps the number of active tokens, stores the new token and drops the old id |
| Auth.ExpiredNotRefreshed | src/aeon/security/auth.py:187-204 | the API-key provider refuses to refresh an expired token, and the manager is unchanged |
| Auth.RevokeWithoutProvider | src/aeon/security/auth.py:206-217 | revoking a stored token under an unknown provider still removes it and counts it |
| Auth.IssueThenValidate | src/aeon/security/auth.py:152-185 | an API-key token issued with a fresh id adds one active token, which validates exactly until one hour after issue |
| Permissions.NewPermissionSet | src/aeon/security/permissions.py:21-22 | a permission set starts with the given permissions, or empty when none are given |
| Permissions.Grant | src/aeon/security/permissions.py:24-26 | granting adds exactly that permission |
| Permissions.Revoke | src/aeon/security/permissions.py:28-30 | revoking removes exactly that permission, and an absent one is ignored |
| Permissions.Has | src/aeon/security/permissions.py:32-36 | has, a definition: ADMIN or the permission itself is granted |
| Permissions.HasAll | src/aeon/security/permissions.py:38-42 | has_all, a definition: ADMIN, or every asked permission is granted; HasAllAnyByMembers reduces it to Has |
| Permissions.HasAny | src/aeon/security/permissions.py:44-48 | has_any, a definition: ADMIN, or some asked permission is granted; HasAllAnyByMembers reduces it to Has |
| Permissions.HasAllAnyByMembers | src/aeon/security/permissions.py:32-48 | has_all holds exactly when has holds for every member; has_any holds exactly with ADMIN or when has holds for some member; on the empty set has_all holds and has_any holds only with ADMIN |
| Permissions.GrantRevoke | src/aeon/security/permissions.py:24-36 | a granted permission is held; after revoking ADMIN exactly the other granted permissions are held; after revoking another permission it is held only through ADMIN |
| Permissions.EvaluateRule | src/aeon/security/permissions.py:66-81 | a rule's evaluate, a definition: a permission rule holds when the context's permission set has the permission (a missing set has nothing), a role rule when the context's role is allowed; SimpleRuleNeedsPermissions and RolePolicy state the cases |
| Permissions.SimpleRuleNeedsPermissions | src/aeon/security/permissions.py:66-69 | a permission rule fails when the context has no permissions and passes for an ADMIN set |
| Permissions.RegisterPolicy | src/aeon/security/permissions.py:90-92 | registering stores the rules under the name and replaces any earlier ones |
| Permissions.Evaluate | src/aeon/security/permissions.py:94-101 | a policy passes exactly when it is registered, has at least one rule and every rule passes |
| Permissions.AllRulesMeansEvery | src/aeon/security/permissions.py:101 | the conjunction over the rules holds exactly when each rule holds |
| Permissions.EvaluateAny | src/aeon/security/permissions.py:103-106 | passes exactly when some named policy passes, so never for an empty list |
| Permissions.RolePolicy | src/aeon/security/permissions.py:78-101 | a policy of one role rule grants exactly the contexts whose role is allowed |
| Session.NewManager | src/aeon/gateway/session.py:58-65 | a new manager has no sessions, the given ttl and zero counters |
| Session.Filtered | src/aeon/gateway/session.py:131 | the comprehension keeps exactly the sessions in the state, and none of any other state |
| Session.FilteredCount | src/aeon/gateway/session.py:75 | over distinct keys, the length of the filtered list is the number of ids in that state |
| Session.AllKeysFilteredCount | src/aeon/gateway/session.py:75 | filtering every stored session counts the sessions in that state |
| Session.CountAfterReplace | src/aeon/gateway/session.py:94-98 | replacing one session changes a state's count only by that session's own change of state |
| Session.CountAfterAdd | src/aeon/gateway/session.py:73-75 | storing a session under a new id adds one to its state's count and nothing to the others |
| Session.CreateSession | src/aeon/gateway/session.py:67-77 | an ACTIVE session with the given metadata, or an empty one, is stored under the new id; created is counted; the active figure is recounted and, for a new id, goes up by one |
| Session.GetSession | src/aeon/gateway/session.py:79-81 | returns the stored session exactly for stored ids |
| Session.UpdateSession | src/aeon/gateway/session.py:83-90 | any stored session, closed or not, merges the data, is touched and counts one more message, without changing its state or the active count; an unknown id gives None |
| Session.CloseSession | src/aeon/gateway/session.py:92-101 | true exactly for stored ids; closing counts even for an already closed session, recounts the active figure and keeps the key order |
| Session.SuspendSession | src/aeon/gateway/session.py:103-110 | true exactly for stored ids; the session becomes suspended and no counter changes |
| Session.ExpiredAmong | src/aeon/gateway/session.py:115-118 | exactly the ids of the snapshot whose sessions have expired |
| Session.CleanupOver | src/aeon/gateway/session.py:112-123 | the loop closes exactly the expired sessions, keeps them stored, counts each as closed, and with nothing expired changes nothing |
| Session.ExpiredUnchangedByClosing | src/aeon/gateway/session.py:116-117 | closing a session does not change which sessions have expired |
| Session.CleanupExpired | src/aeon/gateway/session.py:112-123 | returns exactly the expired ids; those sessions are closed and stay stored, and each is counted as closed |
| Session.SessionsByConnection | src/aeon/gateway/session.py:125-127 | exactly the stored sessions of the connection, each once, in storage order: the i-th result is the session stored under the i-th key of the connection |
| Session.AllActive | src/aeon/gateway/session.py:129-131 | exactly the active sessions, as many as are active, each once, in storage order: the i-th result is the session stored under the i-th active key |
| Session.FilteredIsComprehension | src/aeon/gateway/session.py:129-131 | the sessions in a state among some keys are the comprehension over their stored values, in the order of the keys |
| Session.QueriesAreComprehensions | src/aeon/gateway/session.py:125-131 | both queries equal the list comprehension over the stored sessions in storage order, filtered by connection or by the ACTIVE state |
| Session.GetStats | src/aeon/gateway/session.py:133-140 | the stored figures next to the session total and the active and suspended counts taken from the table |
| Session.RecountingOperationsKeepConsistent | src/aeon/gateway/session.py:67-123 | create, update, close and cleanup keep the stored active figure equal to the table's active count |
| Session.SuspendLeavesStaleActiveCount | src/aeon/gateway/session.py:103-110 | suspending an active session leaves the stored active figure one higher than the table's count |
| Session.CleanupRepeats | src/aeon/gateway/session.py:112-123 | a second cleanup at the same time reports the same ids again and counts them as closed a second time |
| Session.CreatedIsLive | src/aeon/gateway/session.py:67-77 | under a non-negative ttl, a new session is stored under its id, has not expired, and is not cleaned up at once |
| Session.ToStored | src/aeon/gateway/session.py:42-52 | the stored form keeps the session and connection ids, the creation and activity times, the state's value, the message count and the metadata |
| Session.Save | src/aeon/gateway/session.py:149-151 | saving stores the session's record under its id |
| Session.Load | src/aeon/gateway/session.py:153-155 | loading returns the stored record exactly for stored ids |
| Session.Delete | src/aeon/gateway/session.py:157-160 | deleting removes the id, and an unknown id changes nothing |
| Session.ClearOver | src/aeon/gateway/session.py:167-171 | the loop keeps exactly the entries of the snapshot that have not expired, unchanged, and counts the ones it removes |
| Session.ClearExpired | src/aeon/gateway/session.py:162-173 | exactly the unexpired records remain, unchanged, and the count is the number removed |
| Session.IsExpired | src/aeon/gateway/session.py:33-36 | is_expired, a definition: more than the ttl has passed since the last activity; ExpiryAgrees relates it to the store's own test |
| Session.ExpiryAgrees | src/aeon/gateway/session.py:164-169 | the store's expiry test agrees with the session's own |
| Session.SaveLoadAndClear | src/aeon/gateway/session.py:149-173 | a saved session loads back as its record and survives clearing while it is within the ttl |
| Gateway.NewGateway | src/aeon/gateway/gateway.py:51-63 | a new gateway is initializing, with no connections, zero counters and the given or default configuration |
| Gateway.Initialize | src/aeon/gateway/gateway.py:65-68 | initialize moves any state to READY and changes nothing else |
| Gateway.Start | src/aeon/gateway/gateway.py:70-76 | start succeeds exactly from READY or MAINTENANCE and moves to RUNNING; otherwise it raises RuntimeError naming the state |
| Gateway.Stop | src/aeon/gateway/gateway.py:78-93 | stop drops every connection, whatever closing it does, moves to SHUTDOWN and leaves the counters as they were |
| Gateway.RegisterConnection | src/aeon/gateway/gateway.py:95-102 | RuntimeError "Max connections reached" exactly when the table is full; otherwise the connection is stored, counted, and the active figure is the table size |
| Gateway.UnregisterConnection | src/aeon/gateway/gateway.py:105-109 | an unknown id changes nothing; a known one is removed and the active figure recounted |
| Gateway.SendMessage | src/aeon/gateway/gateway.py:112-125 | an unknown id raises ValueError and counts nothing; otherwise the message is counted, and a failing send is also counted as an error and re-raised |
| Gateway.GetState | src/aeon/gateway/gateway.py:127-142 | reports the state's value, the configured host, port and maximum, the stored message, connection and error counters unchanged, the live table size as the active count, and the uptime since creation |
| Gateway.HealthCheck | src/aeon/gateway/gateway.py:144-151 | healthy exactly in READY or RUNNING, with the state's value, the table size and the error count |
| Gateway.EveryOperationKeepsCapacity | src/aeon/gateway/gateway.py:65-125 | no operation lets the table grow past max_connections |
| Gateway.Lifecycle | src/aeon/gateway/gateway.py:51-151 | a new gateway cannot start until initialised; a running one is healthy; a stopped one is not and can start again only after initialize |
| CliInterface.SuccessAndErrorExclusive | src/aeon/cli/interface.py:30-36 | no result is both a success and an error, and pending, running and cancelled results are neither |
| CliInterface.Run | src/aeon/cli/interface.py:65-82 | a returned result passes through unchanged; a raised exception becomes a FAILED result with no output, "Command failed: <name>" and the exception's text as the error |
| CliInterface.Register | src/aeon/cli/interface.py:92-98 | the command is stored under its name, replacing one of the same name, and the others are kept |
| CliInterface.Unregister | src/aeon/cli/interface.py:100-107 | the name is removed and the others are kept; an unknown name changes nothing |
| CliInterface.Get | src/aeon/cli/interface.py:109-118 | returns the stored command exactly for registered names |
| CliInterface.ListCommands | src/aeon/cli/interface.py:120-126 | lists every registered name exactly once |
| CliInterface.Execute | src/aeon/cli/interface.py:128-147 | an unknown name gives a FAILED result with "Unknown command" and "Command not found"; a known one runs its command |
| CliInterface.RegisterThenExecute | src/aeon/cli/interface.py:92-147 | a registered command is the one executed under its name, and after unregistering the name is unknown again |
| CliInterface.NewInterface | src/aeon/cli/interface.py:153-156 | a new interface has no commands and no history |
| CliInterface.RegisterCommand | src/aeon/cli/interface.py:158-164 | registering through the interface registers in its registry and keeps the history |
| CliInterface.ExecuteCommand | src/aeon/cli/interface.py:166-186 | every call, known or not, returns the registry's result and appends one entry with the name, the arguments and the result's status value |
| CliInterface.HistoryRecordsEveryCall | src/aeon/cli/interface.py:166-186 | a sequence of calls adds one entry per call, in order, each naming the command, its arguments and its final status, and keeps the earlier entries |
| CliInterface.GetHistory | src/aeon/cli/interface.py:219-225 | the history is returned as recorded |
| CliInterface.ClearHistory | src/aeon/cli/interface.py:227-229 | clearing empties the history and keeps the commands |
| CliInterface.InterfaceCommands | src/aeon/cli/interface.py:211-217 | the interface lists its registry's commands |
| CliInterface.CommandHelp | src/aeon/cli/interface.py:188-209 | None exactly for unknown names; otherwise the text starts with the command and description lines, and is only those lines when the command has no options |
| CliInterface.HelpListsOption | src/aeon/cli/interface.py:204-207 | every option of the command appears in the help text on its own indented "name: description" line |
| CliInterface.OptionLineIn | src/aeon/cli/interface.py:206-207 | each option line written by the loop is contained in the text it builds |
| SimpleCache.NewEntry | src/aeon/cache/cache.py:18-26 | a new entry has been accessed zero times and was created and accessed at the current time |
| SimpleCache.Touch | src/aeon/cache/cache.py:36-39 | touching counts one more access at the current time and changes nothing else |
| SimpleCache.Report | src/aeon/cache/cache.py:147-158 | total requests are hits plus misses; the hit rate is the percentage of hits, between 0 and 100, and 0 with no requests |
| SimpleCache.NewCache | src/aeon/cache/cache.py:79-88 | a new cache is empty with all counters at zero |
| SimpleCache.FirstMinIndex | src/aeon/cache/cache.py:112-115 | the index of the first smallest element, as Python's `min` picks it |
| SimpleCache.OldestIndex | src/aeon/cache/cache.py:112-115 | the position of the least recently accessed key, the first one among ties |
| SimpleCache.OldestKey | src/aeon/cache/cache.py:112-115 | the eviction victim is a stored key |
| SimpleCache.Get | src/aeon/cache/cache.py:90-105 | a missing key is a miss; an expired entry is deleted and is a miss; a live one returns its value, is touched and is a hit |
| SimpleCache.Set | src/aeon/cache/cache.py:107-124 | the key ends up with a fresh entry and one more set is counted; only a new key in a full, non-empty cache first evicts the least recently accessed entry, counting an eviction |
| SimpleCache.Delete | src/aeon/cache/cache.py:126-132 | returns true exactly when the key was present; the key is gone afterwards and only a real deletion is counted |
| SimpleCache.Exists | src/aeon/cache/cache.py:134-141 | true exactly for a present, unexpired key; an expired entry is dropped, and no counter changes |
| SimpleCache.Clear | src/aeon/cache/cache.py:143-145 | clearing empties the store and keeps the statistics |
| SimpleCache.GetStats | src/aeon/cache/cache.py:147-158 | the report counts the stored entries and the requests |
| SimpleCache.SetKeepsBound | src/aeon/cache/cache.py:107-124 | a set never grows the store beyond the larger of the maximum size and one |
| SimpleCache.OtherOpsKeepBound | src/aeon/cache/cache.py:90-145 | get, delete, exists and clear keep that bound too |
| SimpleCache.OverwriteNeverEvicts | src/aeon/cache/cache.py:107-124 | overwriting a stored key never evicts, keeps the key order and resets the access count |
| SimpleCache.SetThenGetHits | src/aeon/cache/cache.py:90-124 | a value stored without a time-to-live is returned by any later get, as a hit |
| SimpleCache.IsExpired | src/aeon/cache/cache.py:28-34 | is_expired, a definition: an entry without a ttl never expires, one with a ttl expires once more than that many seconds have passed since creation; TtlBoundary states the boundary |
| SimpleCache.TtlBoundary | src/aeon/cache/cache.py:28-34 | with a time-to-live, a get hits exactly while no more than that many seconds have passed |
| LruCache.NewLru | src/aeon/cache/lru.py:11-20 | a new cache is empty with all counters at zero |
| LruCache.Get | src/aeon/cache/lru.py:22-40 | a missing key is a miss; an expired entry is deleted and is a miss; a live one returns its value, is touched, moves to the most recently used end and is a hit |
| LruCache.Set | src/aeon/cache/lru.py:42-58 | the key ends up last in the usage order with a fresh entry and one more set counted; a present key only moves to the end; a new key in a non-full cache is appended; a new key in a full, non-empty cache evicts the least recently used key first and counts an eviction; a new key when the maximum size is zero or less and the cache is empty raises the RuntimeError "coroutine raised StopIteration" that an escaping StopIteration becomes in a coroutine |
| LruCache.Insert | src/aeon/cache/lru.py:53-58 | storing the new entry puts it under its key and counts one more set |
| LruCache.FirstRemoved | src/aeon/cache/lru.py:49-50 | deleting the first key in the order leaves the rest of the order |
| LruCache.Delete | src/aeon/cache/lru.py:60-66 | returns true exactly when the key was present; the key is gone afterwards and only a real deletion is counted |
| LruCache.Exists | src/aeon/cache/lru.py:68-75 | true exactly for a present, unexpired key; an expired entry is dropped; nothing is counted or reordered |
| LruCache.Clear | src/aeon/cache/lru.py:77-79 | clearing empties the store and keeps the statistics |
| LruCache.GetStats | src/aeon/cache/lru.py:81-92 | the report counts the stored entries and the requests |
| LruCache.SetKeepsBound | src/aeon/cache/lru.py:42-58 | with a maximum size of at least one, a set succeeds and never grows the cache beyond that maximum |
| LruCache.OtherOpsKeepBound | src/aeon/cache/lru.py:22-79 | get, delete, exists and clear keep that bound too |
| LruCache.ZeroCapacityRaises | src/aeon/cache/lru.py:47-50 | a cache with maximum size zero cannot take its first entry |
| LruCache.HitProtectsFromEviction | src/aeon/cache/lru.py:36-51 | after a hit on a key, filling the full cache with a new key evicts some other key |
| Agent.AddAxiom | src/aeon/core/agent.py:54-58 | the decorator registers the handler under the function's own name with the given violation mode, leaving the agent's name and prompt unchanged |
| Agent.PlanOnString | src/aeon/cortex/reasoning.py:45-80 | plan_action handed a plain string raises AttributeError exactly when the string is non-empty, because sanitising calls .get on its first character; the empty string is planned over an empty history |
| Agent.PlanAction | src/aeon/cortex/reasoning.py:69-80 | plan_action on a list of messages, a definition: the model is asked with the system prompt, the sanitised history and the tools; PlanSeesUserInput states it for a single message |
| Agent.Planned | src/aeon/core/agent.py:105 | the intended planning call, over the single user message instead of the raw string; a definition |
| Agent.Act | src/aeon/core/agent.py:107-137 | the rest of a turn once the model has decided, a definition: text is returned as text, unparsable arguments give None, a blocked call gives an error reply, and an accepted call is executed; Process, AcceptedCallExecutes and ExecutionReply state it |
| Agent.PlanSeesUserInput | src/aeon/cortex/reasoning.py:45-80 | a single user message survives sanitising, so the intended turn plans over exactly the user's input |
| Agent.ProcessAsWritten | src/aeon/core/agent.py:92-105 | as written, no tool server or a failed tool fetch gives None before planning is reached |
| Agent.AsWrittenRaises | src/aeon/core/agent.py:104-105 | as written, once the tools are fetched every non-empty input raises AttributeError out of process, and only the empty input reaches the model |
| Agent.IntendedAgreesBeforePlanning | src/aeon/core/agent.py:92-102 | wherever the written turn stops before planning, it equals the intended turn |
| Agent.Process | src/aeon/core/agent.py:83-137 | the turn as evidently intended, planned over the single user message: no tool server or a failed tool fetch gives None; a text decision is returned as text and nothing runs; a tool runs if and only if its arguments parse and the executive accepts them, and then with exactly the payload the executive returned; an error reply never comes with an execution |
| Agent.BlockedCallNeverExecutes | src/aeon/core/agent.py:121-127 | a blocking axiom turns a tool call into an error reply carrying the block message, and the tool never runs |
| Agent.AcceptedCallExecutes | src/aeon/core/agent.py:128-137 | a tool call whose arguments parse and which the executive accepts is executed with exactly the payload the executive returned, and the reply is the first content item, "No output" when there is none, or None when the execution raises |
| Agent.BadJsonYieldsNone | src/aeon/core/agent.py:111-117 | arguments that are not valid JSON give None before the executive or the tool is consulted |
| Agent.ExecutionReply | src/aeon/core/agent.py:129-137 | an execution reports the first content item, or "No output" when there is none; an execution that raises gives None |
| Agent.ModeDoesNotAffectProcess | src/aeon/core/agent.py:54-58 | the violation mode given to the decorator never changes a turn |
| Agent.ModeDoesNotAffectValidation | src/aeon/executive/safety.py:44-82 | the executive's verdicts do not depend on the violation modes it stores |
| Agent.SameValidationSameTurn | src/aeon/core/agent.py:83-137 | a turn depends on the executive only through its verdicts |
| Safety.Register | src/aeon/executive/safety.py:44-52 | the axiom is stored under the function's own name, the name argument is ignored, the other axioms are kept, and a re-registered name keeps its place |
| Safety.Run | src/aeon/executive/safety.py:59-80 | the axiom loop in order, a definition without its own contract: True or any other non-dictionary passes the payload on, a dictionary replaces it, False raises AxiomViolationError naming the axiom, and a handler's exception escapes; RunConcat, FirstBlockStops and ResultIsInputOrOverride state it |
| Safety.ValidateOutput | src/aeon/executive/safety.py:54-82 | validate_output, a definition: Run over the registered axioms in registration order; ValidateLoop, AllPassKeepsPayload and FirstBlockStops state it |
| Safety.ValidateLoop | src/aeon/executive/safety.py:54-82 | the registry's loop computes the chain over the axioms in registration order |
| Safety.RunConcat | src/aeon/executive/safety.py:59-82 | running two groups of axioms is running the first, then the second on its result, stopping at the first error |
| Safety.AllPassKeepsPayload | src/aeon/executive/safety.py:61-66 | when every axiom passes or returns something other than a dictionary or a boolean, the payload comes back unchanged |
| Safety.ResultIsInputOrOverride | src/aeon/executive/safety.py:59-82 | an accepted payload is the input itself or a dictionary some axiom returned |
| Safety.FirstBlockStops | src/aeon/executive/safety.py:75-80 | the first blocking axiom stops the chain with an AxiomViolationError naming it, whatever later axioms would do |
| Safety.ReRegisterKeepsPosition | src/aeon/executive/safety.py:48-50 | re-registering a function name replaces its handler and keeps its place in the run order |
| Safety.ModeIrrelevant | src/aeon/executive/safety.py:22-25 | the stored violation mode is never consulted, so changing every mode changes no verdict |
| Safety.OrderIsObservable | src/aeon/executive/safety.py:68-73 | an override seen by a later blocking axiom blocks, while the same two axioms in the other order pass: registration order matters |
| AssistantAxioms.NewRateLimiter | examples_ai_assistant/with_safety_axioms.py:22-24 | a new limiter has the given limit and no recorded requests |
| AssistantAxioms.Recent | examples_ai_assistant/with_safety_axioms.py:33-37 | the filter keeps exactly the request times less than an hour old, never adds any, keeps all when all are recent and none when none are |
| AssistantAxioms.CheckRateLimit | examples_ai_assistant/with_safety_axioms.py:26-44 | admits exactly when fewer than the limit of the user's requests are less than an hour old; the user's record becomes those recent times plus now when admitted; other users are untouched |
| AssistantAxioms.CheckKeepsLimit | examples_ai_assistant/with_safety_axioms.py:26-44 | no user ever has more requests on record than the limit |
| AssistantAxioms.ExpiryReadmits | examples_ai_assistant/with_safety_axioms.py:33-40 | once all of a user's requests are an hour old, a positive limit admits them again |
| AssistantAxioms.Burst | examples_ai_assistant/with_safety_axioms.py:26-44 | a burst of checks admits at most as many requests as it makes |
| AssistantAxioms.BurstIsCapped | examples_ai_assistant/with_safety_axioms.py:26-44 | a burst at one instant admits exactly the smaller of its size and the room the limit leaves |
| AssistantAxioms.UsersAreIndependent | examples_ai_assistant/with_safety_axioms.py:26-44 | one user's requests never affect another user's admission |
| AssistantAxioms.AnyKeyword | examples_ai_assistant/with_safety_axioms.py:71 | true exactly when the text contains one of the keywords |
| AssistantAxioms.NoHarmfulContent | examples_ai_assistant/with_safety_axioms.py:67-73 | passes exactly when the lower-cased response contains none of the five keywords |
| AssistantAxioms.ContainsTrans | examples_ai_assistant/with_safety_axioms.py:71 | substring containment is transitive |
| AssistantAxioms.RejectionSpreads | examples_ai_assistant/with_safety_axioms.py:67-73 | a response containing a rejected passage, in any case, is rejected too |
| AssistantAxioms.HarmlessIsRejected | examples_ai_assistant/with_safety_axioms.py:70-72 | a concrete witness of the plain substring test: the word "Harmless" is rejected because it contains "harm"; RejectionSpreads states the general property |
| AssistantAxioms.EnforceResponseLength | examples_ai_assistant/with_safety_axioms.py:75-80 | passes exactly for responses of at most 500 characters |
| AssistantAxioms.LengthRuleIsPrefixClosed | examples_ai_assistant/with_safety_axioms.py:75-80 | any prefix of an accepted response is accepted, and the first 500 characters alone always are |
| AssistantAxioms.Truncate | examples_ai_assistant/with_safety_axioms.py:133-135 | the truncated response is 503 characters: the first 500 of the response, then "..." |
| AssistantAxioms.TruncatedResponseStillFails | examples_ai_assistant/with_safety_axioms.py:133-135 | the truncated response still fails the 500-character rule it was cut for |
| Metrics.NewCollector | src/aeon/health/metrics.py:31-33 | a new collector has no histories and the given bound |
| Metrics.BoundedAppend | src/aeon/health/metrics.py:38-40 | appending to a bounded deque keeps the last entries of the old contents plus the new one, at most the bound of them |
| Metrics.Record | src/aeon/health/metrics.py:35-40 | recording fails with ValueError exactly when the name is new and the bound is negative |
| Metrics.CounterAt | src/aeon/health/metrics.py:42-50 | a counter records a COUNTER metric with the given value (1.0 by default), the current time and the labels or none |
| Metrics.GaugeAt | src/aeon/health/metrics.py:52-60 | a gauge records a GAUGE metric with the given value, time and labels |
| Metrics.HistogramAt | src/aeon/health/metrics.py:62-70 | a histogram records a HISTOGRAM metric with the given value, time and labels |
| Metrics.TimerAt | src/aeon/health/metrics.py:72-80 | a timer records a TIMER metric whose value is the duration |
| Metrics.History | src/aeon/health/metrics.py:82-86 | a name's recorded history, empty when unknown; a definition that GetMetrics, GetLatest and HistoryIsRecentSuffix state their results through |
| Metrics.GetMetrics | src/aeon/health/metrics.py:82-86 | a non-empty name selects only that history, empty when unknown; no name or the empty name selects them all |
| Metrics.GetLatest | src/aeon/health/metrics.py:88-93 | None exactly when the history is empty or missing; otherwise its last metric |
| Metrics.ValuesOf | src/aeon/health/metrics.py:101 | the values of a history, oldest first |
| Metrics.GetStats | src/aeon/health/metrics.py:95-109 | None exactly for an empty history; otherwise the count, the latest value and type, a minimum and a maximum that are values of the history and bound all of them, and an average that times the count is the sum of the values |
| Metrics.HistoryExtrema | src/aeon/health/metrics.py:101-105 | the least and greatest values of a non-empty history occur in it and bound every value |
| Metrics.Clear | src/aeon/health/metrics.py:111-117 | a non-empty name removes only that history; no name or the empty name removes all |
| Metrics.RecordHistory | src/aeon/health/metrics.py:35-40 | recording changes only the history of the recorded name, by a bounded append |
| Metrics.RecordKeepsBound | src/aeon/health/metrics.py:35-40 | recording keeps every history within the bound |
| Metrics.RecordThenStats | src/aeon/health/metrics.py:35-40 | right after recording with a positive bound, the statistics of that name have the recorded value as latest, between the extremes, with its type, over at most max_history values |
| Metrics.RecordThenLatest | src/aeon/health/metrics.py:35-93 | with a positive bound the recorded metric becomes the latest of its name, and no other name is touched |
| Metrics.HistoryIsRecentSuffix | src/aeon/health/metrics.py:35-40 | the history of a name is the last bound-many metrics recorded under it, oldest first |
| Metrics.RecordStep | src/aeon/health/metrics.py:35-40 | under a non-negative bound a recording always succeeds and appends boundedly |
| Metrics.SuffixStep | src/aeon/health/metrics.py:38-40 | a bounded append to the last entries of a sequence gives the last entries of the longer sequence |
| Metrics.ClearOnlyThatName | src/aeon/health/metrics.py:111-117 | clearing a name leaves it without history or stats and every other history as it was; clearing with the empty name clears all |
| Metrics.GetCollector | src/aeon/health/metrics.py:126-130 | an existing collector is returned unchanged; a missing one is created with the default bound of 1000 and stored |
| Metrics.GetCollectorIdempotent | src/aeon/health/metrics.py:126-130 | a second lookup changes nothing and returns the same collector |
| Metrics.RecordMetric | src/aeon/health/metrics.py:132-134 | recording through the registry records in the named collector, creating it first when missing |
| Metrics.CollectorStats | src/aeon/health/metrics.py:139-144 | a collector's stats list exactly its non-empty histories, each with its own stats |
| Metrics.GetAllStats | src/aeon/health/metrics.py:136-146 | every collector appears, each with the stats of its non-empty histories |
| Metrics.EmptyHistoryOmitted | src/aeon/health/metrics.py:142-144 | an empty history has no entry in the stats |
| HealthCheck.NewSimple | src/aeon/health/health_check.py:40-42 | a new simple checker starts healthy |
| HealthCheck.Run | src/aeon/health/health_check.py:32-51 | check() of one checker, a definition: a simple checker reports under its own id at the current time; a custom checker's outcome is its parameter; SimpleReportsFlag states the simple case |
| HealthCheck.SimpleReportsFlag | src/aeon/health/health_check.py:44-51 | a simple checker reports HEALTHY with "OK" exactly when its flag is set, and UNHEALTHY with "Failed" otherwise, under its own id |
| HealthCheck.Settle | src/aeon/health/health_check.py:74-89 | a completed check is stored as returned; a timeout becomes UNHEALTHY with "Health check timeout"; an exception becomes UNHEALTHY with its message |
| HealthCheck.NewSystem | src/aeon/health/health_check.py:57-59 | a new system has no checkers and no results |
| HealthCheck.Register | src/aeon/health/health_check.py:61-63 | the checker is stored under its id, others are kept, a replaced id keeps its place, and the last results are untouched |
| HealthCheck.CheckAll | src/aeon/health/health_check.py:65-92 | one entry per registered checker, in registration order, each the settled outcome of that checker; the results become the last check |
| HealthCheck.FailuresAreUnhealthy | src/aeon/health/health_check.py:78-89 | a check that times out or raises always leaves an UNHEALTHY entry for that id carrying the reason |
| HealthCheck.Statuses | src/aeon/health/health_check.py:102 | the statuses listed are exactly those of the stored components |
| HealthCheck.OverallStatus | src/aeon/health/health_check.py:94-109 | checks first only when there are no results; with none still, HEALTHY; otherwise UNHEALTHY exactly when some component is, DEGRADED exactly when none is unhealthy and some is degraded |
| HealthCheck.NoCheckersIsHealthy | src/aeon/health/health_check.py:96-100 | with no checker registered the overall status is HEALTHY and there are still no results |
| HealthCheck.WorstIsMostSevere | src/aeon/health/health_check.py:102-109 | the worst of a list of statuses is at least as severe as each, and is one of them |
| HealthCheck.OverallIsWorst | src/aeon/health/health_check.py:94-109 | the overall status is the most severe component status |
| HealthCheck.GetReport | src/aeon/health/health_check.py:111-129 | "unknown" exactly without results; otherwise "healthy" exactly when every component is healthy and "degraded" otherwise, with every component's status value, message, check time and details, in order |
| HealthCheck.ReportAgreesWithOverall | src/aeon/health/health_check.py:94-129 | the report says "healthy" exactly when the overall status is HEALTHY, and reports an UNHEALTHY system as "degraded" |
| HealthCheck.ReportUnknownWithoutResults | src/aeon/health/health_check.py:111-114 | before any check, and after checking with no checkers, the report is "unknown" |
| Router.DefaultRoute | src/aeon/routing/router.py:41-51 | a route defaults to priority 0, enabled, three attempts and no fallback |
| Router.NewRouter | src/aeon/routing/router.py:65-73 | a new router has no routes and every counter at zero |
| Router.Register | src/aeon/routing/router.py:75-84 | a duplicate id raises ValueError "Route <id> already registered"; otherwise the route is stored under its id with zeroed statistics, keeping every route under its own id |
| Router.Unregister | src/aeon/routing/router.py:86-91 | the route and its statistics both go; an unknown id changes nothing |
| Router.RegisterThenUnregister | src/aeon/routing/router.py:75-91 | registering a new route and unregistering it gives back the same router: the routes, their order and the statistics |
| OrderedMap.WithoutAppend | src/aeon/routing/router.py:88-89 | deleting the last-added key restores the earlier key order |
| OrderedMap.PutThenRemove | src/aeon/routing/router.py:75-91 | adding a new key to a dictionary and deleting it again gives back the dictionary, keys in the same order |
| Router.Eligible | src/aeon/routing/router.py:101-106 | the kept routes are exactly the enabled ones whose matcher accepted the context |
| Router.EligibleKeepsOrder | src/aeon/routing/router.py:95-108 | filtering keeps the routes sorted by descending priority |
| Router.EligibleByPriority | src/aeon/routing/router.py:95-108 | filtering commutes with selecting the routes of one priority |
| Router.EligibleAppend | src/aeon/routing/router.py:101-106 | filtering a concatenation filters each part |
| Router.FindRoutes | src/aeon/routing/router.py:93-108 | exactly the enabled, matching routes, by descending priority, with routes of equal priority in registration order |
| Router.RunFrom | src/aeon/routing/router.py:126-140 | the attempts tried are consecutive from the given one; the loop succeeds exactly when a later attempt within the budget succeeds, stops at the first success, and is exhausted otherwise |
| Router.RunRoute | src/aeon/routing/router.py:126-140 | attempts 1 to max_attempts are tried in order until the first success; with no attempts nothing runs and nothing is exhausted |
| Router.CallsOf | src/aeon/routing/router.py:128 | one handler call per attempt, tagged with the route id |
| Router.DispatchOver | src/aeon/routing/router.py:123-142 | delivered exactly when some route has a successful attempt; success counts one delivery, and an undelivered message counts one failure per route that ran out of attempts |
| Router.AllFailTail | src/aeon/routing/router.py:123-142 | after a route that fails, all fail exactly when the rest all fail |
| Router.DeliveredByFirstSucceeding | src/aeon/routing/router.py:123-131 | a delivered message is delivered by a route all of whose predecessors failed every attempt |
| Router.DispatchStep | src/aeon/routing/router.py:123-142 | after a failed route the calls are its own followed by those of the rest |
| Router.CallsWithinBudget | src/aeon/routing/router.py:123-128 | every handler call belongs to a matching route and is within that route's attempt budget |
| Router.OnlyLastCallSucceeds | src/aeon/routing/router.py:123-142 | every handler call but the last failed, and the last succeeded exactly when the message was delivered |
| Router.FailedRunCallsFail | src/aeon/routing/router.py:126-140 | every call of a route that never succeeds fails |
| Router.SucceededStep | src/aeon/routing/router.py:126-131 | when the first route succeeds, its calls are all the calls and only the last succeeds |
| Router.OwnThenRest | src/aeon/routing/router.py:123-142 | appending failing calls in front keeps "only the last call succeeds" |
| Router.FallbacksOnlyAfterExhaustion | src/aeon/routing/router.py:132-138 | a fallback runs only for a route with a fallback whose every attempt failed, at most once per route |
| Router.RouteMessage | src/aeon/routing/router.py:110-142 | every message counts as routed; with no matching route it is bypassed and nothing runs; otherwise delivered exactly when some matching route succeeds, counting one success |
| Router.AfterRoute | src/aeon/routing/router.py:110-142 | routing keeps the routes and keeps every route's statistics entry |
| Router.RoutingKeepsCounts | src/aeon/routing/router.py:116-131 | delivered plus bypassed messages never exceed those routed |
| Router.GetStats | src/aeon/routing/router.py:144-153 | the report holds the counters, the number of routes and the delivered share of routed messages, 0 when none were routed |
| Router.SuccessRateBounded | src/aeon/routing/router.py:149-152 | the success rate is between 0 and 1 |
| Router.ZeroAttemptsNeverRun | src/aeon/routing/router.py:124-126 | a route with no attempts is counted as called but its handler never runs and no outcome is recorded |
| Ranking.SortIsOrderedPermutation | src/aeon/routing/router.py:96-100 | Python's reversed sort by priority returns a permutation of its input ordered by descending key |
| Ranking.SortKeepsTies | src/aeon/routing/router.py:96-100 | the sort is stable: elements of equal key keep their original order |
| Ranking.SortedHeadIsMax | src/aeon/routing/strategies.py:25 | the head of the sorted list is an input element of the highest key |
| Ranking.InsertPermutes | src/aeon/routing/router.py:96-100 | inserting one element adds exactly that element |
| Ranking.InsertSorted | src/aeon/routing/router.py:96-100 | inserting into a sorted list keeps it sorted |
| Ranking.InsertKeepsTies | src/aeon/routing/router.py:96-100 | inserting places the element after the existing elements of its key |
| Ranking.WithKeyAppend | src/aeon/routing/router.py:96-100 | selecting one key from a concatenation selects from each part |
| Ranking.FirstWithKey | src/aeon/routing/strategies.py:25 | the first element with a key is the head of the elements with that key |
| Strategies.SelectPriority | src/aeon/routing/strategies.py:21-25 | no candidates raises ValueError "No candidates available"; otherwise the first candidate of the highest priority |
| Strategies.FirstHighestUnique | src/aeon/routing/strategies.py:21-25 | only one position holds the first candidate of the highest priority |
| Strategies.ScanHighest | src/aeon/routing/strategies.py:21-25 | a left-to-right scan finds the first candidate of the highest priority |
| Strategies.PriorityIsScan | src/aeon/routing/strategies.py:25 | sorting and taking the head picks the same candidate as the scan, since ties keep list order |
| Strategies.InitLoads | src/aeon/routing/strategies.py:39-42 | unseen candidates start at load 0 and known loads are kept |
| Strategies.FirstLeastLoaded | src/aeon/routing/strategies.py:45 | the first candidate of least load, as Python's `min` picks it |
| Strategies.SelectLoadBalanced | src/aeon/routing/strategies.py:34-47 | no candidates raises; otherwise the first candidate of least load is chosen, as `min` does, so every earlier candidate carries a strictly greater load, and its load goes up by one |
| Strategies.DecrementLoad | src/aeon/routing/strategies.py:49-52 | a known load goes down by one but never below zero; unknown ids are ignored |
| Strategies.SelectionKeepsBalance | src/aeon/routing/strategies.py:34-47 | serving a least-loaded candidate keeps candidate loads that differ by at most one that way |
| Strategies.SelectedIndex | src/aeon/routing/strategies.py:45-46 | the served candidate is one of least load, and only its load rises |
| Strategies.BumpLeastKeepsBalance | src/aeon/routing/strategies.py:45-46 | raising a least load by one keeps the loads within one of each other |
| Strategies.SelectRoundRobin | src/aeon/routing/strategies.py:91-98 | no candidates raises and leaves the index; otherwise the candidate at the index modulo the count, and the index advances |
| Strategies.SelectedAfterIndex | src/aeon/routing/strategies.py:96-97 | k calls later the selection is the candidate at the starting index plus k, modulo the count |
| Strategies.RoundRobinCoversAll | src/aeon/routing/strategies.py:91-98 | over as many consecutive calls as there are candidates, every candidate is chosen |
| Strategies.DefaultMapper | src/aeon/routing/strategies.py:107-109 | the default key is the context's source |
| Strategies.SelectContextAwareAsWritten | src/aeon/routing/strategies.py:111-124 | as written: the first candidate is returned exactly when its id contains the key, and otherwise the metadata lookup raises AttributeError |
| Strategies.ContextAwareRaisesOnMiss | src/aeon/routing/strategies.py:119-124 | a list whose first id lacks the key always raises, so the fallback to the first candidate is never reached |
| Strategies.FirstMatching | src/aeon/routing/strategies.py:119-121 | the first candidate at or after a position whose id or metadata contains the key, and none before it does |
| Strategies.SelectContextAware | src/aeon/routing/strategies.py:111-124 | as intended: no candidates raises; otherwise the first candidate matching by id or metadata, or the first candidate when none matches |
| Strategies.IntendedAgreesWhereDefined | src/aeon/routing/strategies.py:111-124 | wherever the code as written returns a route, the intended selection returns the same one |
| Filters.Less | src/aeon/routing/filters.py:107 | `<` compares numbers by value across bool, int and float, and strings; any other pair raises TypeError |
| Filters.Greater | src/aeon/routing/filters.py:109 | `>` likewise |
| Filters.NewChain | src/aeon/routing/filters.py:70-74 | the mode is accepted exactly when it upper-cases to AND or OR, and anything else raises ValueError "mode must be AND or OR" |
| Filters.RangeMatches | src/aeon/routing/filters.py:101-105 | a missing or None field never matches |
| Filters.Matches | src/aeon/routing/filters.py:30-112 | matches for every filter kind, a definition: a type filter tests the exact class, a predicate filter gives the predicate's answer or exception, an attribute filter compares every condition, a range filter is RangeMatches, an empty chain matches and a non-empty chain is AllOf or AnyOf by its mode; ChainSemantics, TypeFilterExact, AttributeFilterMatches and RangeIsInterval state the cases |
| Filters.AllOf | src/aeon/routing/filters.py:81-85 | the AND loop, a definition: False at the first non-matching filter, the first exception, or True; AllOfMatchesAll and AllOfDecidedAt state it |
| Filters.AnyOf | src/aeon/routing/filters.py:86-90 | the OR loop, a definition: True at the first matching filter, the first exception, or False; AnyOfMatchesNone and AnyOfDecidedAt state it |
| Filters.AllOfMatchesAll | src/aeon/routing/filters.py:81-85 | an AND chain matches exactly when every filter in it matches |
| Filters.AllOfDecidedAt | src/aeon/routing/filters.py:82-84 | otherwise it answers what its first non-matching filter answered, False or that filter's exception, and later filters are never consulted |
| Filters.AnyOfMatchesNone | src/aeon/routing/filters.py:86-90 | an OR chain fails to match exactly when no filter in it matches |
| Filters.AnyOfDecidedAt | src/aeon/routing/filters.py:87-89 | otherwise it answers what its first filter not answering False answered |
| Filters.ChainSemantics | src/aeon/routing/filters.py:67-90 | an empty chain matches everything; a non-empty AND chain is the conjunction and an OR chain the disjunction of its filters |
| Filters.FirstWhere | src/aeon/routing/filters.py:82-89 | the first filter giving an answer, with all before it giving the other answer |
| Filters.ModeSpelling | src/aeon/routing/filters.py:72-74 | "and" and "Or" are accepted as AND and OR, and "xor" is rejected |
| Filters.PyEqReflexive | src/aeon/routing/filters.py:62 | Python equality on attribute values is reflexive |
| Filters.AttributeFilterMatches | src/aeon/routing/filters.py:52-64 | no conditions match everything; a message carrying the conditions matches; expecting None matches a missing attribute; one unequal attribute fails |
| Filters.TypeFilterExact | src/aeon/routing/filters.py:30-38 | a type filter never raises and matches by exact class only; with no types it matches nothing |
| Filters.RangeIsInterval | src/aeon/routing/filters.py:93-112 | with a numeric field and numeric or unset bounds, the range filter is the inclusive interval test, an unset bound being unbounded |
| Filters.RangeEdges | src/aeon/routing/filters.py:103-107 | a missing or None field never matches, and a string field against a numeric lower bound raises TypeError |
| Loop.NewLoop | src/aeon/runtime/loop.py:10-14 | a new loop is not running and has no history |
| Loop.Stop | src/aeon/runtime/loop.py:79-81 | stopping clears the running flag and keeps the history |
| Loop.StepsNumbered | src/aeon/runtime/loop.py:26-39 | the entries appended are numbered consecutively from the current step and never pass max_steps |
| Loop.Run | src/aeon/runtime/loop.py:16-77 | the history is the earlier history followed by the entries of this run, starting from the goal prompt; a run ends not running exactly when no step raised, and an exception from process escapes with the loop still running |
| Loop.RunBounds | src/aeon/runtime/loop.py:26-39 | one run appends at most max_steps entries, numbered 1, 2, ... in order |
| Loop.NoReplyEndsRun | src/aeon/runtime/loop.py:33-37 | a None reply ends the run without appending |
| Loop.RaiseEndsRun | src/aeon/runtime/loop.py:33 | a step whose process raises appends nothing and ends the run with that exception |
| Loop.CompletionEndsRun | src/aeon/runtime/loop.py:39-46 | a text reply containing a completion phrase, in any case, is appended and ends the run |
| Loop.ReplyContinues | src/aeon/runtime/loop.py:39-73 | any other reply is appended and the run continues at the next step with the input that reply calls for |
| Loop.ActionResultContinues | src/aeon/runtime/loop.py:42-50 | an action result never ends the run, even when it contains a completion phrase, and its content is fed back |
| Loop.AllDoneCompletes | src/aeon/runtime/loop.py:43-44 | "ALL DONE!" completes the goal |
| Loop.LoopApprovalWords | src/aeon/runtime/loop.py:57-59 | "y", "yes" and "a" approve in any case; "approve" and "n" do not |
| Loop.ApprovalWordsDiffer | src/aeon/runtime/loop.py:57-59 | the executive's approval check accepts exactly the loop's approval words and the word approve, in any case |
| Loop.WrittenAgentFailsFirstStep | src/aeon/runtime/loop.py:26-39 | driving the agent as written, once its tools are fetched, the first step raises AttributeError for every goal: nothing is appended and the loop stays running |
| Loader.NewLoader | src/aeon/extensions/loader.py:16-19 | a new loader has no capabilities, no inactive marks and no dependencies |
| Loader.Register | src/aeon/extensions/loader.py:21-30 | a name already registered raises ValueError "Capability '<name>' already loaded"; otherwise the capability and its dependencies are recorded and inactive marks are kept |
| Loader.Unload | src/aeon/extensions/loader.py:32-36 | the capability and its dependency entry are forgotten, an inactive mark is not, and an unknown name changes nothing |
| Loader.Resolve | src/aeon/extensions/loader.py:38-45 | _resolve_dependencies with a recursion budget standing in for the interpreter's depth limit, a definition; ResolveIsClosure, ResolveEachClosed, ResolveEachLeast and SelfDependencyNeverResolves state it |
| Loader.ResolveEachClosed | src/aeon/extensions/loader.py:38-45 | the resolved set holds every listed dependency and every dependency of its members |
| Loader.ResolveEachLeast | src/aeon/extensions/loader.py:38-45 | the resolved set lies inside every dependency-closed set holding the listed dependencies |
| Loader.ResolveIsClosure | src/aeon/extensions/loader.py:38-45 | a capability's resolved dependencies are exactly its transitive dependencies: the least closed set holding its direct ones |
| Loader.SelfDependencyNeverResolves | src/aeon/extensions/loader.py:40-43 | a capability depending on itself exhausts any recursion limit |
| Loader.ActivateDeps | src/aeon/extensions/loader.py:53-59 | succeeds exactly when every dependency is registered and each inactive one activates without raising; otherwise raises what the first failing dependency raises, "Dependency '<name>' not found" when it is missing; a success clears the dependencies' inactive marks and calls activate exactly on the inactive ones, and a failure clears only marks of dependencies it visited |
| Loader.FirstFailureShifts | src/aeon/extensions/loader.py:53-59 | after the first dependency activates, the first failure of the remaining loop is the first failure of the whole loop |
| Loader.DepActivatesAfterPop | src/aeon/extensions/loader.py:57-59 | clearing the mark of an activated dependency changes no dependency's fate in the rest of the loop |
| Loader.Activate | src/aeon/extensions/loader.py:47-64 | a dependency cycle raises the recursion error; success exactly when the capability and all its resolved dependencies are registered and every activate called returns, and then the capability and its dependencies lose their inactive marks and the capability is activated last; an activate of the capability itself that raises leaves its own mark; an unregistered capability whose dependencies all activate raises `KeyError` with the message `'name'`, as `str()` of a `KeyError` quotes its key, after its dependencies have lost their marks |
| Loader.Deactivate | src/aeon/extensions/loader.py:66-72 | a registered capability gets an inactive mark unless its deactivate raises, which leaves the loader unchanged; unknown names are ignored |
| Loader.Invoke | src/aeon/extensions/loader.py:74-81 | an unknown name raises ValueError, an inactive one RuntimeError, and otherwise the call is delegated to the capability |
| Loader.ListCapabilities | src/aeon/extensions/loader.py:83-85 | every registered name with its metadata |
| Loader.ListActive | src/aeon/extensions/loader.py:87-89 | exactly the registered names without an inactive mark, each once |
| Loader.Filter | src/aeon/extensions/loader.py:89 | the elements outside the excluded set, in order, without repeats when the input has none |
| Loader.FreshlyRegisteredIsActive | src/aeon/extensions/loader.py:21-89 | a newly registered capability is active before any activation, and invoking it delegates to it |
| Loader.InactiveMarkSurvivesUnload | src/aeon/extensions/loader.py:32-81 | deactivating, unloading and registering again leaves the capability inactive |
| Loader.ActivateThenInvoke | src/aeon/extensions/loader.py:47-81 | after a successful activation the capability and every resolved dependency can be invoked, each delegating to its own invoke |
| Loader.RaisingActivateKeepsInactive | src/aeon/extensions/loader.py:61-64 | an inactive capability whose own activate raises stays inactive, so invoking it still raises |
| Loader.DeactivateThenInvoke | src/aeon/extensions/loader.py:66-81 | after a successful deactivate, invoking the capability raises "is not active" |
| Event.IsCritical | src/aeon/dispatcher/event.py:37-39 | is_critical, a definition: "error" in the type's value or a priority above 10; CriticalIffErrorOrUrgent characterises it by event type |
| Event.CriticalIffErrorOrUrgent | src/aeon/dispatcher/event.py:37-39 | an event is critical exactly when it is ERROR_OCCURRED, the only type whose value contains "error", or its priority is above 10 |
| Hub.NewHub | src/aeon/dispatcher/hub.py:17-21 | a new hub has no subscribers and an empty queue |
| Hub.Registered | src/aeon/dispatcher/hub.py:65 | the handlers subscribed to a type, or none; a definition that Subscribe and Dispatch state their effect through |
| Hub.Subscribe | src/aeon/dispatcher/hub.py:23-27 | the handler is appended to its type's list, duplicates included, and nothing else changes |
| Hub.SubscribeAll | src/aeon/dispatcher/hub.py:29-31 | the handler is appended to the wildcard list |
| Hub.RemoveFirst | src/aeon/dispatcher/hub.py:36 | `list.remove` drops exactly the first occurrence |
| Hub.Unsubscribe | src/aeon/dispatcher/hub.py:33-36 | a type nobody subscribed to is a no-op; a handler missing from an existing list raises ValueError; otherwise its first occurrence is removed |
| Hub.Emit | src/aeon/dispatcher/hub.py:38-43 | the event joins the end of the queue |
| Hub.Dispatch | src/aeon/dispatcher/hub.py:63-75 | as intended: the type's subscribers, in order, then the wildcard subscribers, without changing any subscription |
| Hub.DispatchAll | src/aeon/dispatcher/hub.py:60-61 | no events make no calls; otherwise the calls start with the first event's handlers, type subscribers then wildcard handlers, in order; every call is for one of the events and a handler subscribed to its type or to all |
| Hub.PerEvent | src/aeon/dispatcher/hub.py:60-61 | the i-th entry is the calls made for the i-th event |
| Hub.Flatten | src/aeon/dispatcher/hub.py:60-61 | a non-empty list of batches starts with its first batch |
| Hub.FlattenConcat | src/aeon/dispatcher/hub.py:60-61 | flattening distributes over concatenation |
| Hub.FlattenIndex | src/aeon/dispatcher/hub.py:60-61 | an element of the i-th batch sits right after all the earlier batches |
| Hub.DispatchAllIsFlatten | src/aeon/dispatcher/hub.py:60-61 | dispatching a batch is exactly the first event's calls, then the second's, and so on, with nothing left out, added or reordered |
| Hub.DispatchAllConcat | src/aeon/dispatcher/hub.py:60-61 | dispatching two batches in turn makes the first batch's calls and then the second's |
| Hub.DispatchAllComplete | src/aeon/dispatcher/hub.py:60-61 | no handler is skipped: the k-th handler of the i-th event is called on that event, right after the calls for the earlier events |
| Hub.ProcessQueue | src/aeon/dispatcher/hub.py:45-61 | the queue is drained and every event dispatched once, highest priority first, ties in emission order; the calls are exactly the in-order dispatch of that ordering |
| Hub.DispatchAsWritten | src/aeon/dispatcher/hub.py:63-66 | as written: the handlers called are the intended ones, but for a type with a list, that stored list is itself extended with the wildcard handlers |
| Hub.Cycle | src/aeon/dispatcher/hub.py:66 | a list repeated n times has n times its length |
| Hub.WildcardsAccumulate | src/aeon/dispatcher/hub.py:63-66 | the (n+1)-th dispatch of a subscribed type calls its subscribers followed by the wildcard handlers n+1 times over |
| Hub.UnsubscribedTypeUnchanged | src/aeon/dispatcher/hub.py:65 | a type without a list gets only the wildcard handlers, and nothing is stored |
| Hub.WildcardRunsTwiceOnSecondDispatch | src/aeon/dispatcher/hub.py:63-66 | with one subscriber and one wildcard handler, the second dispatch calls the wildcard handler twice |
| Hub.DispatchIsStable | src/aeon/dispatcher/hub.py:45-75 | under the intended dispatch, processing the queue leaves the subscriptions alone, so every dispatch of a type calls the same handlers |
| Providers.DefaultConfig | src/aeon/integrations/provider.py:20-26 | the default configuration is asynchronous, 30 seconds, 3 retries, enabled |
| Providers.NewRegistry | src/aeon/integrations/registry.py:16-18 | a new registry has no providers and none active |
| Providers.Register | src/aeon/integrations/registry.py:20-24 | a name already registered raises ValueError "Provider '<name>' already registered"; otherwise the provider is appended and the active set is unchanged |
| Providers.Unregister | src/aeon/integrations/registry.py:26-30 | the provider and its active mark go; unknown names are ignored |
| Providers.Get | src/aeon/integrations/registry.py:32-34 | the stored provider exactly for registered names |
| Providers.ListProviders | src/aeon/integrations/registry.py:36-38 | every registered name exactly once |
| Providers.DispatchPacket | src/aeon/integrations/registry.py:40-47 | an unknown name raises "not found", a disabled provider "is disabled", and an enabled one dispatches whether or not it is active |
| Providers.ActivateProvider | src/aeon/integrations/registry.py:49-55 | an unknown name raises "not found"; otherwise the name becomes active |
| Providers.DeactivateProvider | src/aeon/integrations/registry.py:57-63 | a registered name becomes inactive; unknown names are ignored |
| Providers.ActivateEach | src/aeon/integrations/registry.py:67-69 | the loop activates exactly the enabled providers it visits |
| Providers.ActivateAll | src/aeon/integrations/registry.py:65-69 | every enabled provider becomes active, and no other |
| Providers.DeactivateAll | src/aeon/integrations/registry.py:71-74 | deactivate_all, a definition: deactivates every active name in a given order; DeactivateAllClears states the result for any order |
| Providers.DeactivateAllClears | src/aeon/integrations/registry.py:71-74 | in any iteration order, deactivating all leaves active only names no longer registered, so none when every active name is registered |
| Providers.IsActive | src/aeon/integrations/registry.py:76-78 | is_active, a definition: the name is among the active providers; OperationsKeepActiveRegistered keeps those registered |
| Providers.DeactivateEachRemoves | src/aeon/integrations/registry.py:73-74 | the loop deactivates exactly the registered names it visits |
| Providers.OperationsKeepActiveRegistered | src/aeon/integrations/registry.py:20-74 | every operation keeps the active names among the registered ones |
| Providers.UnregisterForgets | src/aeon/integrations/registry.py:26-47 | an unregistered provider is neither listed nor active, and dispatching to it raises "not found" |
| Cortex.Fold | src/aeon/cortex/reasoning.py:50-63 | the loop of sanitize_messages, a definition without its own contract: a message with the last kept role replaces the last kept message (or is skipped while nothing is kept), any other is appended and sets the last role; FoldFromNonEmpty and SanitizeIsCollapse state what it computes |
| Cortex.Sanitize | src/aeon/cortex/reasoning.py:45-67 | sanitize_messages, the loop from an empty list with no last role; a definition that SanitizeIsCollapse characterises independently and SanitizeProperties and SanitizeIdempotent bound |
| Cortex.DropLeadingNone | src/aeon/cortex/reasoning.py:53-60 | messages before the first one with a role are dropped, and the rest is a suffix of the input |
| Cortex.FoldFromNonEmpty | src/aeon/cortex/reasoning.py:53-63 | once a message is kept, the loop collapses it together with the rest |
| Cortex.SanitizeIsCollapse | src/aeon/cortex/reasoning.py:45-67 | sanitising drops the leading role-less messages and keeps only the last message of every run of equal roles |
| Cortex.FirstRole | src/aeon/cortex/reasoning.py:53-63 | a message with a role at the start is kept and starts the loop |
| Cortex.CollapseHead | src/aeon/cortex/reasoning.py:56-63 | collapsing keeps the role of the first run |
| Cortex.CollapseNoAdjacent | src/aeon/cortex/reasoning.py:56-63 | after collapsing, no two adjacent messages share a role |
| Cortex.CollapseSubseq | src/aeon/cortex/reasoning.py:56-63 | collapsing keeps messages in order, without inventing any |
| Cortex.SkipHead | src/aeon/cortex/reasoning.py:53-63 | a subsequence of the tail is a subsequence of the whole |
| Cortex.SubseqOfSuffix | src/aeon/cortex/reasoning.py:53-63 | a subsequence of a suffix is a subsequence of the whole |
| Cortex.SubseqShorter | src/aeon/cortex/reasoning.py:53-63 | a subsequence is no longer than its source |
| Cortex.CollapseKeepsRunEnd | src/aeon/cortex/reasoning.py:56-60 | every kept message is the last of a run of equal roles |
| Cortex.SanitizeProperties | src/aeon/cortex/reasoning.py:45-67 | the result never has two adjacent messages of one role, is an order-preserving subsequence of the input, and keeps only the latest message of each run |
| Cortex.CollapseOfCollapsed | src/aeon/cortex/reasoning.py:56-63 | a history without adjacent equal roles is left as it is |
| Cortex.SanitizeIdempotent | src/aeon/cortex/reasoning.py:45-67 | sanitising twice is sanitising once, and an empty history stays empty |
| Cortex.LeadingRolelessDropped | src/aeon/cortex/reasoning.py:51-60 | role-less messages at the start are dropped entirely |
| Cortex.DropPrefix | src/aeon/cortex/reasoning.py:51-60 | dropping a role-less prefix does not change what follows |
| Cortex.DropIdempotent | src/aeon/cortex/reasoning.py:51-60 | dropping leading role-less messages twice is dropping them once |
| Scheduler.DefaultPattern | src/aeon/automation/temporal.py:11-20 | every field of the default pattern is "*" |
| Scheduler.PatternString | src/aeon/automation/temporal.py:22-23 | str(pattern), a definition: the five fields joined by single spaces; PatternStringRoundTrip and PatternStringExamples state it |
| Scheduler.SplitWord | src/aeon/automation/temporal.py:22-23 | splitting on spaces keeps a leading word without spaces whole |
| Scheduler.SplitJoin | src/aeon/automation/temporal.py:22-23 | splitting a space-joined list of words without spaces gives the words back |
| Scheduler.PatternStringRoundTrip | src/aeon/automation/temporal.py:22-23 | the string form loses nothing: splitting it on spaces gives back the five fields, when no field holds a space |
| Scheduler.PatternStringExamples | src/aeon/automation/temporal.py:16-23 | the default pattern prints as "* * * * *" and an every-six-hours pattern as "* */6 * * *" |
| Scheduler.NewTask | src/aeon/automation/temporal.py:26-37 | a new task is enabled, never executed and has a count of zero |
| Scheduler.NewScheduler | src/aeon/automation/scheduler.py:17-20 | a new scheduler has no tasks, no handlers and is not running |
| Scheduler.DefineHandler | src/aeon/automation/scheduler.py:22-24 | the handler is stored under its id, replacing any earlier one, and the tasks are untouched |
| Scheduler.Schedule | src/aeon/automation/scheduler.py:26-30 | a task id already scheduled raises ValueError "Task '<id>' already scheduled"; otherwise the task is appended |
| Scheduler.Unschedule | src/aeon/automation/scheduler.py:32-37 | returns true exactly when the task was there, and the task is gone afterwards |
| Scheduler.GetTask | src/aeon/automation/scheduler.py:39-41 | the stored task exactly for scheduled ids |
| Scheduler.ListTasks | src/aeon/automation/scheduler.py:43-45 | every task, in scheduling order |
| Scheduler.SetEnabled | src/aeon/automation/scheduler.py:47-57 | only that task's flag changes; unknown ids are ignored |
| Scheduler.EnableTask | src/aeon/automation/scheduler.py:47-51 | a scheduled task becomes enabled and nothing else changes; unknown ids are ignored |
| Scheduler.DisableTask | src/aeon/automation/scheduler.py:53-57 | a scheduled task becomes disabled and nothing else changes; unknown ids are ignored |
| Scheduler.EnableDisableInverse | src/aeon/automation/scheduler.py:47-57 | enabling after disabling restores an enabled task, and both operations are idempotent |
| Scheduler.ExecuteTask | src/aeon/automation/scheduler.py:59-79 | a missing or disabled task is left alone; a missing handler raises ValueError "Handler '<id>' not found"; otherwise no other task, handler or flag changes |
| Scheduler.ExecuteCountsSuccess | src/aeon/automation/scheduler.py:69-79 | a handler that returns records the time and counts one run; one that raises leaves the task as it was |
| Scheduler.Successes | src/aeon/automation/scheduler.py:69-79 | at most one successful run per attempt |
| Scheduler.ExecutionCountIsSuccesses | src/aeon/automation/scheduler.py:59-79 | over repeated runs the count grows by exactly the number of runs whose handler returned, and nothing else in the task changes but the last execution time |
| Scheduler.ScheduleUnscheduleInverse | src/aeon/automation/scheduler.py:26-41 | scheduling a new task makes it retrievable, and unscheduling it restores the task table |
| Scheduler.Start | src/aeon/automation/scheduler.py:81-83 | starting sets the running flag and changes nothing else |
| Scheduler.Stop | src/aeon/automation/scheduler.py:85-87 | stopping clears the running flag and changes nothing else |
| Reactor.EnforceThermalLimits | examples/reactor_controller.py:42-57 | a payload lacking "value" or "target_id" passes; a setpoint above 400.0 is replaced by 400.0, keeping every other field; a passing setpoint is within the limit; a non-numeric setpoint raises TypeError; the axiom never blocks |
| Reactor.ClampIsIdempotent | examples/reactor_controller.py:48-57 | a clamped payload passes the axiom |
| Reactor.GuardedRegistry | examples/reactor_controller.py:42-57 | an executive holding only this axiom accepts every numeric setpoint and returns one within the limit, with the same fields |
| Dialogue.AddTurn | src/aeon/dialogue/context.py:44-53 | exactly one turn with the given actor, utterance, time, snapshot and annotations is appended, the update time becomes now, and nothing else changes |
| Dialogue.SliceFrom | src/aeon/dialogue/context.py:59 | Python's `s[start:]`: a negative start counts from the end, and starts past either end are clamped |
| Dialogue.GetHistory | src/aeon/dialogue/context.py:55-59 | no limit or a limit of zero gives every turn; a positive limit the last that many turns; a negative one drops that many from the front |
| Dialogue.GetLastTurn | src/aeon/dialogue/context.py:61-63 | None exactly for an empty history; otherwise the last turn |
| Dialogue.ClearHistory | src/aeon/dialogue/context.py:65-68 | the turns are emptied, the update time becomes now, and nothing else changes |
| Dialogue.AddTurnThenHistory | src/aeon/dialogue/context.py:44-63 | a turn just added is the last turn and the whole of a one-turn history, and the last k turns are the last k-1 before it followed by it |
| Dialogue.HistoryLimits | src/aeon/dialogue/context.py:55-63 | a limit of zero gives every turn, like no limit; a positive limit never gives more turns than it says and always ends with the last turn |
| Dialogue.NewArchive | src/aeon/dialogue/archive.py:17-20 | a new archive stores and has archived nothing |
| Dialogue.Store | src/aeon/dialogue/archive.py:22-24 | the context is stored under its id, overwriting |
| Dialogue.Retrieve | src/aeon/dialogue/archive.py:26-28 | the stored context exactly for stored ids |
| Dialogue.Delete | src/aeon/dialogue/archive.py:30-35 | returns true exactly when the id was stored; the context then moves to the archived ones |
| Dialogue.StoreRetrieveDelete | src/aeon/dialogue/archive.py:22-35 | storing makes a context retrievable, storing the same id again replaces it, and deleting moves it to the archived ones and makes it unretrievable |
| OrderedMap.KeysWhere | src/aeon/dialogue/archive.py:39-49 | exactly the keys whose value satisfies the condition, without repeats, in the order of the stored keys |
| OrderedMap.ValuesAt | src/aeon/dialogue/archive.py:39-41 | the values stored under the given keys, index by index |
| OrderedMap.FilterSeq | src/aeon/dialogue/archive.py:39-42 | the comprehension keeps exactly the values meeting the condition |
| Dialogue.Select | src/aeon/dialogue/archive.py:39-49 | exactly the stored contexts that satisfy the condition; the i-th result is the context stored under the i-th id that KeysWhere selects, so the contexts come in storage order |
| OrderedMap.KeysWhereThenLookUp | src/aeon/dialogue/archive.py:39-42 | selecting keys and then looking them up equals filtering the looked-up values |
| OrderedMap.FilterSeqAppend | src/aeon/gateway/session.py:129-131 | a comprehension over a concatenation is the concatenation of the comprehensions |
| Dialogue.SelectIsComprehension | src/aeon/dialogue/archive.py:39-42 | a selection is the comprehension over the stored values, in storage order |
| Dialogue.QueryByParticipant | src/aeon/dialogue/archive.py:37-42 | exactly the stored contexts of that participant, the i-th being the one stored under the i-th matching id |
| Dialogue.QueryByPlatform | src/aeon/dialogue/archive.py:44-49 | exactly the stored contexts of that platform, the i-th being the one stored under the i-th matching id |
| Dialogue.QueriesAreComprehensions | src/aeon/dialogue/archive.py:37-49 | both queries equal the comprehension over `_contexts.values()`, in storage order |
| Dialogue.ListContexts | src/aeon/dialogue/archive.py:66-68 | the stored contexts in storage order, not the archived ones |
| Dialogue.DeletedIsNotListed | src/aeon/dialogue/archive.py:30-68 | a deleted context leaves every listing and query |
| Dialogue.DeleteEach | src/aeon/dialogue/archive.py:61-62 | deleting a list of ids removes exactly those that were stored and archives them |
| Dialogue.ExpiredIds | src/aeon/dialogue/archive.py:56-59 | the expired ids, each once |
| Dialogue.CleanupExpired | src/aeon/dialogue/archive.py:51-64 | removes and archives exactly the contexts last updated strictly before now minus the retention period, and returns how many |
| Dialogue.CleanupIdempotent | src/aeon/dialogue/archive.py:51-64 | after a cleanup no stored context is expired, and a second cleanup at the same time removes nothing |
| Broker.NewBroker | src/aeon/hive/broker.py:12-14 | a new broker knows no nodes |
| Broker.RegisterNode | src/aeon/hive/broker.py:16-22 | the node is recorded online with its role and capabilities, overwriting an entry of the same id, which keeps its place in the registration order |
| Broker.FirstServing | src/aeon/hive/broker.py:27-30 | the first id in the given order whose node is online with that role, and None exactly when there is none |
| Broker.FindWorker | src/aeon/hive/broker.py:25-30 | None exactly when no node is online with that role; otherwise such a node, with no node of that role online before it in registration order |
| Broker.RegisterThenFind | src/aeon/hive/broker.py:16-30 | a node just registered makes its role findable, and is the one found when no node served the role before |
| Broker.FirstWorkerStays | src/aeon/hive/broker.py:16-30 | registering a new node never changes which node is found for a role that already had one |
| Broker.CreateRequest | src/aeon/core/packet.py:41-45 | a REQUEST header from the sender to the receiver, and a payload of exactly the activity and the parameters |
| Broker.Prefix | src/aeon/hive/broker.py:41 | Python's `s[:n]`: the first n characters, or all of a shorter string |
| Broker.HireAgent | src/aeon/hive/broker.py:32-44 | hiring leaves the registry unchanged |
| Broker.HirePacketShape | src/aeon/hive/broker.py:32-44 | the hiring packet is a REQUEST from manager to worker for a swarm task, whose parameters hold the goal and `ctx_` followed by the first four characters of the manager id, and whose top level holds no goal |
| Citation.ValidateResponse | src/aeon/executive/citation.py:13-29 | every response is accepted, whatever citations it holds and whether or not it mentions the vault |
| Citation.AnyBacks | src/aeon/executive/citation.py:37-40 | true exactly when some document contains the claim, ignoring case, as written or with the abbreviation spelled out |
| Citation.CheckHallucination | src/aeon/executive/citation.py:31-40 | true exactly when some vault document contains the claim, ignoring case, as written or with `$5m` spelled out |
| Citation.EmptyVaultBacksNothing | src/aeon/executive/citation.py:31-40 | an empty vault backs no claim |
| Citation.ReplaceAbsent | src/aeon/executive/citation.py:36 | replacing a pattern that does not occur changes nothing |
| Citation.OnlyAbbreviationNormalised | src/aeon/executive/citation.py:36-38 | for a claim without the abbreviation, backing is plain case-insensitive containment |
| Citation.VerbatimClaimIsBacked | src/aeon/executive/citation.py:37-39 | a vault document that contains the claim verbatim backs it |
| Citation.SpelledOutAmountBacks | src/aeon/executive/citation.py:36-38 | `$5M` is backed by a document that only spells out `$5 million` |
| Situational.LocationOf | src/aeon/cortex/context.py:26 | the San Francisco location exactly for the Pacific time zone, "Unknown" for every other |
| Situational.GetCurrentContext | src/aeon/cortex/context.py:14-29 | as written, one local reading fills both stamps: the "UTC" stamp is the local time followed by " UTC"; the record also holds the given time zone, its location, the local weekday and the fixed status |
| Situational.GetCurrentContextUtc | src/aeon/cortex/context.py:14-29 | the intended context: its UTC stamp is the UTC reading of the same instant, everything else as written |
| Situational.UtcStampIsLocal | src/aeon/cortex/context.py:20-24 | the written "UTC" stamp is the true UTC time exactly when the host shows UTC wall-clock time, and the two contexts differ only in that stamp |
| Situational.InjectIgnoresUtcStamp | src/aeon/cortex/context.py:31-43 | the injected prompt is the same for the written and the intended context, since the block never shows the UTC stamp |
| Situational.Inject | src/aeon/cortex/context.py:31-43 | the result is the situational block followed by the prompt unchanged, and starts with the header |
| Situational.InjectIsInjective | src/aeon/cortex/context.py:31-43 | two prompts injected with the same context give the same text only if they are equal |
| Situational.BlockOrder | src/aeon/cortex/context.py:35-42 | after the header come the time, location, day and status lines and then the footer, each at its own offset |
| Situational.PacificPromptNamesLocation | src/aeon/cortex/context.py:14-43 | an injected prompt names the San Francisco location exactly when the time zone is the Pacific one |
| Trust.CanExecute | src/aeon/security/trust.py:18-33 | full trust runs every tool; standard trust refuses exactly shell_command, file_system and web_browser; isolated trust refuses exactly those and read_file and search_web |
| Trust.Monotone | src/aeon/security/trust.py:18-33 | what a lower trust level may run, a higher one may run too |
| Trust.StandardDeniesExactly | src/aeon/security/trust.py:22-31 | standard trust refuses exactly shell_command, file_system and web_browser |
| Trust.IsolatedDeniesExactly | src/aeon/security/trust.py:22-28 | isolated trust refuses exactly the three high-risk names and read_file and search_web |
| Trust.NativeSearchAlwaysAllowed | src/aeon/security/trust.py:18-33 | the tool named `web_search` is in neither list, so every trust level runs it |
| ToolRegistry.Register | src/aeon/tools/registry.py:10-13 | the tool is stored under its name, replacing an earlier one there; a new name goes to the end of the listing, an old one keeps its place |
| ToolRegistry.GetTool | src/aeon/tools/registry.py:15-19 | the registered tool, or a ValueError naming the missing tool exactly when none has that name |
| ToolRegistry.ListTools | src/aeon/tools/registry.py:21-23 | exactly the registered names, each once |
| ToolRegistry.AllDefinitions | src/aeon/tools/registry.py:25-27 | one definition per registered tool, in listing order |
| ToolRegistry.ExecuteTool | src/aeon/tools/registry.py:29-32 | the named tool's outcome on the arguments, or the not-found ValueError |
| ToolRegistry.RegisterThenGet | src/aeon/tools/registry.py:10-23 | a registered tool is the one looked up; re-registering its name replaces it without moving it in the listing |
| ToolRegistry.ListingOrder | src/aeon/tools/registry.py:10-23 | registering distinct new names appends them to the listing in registration order |
| ToolRegistry.KeysInOrder | src/aeon/tools/registry.py:10-23 | registering distinct new names appends them to the keys in order |
| ToolRegistry.Names | src/aeon/tools/registry.py:21-23 | the names of the tools, position by position |
| Hitl.NewHitl | src/aeon/executive/hitl.py:9-11 | a non-empty list is kept; a missing or empty one falls back to the default critical tools |
| Hitl.RequiresReview | src/aeon/executive/hitl.py:13-24 | a critical tool always needs review; so does any tool with an argument key, or a string argument, that mentions delete or remove in any case; a non-critical tool without arguments never does; and for plain arguments, review is needed exactly when the tool is critical or a key or string value mentions a word |
| Hitl.Destructive | src/aeon/executive/hitl.py:21 | the test on the lower-cased str(args), a definition; DestructiveWords and PlainShowsOnlyNamedWords relate it to the keys and string values |
| Hitl.DestructiveWords | src/aeon/executive/hitl.py:20-22 | a key or string value mentioning delete or remove in any case shows up in the lower-cased text of the arguments, and empty arguments show nothing |
| Hitl.PlainShowsOnlyNamedWords | src/aeon/executive/hitl.py:20-22 | for plain arguments the lower-cased str(args) names delete or remove exactly when some key or string value does |
| Hitl.RenderWithoutWords | src/aeon/executive/hitl.py:21 | plain arguments whose keys and string values name neither word render without either |
| Hitl.ScalarNamesNoWord | src/aeon/executive/hitl.py:21 | None, booleans and integers never render with delete or remove |
| Hitl.PlainHarmlessCallNotReviewed | src/aeon/executive/hitl.py:13-24 | a non-critical call with plain arguments, none of whose keys or string values names a word, is not reviewed |
| Hitl.RequiresReviewIntended | src/aeon/executive/hitl.py:13-24 | the intended test never asks for a review the written one would not, agrees with it on plain arguments, and clears a non-critical call none of whose keys or string values names a word |
| Hitl.CarriageReturnNote | src/aeon/executive/hitl.py:21 | the payload with one key "note" holding a carriage return followed by "emove" |
| Hitl.CarriageReturnRepr | src/aeon/executive/hitl.py:21 | repr writes that value as a quoted backslash, "r" and "emove" |
| Hitl.CarriageReturnRemove | src/aeon/executive/hitl.py:21 | that payload names no word in its key or value, yet the written test sends a non-critical tool for review and the intended one does not |
| Values.RenderWithoutWord | src/aeon/executive/hitl.py:21 | a word of lower-case letters shows in the lower-cased rendering of plain arguments only through some key or some value's text |
| Values.ReprWordInRender | src/aeon/executive/hitl.py:21 | a lower-case word in any value's repr shows in the lower-cased rendering |
| Hitl.ValidateApproval | src/aeon/executive/hitl.py:26-30 | approval exactly when the answer equals approve, yes, y or a up to ASCII case, so only answers of one, three or seven characters can approve |
| Hitl.LowerEqualsWord | src/aeon/executive/hitl.py:30 | an answer lower-cases to a lower-case word exactly when the two agree letter by letter up to ASCII case |
| Hitl.DestructiveKeyNeedsReview | src/aeon/executive/hitl.py:20-22 | an argument key mentioning delete or remove, in any case, makes any tool need review |
| Hitl.DestructiveValueNeedsReview | src/aeon/executive/hitl.py:20-22 | a string argument mentioning delete or remove, in any case, makes any tool need review |
| Hitl.ShellCommandNotCriticalByDefault | src/aeon/executive/hitl.py:11-22 | under the default list the trust gate's shell_command needs review only when its arguments look destructive |
| Hitl.ApprovalWords | src/aeon/executive/hitl.py:26-30 | approval ignores case; the four words approve and "no" and the empty answer do not |
| ReasoningCheck.NewReasoningAxiom | src/aeon/axioms/reasoning_axiom.py:8-10 | a non-empty list is kept; a missing or empty one falls back to shell and file_tool |
| ReasoningCheck.ValidateReasoning | src/aeon/axioms/reasoning_axiom.py:12-23 | a tool that is not high-stakes always passes; a high-stakes one exactly when the thought has at least five characters |
| ReasoningCheck.LongerThoughtStillPasses | src/aeon/axioms/reasoning_axiom.py:12-23 | lengthening a passing thought keeps it passing |
| ReasoningCheck.MacosSystemPassesByDefault | src/aeon/axioms/reasoning_axiom.py:10-21 | by default macos_system passes with no thought, while shell fails with a two-character one |
| Formatter.Group | src/aeon/cli/formatter.py:43 | a comma between groups of three digits: the length grows by one per complete group after the first, and the leading digit stays first |
| Formatter.FormatTokens | src/aeon/cli/formatter.py:34-43 | `f"{n:,}"`: the text starts with a minus sign exactly for negative counts |
| Formatter.StripCommas | src/aeon/cli/formatter.py:43 | the text with every comma removed holds no comma |
| Formatter.GroupRoundTrip | src/aeon/cli/formatter.py:43 | removing the commas from grouped digits gives the digits back |
| Formatter.GroupCommaPositions | src/aeon/cli/formatter.py:43 | commas sit exactly at every fourth position counted from the end |
| Formatter.FormatTokensDigits | src/aeon/cli/formatter.py:34-43 | the formatted count without its commas is `str(n)` |
| Formatter.Longest | src/aeon/cli/formatter.py:73 | an upper bound of the lengths that is one of them, or 0 for none |
| Formatter.CellLengths | src/aeon/cli/formatter.py:73 | the length of each row's cell in a column, row by row; a missing key counts as empty |
| Formatter.Width | src/aeon/cli/formatter.py:69-74 | a column's width is at least its name's length and every cell's, and equals one of them |
| Formatter.RowTexts | src/aeon/cli/formatter.py:90 | a row's cells in column order |
| Formatter.Padded | src/aeon/cli/formatter.py:82-108 | each text left-justified to its column's width |
| Formatter.HeaderPadded | src/aeon/cli/formatter.py:82-119 | padded header cells are exactly as wide as their columns |
| Formatter.RowPadded | src/aeon/cli/formatter.py:90-127 | padded body cells are exactly as wide as their columns |
| Formatter.SimpleBody | src/aeon/cli/formatter.py:87-92 | one line per row, in row order |
| Formatter.FramedBody | src/aeon/cli/formatter.py:106-128 | one framed line per row, in row order |
| Formatter.GridRuns | src/aeon/cli/formatter.py:96 | one run per column, two longer than the column's width |
| Formatter.TableLines | src/aeon/cli/formatter.py:77-131 | the simple style has a header, a rule and one line per row; grid and ascii add a rule above, one below the header and one at the bottom; an unknown style has no lines |
| Formatter.FormatTable | src/aeon/cli/formatter.py:46-133 | an empty table is "(empty)"; otherwise the lines joined by newlines, which is empty for an unknown style |
| Formatter.SimpleLinesAligned | src/aeon/cli/formatter.py:79-92 | in the simple style every line is as long as the header and the second line is all dashes |
| Formatter.GridLinesAligned | src/aeon/cli/formatter.py:94-112 | in the grid style every line, rules included, has the same length |
| Formatter.GridFramedLength | src/aeon/cli/formatter.py:96-101 | a framed grid line of padded cells is as long as the grid rule |
| Aggregate.ExtremaAreElements | src/aeon/health/metrics.py:104-105 | `min` and `max` of a non-empty list are elements of it |
| Aggregate.ExtremaBound | src/aeon/health/metrics.py:104-105 | `min` and `max` bound every element |
| Aggregate.SumBounds | src/aeon/health/metrics.py:104-106 | the sum lies between the length times the least element and the length times the greatest |
| Aggregate.MeanBetween | src/aeon/health/metrics.py:104-106 | the average lies between the least and the greatest element |
| Ranking.SortDesc | src/aeon/routing/router.py:96-100 | the sorted list has as many elements as the input |
| Ranking.WithKey | src/aeon/routing/router.py:96-100 | exactly the elements with the given key |
| Ranking.SortSorted | src/aeon/routing/router.py:96-100 | the sorted list is in descending key order |
| Ranking.HeadIndex | src/aeon/routing/strategies.py:25 | the head of the sorted list is the first input element of the highest key |

## Left out

- Language-model and network clients: `Cortex.__init__` and the API request inside `plan_action` (its sanitising of the history is modelled), the MCP adapter in `src/aeon/synapse/adapter.py`, `src/aeon/hive/protocol.py`, `src/aeon/cache/distributed.py` and `src/aeon/gateway/transport.py`. They appear only as collaborators whose answers are parameters.
- Persistence: `src/aeon/memory/`, the vault checkpoint, `src/aeon/executive/identity.py`, `load_config` in `src/aeon/core/config.py`, and packet serialisation. These are file, database or JSON I/O.
- The side-effecting tools under `src/aeon/tools/` other than the registry. They wrap processes, the file system, a browser, AppleScript and web search.
- Servers and background tasks: the event hub's `start`/`stop` loop, the blocking of `emit` on a full queue, `src/aeon/routing/distributor.py`, `src/aeon/dispatcher/webhook.py`, `src/aeon/runtime/gateway.py` and `src/aeon/cli/main.py`.
- `Agent.start`, `Agent.stop` and every `print` and `logger` call: console and log output only.
- The five-second timeout of a health check: a checker is modelled by its outcome, which may be a timeout.
- `WeightedRandomStrategy`: it draws random numbers.
- Generated ids (`uuid4`, `secrets`) and clock readings: they are parameters, in whole seconds, and reports carry those numbers rather than their `isoformat()` text. The clock does not advance inside one modelled operation.
- `PatternFilter` and the assistant example's `no_personal_data`: regular expressions.
- `CacheDecorator`: it wraps arbitrary Python functions.
- `format_cost`, `format_duration` and `format_percentage`: float formatting. Prices, costs and metric values are exact reals, so binary rounding is not modelled.
- The `to_dict` methods other than the session's, and the trivial getters `get_executions` and `get_total_usage`.
- `Router` ignores its `timeout_ms` field, and so does the model.
- Unicode case mapping: lower-casing maps ASCII letters only.
- Python's `str()` of a dictionary: non-printable characters other than newline, carriage return and tab, which Python writes as `\xNN`, are not modelled. A float is carried with the text Python prints for it.
- Safety.ValidateLoop: a handler that mutates the payload it was given and then returns `True` is not modelled. A handler's effect is its return value.
- Filters.TypeFilterExact: types are compared by name, not as class objects.
- A context shared by reference between the tracker's list and its caller is not modelled. Later mutation of the caller's context does not reach the stored copy.
- Loader.Activate: cyclic dependencies recurse until Python's recursion limit. The model takes that limit as a `fuel` parameter and reports exhaustion as a `RuntimeError`; the exact `RecursionError` depth is not modelled.
- Loader.Activate: the resolved dependencies form a Python `set`, whose iteration order is unspecified. The model takes that order as a parameter.
- `loader.py` annotates `invoke` as returning `Any` without importing it, which would raise `NameError` at import time. The model describes the class as if it loaded.
- Values.Value: there are no list or dictionary values. A tool argument that holds a JSON array or object, and its rendering by `str()`, are not modelled.
- Agent.Process: the JSON parse of tool-call arguments is a parameter that yields an object or fails. Arguments that parse to an array, a string or a number, which `process` would hand to the executive as they are, are not modelled.
- Loop.Run: `stop()` is seen only between steps. A stop that arrives while `process` is awaited takes effect at the next step, as in the source; its interleaving with the awaited step itself is not modelled.
- Providers.ActivateProvider: the provider's `initialize()` is taken to return. One that raises would propagate with the provider left inactive; that is not modelled.
- Providers.DeactivateProvider: the provider's `terminate()` is taken to return. One that raises would propagate with the provider left active; that is not modelled.
- Providers.ActivateAll: a raising `initialize()` would end the loop at that provider; the model takes every `initialize()` to return.
- Providers.DeactivateAllClears: a raising `terminate()` would end the loop at that provider; the model takes every `terminate()` to return.
- Providers.DispatchPacket: the provider's `dispatch` is an oracle returning a boolean; a `dispatch` that raises is not modelled.
- Formatter.FormatTable: a cell whose text holds a newline adds lines to the joined table. The alignment lemmas are about the list of lines before joining.
- Broker.CreateRequest: the packet's generated id and timestamp are not modelled.
- Citation.ValidateResponse: the citations it extracts with a regular expression are never used, so the extraction is not modelled.

Where the code and its documentation or demo scripts disagree, the model follows the code:

- The loop accepts only y, yes and a as approval, while `HITLAxiom.validate_approval` also accepts approve.
- `macos_system` passes the reasoning axiom with the default list, although a demo script expects it to be blocked.
- `get_history(0)` returns every turn, because `turns[-0:]` is the whole list.
- The cost report's cache savings assume half the input price when a model has no cached price, while the cost itself bills such cached tokens at zero.
- `Gateway.stop` empties the connection table without updating the `active_connections` statistic.
- `CapabilityLoader.deactivate` is documented as deactivating a capability and its dependents, but marks only the named capability inactive.

## Findings

| source | as written | input that shows it | evidently intended | confidence | as-written member | corrected member |
|---|---|---|---|---|---|---|
| src/aeon/routing/strategies.py:111-124 | `ContextAwareStrategy` reads `route.metadata`, which `Route` does not declare. The lookup raises `AttributeError` unless the first candidate's id already contains the context key. | candidates with ids "billing" and "support" and context source "support": the first id lacks the key, so the metadata lookup raises | return the first candidate whose id or metadata contains the key, falling back to the first candidate | high, not executed | Strategies.SelectContextAwareAsWritten, Strategies.ContextAwareRaisesOnMiss | Strategies.SelectContextAware, Strategies.IntendedAgreesWhereDefined |
| src/aeon/dispatcher/hub.py:63-66 | `_dispatch` extends the stored per-type subscriber list with the wildcard handlers, so every dispatch grows it. | one subscriber and one wildcard handler for a type, then two dispatches of that type: the second calls the wildcard handler twice | call the type's subscribers, then the wildcard handlers, and leave the subscriptions unchanged | high, not executed | Hub.DispatchAsWritten, Hub.WildcardsAccumulate, Hub.WildcardRunsTwiceOnSecondDispatch | Hub.Dispatch, Hub.ProcessQueue, Hub.DispatchIsStable |
| src/aeon/core/agent.py:105 | `process` hands the user's string to `plan_action`, which expects a list of message dictionaries. `sanitize_messages` calls `.get("role")` on the string's first character, and nothing catches the `AttributeError`. | any non-empty input, such as "hello", once the tool server has returned its tools: `AttributeError: 'str' object has no attribute 'get'` escapes `process`, and the autonomous loop's first step raises with it | plan over the single user message `{"role": "user", "content": user_input}` | high, not executed | Agent.ProcessAsWritten, Agent.AsWrittenRaises, Loop.WrittenAgentFailsFirstStep | Agent.Process, Agent.PlanSeesUserInput, Agent.IntendedAgreesBeforePlanning |
| src/aeon/cortex/context.py:20-24 | `timestamp_utc` formats the local `datetime.now()` and appends " UTC", so it is the local time labelled as UTC. | a host eight hours behind UTC at 09:00 local on 2026-01-05: the stamp reads "2026-01-05 09:00:00 UTC" while the instant is 17:00 UTC | format the same instant in UTC for `timestamp_utc` and keep the local reading for `user_local_time` | medium, not executed | Situational.GetCurrentContext, Situational.UtcStampIsLocal, Situational.PacificHostMislabelsUtc | Situational.GetCurrentContextUtc, Situational.PacificPromptNamesLocation, Situational.InjectIgnoresUtcStamp |
| src/aeon/executive/hitl.py:21 | `requires_review` looks for "delete" and "remove" in `str(args).lower()`, which is the repr of the arguments and so includes escape sequences such as `\r`. | a non-critical tool called with `{"note": "\r" + "emove"}`: the key and the value name neither word, but the rendering is `{'note': '\remove'}`, so the call is sent for review | look for the words in the argument keys and string values themselves | low, not executed | Hitl.RequiresReview, Hitl.CarriageReturnRemove | Hitl.RequiresReviewIntended, Hitl.PlainHarmlessCallNotReviewed |

=== FILE: agent.dfy ===
/** One turn of the agent: discover tools, let the reasoning model decide,
    run the decision through the executive registry, and execute the tool.

    The reasoning model (given the system prompt, the sanitised history and
    the tools), the tool server and the JSON parser are collaborators whose
    answers are given as functions.

    `process` hands the raw input string to `plan_action` as its message
    history, and sanitising a string calls `.get` on its first character, so
    every non-empty input raises. `ProcessAsWritten` models that; `Process`
    models the evidently intended turn, which plans over one user message. */
module Agent {
  import opened Common
  import opened Values
  import opened Safety
  import OrderedMap
  import Cortex

  /** What the reasoning model proposes: plain text, or a structured tool call
      with the tool name and its JSON-encoded arguments. */
  datatype Decision = TextDecision(text: string) | ToolDecision(name: string, arguments: string)

  /** What executing a tool produced: the text of each content item, or an exception. */
  datatype ExecOutcome = ExecOk(content: seq<string>) | ExecRaised(e: Exception)

  /** The tool server: its tool definitions (or the exception fetching them raised)
      and its executor. */
  datatype Synapse = Synapse(tools: Result<seq<Payload>>, execute: (string, Payload) -> ExecOutcome)

  datatype Collaborators = Collaborators(
    synapse: Option<Synapse>,
    plan: (string, seq<Cortex.Message>, seq<Payload>) -> Decision,
    parseJson: string -> Option<Payload>)

  datatype AgentState = AgentState(name: string, systemPrompt: string, executive: Registry)

  /** The dictionaries a turn can return, by their `"type"` field. `HitlReview`
      is never produced by `process` itself but is handled by the loop. */
  datatype Reply =
    | Text(content: string)
    | ActionResult(content: string)
    | Error(content: string)
    | HitlReview(toolName: string, args: Payload)

  /** A turn's reply (`None` for Python's `None`) and the tool call it executed, if any. */
  datatype Turn = Turn(reply: Option<Reply>, executed: Option<(string, Payload)>)

  /** `Agent.axiom(on_violation)(func)`: registers under the function's own name. */
  function AddAxiom(a: AgentState, onViolation: string, funcName: string,
                    handler: Payload -> AxiomOutcome): (r: AgentState)
    ensures r.name == a.name && r.systemPrompt == a.systemPrompt
    ensures funcName in r.executive.m && r.executive.m[funcName].handler == handler
    ensures r.executive.m[funcName].onViolation == onViolation
  {
    a.(executive := Register(a.executive, "axiom", onViolation, funcName, handler))
  }

  /** The text an execution result contributes: the first item, or "No output". */
  function OutputText(content: seq<string>): string {
    if |content| > 0 then content[0] else "No output"
  }

  /** `cortex.plan_action(system_prompt, messages, tools)` on a list of message dictionaries:
      the model sees the sanitised history. Failures of the model's API come back as text. */
  function PlanAction(c: Collaborators, systemPrompt: string, messages: seq<Cortex.Message>,
                      tools: seq<Payload>): Decision {
    c.plan(systemPrompt, Cortex.Sanitize(messages), tools)
  }

  /** `plan_action` handed a plain string: the loop of `sanitize_messages` visits its
      characters and calls `.get("role")` on the first one, which a `str` lacks. */
  function PlanOnString(c: Collaborators, systemPrompt: string, text: string,
                        tools: seq<Payload>): (r: Result<Decision>)
    ensures r.Err? <==> |text| > 0
    ensures r.Err? ==> r.error.kind == AttributeError
    ensures r.Ok? ==> r.value == PlanAction(c, systemPrompt, [], tools)
  {
    if |text| > 0 then Err(Exception(AttributeError, "'str' object has no attribute 'get'"))
    else Ok(PlanAction(c, systemPrompt, [], tools))
  }

  function UserMessage(text: string): Cortex.Message {
    Cortex.Message(Some("user"), text)
  }

  /** The decision of the intended turn: planned over the single user message. */
  function Planned(a: AgentState, c: Collaborators, userInput: string, tools: seq<Payload>): Decision {
    PlanAction(c, a.systemPrompt, [UserMessage(userInput)], tools)
  }

  /** A single message survives sanitising, so the model sees exactly the user's input. */
  lemma PlanSeesUserInput(a: AgentState, c: Collaborators, userInput: string, tools: seq<Payload>)
    ensures Planned(a, c, userInput, tools) == c.plan(a.systemPrompt, [UserMessage(userInput)], tools)
  {
    var m := UserMessage(userInput);
    assert [m][1..] == [];
    assert Cortex.Fold([m], [], None) == Cortex.Fold([], [] + [m], m.role);
    assert Cortex.Sanitize([m]) == [m];
  }

  /** The rest of a turn once the model has decided. */
  function Act(a: AgentState, syn: Synapse, c: Collaborators, d: Decision): Turn {
    match d
    case TextDecision(text) => Turn(Some(Text(text)), None)
    case ToolDecision(name, arguments) =>
      match c.parseJson(arguments)
      case None => Turn(None, None)
      case Some(args) =>
        match ValidateOutput(a.executive, args)
        case Err(e) => Turn(Some(Error(e.message)), None)
        case Ok(safe) =>
          match syn.execute(name, safe)
          case ExecOk(content) => Turn(Some(ActionResult(OutputText(content))), Some((name, safe)))
          case ExecRaised(_) => Turn(None, Some((name, safe)))
  }

  /** `await agent.process(user_input)` as written: the planning step raises for every
      non-empty input, and nothing in `process` catches it. */
  function ProcessAsWritten(a: AgentState, c: Collaborators, userInput: string): (r: Result<Turn>)
    ensures c.synapse.None? ==> r == Ok(Turn(None, None))
    ensures c.synapse.Some? && c.synapse.value.tools.Err? ==> r == Ok(Turn(None, None))
  {
    if c.synapse.None? then Ok(Turn(None, None))
    else
      var syn := c.synapse.value;
      match syn.tools
      case Err(_) => Ok(Turn(None, None))
      case Ok(tools) =>
        match PlanOnString(c, a.systemPrompt, userInput, tools)
        case Err(e) => Err(e)
        case Ok(d) => Ok(Act(a, syn, c, d))
  }

  /** Once the tools are fetched, every non-empty input raises AttributeError out of
      `process`; only the empty input reaches the model, with an empty history. */
  lemma AsWrittenRaises(a: AgentState, c: Collaborators, userInput: string)
    requires c.synapse.Some? && c.synapse.value.tools.Ok?
    ensures ProcessAsWritten(a, c, userInput).Err? <==> |userInput| > 0
    ensures |userInput| > 0 ==> ProcessAsWritten(a, c, userInput).error.kind == AttributeError
  {
  }

  /** `await agent.process(user_input)` as evidently intended: the input is planned over as
      one user message. */
  function Process(a: AgentState, c: Collaborators, userInput: string): (t: Turn)
    // no tool server: nothing is consulted
    ensures c.synapse.None? ==> t == Turn(None, None)
    // fetching the tools failed
    ensures c.synapse.Some? && c.synapse.value.tools.Err? ==> t == Turn(None, None)
    // a plain-text decision is returned as text and nothing runs
    ensures c.synapse.Some? && c.synapse.value.tools.Ok?
            && Planned(a, c, userInput, c.synapse.value.tools.value).TextDecision?
            ==> t == Turn(Some(Text(Planned(a, c, userInput, c.synapse.value.tools.value).text)), None)
    // only a tool call can execute, and only when its arguments parse and the executive accepts them;
    // the tool runs with exactly the payload the executive returned
    ensures t.executed.Some? ==>
              && c.synapse.Some? && c.synapse.value.tools.Ok?
              && var d := Planned(a, c, userInput, c.synapse.value.tools.value);
              && d.ToolDecision?
              && c.parseJson(d.arguments).Some?
              && ValidateOutput(a.executive, c.parseJson(d.arguments).value).Ok?
              && t.executed.value == (d.name, ValidateOutput(a.executive, c.parseJson(d.arguments).value).value)
    // and conversely a parsed call the executive accepts does run, with that payload
    ensures c.synapse.Some? && c.synapse.value.tools.Ok? ==>
              var d := Planned(a, c, userInput, c.synapse.value.tools.value);
              d.ToolDecision? && c.parseJson(d.arguments).Some?
              && ValidateOutput(a.executive, c.parseJson(d.arguments).value).Ok?
              ==> t.executed == Some((d.name, ValidateOutput(a.executive, c.parseJson(d.arguments).value).value))
    // a blocked call reports the exception's message and never executes
    ensures t.reply.Some? && t.reply.value.Error? ==> t.executed.None?
    // every reply that is not text or an error follows an execution
    ensures t.reply.Some? && t.reply.value.ActionResult? ==> t.executed.Some?
    ensures !(t.reply.Some? && t.reply.value.HitlReview?)
  {
    if c.synapse.None? then Turn(None, None)
    else
      var syn := c.synapse.value;
      match syn.tools
      case Err(_) => Turn(None, None)
      case Ok(tools) => Act(a, syn, c, Planned(a, c, userInput, tools))
  }

  /** Wherever the written turn does not raise before planning, it is the intended one;
      the two differ only in what the model is given. */
  lemma IntendedAgreesBeforePlanning(a: AgentState, c: Collaborators, userInput: string)
    requires c.synapse.None? || c.synapse.value.tools.Err?
    ensures ProcessAsWritten(a, c, userInput) == Ok(Process(a, c, userInput))
  {
  }

  /** A blocking axiom anywhere in the chain turns a tool call into an error reply carrying
      the block message, and the tool never runs. */
  lemma BlockedCallNeverExecutes(a: AgentState, c: Collaborators, userInput: string)
    requires c.synapse.Some? && c.synapse.value.tools.Ok?
    requires var d := Planned(a, c, userInput, c.synapse.value.tools.value);
             d.ToolDecision? && c.parseJson(d.arguments).Some?
             && ValidateOutput(a.executive, c.parseJson(d.arguments).value).Err?
    ensures var d := Planned(a, c, userInput, c.synapse.value.tools.value);
            Process(a, c, userInput)
            == Turn(Some(Error(ValidateOutput(a.executive, c.parseJson(d.arguments).value).error.message)), None)
  {
  }

  /** A tool call whose arguments parse and which the executive accepts is executed with the
      payload the executive returned, and the turn replies with what the tool produced. */
  lemma AcceptedCallExecutes(a: AgentState, c: Collaborators, userInput: string)
    requires c.synapse.Some? && c.synapse.value.tools.Ok?
    requires var d := Planned(a, c, userInput, c.synapse.value.tools.value);
             d.ToolDecision? && c.parseJson(d.arguments).Some?
             && ValidateOutput(a.executive, c.parseJson(d.arguments).value).Ok?
    ensures var d := Planned(a, c, userInput, c.synapse.value.tools.value);
            var safe := ValidateOutput(a.executive, c.parseJson(d.arguments).value).value;
            var t := Process(a, c, userInput);
            && t.executed == Some((d.name, safe))
            && t.reply == match c.synapse.value.execute(d.name, safe)
                          case ExecOk(content) => Some(ActionResult(if |content| == 0 then "No output" else content[0]))
                          case ExecRaised(_) => None
  {
  }

  /** Arguments that are not valid JSON yield `None` before the executive or the tool is consulted. */
  lemma BadJsonYieldsNone(a: AgentState, c: Collaborators, userInput: string)
    requires c.synapse.Some? && c.synapse.value.tools.Ok?
    requires var d := Planned(a, c, userInput, c.synapse.value.tools.value);
             d.ToolDecision? && c.parseJson(d.arguments).None?
    ensures Process(a, c, userInput) == Turn(None, None)
  {
  }

  /** A successful execution reports the first content item's text, or "No output". */
  lemma ExecutionReply(a: AgentState, c: Collaborators, userInput: string)
    requires Process(a, c, userInput).executed.Some?
    ensures var t := Process(a, c, userInput);
            var (name, safe) := t.executed.value;
            match c.synapse.value.execute(name, safe)
            case ExecOk(content) =>
              t.reply == Some(ActionResult(if |content| == 0 then "No output" else content[0]))
            case ExecRaised(_) => t.reply.None?
  {
  }

  /** The violation mode passed to `Agent.axiom` never changes a turn. */
  lemma ModeDoesNotAffectProcess(a: AgentState, c: Collaborators, userInput: string,
                                 m1: string, m2: string, funcName: string, h: Payload -> AxiomOutcome)
    ensures Process(AddAxiom(a, m1, funcName, h), c, userInput)
         == Process(AddAxiom(a, m2, funcName, h), c, userInput)
  {
    ModeDoesNotAffectValidation(a, m1, m2, funcName, h);
    SameValidationSameTurn(AddAxiom(a, m1, funcName, h), AddAxiom(a, m2, funcName, h), c, userInput);
  }

  /** The executive's verdicts do not depend on the violation modes it holds. */
  lemma ModeDoesNotAffectValidation(a: AgentState, m1: string, m2: string, funcName: string,
                                    h: Payload -> AxiomOutcome)
    ensures AddAxiom(a, m1, funcName, h).systemPrompt == AddAxiom(a, m2, funcName, h).systemPrompt
    ensures forall p :: ValidateOutput(AddAxiom(a, m1, funcName, h).executive, p)
                     == ValidateOutput(AddAxiom(a, m2, funcName, h).executive, p)
  {
    var r1 := AddAxiom(a, m1, funcName, h).executive;
    var r2 := AddAxiom(a, m2, funcName, h).executive;
    var v1 := OrderedMap.Values(r1);
    var v2 := OrderedMap.Values(r2);
    var modes := seq(|v2|, i requires 0 <= i < |v2| => v2[i].onViolation);
    assert r1.keys == r2.keys;
    assert v2 == seq(|v1|, i requires 0 <= i < |v1| => v1[i].(onViolation := modes[i]));
    forall p: Payload
      ensures ValidateOutput(r1, p) == ValidateOutput(r2, p)
    {
      ModeIrrelevant(r1.keys, v1, modes, p);
    }
  }

  /** A turn depends on the executive only through its verdicts. */
  lemma SameValidationSameTurn(a1: AgentState, a2: AgentState, c: Collaborators, userInput: string)
    requires a1.systemPrompt == a2.systemPrompt
    requires forall p :: ValidateOutput(a1.executive, p) == ValidateOutput(a2.executive, p)
    ensures Process(a1, c, userInput) == Process(a2, c, userInput)
  {
  }
}

=== FILE: aggregate.dfy ===
/** `sum`, `min` and `max` of a non-empty list of numbers, and the fact that
    their mean lies between the least and the greatest. Sums accumulate front
    to back, as Python's `sum` does. */
module Aggregate {

  function Sum(xs: seq<real>): real {
    if |xs| == 0 then 0.0 else Sum(xs[..|xs| - 1]) + xs[|xs| - 1]
  }

  /** `min(xs)` */
  function Least(xs: seq<real>): real
    requires |xs| > 0
  {
    if |xs| == 1 then xs[0]
    else
      var m := Least(xs[..|xs| - 1]);
      if xs[|xs| - 1] < m then xs[|xs| - 1] else m
  }

  /** `max(xs)` */
  function Greatest(xs: seq<real>): real
    requires |xs| > 0
  {
    if |xs| == 1 then xs[0]
    else
      var m := Greatest(xs[..|xs| - 1]);
      if xs[|xs| - 1] > m then xs[|xs| - 1] else m
  }

  /** `min` and `max` are elements of the list. */
  lemma {:induction false} ExtremaAreElements(xs: seq<real>)
    requires |xs| > 0
    ensures Least(xs) in xs && Greatest(xs) in xs
  {
    if |xs| > 1 {
      var front := xs[..|xs| - 1];
      ExtremaAreElements(front);
      assert Least(front) in front && Greatest(front) in front;
    }
  }

  /** `min` and `max` bound every element. */
  lemma {:induction false} ExtremaBound(xs: seq<real>)
    requires |xs| > 0
    ensures forall i :: 0 <= i < |xs| ==> Least(xs) <= xs[i] <= Greatest(xs)
  {
    if |xs| > 1 {
      var front := xs[..|xs| - 1];
      ExtremaBound(front);
      forall i | 0 <= i < |xs| ensures Least(xs) <= xs[i] <= Greatest(xs) {
        if i < |front| {
          assert xs[i] == front[i];
        }
      }
    }
  }

  /** The sum lies between `len * min` and `len * max`. */
  lemma {:induction false} SumBounds(xs: seq<real>)
    requires |xs| > 0
    ensures (|xs| as real) * Least(xs) <= Sum(xs) <= (|xs| as real) * Greatest(xs)
  {
    var front := xs[..|xs| - 1];
    var x := xs[|xs| - 1];
    assert Sum(xs) == Sum(front) + x;
    if |xs| == 1 {
      assert front == [];
    } else {
      SumBounds(front);
      assert |xs| as real == |front| as real + 1.0;
      StepBounds(|front| as real, Sum(front), x, Least(xs), Greatest(xs), Least(front), Greatest(front));
    }
  }

  /** Adding one element within `[lo, hi]` to a sum of `n` such elements. */
  lemma StepBounds(n: real, s: real, x: real, lo: real, hi: real, flo: real, fhi: real)
    requires n >= 0.0 && n * flo <= s <= n * fhi
    requires lo <= flo && lo <= x && fhi <= hi && x <= hi
    ensures (n + 1.0) * lo <= s + x <= (n + 1.0) * hi
  {
    MulMonotone(n, lo, flo);
    MulMonotone(n, fhi, hi);
    Distrib(n, lo);
    Distrib(n, hi);
  }

  lemma Distrib(n: real, m: real)
    ensures (n + 1.0) * m == n * m + m
  {
  }

  /** The mean lies between `min` and `max`. */
  lemma MeanBetween(xs: seq<real>)
    requires |xs| > 0
    ensures Least(xs) <= Sum(xs) / (|xs| as real) <= Greatest(xs)
  {
    SumBounds(xs);
    DivBounds(Sum(xs), |xs| as real, Least(xs), Greatest(xs));
  }

  lemma MulMonotone(n: real, a: real, b: real)
    requires n >= 0.0 && a <= b
    ensures n * a <= n * b
  {
  }

  lemma DivBounds(s: real, n: real, lo: real, hi: real)
    requires n > 0.0 && n * lo <= s <= n * hi
    ensures lo <= s / n <= hi
  {
    var q := s / n;
    assert q * n == s;
    if q < lo {
      MulMonotone(n, q, lo);
    }
    if q > hi {
      MulMonotone(n, hi, q);
    }
  }
}

=== FILE: assistant_axioms.dfy ===
/** The safety rules of the assistant example: the per-user sliding-window rate
    limiter, the harmful-keyword rule and the response-length rule. Times are
    whole seconds and the clock is the `now` parameter. */
module AssistantAxioms {
  import opened Common
  import opened Text

  // ---------------------------------------------------------------------
  // The rate limiter
  // ---------------------------------------------------------------------

  const Window := 3600
  const DefaultMaxPerHour := 100

  datatype RateLimiter = RateLimiter(maxPerHour: int, requests: map<string, seq<int>>)

  function NewRateLimiter(maxPerHour: int): (l: RateLimiter)
    ensures l.maxPerHour == maxPerHour && l.requests == map[]
  {
    RateLimiter(maxPerHour, map[])
  }

  /** A request made at `t` still counts at `now`. */
  predicate Live(t: int, now: int) {
    now - t < Window
  }

  /** The request times that still count, in order. */
  function Recent(ts: seq<int>, now: int): (r: seq<int>)
    ensures |r| <= |ts|
    ensures forall t :: t in r <==> t in ts && Live(t, now)
    ensures (forall i :: 0 <= i < |ts| ==> Live(ts[i], now)) ==> r == ts
    ensures (forall i :: 0 <= i < |ts| ==> !Live(ts[i], now)) ==> r == []
  {
    if |ts| == 0 then []
    else
      var rest := Recent(ts[1..], now);
      assert forall t :: t in ts <==> t == ts[0] || t in ts[1..];
      assert (forall i :: 0 <= i < |ts| ==> Live(ts[i], now)) ==> forall i :: 0 <= i < |ts[1..]| ==> Live(ts[1..][i], now) by {
        if forall i :: 0 <= i < |ts| ==> Live(ts[i], now) {
          forall i | 0 <= i < |ts[1..]| ensures Live(ts[1..][i], now) {
            assert ts[1..][i] == ts[i + 1];
          }
        }
      }
      assert (forall i :: 0 <= i < |ts| ==> !Live(ts[i], now)) ==> forall i :: 0 <= i < |ts[1..]| ==> !Live(ts[1..][i], now) by {
        if forall i :: 0 <= i < |ts| ==> !Live(ts[i], now) {
          forall i | 0 <= i < |ts[1..]| ensures !Live(ts[1..][i], now) {
            assert ts[1..][i] == ts[i + 1];
          }
        }
      }
      assert [ts[0]] + ts[1..] == ts;
      if Live(ts[0], now) then [ts[0]] + rest else rest
  }

  /** A user's recorded request times, none before the first request. */
  function TimesOf(l: RateLimiter, user: string): seq<int> {
    if user in l.requests then l.requests[user] else []
  }

  /** `check_rate_limit(user_id)` at time `now`: forgets the user's requests older than an hour,
      then admits and records this one only while fewer than the limit remain. */
  function CheckRateLimit(l: RateLimiter, user: string, now: int): (r: (RateLimiter, bool))
    ensures r.1 <==> |Recent(TimesOf(l, user), now)| < l.maxPerHour
    ensures user in r.0.requests
    ensures r.0.requests[user] == Recent(TimesOf(l, user), now) + (if r.1 then [now] else [])
    ensures r.0.maxPerHour == l.maxPerHour
    ensures forall u :: u != user ==> (u in r.0.requests <==> u in l.requests)
    ensures forall u :: u != user && u in l.requests ==> r.0.requests[u] == l.requests[u]
  {
    var kept := Recent(TimesOf(l, user), now);
    if |kept| >= l.maxPerHour then (l.(requests := l.requests[user := kept]), false)
    else (l.(requests := l.requests[user := kept + [now]]), true)
  }

  /** No user has more requests on record than the limit allows. */
  predicate WithinLimit(l: RateLimiter) {
    forall u :: u in l.requests ==> |l.requests[u]| <= Max(l.maxPerHour, 0)
  }

  /** Every check keeps each user's record within the limit. */
  lemma CheckKeepsLimit(l: RateLimiter, user: string, now: int)
    requires WithinLimit(l)
    ensures WithinLimit(CheckRateLimit(l, user, now).0)
  {
    var r := CheckRateLimit(l, user, now);
    assert |Recent(TimesOf(l, user), now)| <= |TimesOf(l, user)|;
  }

  /** Once every recorded request of a user is an hour old, a positive limit admits them
      again. */
  lemma ExpiryReadmits(l: RateLimiter, user: string, now: int)
    requires l.maxPerHour > 0
    requires forall i :: 0 <= i < |TimesOf(l, user)| ==> !Live(TimesOf(l, user)[i], now)
    ensures CheckRateLimit(l, user, now).1
  {
  }

  /** `k` checks of one user at one instant, counting the admitted ones. */
  function Burst(l: RateLimiter, user: string, now: int, k: nat): (r: (RateLimiter, nat))
    ensures r.1 <= k
    decreases k
  {
    if k == 0 then (l, 0)
    else
      var (l1, ok) := CheckRateLimit(l, user, now);
      var (l2, n) := Burst(l1, user, now, k - 1);
      (l2, n + if ok then 1 else 0)
  }

  /** A burst of requests within one instant admits exactly as many as the limit leaves room
      for, counting the user's requests already on record at that instant. */
  lemma {:induction false} BurstIsCapped(l: RateLimiter, user: string, now: int, k: nat)
    requires forall t :: t in TimesOf(l, user) ==> t == now
    ensures Burst(l, user, now, k).1 == Min(k, Max(l.maxPerHour - |TimesOf(l, user)|, 0))
    decreases k
  {
    if k > 0 {
      var ts := TimesOf(l, user);
      assert forall i :: 0 <= i < |ts| ==> ts[i] in ts;
      assert Recent(ts, now) == ts;
      var (l1, ok) := CheckRateLimit(l, user, now);
      assert TimesOf(l1, user) == ts + (if ok then [now] else []);
      assert forall t :: t in TimesOf(l1, user) ==> t == now;
      BurstIsCapped(l1, user, now, k - 1);
    }
  }

  /** One user's requests never affect another user's admission. */
  lemma UsersAreIndependent(l: RateLimiter, user: string, other: string, now: int, later: int)
    requires user != other
    ensures CheckRateLimit(CheckRateLimit(l, user, now).0, other, later).1
            == CheckRateLimit(l, other, later).1
  {
    assert TimesOf(CheckRateLimit(l, user, now).0, other) == TimesOf(l, other);
  }

  // ---------------------------------------------------------------------
  // The content rules
  // ---------------------------------------------------------------------

  const HarmfulKeywords: seq<string> := ["illegal", "violence", "dangerous", "harm", "destroy"]

  /** `any(keyword in text for keyword in keywords)` */
  function AnyKeyword(text: string, keywords: seq<string>): (r: bool)
    ensures r <==> ContainsAny(text, keywords)
  {
    if |keywords| == 0 then false
    else if Contains(text, keywords[0]) then true
    else
      var r := AnyKeyword(text, keywords[1..]);
      assert forall j :: 1 <= j < |keywords| ==> keywords[j] == keywords[1..][j - 1];
      r
  }

  /** `no_harmful_content(response)` */
  function NoHarmfulContent(response: string): (r: bool)
    ensures r <==> !ContainsAny(Lower(response), HarmfulKeywords)
  {
    !AnyKeyword(Lower(response), HarmfulKeywords)
  }

  /** `in` is transitive. */
  lemma {:induction false} ContainsTrans(a: string, b: string, c: string)
    requires Contains(a, b) && Contains(b, c)
    ensures Contains(a, c)
  {
    var i :| 0 <= i <= |a| - |b| && OccursAt(a, b, i);
    var j :| 0 <= j <= |b| - |c| && OccursAt(b, c, j);
    forall k | 0 <= k < |c| ensures a[i + j + k] == c[k] {
      assert a[i + j + k] == a[i..i + |b|][j + k];
      assert b[j + k] == b[j..j + |c|][k];
    }
    assert a[i + j..i + j + |c|] == c;
    assert OccursAt(a, c, i + j);
  }

  /** A response that holds a rejected passage, in any case, is rejected too; so a keyword
      inside a harmless word rejects the response. */
  lemma RejectionSpreads(response: string, part: string)
    requires !NoHarmfulContent(part) && Contains(response, part)
    ensures !NoHarmfulContent(response)
  {
    var j :| 0 <= j < |HarmfulKeywords| && Contains(Lower(part), HarmfulKeywords[j]);
    ContainsLower(response, part);
    ContainsTrans(Lower(response), Lower(part), HarmfulKeywords[j]);
  }

  /** "harmless" is rejected, because it holds "harm". */
  lemma HarmlessIsRejected()
    ensures !NoHarmfulContent("Harmless")
  {
    assert Lower("Harmless") == "harmless";
    assert OccursAt("harmless", "harm", 0);
    assert HarmfulKeywords[3] == "harm";
  }

  const MaxResponseLength := 500

  /** `enforce_response_length(response)` */
  function EnforceResponseLength(response: string): (r: bool)
    ensures r <==> |response| <= MaxResponseLength
  {
    !(|response| > MaxResponseLength)
  }

  /** Any prefix of an accepted response is accepted, and the first 500 characters alone are
      always accepted. */
  lemma LengthRuleIsPrefixClosed(response: string, n: nat)
    requires n <= |response|
    ensures EnforceResponseLength(response) ==> EnforceResponseLength(response[..n])
    ensures EnforceResponseLength(response[..Min(|response|, MaxResponseLength)])
  {
  }

  /** What the assistant example does with a response the rule rejects: the first 500
      characters, then an ellipsis. */
  function Truncate(response: string): (r: string)
    requires |response| > MaxResponseLength
    ensures |r| == MaxResponseLength + 3
    ensures r[..MaxResponseLength] == response[..MaxResponseLength] && r[MaxResponseLength..] == "..."
  {
    response[..MaxResponseLength] + "..."
  }

  /** The truncated response is still three characters too long for the rule it was cut for. */
  lemma TruncatedResponseStillFails(response: string)
    requires |response| > MaxResponseLength
    ensures !EnforceResponseLength(Truncate(response))
    ensures Truncate(response)[..MaxResponseLength] == response[..MaxResponseLength]
  {
  }
}

=== FILE: auth.dfy ===
/** Tokens, the API-key provider and the token manager.

    Token ids come from a `freshId` argument; the clock is a `now` argument
    in whole seconds. Providers other than the API-key one are given by
    their answers as functions. */
module Auth {
  import opened Common

  datatype AuthType = ApiKey | BearerToken | OAuth2 | Hmac | Basic

  datatype Credentials = Credentials(
    username: Option<string>, password: Option<string>, apiKey: Option<string>,
    oauthToken: Option<string>, metadata: map<string, string>)

  datatype Token = Token(
    tokenId: string, authType: AuthType, subject: string,
    issuedAt: int, expiresAt: int, scopes: set<string>, metadata: map<string, string>)

  /** Tokens live for one hour by default. */
  const Lifetime: int := 3600

  /** `Token(...)` with a fresh id, issued now and expiring an hour later. */
  function NewToken(freshId: string, authType: AuthType, subject: string, scopes: set<string>,
                    metadata: map<string, string>, now: int): (t: Token)
    ensures t.tokenId == freshId && t.issuedAt == now && t.expiresAt == now + Lifetime
    ensures t.authType == authType && t.subject == subject && t.scopes == scopes && t.metadata == metadata
  {
    Token(freshId, authType, subject, now, now + Lifetime, scopes, metadata)
  }

  /** `token.is_expired()`: strictly after the expiry instant. */
  predicate IsExpired(t: Token, now: int) {
    now > t.expiresAt
  }

  /** `token.has_scope(scope)` */
  predicate HasScope(t: Token, scope: string) {
    scope in t.scopes
  }

  // ---------------------------------------------------------------------
  // The API-key provider
  // ---------------------------------------------------------------------

  datatype KeyInfo = KeyInfo(scopes: set<string>, metadata: map<string, string>, createdAt: int)

  /** `register_key(api_key, scopes, metadata)` */
  function RegisterKey(keys: map<string, KeyInfo>, apiKey: string, scopes: set<string>,
                       metadata: Option<map<string, string>>, now: int): (r: map<string, KeyInfo>)
    ensures apiKey in r && r[apiKey].scopes == scopes && r[apiKey].createdAt == now
    ensures r[apiKey].metadata == if metadata.Some? then metadata.value else map[]
    ensures forall k :: k != apiKey ==> (k in r <==> k in keys) && (k in keys ==> r[k] == keys[k])
  {
    keys[apiKey := KeyInfo(scopes, if metadata.Some? then metadata.value else map[], now)]
  }

  /** `APIKeyAuthProvider.authenticate(credentials)` */
  function ApiKeyAuthenticate(keys: map<string, KeyInfo>, c: Credentials, freshId: string, now: int)
    : (r: Option<Token>)
    ensures r.Some? <==> c.apiKey.Some? && c.apiKey.value != "" && c.apiKey.value in keys
    ensures r.Some? ==>
              var info := keys[c.apiKey.value];
              r.value.scopes == info.scopes && r.value.metadata == info.metadata
              && r.value.authType == ApiKey && r.value.tokenId == freshId
              && r.value.subject == (if "username" in c.metadata then c.metadata["username"] else "api_user")
              && !IsExpired(r.value, now)
  {
    if c.apiKey.None? || c.apiKey.value == "" then None
    else if c.apiKey.value !in keys then None
    else
      var info := keys[c.apiKey.value];
      var subject := if "username" in c.metadata then c.metadata["username"] else "api_user";
      Some(NewToken(freshId, ApiKey, subject, info.scopes, info.metadata, now))
  }

  /** A provider registered with the manager. */
  datatype Provider =
    | ApiKeyProvider(keys: map<string, KeyInfo>)
    | OtherProvider(
        auth: (Credentials, string, int) -> Option<Token>,
        validate: (Token, int) -> bool,
        refresh: (Token, string, int) -> Option<Token>)

  function ProviderAuthenticate(p: Provider, c: Credentials, freshId: string, now: int): Option<Token> {
    match p
    case ApiKeyProvider(keys) => ApiKeyAuthenticate(keys, c, freshId, now)
    case OtherProvider(auth, _, _) => auth(c, freshId, now)
  }

  /** The API-key provider accepts exactly the tokens that have not expired. */
  function ProviderValidate(p: Provider, t: Token, now: int): bool {
    match p
    case ApiKeyProvider(_) => !IsExpired(t, now)
    case OtherProvider(_, validate, _) => validate(t, now)
  }

  /** The API-key provider refuses an expired token and otherwise reissues it under a new id. */
  function ProviderRefresh(p: Provider, t: Token, freshId: string, now: int): Option<Token> {
    match p
    case ApiKeyProvider(_) =>
      if IsExpired(t, now) then None
      else Some(NewToken(freshId, t.authType, t.subject, t.scopes, t.metadata, now))
    case OtherProvider(_, _, refresh) => refresh(t, freshId, now)
  }

  // ---------------------------------------------------------------------
  // The token manager
  // ---------------------------------------------------------------------

  datatype Stats = Stats(issued: nat, validated: nat, revoked: nat, refreshed: nat)

  datatype TokenManager = TokenManager(providers: map<string, Provider>, tokens: map<string, Token>, stats: Stats)

  function NewManager(providers: Option<map<string, Provider>>): (m: TokenManager)
    ensures m.tokens == map[] && m.stats == Stats(0, 0, 0, 0)
  {
    TokenManager(if providers.Some? then providers.value else map[], map[], Stats(0, 0, 0, 0))
  }

  function RegisterProvider(m: TokenManager, name: string, p: Provider): (r: TokenManager)
    ensures r.providers == m.providers[name := p] && r.tokens == m.tokens && r.stats == m.stats
  {
    m.(providers := m.providers[name := p])
  }

  /** `await manager.authenticate(credentials, provider_name)` */
  function Authenticate(m: TokenManager, c: Credentials, providerName: string, freshId: string, now: int)
    : (r: (TokenManager, Option<Token>))
    ensures providerName !in m.providers ==> r == (m, None)
    ensures providerName in m.providers ==> r.1 == ProviderAuthenticate(m.providers[providerName], c, freshId, now)
    ensures r.1.None? ==> r.0 == m
    ensures r.1.Some? ==>
              providerName in m.providers
              && r.0.tokens == m.tokens[r.1.value.tokenId := r.1.value]
              && r.0.stats == m.stats.(issued := m.stats.issued + 1)
              && r.0.providers == m.providers
  {
    if providerName !in m.providers then (m, None)
    else
      match ProviderAuthenticate(m.providers[providerName], c, freshId, now)
      case None => (m, None)
      case Some(t) =>
        (m.(tokens := m.tokens[t.tokenId := t], stats := m.stats.(issued := m.stats.issued + 1)), Some(t))
  }

  /** `await manager.validate_token(token_id, provider_name)` */
  function ValidateToken(m: TokenManager, tokenId: string, providerName: string, now: int)
    : (r: (TokenManager, bool))
    ensures tokenId !in m.tokens || providerName !in m.providers ==> r == (m, false)
    ensures r.1 ==> r.0 == m.(stats := m.stats.(validated := m.stats.validated + 1))
    ensures !r.1 ==> r.0 == m
    ensures r.1 <==> tokenId in m.tokens && providerName in m.providers
                     && ProviderValidate(m.providers[providerName], m.tokens[tokenId], now)
  {
    if tokenId !in m.tokens || providerName !in m.providers then (m, false)
    else if ProviderValidate(m.providers[providerName], m.tokens[tokenId], now) then
      (m.(stats := m.stats.(validated := m.stats.validated + 1)), true)
    else (m, false)
  }

  /** `await manager.refresh_token(token_id, provider_name)` */
  function RefreshToken(m: TokenManager, tokenId: string, providerName: string, freshId: string, now: int)
    : (r: (TokenManager, Option<Token>))
    ensures tokenId !in m.tokens || providerName !in m.providers ==> r == (m, None)
    ensures tokenId in m.tokens && providerName in m.providers ==>
              r.1 == ProviderRefresh(m.providers[providerName], m.tokens[tokenId], freshId, now)
    ensures r.1.None? ==> r.0 == m
    ensures r.1.Some? ==>
              tokenId in m.tokens
              && r.0.tokens == (m.tokens - {tokenId})[r.1.value.tokenId := r.1.value]
              && r.0.stats == m.stats.(refreshed := m.stats.refreshed + 1)
  {
    if tokenId !in m.tokens || providerName !in m.providers then (m, None)
    else
      match ProviderRefresh(m.providers[providerName], m.tokens[tokenId], freshId, now)
      case None => (m, None)
      case Some(t) =>
        (m.(tokens := (m.tokens - {tokenId})[t.tokenId := t],
            stats := m.stats.(refreshed := m.stats.refreshed + 1)), Some(t))
  }

  /** `await manager.revoke_token(token_id, provider_name)`: the provider is optional. */
  function RevokeToken(m: TokenManager, tokenId: string, providerName: string): (r: TokenManager)
    ensures tokenId !in m.tokens ==> r == m
    ensures tokenId in m.tokens ==>
              r.tokens == m.tokens - {tokenId} && r.stats == m.stats.(revoked := m.stats.revoked + 1)
    ensures tokenId !in r.tokens
  {
    if tokenId !in m.tokens then m
    else m.(tokens := m.tokens - {tokenId}, stats := m.stats.(revoked := m.stats.revoked + 1))
  }

  function GetToken(m: TokenManager, tokenId: string): (r: Option<Token>)
    ensures r.Some? <==> tokenId in m.tokens
    ensures r.Some? ==> r.value == m.tokens[tokenId]
  {
    if tokenId in m.tokens then Some(m.tokens[tokenId]) else None
  }

  datatype StatsReport = StatsReport(issued: nat, validated: nat, revoked: nat, refreshed: nat, activeTokens: nat)

  function GetStats(m: TokenManager): (r: StatsReport)
    ensures r.activeTokens == |m.tokens|
    ensures r.issued == m.stats.issued && r.validated == m.stats.validated
    ensures r.revoked == m.stats.revoked && r.refreshed == m.stats.refreshed
  {
    StatsReport(m.stats.issued, m.stats.validated, m.stats.revoked, m.stats.refreshed, |m.tokens|)
  }

  // ---------------------------------------------------------------------
  // Properties
  // ---------------------------------------------------------------------

  /** A successful refresh whose new id is not already stored keeps the number of active tokens,
      and the old id is gone. */
  lemma RefreshKeepsActiveCount(m: TokenManager, tokenId: string, providerName: string, freshId: string, now: int)
    requires var r := RefreshToken(m, tokenId, providerName, freshId, now);
             r.1.Some? && (r.1.value.tokenId == tokenId || r.1.value.tokenId !in m.tokens)
    ensures var r := RefreshToken(m, tokenId, providerName, freshId, now);
            |r.0.tokens| == |m.tokens| && GetToken(r.0, r.1.value.tokenId) == r.1
            && (r.1.value.tokenId != tokenId ==> tokenId !in r.0.tokens)
  {
    var r := RefreshToken(m, tokenId, providerName, freshId, now);
    var t := r.1.value;
    var rest := m.tokens - {tokenId};
    assert |rest| == |m.tokens| - 1;
    assert t.tokenId !in rest;
  }

  /** An expired token cannot be refreshed by the API-key provider. */
  lemma ExpiredNotRefreshed(m: TokenManager, tokenId: string, providerName: string, freshId: string, now: int)
    requires tokenId in m.tokens && providerName in m.providers
    requires m.providers[providerName].ApiKeyProvider? && IsExpired(m.tokens[tokenId], now)
    ensures RefreshToken(m, tokenId, providerName, freshId, now) == (m, None)
  {
  }

  /** Revoking a stored token counts once, even when the provider is missing; an unknown id
      changes nothing. */
  lemma RevokeWithoutProvider(m: TokenManager, tokenId: string, providerName: string)
    requires tokenId in m.tokens && providerName !in m.providers
    ensures GetStats(RevokeToken(m, tokenId, providerName)).revoked == m.stats.revoked + 1
    ensures GetStats(RevokeToken(m, tokenId, providerName)).activeTokens == |m.tokens| - 1
  {
  }

  /** With a fresh id, API-key authentication issues one more active token, which then
      validates until it expires. */
  lemma IssueThenValidate(m: TokenManager, c: Credentials, name: string, freshId: string, now: int, later: int)
    requires name in m.providers && m.providers[name].ApiKeyProvider?
    requires freshId !in m.tokens
    requires Authenticate(m, c, name, freshId, now).1.Some?
    ensures var m1 := Authenticate(m, c, name, freshId, now).0;
            |m1.tokens| == |m.tokens| + 1
            && ValidateToken(m1, freshId, name, later).1 == (later <= now + Lifetime)
  {
  }
}

=== FILE: broker.dfy ===
/** The swarm broker: a registry of discovered nodes, role-based worker lookup,
    and the REQUEST packet that hires a worker. The hive adapter it holds is
    never used by these operations; packet ids and timestamps are left out. */
module Broker {
  import opened Common
  import OrderedMap
  import Values

  datatype NodeMeta = NodeMeta(role: string, capabilities: seq<string>, status: string)

  const Online := "online"

  type Nodes = OrderedMap.Dict<string, NodeMeta>

  datatype Broker = Broker(registry: Nodes)

  function NewBroker(): (b: Broker)
    ensures |b.registry.keys| == 0
  {
    Broker(OrderedMap.Empty())
  }

  /** `register_node(node_id, role, capabilities)`: overwrites an entry of the same id, which
      keeps its place in the registration order. */
  function RegisterNode(b: Broker, id: string, role: string, capabilities: seq<string>): (r: Broker)
    ensures r.registry.m == b.registry.m[id := NodeMeta(role, capabilities, Online)]
    ensures id in b.registry.m ==> r.registry.keys == b.registry.keys
    ensures id !in b.registry.m ==> r.registry.keys == b.registry.keys + [id]
  {
    Broker(OrderedMap.Put(b.registry, id, NodeMeta(role, capabilities, Online)))
  }

  predicate Serves(meta: NodeMeta, role: string) {
    meta.role == role && meta.status == Online
  }

  /** The first id of `ids` whose node serves `role`. */
  function FirstServing(d: Nodes, ids: seq<string>, role: string): (r: Option<string>)
    requires forall k :: k in ids ==> k in d.m
    ensures r.None? <==> forall i :: 0 <= i < |ids| ==> !Serves(d.m[ids[i]], role)
    ensures r.Some? ==> exists i :: 0 <= i < |ids| && ids[i] == r.value && Serves(d.m[r.value], role)
                          && forall j :: 0 <= j < i ==> !Serves(d.m[ids[j]], role)
  {
    if |ids| == 0 then None
    else if Serves(d.m[ids[0]], role) then Some(ids[0])
    else
      var r := FirstServing(d, ids[1..], role);
      assert forall i :: 1 <= i < |ids| ==> ids[i] == ids[1..][i - 1];
      if r.Some? then
        var i :| 0 <= i < |ids[1..]| && ids[1..][i] == r.value && Serves(d.m[r.value], role)
                 && forall j :: 0 <= j < i ==> !Serves(d.m[ids[1..][j]], role);
        assert ids[i + 1] == r.value;
        r
      else r
  }

  /** `find_worker(required_role)`: the first-registered online node of exactly that role. */
  function FindWorker(b: Broker, role: string): (r: Option<string>)
    ensures r.None? <==> forall id :: id in b.registry.m ==> !Serves(b.registry.m[id], role)
    ensures r.Some? ==>
              r.value in b.registry.m && Serves(b.registry.m[r.value], role)
              && forall j :: 0 <= j < OrderedMap.IndexOf(b.registry.keys, r.value) ==>
                   !Serves(b.registry.m[b.registry.keys[j]], role)
  {
    var r := FirstServing(b.registry, b.registry.keys, role);
    assert forall id :: id in b.registry.m ==> b.registry.keys[OrderedMap.IndexOf(b.registry.keys, id)] == id;
    if r.Some? then
      var i :| 0 <= i < |b.registry.keys| && b.registry.keys[i] == r.value
               && forall j :: 0 <= j < i ==> !Serves(b.registry.m[b.registry.keys[j]], role);
      assert OrderedMap.IndexOf(b.registry.keys, r.value) <= i;
      r
    else r
  }

  /** A freshly registered node is found for its role, and is the one found when no earlier
      node served that role. */
  lemma RegisterThenFind(b: Broker, id: string, role: string, caps: seq<string>)
    ensures FindWorker(RegisterNode(b, id, role, caps), role).Some?
    ensures FindWorker(b, role).None? && id !in b.registry.m ==>
              FindWorker(RegisterNode(b, id, role, caps), role) == Some(id)
  {
    var b1 := RegisterNode(b, id, role, caps);
    assert Serves(b1.registry.m[id], role);
    if FindWorker(b, role).None? && id !in b.registry.m {
      assert FindWorker(b1, role).value == id;
    }
  }

  /** Registering a new node never displaces the first node already serving a role. */
  lemma FirstWorkerStays(b: Broker, role: string, other: string, otherRole: string, otherCaps: seq<string>)
    requires FindWorker(b, role).Some? && other !in b.registry.m
    ensures FindWorker(RegisterNode(b, other, otherRole, otherCaps), role) == FindWorker(b, role)
  {
    var w := FindWorker(b, role).value;
    var b2 := RegisterNode(b, other, otherRole, otherCaps);
    var r := FindWorker(b2, role);
    var iw := OrderedMap.IndexOf(b.registry.keys, w);
    assert b2.registry.keys[iw] == w;
    assert b2.registry.m[w] == b.registry.m[w];
    assert OrderedMap.IndexOf(b2.registry.keys, w) == iw;
    assert r.value == w;
  }

  // ---------------------------------------------------------------------
  // The hiring packet
  // ---------------------------------------------------------------------

  datatype PacketType = Handshake | Request | Response | Event | Error

  datatype Header = Header(senderId: string, receiverId: Option<string>, packetType: PacketType)

  /** A payload entry: a plain string or a nested dictionary. */
  datatype Entry = Text(s: string) | Dict(d: Values.Payload)

  datatype Packet = Packet(header: Header, payload: OrderedMap.Dict<string, Entry>)

  /** `Packet.create_request(sender, receiver, activity, params)` */
  function CreateRequest(sender: string, receiver: string, activity: string, params: Values.Payload)
    : (p: Packet)
    ensures p.header == Header(sender, Some(receiver), Request)
    ensures p.payload.keys == ["activity", "params"]
    ensures p.payload.m == map["activity" := Text(activity), "params" := Dict(params)]
  {
    var payload := OrderedMap.Put(OrderedMap.Put(OrderedMap.Empty(), "activity", Text(activity)),
                                  "params", Dict(params));
    Packet(Header(sender, Some(receiver), Request), payload)
  }

  /** Python's `s[:n]` for `n >= 0`. */
  function Prefix(s: string, n: nat): (r: string)
    ensures |r| == Min(n, |s|) && r == s[..|r|]
  {
    s[..Min(n, |s|)]
  }

  /** `await hire_agent(manager_id, worker_id, goal)` */
  function HireAgent(b: Broker, manager: string, worker: string, goal: string): (r: (Broker, Packet))
    ensures r.0 == b
  {
    var params := OrderedMap.Put(OrderedMap.Put(OrderedMap.Empty(), "goal", Values.Str(goal)),
                                 "context_id", Values.Str("ctx_" + Prefix(manager, 4)));
    (b, CreateRequest(manager, worker, "swarm_task", params))
  }

  /** The hiring packet is a REQUEST from the manager to the worker for a swarm task; the goal
      sits under "params", never at the top of the payload, next to a context id made from the
      first four characters of the manager id. */
  lemma HirePacketShape(b: Broker, manager: string, worker: string, goal: string)
    ensures var p := HireAgent(b, manager, worker, goal).1;
            p.header.senderId == manager && p.header.receiverId == Some(worker)
            && p.header.packetType == Request
            && "goal" !in p.payload.m
            && p.payload.m["activity"] == Text("swarm_task")
            && p.payload.m["params"].Dict?
            && p.payload.m["params"].d.m["goal"] == Values.Str(goal)
            && p.payload.m["params"].d.m["context_id"].Str?
            && var cid := p.payload.m["params"].d.m["context_id"].s;
               cid[..4] == "ctx_" && |cid| == 4 + Min(4, |manager|)
               && cid[4..] == manager[..Min(4, |manager|)]
  {
  }
}

=== FILE: citation.dfy ===
/** The citation axiom: response validation, which accepts everything, and the
    substring-based hallucination check against the vault's documents. The
    vault path is never read by either operation. */
module Citation {
  import opened Text

  /** `validate_response(response_text, source_context)`: whatever citations the response
      holds, and whether or not it mentions the vault, the response is accepted. */
  function ValidateResponse(response: string, sourceContext: string): (r: bool)
    ensures r
  {
    true
  }

  const Abbreviated := "$5m"
  const Spelled := "$5 million"

  /** The claim as `check_hallucination` normalises it: lowercased, with the one abbreviation
      spelled out. */
  function Normalized(claim: string): string {
    ReplaceAll(Lower(claim), Abbreviated, Spelled)
  }

  /** A document backs a claim when it contains it, ignoring case, plainly or normalised. */
  predicate Backs(doc: string, claim: string) {
    Contains(Lower(doc), Lower(claim)) || Contains(Lower(doc), Normalized(claim))
  }

  /** The loop over the vault's documents, in order. */
  function AnyBacks(docs: seq<string>, claim: string): (r: bool)
    ensures r <==> exists i :: 0 <= i < |docs| && Backs(docs[i], claim)
  {
    if |docs| == 0 then false
    else if Backs(docs[0], claim) then true
    else
      var r := AnyBacks(docs[1..], claim);
      assert forall i :: 1 <= i < |docs| ==> docs[i] == docs[1..][i - 1];
      r
  }

  /** `check_hallucination(claim, vault_data)`: true when some document backs the claim. */
  function CheckHallucination(claim: string, vault: seq<string>): (r: bool)
    ensures r <==> exists i :: 0 <= i < |vault| && Backs(vault[i], claim)
  {
    AnyBacks(vault, claim)
  }

  /** With an empty vault nothing is backed. */
  lemma EmptyVaultBacksNothing(claim: string)
    ensures !CheckHallucination(claim, [])
  {
  }

  /** A string with no occurrence of the pattern is left unchanged by replacing it. */
  lemma {:induction false} ReplaceAbsent(s: string, pat: string, rep: string)
    requires |pat| > 0 && !Contains(s, pat)
    ensures ReplaceAll(s, pat, rep) == s
    decreases |s|
  {
    if |s| > 0 {
      if |pat| <= |s| && s[..|pat|] == pat {
        assert OccursAt(s, pat, 0);
        assert false;
      }
      assert !Contains(s[1..], pat) by {
        if Contains(s[1..], pat) {
          var i :| 0 <= i <= |s[1..]| - |pat| && OccursAt(s[1..], pat, i);
          assert s[i + 1..i + 1 + |pat|] == s[1..][i..i + |pat|];
          assert OccursAt(s, pat, i + 1);
        }
      }
      ReplaceAbsent(s[1..], pat, rep);
      assert [s[0]] + s[1..] == s;
    }
  }

  /** The only normalisation is the abbreviation: a claim that does not hold it is backed
      exactly by the documents that contain it, ignoring case. */
  lemma OnlyAbbreviationNormalised(doc: string, claim: string)
    requires !Contains(Lower(claim), Abbreviated)
    ensures Backs(doc, claim) <==> Contains(Lower(doc), Lower(claim))
  {
    ReplaceAbsent(Lower(claim), Abbreviated, Spelled);
  }

  /** A document that contains the claim, in any case, backs it. */
  lemma VerbatimClaimIsBacked(doc: string, claim: string, vault: seq<string>)
    requires Contains(doc, claim) && doc in vault
    ensures CheckHallucination(claim, vault)
  {
    ContainsLower(doc, claim);
    var i :| 0 <= i < |vault| && vault[i] == doc;
    assert Backs(vault[i], claim);
  }

  /** The abbreviated amount is backed by a document that spells it out, though that document
      does not contain it verbatim. */
  lemma SpelledOutAmountBacks()
    ensures Backs("Budget: $5 million", "$5M")
    ensures !Contains(Lower("Budget: $5 million"), Lower("$5M"))
  {
    assert Lower("$5M") == "$5m";
    assert Normalized("$5M") == "$5 million";
    var doc := Lower("Budget: $5 million");
    assert doc == "budget: $5 million";
    assert doc[8..18] == "$5 million";
    assert OccursAt(doc, "$5 million", 8);
    forall i | 0 <= i <= |doc| - 3 ensures !OccursAt(doc, "$5m", i) {
      assert doc[i..i + 3][0] == doc[i] && doc[i..i + 3][2] == doc[i + 2];
    }
  }
}

=== FILE: cli_interface.dfy ===
/** The command-line layer: command results, commands that turn a raised
    exception into a failed result, the registry of commands by name, and the
    interface that keeps a history of every execution. What a command's
    `execute` does is an oracle of its keyword arguments. */
module CliInterface {
  import opened Common
  import opened Text
  import OrderedMap
  import Values

  datatype CommandStatus = Pending | Running | Completed | Failed | Cancelled

  function StatusValue(s: CommandStatus): string {
    match s
    case Pending => "pending"
    case Running => "running"
    case Completed => "completed"
    case Failed => "failed"
    case Cancelled => "cancelled"
  }

  /** Durations are whole milliseconds here. */
  datatype CommandResult = CommandResult(status: CommandStatus, output: Values.Value, message: string,
                                         error: Option<string>, durationMs: Option<int>)

  predicate IsSuccess(r: CommandResult) { r.status == Completed }

  predicate IsError(r: CommandResult) { r.status == Failed }

  /** Success and error are exclusive, and the three other statuses are neither. */
  lemma SuccessAndErrorExclusive(r: CommandResult)
    ensures !(IsSuccess(r) && IsError(r))
    ensures r.status in {Pending, Running, Cancelled} <==> !IsSuccess(r) && !IsError(r)
  {
  }

  /** A command; `execute` either returns a result or raises with a message. */
  datatype Command = Command(name: string, description: string, options: OrderedMap.Dict<string, string>,
                             execute: Values.Payload -> Result<CommandResult>)

  /** `await command.run(**kwargs)`: an exception becomes a FAILED result. */
  function Run(c: Command, kwargs: Values.Payload): (r: CommandResult)
    ensures c.execute(kwargs).Ok? ==> r == c.execute(kwargs).value
    ensures c.execute(kwargs).Err? ==>
              r.status == Failed && r.output == Values.Null && r.durationMs.None?
              && r.message == "Command failed: " + c.name
              && r.error == Some(c.execute(kwargs).error.message)
  {
    match c.execute(kwargs)
    case Ok(res) => res
    case Err(e) => CommandResult(Failed, Values.Null, "Command failed: " + c.name, Some(e.message), None)
  }

  type Registry = OrderedMap.Dict<string, Command>

  /** `register(command)`: keyed by the command's name, replacing one of the same name. */
  function Register(reg: Registry, c: Command): (r: Registry)
    ensures c.name in r.m && r.m[c.name] == c
    ensures forall n :: n in reg.m && n != c.name ==> n in r.m && r.m[n] == reg.m[n]
    ensures r.m.Keys == reg.m.Keys + {c.name}
  {
    OrderedMap.Put(reg, c.name, c)
  }

  /** `unregister(name)`: unknown names are ignored. */
  function Unregister(reg: Registry, name: string): (r: Registry)
    ensures name !in r.m && r.m.Keys == reg.m.Keys - {name}
    ensures forall n :: n in r.m ==> r.m[n] == reg.m[n]
    ensures name !in reg.m ==> r == reg
  {
    OrderedMap.Remove(reg, name)
  }

  /** `get(name)` */
  function Get(reg: Registry, name: string): (r: Option<Command>)
    ensures r.Some? <==> name in reg.m
    ensures r.Some? ==> r.value == reg.m[name]
  {
    if name in reg.m then Some(reg.m[name]) else None
  }

  /** `list_commands()` */
  function ListCommands(reg: Registry): (r: seq<string>)
    ensures OrderedMap.Distinct(r) && forall n :: n in r <==> n in reg.m
  {
    reg.keys
  }

  /** The result for a name with no command. */
  function UnknownCommand(name: string): CommandResult {
    CommandResult(Failed, Values.Null, "Unknown command: " + name, Some("Command not found: " + name), None)
  }

  /** `await registry.execute(name, **kwargs)` */
  function Execute(reg: Registry, name: string, kwargs: Values.Payload): (r: CommandResult)
    ensures name !in reg.m ==> r == UnknownCommand(name) && IsError(r)
    ensures name in reg.m ==> r == Run(reg.m[name], kwargs)
  {
    match Get(reg, name)
    case None => UnknownCommand(name)
    case Some(c) => Run(c, kwargs)
  }

  /** Registering a command makes it the one executed under its name; unregistering makes the
      name unknown again. */
  lemma RegisterThenExecute(reg: Registry, c: Command, kwargs: Values.Payload)
    ensures Execute(Register(reg, c), c.name, kwargs) == Run(c, kwargs)
    ensures Execute(Unregister(Register(reg, c), c.name), c.name, kwargs) == UnknownCommand(c.name)
  {
  }

  // ---------------------------------------------------------------------
  // The interface and its history
  // ---------------------------------------------------------------------

  datatype HistoryEntry = HistoryEntry(command: string, kwargs: Values.Payload, result: string)

  datatype Interface = Interface(registry: Registry, history: seq<HistoryEntry>)

  function NewInterface(): (i: Interface)
    ensures |i.registry.keys| == 0 && i.history == []
  {
    Interface(OrderedMap.Empty(), [])
  }

  /** `register_command(command)` */
  function RegisterCommand(i: Interface, c: Command): (r: Interface)
    ensures r.registry == Register(i.registry, c) && r.history == i.history
  {
    i.(registry := Register(i.registry, c))
  }

  /** `await execute_command(name, **kwargs)`: every call, known or not, leaves one entry. */
  function ExecuteCommand(i: Interface, name: string, kwargs: Values.Payload): (r: (Interface, CommandResult))
    ensures r.1 == Execute(i.registry, name, kwargs)
    ensures r.0.registry == i.registry
    ensures r.0.history == i.history + [HistoryEntry(name, kwargs, StatusValue(r.1.status))]
  {
    var res := Execute(i.registry, name, kwargs);
    (i.(history := i.history + [HistoryEntry(name, kwargs, StatusValue(res.status))]), res)
  }

  /** A sequence of calls, each a name with its arguments. */
  function ExecuteAll(i: Interface, calls: seq<(string, Values.Payload)>): Interface {
    if |calls| == 0 then i
    else ExecuteCommand(ExecuteAll(i, calls[..|calls| - 1]), calls[|calls| - 1].0, calls[|calls| - 1].1).0
  }

  /** The history gains one entry per call, in call order, each naming its command and the
      status it ended with; earlier entries are kept. */
  lemma {:induction false} HistoryRecordsEveryCall(i: Interface, calls: seq<(string, Values.Payload)>)
    ensures var h := ExecuteAll(i, calls).history;
            |h| == |i.history| + |calls| && h[..|i.history|] == i.history
            && forall k :: 0 <= k < |calls| ==>
                 h[|i.history| + k].command == calls[k].0 && h[|i.history| + k].kwargs == calls[k].1
                 && h[|i.history| + k].result == StatusValue(Execute(i.registry, calls[k].0, calls[k].1).status)
    ensures ExecuteAll(i, calls).registry == i.registry
  {
    if |calls| > 0 {
      var front := calls[..|calls| - 1];
      HistoryRecordsEveryCall(i, front);
      var i' := ExecuteAll(i, front);
      var h := ExecuteAll(i, calls).history;
      assert h == i'.history + [HistoryEntry(calls[|calls| - 1].0, calls[|calls| - 1].1,
                                             StatusValue(Execute(i.registry, calls[|calls| - 1].0, calls[|calls| - 1].1).status))];
      forall k | 0 <= k < |calls|
        ensures h[|i.history| + k].command == calls[k].0 && h[|i.history| + k].kwargs == calls[k].1
        ensures h[|i.history| + k].result == StatusValue(Execute(i.registry, calls[k].0, calls[k].1).status)
      {
        if k < |front| {
          assert h[|i.history| + k] == i'.history[|i.history| + k];
          assert calls[k] == front[k];
        }
      }
    }
  }

  /** `get_history()` returns a copy of the entries; `clear_history()` empties them. */
  function GetHistory(i: Interface): (r: seq<HistoryEntry>)
    ensures r == i.history
  {
    i.history
  }

  function ClearHistory(i: Interface): (r: Interface)
    ensures r.history == [] && r.registry == i.registry
  {
    i.(history := [])
  }

  /** `list_commands()` on the interface */
  function InterfaceCommands(i: Interface): (r: seq<string>)
    ensures OrderedMap.Distinct(r) && forall n :: n in r <==> n in i.registry.m
  {
    ListCommands(i.registry)
  }

  /** The option lines of a help text, `"  <name>: <description>\n"` each. */
  function OptionLines(opts: OrderedMap.Dict<string, string>, n: nat): (r: string)
    requires n <= |opts.keys|
  {
    if n == 0 then ""
    else OptionLines(opts, n - 1) + "  " + opts.keys[n - 1] + ": " + opts.m[opts.keys[n - 1]] + "\n"
  }

  /** `get_command_help(name)` */
  function CommandHelp(i: Interface, name: string): (r: Option<string>)
    ensures r.None? <==> name !in i.registry.m
    ensures r.Some? ==>
              var c := i.registry.m[name];
              var head := "Command: " + c.name + "\n" + "Description: " + c.description + "\n";
              |head| <= |r.value| && r.value[..|head|] == head
              && (|c.options.keys| == 0 <==> r.value == head)
  {
    match Get(i.registry, name)
    case None => None
    case Some(c) =>
      var head := "Command: " + c.name + "\n" + "Description: " + c.description + "\n";
      var opts := if |c.options.keys| > 0 then "Options:\n" + OptionLines(c.options, |c.options.keys|) else "";
      assert (head + opts)[..|head|] == head;
      Some(head + opts)
  }

  /** Every option of a command is listed on its own line of the help text. */
  lemma {:induction false} HelpListsOption(i: Interface, name: string, k: nat)
    requires name in i.registry.m && k < |i.registry.m[name].options.keys|
    ensures var opts := i.registry.m[name].options;
            Contains(CommandHelp(i, name).value, "  " + opts.keys[k] + ": " + opts.m[opts.keys[k]] + "\n")
  {
    var c := i.registry.m[name];
    var head := "Command: " + c.name + "\n" + "Description: " + c.description + "\n";
    var line := "  " + c.options.keys[k] + ": " + c.options.m[c.options.keys[k]] + "\n";
    OptionLineIn(c.options, |c.options.keys|, k);
    var lines := OptionLines(c.options, |c.options.keys|);
    var j :| 0 <= j <= |lines| - |line| && OccursAt(lines, line, j);
    var help := head + ("Options:\n" + lines);
    assert help == CommandHelp(i, name).value;
    var at := |head| + |"Options:\n"| + j;
    assert help[at..at + |line|] == lines[j..j + |line|];
    assert OccursAt(help, line, at);
  }

  lemma {:induction false} OptionLineIn(opts: OrderedMap.Dict<string, string>, n: nat, k: nat)
    requires k < n <= |opts.keys|
    ensures Contains(OptionLines(opts, n), "  " + opts.keys[k] + ": " + opts.m[opts.keys[k]] + "\n")
  {
    var line := "  " + opts.keys[k] + ": " + opts.m[opts.keys[k]] + "\n";
    var front := OptionLines(opts, n - 1);
    var last := "  " + opts.keys[n - 1] + ": " + opts.m[opts.keys[n - 1]] + "\n";
    assert OptionLines(opts, n) == front + last;
    if k == n - 1 {
      assert OptionLines(opts, n)[|front|..|front| + |line|] == line;
      assert OccursAt(OptionLines(opts, n), line, |front|);
    } else {
      OptionLineIn(opts, n - 1, k);
      var j :| 0 <= j <= |front| - |line| && OccursAt(front, line, j);
      assert OptionLines(opts, n)[j..j + |line|] == front[j..j + |line|];
      assert OccursAt(OptionLines(opts, n), line, j);
    }
  }
}

=== FILE: common.dfy ===
/** Shared result types for the model: Python's "value or None" and
    "value or raised exception" returns. */
module Common {

  /** A Python `Optional[T]`: `None` or a value. */
  datatype Option<+T> = None | Some(value: T)

  /** The Python exception classes that the modelled code raises. */
  datatype ExcKind =
    | ValueError
    | RuntimeError
    | KeyError
    | AttributeError
    | TypeError
    | AxiomViolationError

  /** A raised exception: its class and its `str(e)`. */
  datatype Exception = Exception(kind: ExcKind, message: string)

  /** The outcome of a call that either returns a value or raises. */
  datatype Result<+T> = Ok(value: T) | Err(error: Exception) {
    predicate IsFailure() { Err? }

    function PropagateFailure<U>(): Result<U>
      requires Err?
    {
      Err(error)
    }

    function Extract(): T
      requires Ok?
    {
      value
    }
  }

  function Max(a: int, b: int): int { if a >= b then a else b }
  function Min(a: int, b: int): int { if a <= b then a else b }

  /** Concatenation regrouped, stated apart from any context whose quantifiers would
      otherwise keep re-instantiating it. */
  lemma AppendAssoc<T>(a: seq<T>, b: seq<T>, c: seq<T>)
    ensures a + b + c == a + (b + c)
  {
  }
}

=== FILE: cortex.dfy ===
/** History clean-up before a prompt: consecutive messages of the same role
    collapse to the latest one. */
module Cortex {
  import opened Common

  /** A chat message; `role` is `None` when the dictionary has no "role" key. */
  datatype Message = Message(role: Option<string>, content: string)

  /** The loop body of `sanitize_messages`: `acc` is `sanitized`, `last` is `last_role`. */
  function Fold(ms: seq<Message>, acc: seq<Message>, last: Option<string>): seq<Message>
    decreases |ms|
  {
    if |ms| == 0 then acc
    else if ms[0].role == last then
      Fold(ms[1..], if |acc| > 0 then acc[..|acc| - 1] + [ms[0]] else acc, last)
    else
      Fold(ms[1..], acc + [ms[0]], ms[0].role)
  }

  /** `Cortex.sanitize_messages(messages)` */
  function Sanitize(ms: seq<Message>): seq<Message> {
    Fold(ms, [], None)
  }

  // ---------------------------------------------------------------------
  // An independent description of the result
  // ---------------------------------------------------------------------

  /** Messages before the first one that has a role are dropped. */
  function DropLeadingNone(ms: seq<Message>): (r: seq<Message>)
    ensures |r| <= |ms| && r == ms[|ms| - |r|..]
    ensures |r| > 0 ==> r[0].role.Some?
  {
    if |ms| > 0 && ms[0].role.None? then DropLeadingNone(ms[1..]) else ms
  }

  /** Keep only the last message of every maximal run of equal roles. */
  function Collapse(ms: seq<Message>): seq<Message> {
    if |ms| == 0 then []
    else if |ms| >= 2 && ms[0].role == ms[1].role then Collapse(ms[1..])
    else [ms[0]] + Collapse(ms[1..])
  }

  predicate NoAdjacentSameRole(ms: seq<Message>) {
    forall i :: 0 <= i < |ms| - 1 ==> ms[i].role != ms[i + 1].role
  }

  /** `a` is `b` with some elements left out, order kept. */
  predicate IsSubseq(a: seq<Message>, b: seq<Message>)
    decreases |b|
  {
    if |a| == 0 then true
    else if |b| == 0 then false
    else (a[0] == b[0] && IsSubseq(a[1..], b[1..])) || IsSubseq(a, b[1..])
  }

  /** Position `j` of `ms` ends a run of equal roles. */
  predicate EndsRun(ms: seq<Message>, j: int) {
    0 <= j < |ms| && (j + 1 == |ms| || ms[j + 1].role != ms[j].role)
  }

  // ---------------------------------------------------------------------
  // The loop computes the description
  // ---------------------------------------------------------------------

  lemma {:induction false} FoldFromNonEmpty(ms: seq<Message>, acc: seq<Message>)
    requires |acc| > 0
    ensures Fold(ms, acc, acc[|acc| - 1].role) == acc[..|acc| - 1] + Collapse([acc[|acc| - 1]] + ms)
    decreases |ms|
  {
    var x := acc[|acc| - 1];
    var front := acc[..|acc| - 1];
    if |ms| == 0 {
      assert [x] + ms == [x];
      assert front + [x] == acc;
    } else if ms[0].role == x.role {
      var acc' := front + [ms[0]];
      FoldFromNonEmpty(ms[1..], acc');
      assert acc'[..|acc'| - 1] == front;
      assert [ms[0]] + ms[1..] == ms;
      assert ([x] + ms)[1..] == ms;
    } else {
      var acc' := acc + [ms[0]];
      FoldFromNonEmpty(ms[1..], acc');
      assert acc'[..|acc'| - 1] == acc;
      assert [ms[0]] + ms[1..] == ms;
      assert ([x] + ms)[1..] == ms;
      assert front + ([x] + Collapse(ms)) == acc + Collapse(ms);
    }
  }

  /** `sanitize_messages` drops leading role-less messages and collapses runs. */
  lemma {:induction false} SanitizeIsCollapse(ms: seq<Message>)
    ensures Sanitize(ms) == Collapse(DropLeadingNone(ms))
  {
    if |ms| > 0 {
      if ms[0].role.None? {
        SanitizeIsCollapse(ms[1..]);
      } else {
        FirstRole(ms);
        FoldFromNonEmpty(ms[1..], [ms[0]]);
        assert [ms[0]] + ms[1..] == ms;
      }
    }
  }

  lemma FirstRole(ms: seq<Message>)
    requires |ms| > 0 && ms[0].role.Some?
    ensures Sanitize(ms) == Fold(ms[1..], [ms[0]], ms[0].role)
    ensures DropLeadingNone(ms) == ms
  {
    assert [] + [ms[0]] == [ms[0]];
  }

  // ---------------------------------------------------------------------
  // Properties of the result
  // ---------------------------------------------------------------------

  lemma {:induction false} CollapseHead(ms: seq<Message>)
    requires |ms| > 0
    ensures |Collapse(ms)| > 0 && Collapse(ms)[0].role == ms[0].role
  {
    if |ms| >= 2 && ms[0].role == ms[1].role {
      CollapseHead(ms[1..]);
    }
  }

  lemma {:induction false} CollapseNoAdjacent(ms: seq<Message>)
    ensures NoAdjacentSameRole(Collapse(ms))
  {
    if |ms| > 0 {
      CollapseNoAdjacent(ms[1..]);
      if !(|ms| >= 2 && ms[0].role == ms[1].role) && |ms| >= 2 {
        CollapseHead(ms[1..]);
      }
    }
  }

  lemma {:induction false} CollapseSubseq(ms: seq<Message>)
    ensures IsSubseq(Collapse(ms), ms)
  {
    if |ms| > 0 {
      CollapseSubseq(ms[1..]);
      if |ms| >= 2 && ms[0].role == ms[1].role {
        SkipHead(Collapse(ms[1..]), ms);
      } else {
        assert ([ms[0]] + Collapse(ms[1..]))[1..] == Collapse(ms[1..]);
      }
    }
  }

  lemma SkipHead(a: seq<Message>, b: seq<Message>)
    requires |b| > 0 && IsSubseq(a, b[1..])
    ensures IsSubseq(a, b)
  {
  }

  lemma {:induction false} SubseqOfSuffix(a: seq<Message>, b: seq<Message>, k: nat)
    requires k <= |b| && IsSubseq(a, b[k..])
    ensures IsSubseq(a, b)
    decreases k
  {
    if k > 0 {
      assert b[k..] == b[1..][k - 1..];
      SubseqOfSuffix(a, b[1..], k - 1);
      SkipHead(a, b);
    }
  }

  lemma {:induction false} SubseqShorter(a: seq<Message>, b: seq<Message>)
    requires IsSubseq(a, b)
    ensures |a| <= |b|
    decreases |b|
  {
    if |a| > 0 {
      if a[0] == b[0] && IsSubseq(a[1..], b[1..]) {
        SubseqShorter(a[1..], b[1..]);
      } else {
        SubseqShorter(a, b[1..]);
      }
    }
  }

  /** Every kept message ends a run of equal roles in the collapsed input. */
  lemma {:induction false} CollapseKeepsRunEnd(ms: seq<Message>, k: nat)
    requires k < |Collapse(ms)|
    ensures exists j :: EndsRun(ms, j) && Collapse(ms)[k] == ms[j]
  {
    var c := Collapse(ms);
    if |ms| >= 2 && ms[0].role == ms[1].role {
      assert c == Collapse(ms[1..]);
      CollapseKeepsRunEnd(ms[1..], k);
      var j :| EndsRun(ms[1..], j) && Collapse(ms[1..])[k] == ms[1..][j];
      assert EndsRun(ms, j + 1) && c[k] == ms[j + 1];
    } else if k == 0 {
      assert c[0] == ms[0];
      assert EndsRun(ms, 0);
    } else {
      assert c == [ms[0]] + Collapse(ms[1..]);
      assert c[k] == Collapse(ms[1..])[k - 1];
      CollapseKeepsRunEnd(ms[1..], k - 1);
      var j :| EndsRun(ms[1..], j) && Collapse(ms[1..])[k - 1] == ms[1..][j];
      assert EndsRun(ms, j + 1) && c[k] == ms[j + 1];
    }
  }

  /** No two adjacent output messages share a role; the output is an order-preserving
      subsequence of the input (so no longer); each kept message ends a run. */
  lemma SanitizeProperties(ms: seq<Message>)
    ensures NoAdjacentSameRole(Sanitize(ms))
    ensures IsSubseq(Sanitize(ms), ms) && |Sanitize(ms)| <= |ms|
    ensures forall k :: 0 <= k < |Sanitize(ms)| ==>
              exists j :: EndsRun(ms, j) && Sanitize(ms)[k] == ms[j]
  {
    SanitizeIsCollapse(ms);
    var d := DropLeadingNone(ms);
    CollapseNoAdjacent(d);
    CollapseSubseq(d);
    SubseqOfSuffix(Collapse(d), ms, |ms| - |d|);
    SubseqShorter(Sanitize(ms), ms);
    forall k | 0 <= k < |Sanitize(ms)|
      ensures exists j :: EndsRun(ms, j) && Sanitize(ms)[k] == ms[j]
    {
      CollapseKeepsRunEnd(d, k);
      var j :| EndsRun(d, j) && Collapse(d)[k] == d[j];
      assert EndsRun(ms, j + |ms| - |d|);
    }
  }

  lemma {:induction false} CollapseOfCollapsed(ms: seq<Message>)
    requires NoAdjacentSameRole(ms)
    ensures Collapse(ms) == ms
  {
    if |ms| > 0 {
      CollapseOfCollapsed(ms[1..]);
      assert [ms[0]] + ms[1..] == ms;
    }
  }

  /** Sanitising twice is sanitising once; an empty history stays empty. */
  lemma SanitizeIdempotent(ms: seq<Message>)
    ensures Sanitize(Sanitize(ms)) == Sanitize(ms)
    ensures Sanitize([]) == []
  {
    var out := Sanitize(ms);
    SanitizeIsCollapse(ms);
    SanitizeIsCollapse(out);
    var d := DropLeadingNone(ms);
    CollapseNoAdjacent(d);
    if |d| > 0 {
      CollapseHead(d);
    }
    assert DropLeadingNone(out) == out;
    CollapseOfCollapsed(out);
  }

  /** Role-less messages at the start are dropped entirely. */
  lemma LeadingRolelessDropped(none: seq<Message>, rest: seq<Message>)
    requires forall i :: 0 <= i < |none| ==> none[i].role.None?
    ensures Sanitize(none + rest) == Sanitize(DropLeadingNone(rest))
  {
    SanitizeIsCollapse(none + rest);
    SanitizeIsCollapse(DropLeadingNone(rest));
    DropPrefix(none, rest);
    DropIdempotent(rest);
  }

  lemma {:induction false} DropPrefix(none: seq<Message>, rest: seq<Message>)
    requires forall i :: 0 <= i < |none| ==> none[i].role.None?
    ensures DropLeadingNone(none + rest) == DropLeadingNone(rest)
  {
    if |none| > 0 {
      assert (none + rest)[1..] == none[1..] + rest;
      DropPrefix(none[1..], rest);
    } else {
      assert none + rest == rest;
    }
  }

  lemma DropIdempotent(ms: seq<Message>)
    ensures DropLeadingNone(DropLeadingNone(ms)) == DropLeadingNone(ms)
  {
  }
}

=== FILE: cost_tracker.dfy ===
/** Recording executions with their computed costs, and the aggregate report. */
module CostTracker {
  import opened Common
  import OrderedMap
  import opened Pricing
  import Aggregate

  datatype ExecutionCost = ExecutionCost(
    executionId: string,
    modelId: string,
    timestamp: int,
    inputTokens: int, outputTokens: int, cachedTokens: int, reasoningTokens: int,
    inputCost: real, outputCost: real, totalCost: real,
    durationMs: Option<real>, success: bool, error: Option<string>)

  datatype Tracker = Tracker(pricing: Registry, executions: seq<ExecutionCost>)

  function NewTracker(pricing: Option<Registry>): (t: Tracker)
    ensures |t.executions| == 0
    ensures pricing.Some? ==> t.pricing == pricing.value
    ensures pricing.None? ==> t.pricing == NewRegistry()
  {
    Tracker(if pricing.Some? then pricing.value else NewRegistry(), [])
  }

  /** A record whose costs are the ones its own token counts give under `p`. */
  predicate PricedBy(e: ExecutionCost, p: ModelPricing) {
    e.inputCost == InputCost(p, e.inputTokens, e.cachedTokens)
    && e.outputCost == OutputCost(p, e.outputTokens, e.reasoningTokens)
    && e.totalCost == e.inputCost + e.outputCost
  }

  /** `record_execution(...)`; `now` is the record's timestamp. */
  function RecordExecution(t: Tracker, executionId: string, modelId: string,
                           input: int, output: int, cached: int, reasoning: int,
                           durationMs: Option<real>, success: bool, error: Option<string>, now: int)
    : (r: Result<(Tracker, ExecutionCost)>)
    ensures r.Err? <==> modelId !in t.pricing.m
    ensures r.Err? ==> r.error == Exception(ValueError, "Unknown model: " + modelId)
    ensures r.Ok? ==>
              var (t', e) := r.value;
              t'.executions == t.executions + [e] && t'.pricing == t.pricing
              && e.modelId == modelId && e.executionId == executionId && e.timestamp == now
              && e.inputTokens == input && e.outputTokens == output
              && e.cachedTokens == cached && e.reasoningTokens == reasoning
              && PricedBy(e, t.pricing.m[modelId])
              && e.totalCost == TotalCost(t.pricing.m[modelId], input, output, cached, reasoning)
  {
    match GetModelPricing(t.pricing, modelId)
    case None => Err(Exception(ValueError, "Unknown model: " + modelId))
    case Some(p) =>
      var inCost := InputCost(p, input, cached);
      var outCost := OutputCost(p, output, reasoning);
      var e := ExecutionCost(executionId, modelId, now, input, output, cached, reasoning,
                             inCost, outCost, inCost + outCost, durationMs, success, error);
      Ok((t.(executions := t.executions + [e]), e))
  }

  /** `clear()` */
  function Clear(t: Tracker): (r: Tracker)
    ensures |r.executions| == 0 && r.pricing == t.pricing
  {
    t.(executions := [])
  }

  // ---------------------------------------------------------------------
  // Sums over the records, accumulated front to back as the report loop does
  // ---------------------------------------------------------------------

  function SumReal(es: seq<ExecutionCost>, f: ExecutionCost -> real): real {
    if |es| == 0 then 0.0 else SumReal(es[..|es| - 1], f) + f(es[|es| - 1])
  }

  function SumInt(es: seq<ExecutionCost>, f: ExecutionCost -> int): int {
    if |es| == 0 then 0 else SumInt(es[..|es| - 1], f) + f(es[|es| - 1])
  }

  function TotalOf(e: ExecutionCost): real { e.totalCost }
  function InputCostOf(e: ExecutionCost): real { e.inputCost }
  function OutputCostOf(e: ExecutionCost): real { e.outputCost }
  function InputOf(e: ExecutionCost): int { e.inputTokens }
  function OutputOf(e: ExecutionCost): int { e.outputTokens }
  function CachedOf(e: ExecutionCost): int { e.cachedTokens }
  function ReasoningOf(e: ExecutionCost): int { e.reasoningTokens }
  /** The per-record contribution to `total_tokens`: cached tokens are left out. */
  function TokensOf(e: ExecutionCost): int { e.inputTokens + e.outputTokens + e.reasoningTokens }

  /** What caching saved on one record: the cached tokens at the input price, less the
      cached tokens at the cached price (or half the input price when there is none). */
  function Saving(reg: Registry, e: ExecutionCost): real {
    if e.modelId in reg.m && e.cachedTokens > 0 then
      var p := reg.m[e.modelId];
      var regular := (e.cachedTokens as real) * p.inputPrice / Million;
      var cachedPrice := if Truthy(p.cachedPrice) then p.cachedPrice.value else p.inputPrice * 0.5;
      regular - (e.cachedTokens as real) * cachedPrice / Million
    else 0.0
  }

  /** `cost[k] = cost.get(k, 0.0) + c` on an insertion-ordered dict. */
  function AddTo(d: OrderedMap.Dict<string, real>, k: string, c: real): (r: OrderedMap.Dict<string, real>)
    ensures r.m == d.m[k := (if k in d.m then d.m[k] else 0.0) + c]
  {
    OrderedMap.Put(d, k, (if k in d.m then d.m[k] else 0.0) + c)
  }

  function CostByModel(es: seq<ExecutionCost>): OrderedMap.Dict<string, real> {
    if |es| == 0 then OrderedMap.Empty()
    else AddTo(CostByModel(es[..|es| - 1]), es[|es| - 1].modelId, es[|es| - 1].totalCost)
  }

  /** Records whose model is no longer priced contribute to no provider. */
  function CostByProvider(es: seq<ExecutionCost>, reg: Registry): OrderedMap.Dict<string, real> {
    if |es| == 0 then OrderedMap.Empty()
    else
      var d := CostByProvider(es[..|es| - 1], reg);
      var e := es[|es| - 1];
      if e.modelId in reg.m then AddTo(d, ProviderName(reg.m[e.modelId].provider), e.totalCost) else d
  }

  /** The records' total costs, in order. */
  function Totals(es: seq<ExecutionCost>): (r: seq<real>)
    ensures |r| == |es| && forall i :: 0 <= i < |es| ==> r[i] == es[i].totalCost
  {
    seq(|es|, i requires 0 <= i < |es| => es[i].totalCost)
  }

  datatype CostReport = CostReport(
    totalExecutions: nat, totalTokens: int, totalCost: real,
    costByModel: OrderedMap.Dict<string, real>, costByProvider: OrderedMap.Dict<string, real>,
    totalInputTokens: int, totalOutputTokens: int, totalCachedTokens: int, totalReasoningTokens: int,
    totalInputCost: real, totalOutputCost: real, savingsFromCache: real,
    avgCost: real, minCost: real, maxCost: real,
    startTime: Option<int>, endTime: Option<int>)

  /** `CostReport()` */
  function DefaultReport(): (r: CostReport)
    ensures r.totalExecutions == 0 && r.totalCost == 0.0 && r.totalTokens == 0
    ensures |r.costByModel.keys| == 0 && r.startTime.None?
  {
    CostReport(0, 0, 0.0, OrderedMap.Empty(), OrderedMap.Empty(), 0, 0, 0, 0, 0.0, 0.0, 0.0,
               0.0, 0.0, 0.0, None, None)
  }

  /** `get_report()` */
  function GetReport(t: Tracker): (r: CostReport)
    ensures |t.executions| == 0 ==> r == DefaultReport()
    ensures r.totalExecutions == |t.executions|
    ensures |t.executions| > 0 ==>
              r.startTime == Some(t.executions[0].timestamp)
              && r.endTime == Some(t.executions[|t.executions| - 1].timestamp)
  {
    var es := t.executions;
    if |es| == 0 then DefaultReport()
    else
      var total := SumReal(es, TotalOf);
      CostReport(
        |es|, SumInt(es, TokensOf), total,
        CostByModel(es), CostByProvider(es, t.pricing),
        SumInt(es, InputOf), SumInt(es, OutputOf), SumInt(es, CachedOf), SumInt(es, ReasoningOf),
        SumReal(es, InputCostOf), SumReal(es, OutputCostOf),
        SumReal(es, e => Saving(t.pricing, e)),
        total / (|es| as real), Aggregate.Least(Totals(es)), Aggregate.Greatest(Totals(es)),
        Some(es[0].timestamp), Some(es[|es| - 1].timestamp))
  }

  // ---------------------------------------------------------------------
  // Properties of the report
  // ---------------------------------------------------------------------

  /** The sum of the values of a dict, in key order. */
  function SumValues(keys: seq<string>, m: map<string, real>): real
    requires forall k :: k in keys ==> k in m
  {
    if |keys| == 0 then 0.0 else m[keys[0]] + SumValues(keys[1..], m)
  }

  lemma {:induction false} SumValuesUnaffected(keys: seq<string>, m: map<string, real>, k: string, v: real)
    requires forall x :: x in keys ==> x in m
    requires k !in keys
    ensures SumValues(keys, m[k := v]) == SumValues(keys, m)
  {
    if |keys| > 0 {
      SumValuesUnaffected(keys[1..], m, k, v);
    }
  }

  lemma {:induction false} SumValuesAppend(keys: seq<string>, m: map<string, real>, k: string)
    requires forall x :: x in keys ==> x in m
    requires k in m
    ensures SumValues(keys + [k], m) == SumValues(keys, m) + m[k]
  {
    if |keys| == 0 {
      assert keys + [k] == [k];
    } else {
      assert (keys + [k])[1..] == keys[1..] + [k];
      SumValuesAppend(keys[1..], m, k);
    }
  }

  lemma {:induction false} SumValuesBump(keys: seq<string>, m: map<string, real>, k: string, c: real)
    requires forall x :: x in keys ==> x in m
    requires OrderedMap.Distinct(keys) && k in keys
    ensures SumValues(keys, m[k := m[k] + c]) == SumValues(keys, m) + c
  {
    OrderedMap.HeadNotInTail(keys);
    if keys[0] == k {
      SumValuesUnaffected(keys[1..], m, k, m[k] + c);
    } else {
      SumValuesBump(keys[1..], m, k, c);
    }
  }

  lemma AddToSum(d: OrderedMap.Dict<string, real>, k: string, c: real)
    ensures SumValues(AddTo(d, k, c).keys, AddTo(d, k, c).m) == SumValues(d.keys, d.m) + c
  {
    if k in d.m {
      SumValuesBump(d.keys, d.m, k, c);
    } else {
      SumValuesUnaffected(d.keys, d.m, k, c);
      SumValuesAppend(d.keys, d.m[k := c], k);
    }
  }

  /** The per-model costs add up to the total cost, and name exactly the models recorded. */
  lemma {:induction false} CostByModelSums(es: seq<ExecutionCost>)
    ensures SumValues(CostByModel(es).keys, CostByModel(es).m) == SumReal(es, TotalOf)
    ensures forall k :: k in CostByModel(es).m <==> exists i :: 0 <= i < |es| && es[i].modelId == k
  {
    CostByModelTotal(es);
    CostByModelKeys(es);
  }

  lemma {:induction false} CostByModelTotal(es: seq<ExecutionCost>)
    ensures SumValues(CostByModel(es).keys, CostByModel(es).m) == SumReal(es, TotalOf)
  {
    if |es| > 0 {
      CostByModelTotal(es[..|es| - 1]);
      AddToSum(CostByModel(es[..|es| - 1]), es[|es| - 1].modelId, es[|es| - 1].totalCost);
    }
  }

  lemma {:induction false} CostByModelKeys(es: seq<ExecutionCost>)
    ensures forall k :: k in CostByModel(es).m <==> exists i :: 0 <= i < |es| && es[i].modelId == k
  {
    if |es| > 0 {
      var front := es[..|es| - 1];
      CostByModelKeys(front);
      forall k | k in CostByModel(es).m
        ensures exists i :: 0 <= i < |es| && es[i].modelId == k
      {
        if k != es[|es| - 1].modelId {
          var i :| 0 <= i < |front| && front[i].modelId == k;
          assert es[i] == front[i];
        }
      }
      forall k | exists i :: 0 <= i < |es| && es[i].modelId == k
        ensures k in CostByModel(es).m
      {
        var i :| 0 <= i < |es| && es[i].modelId == k;
        if i < |front| {
          assert front[i] == es[i];
        }
      }
    }
  }

  /** The report's total cost is the sum of the records' total costs. */
  lemma {:induction false} SumOfTotals(es: seq<ExecutionCost>)
    ensures SumReal(es, TotalOf) == Aggregate.Sum(Totals(es))
  {
    if |es| > 0 {
      SumOfTotals(es[..|es| - 1]);
      assert Totals(es)[..|es| - 1] == Totals(es[..|es| - 1]);
    }
  }

  /** For a non-empty report, min <= average <= max. */
  lemma ReportStatsOrdered(t: Tracker)
    requires |t.executions| > 0
    ensures var r := GetReport(t); r.minCost <= r.avgCost <= r.maxCost
  {
    SumOfTotals(t.executions);
    Aggregate.MeanBetween(Totals(t.executions));
  }

  /** Token totals leave cached tokens out: they are the input, output and reasoning totals. */
  lemma {:induction false} TokensExcludeCached(es: seq<ExecutionCost>)
    ensures SumInt(es, TokensOf) == SumInt(es, InputOf) + SumInt(es, OutputOf) + SumInt(es, ReasoningOf)
  {
    if |es| > 0 {
      TokensExcludeCached(es[..|es| - 1]);
    }
  }

  /** Every record's total cost is its input cost plus its output cost. */
  predicate Consistent(t: Tracker) {
    forall i :: 0 <= i < |t.executions| ==>
      t.executions[i].totalCost == t.executions[i].inputCost + t.executions[i].outputCost
  }

  lemma RecordKeepsConsistent(t: Tracker, executionId: string, modelId: string,
                              input: int, output: int, cached: int, reasoning: int,
                              durationMs: Option<real>, success: bool, error: Option<string>, now: int)
    requires Consistent(t)
    ensures var r := RecordExecution(t, executionId, modelId, input, output, cached, reasoning,
                                     durationMs, success, error, now);
            r.Ok? ==> Consistent(r.value.0)
  {
  }

  lemma {:induction false} SplitSum(es: seq<ExecutionCost>)
    requires forall i :: 0 <= i < |es| ==> es[i].totalCost == es[i].inputCost + es[i].outputCost
    ensures SumReal(es, TotalOf) == SumReal(es, InputCostOf) + SumReal(es, OutputCostOf)
  {
    if |es| > 0 {
      SplitSum(es[..|es| - 1]);
    }
  }

  /** In a consistent tracker the total cost is the input plus the output cost. */
  lemma ReportTotalSplits(t: Tracker)
    requires Consistent(t)
    ensures var r := GetReport(t); r.totalCost == r.totalInputCost + r.totalOutputCost
  {
    SplitSum(t.executions);
  }

  /** Recording one execution adds one execution and its cost to the next report. */
  lemma RecordGrowsReport(t: Tracker, executionId: string, modelId: string,
                          input: int, output: int, cached: int, reasoning: int,
                          durationMs: Option<real>, success: bool, error: Option<string>, now: int)
    requires modelId in t.pricing.m
    ensures var r := RecordExecution(t, executionId, modelId, input, output, cached, reasoning,
                                     durationMs, success, error, now);
            var before := GetReport(t);
            var after := GetReport(r.value.0);
            after.totalExecutions == before.totalExecutions + 1
            && after.totalCost == before.totalCost + TotalCost(t.pricing.m[modelId], input, output, cached, reasoning)
            && after.totalTokens == before.totalTokens + input + output + reasoning
  {
    var r := RecordExecution(t, executionId, modelId, input, output, cached, reasoning,
                             durationMs, success, error, now);
    var es := r.value.0.executions;
    var e := r.value.1;
    assert es[..|es| - 1] == t.executions;
    assert SumReal(es, TotalOf) == SumReal(t.executions, TotalOf) + e.totalCost;
    assert SumInt(es, TokensOf) == SumInt(t.executions, TokensOf) + TokensOf(e);
  }

  /** An unknown model leaves the tracker as it was. */
  lemma UnknownModelRecordsNothing(t: Tracker, executionId: string, modelId: string,
                                   input: int, output: int, cached: int, reasoning: int, now: int)
    requires modelId !in t.pricing.m
    ensures RecordExecution(t, executionId, modelId, input, output, cached, reasoning, None, true, None, now).Err?
    ensures GetReport(t).totalExecutions == |t.executions|
  {
  }
}

=== FILE: dialogue.dfy ===
/** Dialogue contexts (a conversation as a list of turns) and the archive that
    stores them, answers queries and expires old ones. The clock is the `now`
    parameter, in whole seconds. */
module Dialogue {
  import opened Common
  import OrderedMap
  import Values

  datatype ActorRole = User | Agent | System

  function RoleValue(r: ActorRole): string {
    match r
    case User => "user"
    case Agent => "agent"
    case System => "system"
  }

  datatype Turn = Turn(actor: ActorRole, utterance: string, timestamp: int,
                       contextSnapshot: Values.Payload, annotations: Values.Payload)

  datatype Context = Context(contextId: string, originPlatform: string, participantId: string,
                             turns: seq<Turn>, createdAt: int, updatedAt: int, metadata: Values.Payload)

  /** `add_turn(actor, utterance, **kwargs)` at time `now`; the keyword arguments are the
      turn's snapshot and annotations. */
  function AddTurn(c: Context, actor: ActorRole, utterance: string, snapshot: Values.Payload,
                   annotations: Values.Payload, now: int): (r: Context)
    ensures |r.turns| == |c.turns| + 1 && r.turns[..|c.turns|] == c.turns
    ensures r.turns[|c.turns|] == Turn(actor, utterance, now, snapshot, annotations)
    ensures r.updatedAt == now
    ensures r == c.(turns := r.turns, updatedAt := now)
  {
    c.(turns := c.turns + [Turn(actor, utterance, now, snapshot, annotations)], updatedAt := now)
  }

  /** Python's `s[start:]` for any integer `start`: a negative start counts from the end, and
      a start beyond either end is clamped. */
  function SliceFrom<T>(s: seq<T>, start: int): (r: seq<T>)
    ensures start >= 0 ==> r == s[Min(start, |s|)..]
    ensures start < 0 ==> r == s[Max(|s| + start, 0)..]
  {
    if start >= 0 then s[Min(start, |s|)..] else s[Max(|s| + start, 0)..]
  }

  /** `get_history(limit)` */
  function GetHistory(c: Context, limit: Option<int>): (r: seq<Turn>)
    ensures limit.None? ==> r == c.turns
    ensures limit.Some? && limit.value == 0 ==> r == c.turns
    ensures limit.Some? && limit.value > 0 ==>
              |r| == Min(limit.value, |c.turns|) && r == c.turns[|c.turns| - |r|..]
    ensures limit.Some? && limit.value < 0 ==> r == c.turns[Min(-limit.value, |c.turns|)..]
  {
    if limit.None? then c.turns else SliceFrom(c.turns, -limit.value)
  }

  /** `get_last_turn()` */
  function GetLastTurn(c: Context): (r: Option<Turn>)
    ensures r.None? <==> |c.turns| == 0
    ensures r.Some? ==> r.value == c.turns[|c.turns| - 1]
  {
    if |c.turns| > 0 then Some(c.turns[|c.turns| - 1]) else None
  }

  /** `clear_history()` at time `now` */
  function ClearHistory(c: Context, now: int): (r: Context)
    ensures r.turns == [] && r.updatedAt == now
    ensures r == c.(turns := [], updatedAt := now)
  {
    c.(turns := [], updatedAt := now)
  }

  /** A turn just added is the last turn and the whole of a one-turn history; a history of
      `k` turns after it is the last `k - 1` before it followed by it. */
  lemma AddTurnThenHistory(c: Context, actor: ActorRole, utterance: string, snapshot: Values.Payload,
                           annotations: Values.Payload, now: int, k: int)
    requires k > 0
    ensures var c' := AddTurn(c, actor, utterance, snapshot, annotations, now);
            var t := Turn(actor, utterance, now, snapshot, annotations);
            GetLastTurn(c') == Some(t)
            && GetHistory(c', Some(1)) == [t]
            && GetHistory(c', Some(k)) == (if k > 1 then GetHistory(c, Some(k - 1)) else []) + [t]
  {
    var c' := AddTurn(c, actor, utterance, snapshot, annotations, now);
    var t := Turn(actor, utterance, now, snapshot, annotations);
    assert c'.turns == c.turns + [t];
    var n := |c.turns|;
    if k > 1 {
      var m := Min(k - 1, n);
      assert c'.turns[n + 1 - (m + 1)..] == c.turns[n - m..] + [t];
    } else {
      assert c'.turns[n..] == [t];
    }
  }

  /** The history limit reads as "the last k turns" for every positive k, but zero gives all of
      them, like no limit at all. */
  lemma HistoryLimits(c: Context, k: int)
    requires k > 0 && |c.turns| > 0
    ensures GetHistory(c, Some(0)) == GetHistory(c, None) == c.turns
    ensures |GetHistory(c, Some(k))| <= k
    ensures GetHistory(c, Some(k))[|GetHistory(c, Some(k))| - 1] == GetLastTurn(c).value
  {
  }

  // ---------------------------------------------------------------------
  // The archive
  // ---------------------------------------------------------------------

  type Contexts = OrderedMap.Dict<string, Context>

  datatype Archive = Archive(contexts: Contexts, retentionDays: int, archived: Contexts)

  const DefaultRetentionDays := 30
  const SecondsPerDay := 86400

  function NewArchive(retentionDays: int): (a: Archive)
    ensures |a.contexts.keys| == 0 && |a.archived.keys| == 0 && a.retentionDays == retentionDays
  {
    Archive(OrderedMap.Empty(), retentionDays, OrderedMap.Empty())
  }

  /** `store(context)`: keyed by its id, overwriting. */
  function Store(a: Archive, c: Context): (r: Archive)
    ensures r.contexts.m == a.contexts.m[c.contextId := c] && r.archived == a.archived
  {
    a.(contexts := OrderedMap.Put(a.contexts, c.contextId, c))
  }

  /** `retrieve(context_id)` */
  function Retrieve(a: Archive, id: string): (r: Option<Context>)
    ensures r.Some? <==> id in a.contexts.m
    ensures r.Some? ==> r.value == a.contexts.m[id]
  {
    if id in a.contexts.m then Some(a.contexts.m[id]) else None
  }

  /** `delete(context_id)`: moves a stored context to the archived ones. */
  function Delete(a: Archive, id: string): (r: (Archive, bool))
    ensures r.1 <==> id in a.contexts.m
    ensures r.0.contexts.m == a.contexts.m - {id}
    ensures r.0.retentionDays == a.retentionDays
    ensures r.1 ==> r.0.archived.m == a.archived.m[id := a.contexts.m[id]]
    ensures !r.1 ==> r.0 == a
  {
    if id in a.contexts.m then
      (Archive(OrderedMap.Remove(a.contexts, id), a.retentionDays,
               OrderedMap.Put(a.archived, id, a.contexts.m[id])), true)
    else (a, false)
  }

  /** Storing makes a context retrievable, a second store of the same id replaces it, and
      deleting it moves it to the archived ones and makes it unretrievable. */
  lemma StoreRetrieveDelete(a: Archive, c: Context, c2: Context)
    requires c2.contextId == c.contextId
    ensures Retrieve(Store(a, c), c.contextId) == Some(c)
    ensures Retrieve(Store(Store(a, c), c2), c.contextId) == Some(c2)
    ensures var (a', found) := Delete(Store(a, c), c.contextId);
            found && Retrieve(a', c.contextId).None? && a'.archived.m[c.contextId] == c
    ensures c.contextId !in a.contexts.m ==> !Delete(a, c.contextId).1
  {
  }

  /** The stored contexts whose id `KeysWhere` selects, in storage order. */
  function Select(a: Archive, f: Context -> bool): (r: seq<Context>)
    ensures forall c :: c in r ==> f(c) && c in a.contexts.m.Values
    ensures forall id :: id in a.contexts.m && f(a.contexts.m[id]) ==> a.contexts.m[id] in r
    ensures var ids := OrderedMap.KeysWhere(a.contexts, a.contexts.keys, f);
            |r| == |ids| && forall i :: 0 <= i < |r| ==> r[i] == a.contexts.m[ids[i]]
  {
    var ids := OrderedMap.KeysWhere(a.contexts, a.contexts.keys, f);
    var r := OrderedMap.ValuesAt(a.contexts, ids);
    assert forall id :: id in ids ==> r[OrderedMap.IndexOf(ids, id)] == a.contexts.m[id];
    r
  }

  /** `[ctx for ctx in self._contexts.values() if f(ctx)]`: selection keeps storage order. */
  lemma SelectIsComprehension(a: Archive, f: Context -> bool)
    ensures Select(a, f) == OrderedMap.FilterSeq(ListContexts(a), f)
  {
    OrderedMap.KeysWhereThenLookUp(a.contexts, a.contexts.keys, f);
    assert ListContexts(a) == OrderedMap.ValuesAt(a.contexts, a.contexts.keys);
  }

  /** The condition of `query_by_participant`. */
  function OfParticipant(participant: string): Context -> bool {
    (c: Context) => c.participantId == participant
  }

  /** The condition of `query_by_platform`. */
  function OfPlatform(platform: string): Context -> bool {
    (c: Context) => c.originPlatform == platform
  }

  /** `query_by_participant(participant_id)` */
  function QueryByParticipant(a: Archive, participant: string): (r: seq<Context>)
    ensures forall c :: c in r ==> c.participantId == participant && c in a.contexts.m.Values
    ensures forall id :: id in a.contexts.m && a.contexts.m[id].participantId == participant ==>
              a.contexts.m[id] in r
    ensures var ids := OrderedMap.KeysWhere(a.contexts, a.contexts.keys, OfParticipant(participant));
            |r| == |ids| && forall i :: 0 <= i < |r| ==> r[i] == a.contexts.m[ids[i]]
  {
    Select(a, OfParticipant(participant))
  }

  /** `query_by_platform(platform)` */
  function QueryByPlatform(a: Archive, platform: string): (r: seq<Context>)
    ensures forall c :: c in r ==> c.originPlatform == platform && c in a.contexts.m.Values
    ensures forall id :: id in a.contexts.m && a.contexts.m[id].originPlatform == platform ==>
              a.contexts.m[id] in r
    ensures var ids := OrderedMap.KeysWhere(a.contexts, a.contexts.keys, OfPlatform(platform));
            |r| == |ids| && forall i :: 0 <= i < |r| ==> r[i] == a.contexts.m[ids[i]]
  {
    Select(a, OfPlatform(platform))
  }

  /** Both queries are comprehensions over the stored values, in storage order. */
  lemma QueriesAreComprehensions(a: Archive, p: string)
    ensures QueryByParticipant(a, p) == OrderedMap.FilterSeq(ListContexts(a), OfParticipant(p))
    ensures QueryByPlatform(a, p) == OrderedMap.FilterSeq(ListContexts(a), OfPlatform(p))
  {
    SelectIsComprehension(a, OfParticipant(p));
    SelectIsComprehension(a, OfPlatform(p));
  }

  /** `list_contexts()`: the stored contexts, not the archived ones. */
  function ListContexts(a: Archive): (r: seq<Context>)
    ensures |r| == |a.contexts.keys|
    ensures forall i :: 0 <= i < |r| ==> r[i] == a.contexts.m[a.contexts.keys[i]]
  {
    OrderedMap.Values(a.contexts)
  }

  /** Deleting a context takes it out of every listing and query. */
  lemma DeletedIsNotListed(a: Archive, id: string, p: string)
    requires id in a.contexts.m
    ensures var a' := Delete(a, id).0;
            id !in a'.contexts.keys
            && forall c :: c in ListContexts(a') + QueryByParticipant(a', p) + QueryByPlatform(a', p) ==>
                 c in (a.contexts.m - {id}).Values
  {
    var a' := Delete(a, id).0;
    forall c | c in ListContexts(a') ensures c in (a.contexts.m - {id}).Values {
      var i :| 0 <= i < |ListContexts(a')| && ListContexts(a')[i] == c;
      assert a'.contexts.keys[i] in a'.contexts.m;
    }
  }

  /** The deletions of `cleanup_expired`, one id after another. */
  function DeleteEach(a: Archive, ids: seq<string>): (r: Archive)
    ensures r.retentionDays == a.retentionDays
    ensures r.contexts.m == a.contexts.m - (set k | k in ids)
    ensures forall k :: k in r.archived.m <==> k in a.archived.m || (k in ids && k in a.contexts.m)
    ensures forall k :: k in r.archived.m ==>
              r.archived.m[k] == if k in ids && k in a.contexts.m then a.contexts.m[k] else a.archived.m[k]
    decreases |ids|
  {
    if |ids| == 0 then a
    else
      assert (set k | k in ids) == {ids[0]} + (set k | k in ids[1..]);
      assert forall k :: k in ids <==> k == ids[0] || k in ids[1..];
      DeleteEach(Delete(a, ids[0]).0, ids[1..])
  }

  /** The moment before which a context counts as expired at time `now`. */
  function Cutoff(a: Archive, now: int): int {
    now - a.retentionDays * SecondsPerDay
  }

  predicate Expired(c: Context, cutoff: int) {
    c.updatedAt < cutoff
  }

  /** The ids of the stored contexts that are expired at `cutoff`. */
  function ExpiredSet(a: Archive, cutoff: int): set<string> {
    set k | k in a.contexts.m && Expired(a.contexts.m[k], cutoff)
  }

  /** Those ids in storage order, as `cleanup_expired` lists them. */
  function ExpiredIds(a: Archive, cutoff: int): (ids: seq<string>)
    ensures (set k | k in ids) == ExpiredSet(a, cutoff)
    ensures |ids| == |ExpiredSet(a, cutoff)|
  {
    var ids := OrderedMap.KeysWhere(a.contexts, a.contexts.keys, (c: Context) => Expired(c, cutoff));
    OrderedMap.DistinctCard(ids);
    ids
  }

  /** `cleanup_expired()` at time `now`: removes and archives exactly the contexts last updated
      strictly before the cutoff, and returns how many. */
  function CleanupExpired(a: Archive, now: int): (r: (Archive, nat))
    ensures r.0.contexts.m == a.contexts.m - ExpiredSet(a, Cutoff(a, now))
    ensures forall k :: k in r.0.contexts.m <==> k in a.contexts.m && !Expired(a.contexts.m[k], Cutoff(a, now))
    ensures forall k :: k in a.contexts.m && Expired(a.contexts.m[k], Cutoff(a, now)) ==>
              k in r.0.archived.m && r.0.archived.m[k] == a.contexts.m[k]
    ensures r.1 == |ExpiredSet(a, Cutoff(a, now))|
    ensures r.0.retentionDays == a.retentionDays
  {
    var ids := ExpiredIds(a, Cutoff(a, now));
    (DeleteEach(a, ids), |ids|)
  }

  /** After a cleanup no stored context is expired, and a second cleanup at the same time
      removes nothing. */
  lemma CleanupIdempotent(a: Archive, now: int)
    ensures var a' := CleanupExpired(a, now).0;
            (forall k :: k in a'.contexts.m ==> !Expired(a'.contexts.m[k], Cutoff(a', now)))
            && CleanupExpired(a', now).1 == 0
            && CleanupExpired(a', now).0.contexts.m == a'.contexts.m
  {
    var a' := CleanupExpired(a, now).0;
    assert ExpiredSet(a', Cutoff(a', now)) == {};
  }
}

=== FILE: event.dfy ===
/** Dispatcher events and their criticality. */
module Event {
  import opened Text
  import Values

  datatype EventType =
    | LifecycleBoot
    | LifecycleShutdown
    | CommunicationReceived
    | CommunicationSent
    | ProcessingStart
    | ProcessingComplete
    | ErrorOccurred
    | CapabilityLoaded
    | CapabilityFailed

  /** The enum member's string value. */
  function TypeValue(t: EventType): string {
    match t
    case LifecycleBoot => "lifecycle.boot"
    case LifecycleShutdown => "lifecycle.shutdown"
    case CommunicationReceived => "communication.received"
    case CommunicationSent => "communication.sent"
    case ProcessingStart => "processing.start"
    case ProcessingComplete => "processing.complete"
    case ErrorOccurred => "error.occurred"
    case CapabilityLoaded => "capability.loaded"
    case CapabilityFailed => "capability.failed"
  }

  /** An event; the timestamp is in whole seconds and the optional context is not modelled. */
  datatype Event = Event(eventType: EventType, timestamp: int, source: string,
                         payload: Values.Payload, priority: int)

  /** `event.is_critical()`: "error" in the type's value, or a priority above 10. */
  predicate IsCritical(e: Event) {
    Contains(TypeValue(e.eventType), "error") || e.priority > 10
  }

  /** Only `ERROR_OCCURRED` has "error" in its value, so criticality is that type or a priority
      above 10; `CAPABILITY_FAILED` at the default priority is not critical. */
  lemma CriticalIffErrorOrUrgent(e: Event)
    ensures IsCritical(e) <==> e.eventType == ErrorOccurred || e.priority > 10
  {
    match e.eventType
    case ErrorOccurred => assert OccursAt("error.occurred", "error", 0);
    case LifecycleBoot => NotContainsWithoutPair("lifecycle.boot", "error");
    case LifecycleShutdown => NotContainsWithoutPair("lifecycle.shutdown", "error");
    case CommunicationReceived => NotContainsWithoutPair("communication.received", "error");
    case CommunicationSent => NotContainsWithoutPair("communication.sent", "error");
    case ProcessingStart => NotContainsWithoutPair("processing.start", "error");
    case ProcessingComplete => NotContainsWithoutPair("processing.complete", "error");
    case CapabilityLoaded => NotContainsWithoutPair("capability.loaded", "error");
    case CapabilityFailed => NotContainsWithoutPair("capability.failed", "error");
  }
}

=== FILE: filters.dfy ===
/** Message filters used by the router: by exact type, by a caller-supplied
    predicate, by attribute equality, by value range, and AND/OR chains of
    filters. A filter that raises makes the whole evaluation raise, which is
    why a match is a `Result<bool>`. */
module Filters {
  import opened Common
  import Text
  import opened Values

  /** A message: the name of its class and the attributes `getattr` can see. */
  datatype Message = Message(typeName: string, attrs: map<string, Value>)

  /** `getattr(message, name, None)` */
  function GetAttr(m: Message, name: string): Value {
    if name in m.attrs then m.attrs[name] else Null
  }

  /** The number a value stands for in a comparison (`True` is 1), if it is a number. */
  function Numeric(v: Value): Option<real> {
    match v
    case Bool(b) => Some(if b then 1.0 else 0.0)
    case Int(i) => Some(i as real)
    case Float(f, _) => Some(f)
    case _ => None
  }

  function TypeName(v: Value): string {
    match v
    case Null => "NoneType"
    case Bool(_) => "bool"
    case Int(_) => "int"
    case Float(_, _) => "float"
    case Str(_) => "str"
  }

  /** Python's `==` on attribute values: numbers compare by value across bool, int and float. */
  predicate PyEq(a: Value, b: Value) {
    if Numeric(a).Some? && Numeric(b).Some? then Numeric(a).value == Numeric(b).value
    else
      match (a, b)
      case (Null, Null) => true
      case (Str(x), Str(y)) => x == y
      case _ => false
  }

  /** Code-point order on strings, as Python's `<` on `str`. */
  predicate StrLess(a: string, b: string) {
    if |a| == 0 then |b| > 0
    else if |b| == 0 then false
    else if a[0] != b[0] then a[0] < b[0]
    else StrLess(a[1..], b[1..])
  }

  function Unorderable(op: string, a: Value, b: Value): Exception {
    Exception(TypeError, "'" + op + "' not supported between instances of '" + TypeName(a)
                         + "' and '" + TypeName(b) + "'")
  }

  /** `a < b`: defined between two numbers and between two strings, a `TypeError` otherwise. */
  function Less(a: Value, b: Value): (r: Result<bool>)
    ensures Numeric(a).Some? && Numeric(b).Some? ==> r == Ok(Numeric(a).value < Numeric(b).value)
    ensures r.Err? <==> !((Numeric(a).Some? && Numeric(b).Some?) || (a.Str? && b.Str?))
  {
    if Numeric(a).Some? && Numeric(b).Some? then Ok(Numeric(a).value < Numeric(b).value)
    else if a.Str? && b.Str? then Ok(StrLess(a.s, b.s))
    else Err(Unorderable("<", a, b))
  }

  /** `a > b` */
  function Greater(a: Value, b: Value): (r: Result<bool>)
    ensures Numeric(a).Some? && Numeric(b).Some? ==> r == Ok(Numeric(a).value > Numeric(b).value)
    ensures r.Err? <==> !((Numeric(a).Some? && Numeric(b).Some?) || (a.Str? && b.Str?))
  {
    if Numeric(a).Some? && Numeric(b).Some? then Ok(Numeric(a).value > Numeric(b).value)
    else if a.Str? && b.Str? then Ok(StrLess(b.s, a.s))
    else Err(Unorderable(">", a, b))
  }

  // ---------------------------------------------------------------------
  // Filters
  // ---------------------------------------------------------------------

  datatype Mode = And | Or

  /** A filter. A `None` range bound is `Null`. A predicate is whatever the caller passed in;
      it may raise. */
  datatype Filter =
    | TypeFilter(types: seq<string>)
    | PredicateFilter(pred: Message -> Result<bool>)
    | AttributeFilter(conditions: map<string, Value>)
    | RangeFilter(field: string, minVal: Value, maxVal: Value)
    | Chain(filters: seq<Filter>, mode: Mode)

  const BadMode := Exception(ValueError, "mode must be AND or OR")

  /** `FilterChain(filters, mode)`: the mode is read case-insensitively. */
  function NewChain(filters: seq<Filter>, mode: string): (r: Result<Filter>)
    ensures r.Ok? <==> Text.Upper(mode) == "AND" || Text.Upper(mode) == "OR"
    ensures r.Err? ==> r.error == BadMode
    ensures r.Ok? ==> r.value.Chain? && r.value.filters == filters
                      && (r.value.mode == And <==> Text.Upper(mode) == "AND")
  {
    var upper := Text.Upper(mode);
    if upper == "AND" then Ok(Chain(filters, And))
    else if upper == "OR" then Ok(Chain(filters, Or))
    else Err(BadMode)
  }

  /** `AttributeFilter.matches`: every condition equals the attribute (a missing one is `None`). */
  predicate AttributesMatch(conditions: map<string, Value>, m: Message) {
    forall k :: k in conditions ==> PyEq(GetAttr(m, k), conditions[k])
  }

  /** `RangeFilter.matches` */
  function RangeMatches(field: string, minVal: Value, maxVal: Value, m: Message): (r: Result<bool>)
    ensures GetAttr(m, field) == Null ==> r == Ok(false)
  {
    var v := GetAttr(m, field);
    if v == Null then Ok(false)
    else
      var below :- if minVal == Null then Ok(false) else Less(v, minVal);
      if below then Ok(false)
      else
        var above :- if maxVal == Null then Ok(false) else Greater(v, maxVal);
        Ok(!above)
  }

  /** `await f.matches(message)` */
  function Matches(f: Filter, m: Message): (r: Result<bool>)
    decreases f, 1
  {
    match f
    case TypeFilter(types) => Ok(m.typeName in types)
    case PredicateFilter(p) => p(m)
    case AttributeFilter(conditions) => Ok(AttributesMatch(conditions, m))
    case RangeFilter(field, lo, hi) => RangeMatches(field, lo, hi, m)
    case Chain(fs, mode) =>
      if |fs| == 0 then Ok(true)
      else if mode == And then AllOf(fs, m)
      else AnyOf(fs, m)
  }

  /** The AND loop: stops at the first filter that does not match, or that raises. */
  function AllOf(fs: seq<Filter>, m: Message): (r: Result<bool>)
    decreases fs, 0
  {
    if |fs| == 0 then Ok(true)
    else
      var first :- Matches(fs[0], m);
      if !first then Ok(false) else AllOf(fs[1..], m)
  }

  /** The OR loop: stops at the first filter that matches, or that raises. */
  function AnyOf(fs: seq<Filter>, m: Message): (r: Result<bool>)
    decreases fs, 0
  {
    if |fs| == 0 then Ok(false)
    else
      var first :- Matches(fs[0], m);
      if first then Ok(true) else AnyOf(fs[1..], m)
  }

  // ---------------------------------------------------------------------
  // Properties
  // ---------------------------------------------------------------------

  /** An AND chain matches iff every filter in it matches. */
  lemma {:induction false} AllOfMatchesAll(fs: seq<Filter>, m: Message)
    ensures AllOf(fs, m) == Ok(true) <==> forall i :: 0 <= i < |fs| ==> Matches(fs[i], m) == Ok(true)
  {
    if |fs| > 0 {
      AllOfMatchesAll(fs[1..], m);
      assert forall i :: 1 <= i < |fs| ==> fs[i] == fs[1..][i - 1];
    }
  }

  /** Otherwise the AND chain answers what its first non-matching filter answered (`False`, or
      the exception it raised); the filters after it are never consulted. */
  lemma {:induction false} AllOfDecidedAt(fs: seq<Filter>, m: Message, i: nat)
    requires i < |fs| && Matches(fs[i], m) != Ok(true)
    requires forall j :: 0 <= j < i ==> Matches(fs[j], m) == Ok(true)
    ensures AllOf(fs, m) == Matches(fs[i], m)
  {
    if i > 0 {
      assert forall j :: 0 <= j < i - 1 ==> fs[1..][j] == fs[j + 1];
      AllOfDecidedAt(fs[1..], m, i - 1);
    }
  }

  /** An OR chain fails to match iff no filter in it matches. */
  lemma {:induction false} AnyOfMatchesNone(fs: seq<Filter>, m: Message)
    ensures AnyOf(fs, m) == Ok(false) <==> forall i :: 0 <= i < |fs| ==> Matches(fs[i], m) == Ok(false)
  {
    if |fs| > 0 {
      AnyOfMatchesNone(fs[1..], m);
      assert forall i :: 1 <= i < |fs| ==> fs[i] == fs[1..][i - 1];
    }
  }

  /** Otherwise the OR chain answers what its first filter not answering `False` answered. */
  lemma {:induction false} AnyOfDecidedAt(fs: seq<Filter>, m: Message, i: nat)
    requires i < |fs| && Matches(fs[i], m) != Ok(false)
    requires forall j :: 0 <= j < i ==> Matches(fs[j], m) == Ok(false)
    ensures AnyOf(fs, m) == Matches(fs[i], m)
  {
    if i > 0 {
      assert forall j :: 0 <= j < i - 1 ==> fs[1..][j] == fs[j + 1];
      AnyOfDecidedAt(fs[1..], m, i - 1);
    }
  }

  /** A chain built from `filters` and `mode`: empty chains match everything; otherwise an AND
      chain is the conjunction and an OR chain the disjunction of filters that do not raise. */
  lemma ChainSemantics(fs: seq<Filter>, mode: string, m: Message)
    requires NewChain(fs, mode).Ok?
    requires forall i :: 0 <= i < |fs| ==> Matches(fs[i], m).Ok?
    ensures var chain := NewChain(fs, mode).value;
            |fs| == 0 ==> Matches(chain, m) == Ok(true)
    ensures var chain := NewChain(fs, mode).value;
            |fs| > 0 && Text.Upper(mode) == "AND" ==>
              Matches(chain, m) == Ok(forall i :: 0 <= i < |fs| ==> Matches(fs[i], m).value)
    ensures var chain := NewChain(fs, mode).value;
            |fs| > 0 && Text.Upper(mode) == "OR" ==>
              Matches(chain, m) == Ok(exists i :: 0 <= i < |fs| && Matches(fs[i], m).value)
  {
    AllOfMatchesAll(fs, m);
    AnyOfMatchesNone(fs, m);
    if exists i :: 0 <= i < |fs| && !Matches(fs[i], m).value {
      var i := FirstWhere(fs, m, false);
      AllOfDecidedAt(fs, m, i);
    }
    if exists i :: 0 <= i < |fs| && Matches(fs[i], m).value {
      var i := FirstWhere(fs, m, true);
      AnyOfDecidedAt(fs, m, i);
    }
  }

  /** The first filter answering `v`, when every filter answers without raising. */
  lemma FirstWhere(fs: seq<Filter>, m: Message, v: bool) returns (i: nat)
    requires forall j :: 0 <= j < |fs| ==> Matches(fs[j], m).Ok?
    requires exists j :: 0 <= j < |fs| && Matches(fs[j], m).value == v
    ensures i < |fs| && Matches(fs[i], m) == Ok(v)
    ensures forall j :: 0 <= j < i ==> Matches(fs[j], m) == Ok(!v)
  {
    var k :| 0 <= k < |fs| && Matches(fs[k], m).value == v;
    i := 0;
    while Matches(fs[i], m).value != v
      invariant i <= k
      invariant forall j :: 0 <= j < i ==> Matches(fs[j], m) == Ok(!v)
      decreases k - i
    {
      i := i + 1;
    }
  }

  /** The mode is case-insensitive and only AND and OR are accepted. */
  lemma ModeSpelling(fs: seq<Filter>)
    ensures NewChain(fs, "and").Ok? && NewChain(fs, "and").value.mode == And
    ensures NewChain(fs, "Or").Ok? && NewChain(fs, "Or").value.mode == Or
    ensures NewChain(fs, "xor") == Err(BadMode)
  {
    assert Text.Upper("and") == "AND";
    assert Text.Upper("Or") == "OR";
    assert Text.Upper("xor") == "XOR";
  }

  /** Python equality on values is reflexive. */
  lemma PyEqReflexive(v: Value)
    ensures PyEq(v, v)
  {
  }

  /** An attribute filter matches a message that carries its conditions as attributes, and every
      message when it has no conditions; expecting `None` also matches a missing attribute. */
  lemma AttributeFilterMatches(conditions: map<string, Value>, m: Message, k: string)
    ensures Matches(AttributeFilter(map[]), m) == Ok(true)
    ensures (forall a :: a in conditions ==> a in m.attrs && m.attrs[a] == conditions[a])
            ==> Matches(AttributeFilter(conditions), m) == Ok(true)
    ensures k !in m.attrs ==> Matches(AttributeFilter(map[k := Null]), m) == Ok(true)
    ensures k in conditions && !PyEq(GetAttr(m, k), conditions[k]) ==>
              Matches(AttributeFilter(conditions), m) == Ok(false)
  {
    if forall a :: a in conditions ==> a in m.attrs && m.attrs[a] == conditions[a] {
      forall a | a in conditions ensures PyEq(GetAttr(m, a), conditions[a]) {
        PyEqReflexive(conditions[a]);
      }
    }
  }

  /** A type filter matches by exact class name only. */
  lemma TypeFilterExact(types: seq<string>, m: Message)
    ensures Matches(TypeFilter(types), m).Ok?
    ensures Matches(TypeFilter(types), m).value <==> exists i :: 0 <= i < |types| && types[i] == m.typeName
    ensures Matches(TypeFilter([]), m) == Ok(false)
  {
  }

  /** With a numeric field and numeric (or unset) bounds, a range filter is the inclusive
      interval test, an unset bound being unbounded. */
  lemma RangeIsInterval(field: string, minVal: Value, maxVal: Value, m: Message)
    requires Numeric(GetAttr(m, field)).Some?
    requires minVal == Null || Numeric(minVal).Some?
    requires maxVal == Null || Numeric(maxVal).Some?
    ensures var x := Numeric(GetAttr(m, field)).value;
            Matches(RangeFilter(field, minVal, maxVal), m)
            == Ok((minVal == Null || Numeric(minVal).value <= x) && (maxVal == Null || x <= Numeric(maxVal).value))
  {
  }

  /** A missing or `None` field never matches; a string field against a numeric bound raises. */
  lemma RangeEdges(field: string, minVal: Value, maxVal: Value, m: Message, s: string, n: int)
    ensures field !in m.attrs ==> Matches(RangeFilter(field, minVal, maxVal), m) == Ok(false)
    ensures Matches(RangeFilter(field, minVal, maxVal), Message(m.typeName, m.attrs[field := Null])) == Ok(false)
    ensures Matches(RangeFilter(field, Int(n), Null), Message(m.typeName, m.attrs[field := Str(s)]))
            == Err(Unorderable("<", Str(s), Int(n)))
  {
    var m' := Message(m.typeName, m.attrs[field := Str(s)]);
    assert GetAttr(m', field) == Str(s);
  }
}

=== FILE: formatter.dfy ===
/** Output formatting for the command line: thousands separators for token
    counts and plain-text tables in three styles. A table is built as its list
    of lines and then joined with newlines; a cell whose text holds a newline
    adds lines to the joined string but not to that list. */
module Formatter {
  import opened Common
  import opened Text
  import Values

  // ---------------------------------------------------------------------
  // format_tokens
  // ---------------------------------------------------------------------

  predicate NoCommas(s: string) {
    forall i :: 0 <= i < |s| ==> s[i] != ','
  }

  /** Inserts a comma between every group of three digits, counting from the right. */
  function Group(d: string): (r: string)
    ensures |d| > 0 ==> |r| == |d| + (|d| - 1) / 3 && r[0] == d[0]
  {
    if |d| <= 3 then d else Group(d[..|d| - 3]) + "," + d[|d| - 3..]
  }

  /** `f"{n:,}"` */
  function FormatTokens(n: int): (r: string)
    ensures n < 0 <==> |r| > 0 && r[0] == '-'
  {
    if n < 0 then "-" + Group(NatToString(-n)) else Group(NatToString(n))
  }

  /** The text without its commas. */
  function StripCommas(s: string): (r: string)
    ensures NoCommas(r)
  {
    if |s| == 0 then ""
    else StripCommas(s[..|s| - 1]) + (if s[|s| - 1] == ',' then "" else [s[|s| - 1]])
  }

  lemma {:induction false} StripAppend(a: string, b: string)
    ensures StripCommas(a + b) == StripCommas(a) + StripCommas(b)
    decreases |b|
  {
    if |b| > 0 {
      var b' := b[..|b| - 1];
      assert (a + b)[..|a + b| - 1] == a + b';
      StripAppend(a, b');
    } else {
      assert a + b == a;
    }
  }

  lemma {:induction false} StripPlain(s: string)
    requires NoCommas(s)
    ensures StripCommas(s) == s
  {
    if |s| > 0 {
      StripPlain(s[..|s| - 1]);
    }
  }

  /** Removing the commas gives back the digits. */
  lemma {:induction false} GroupRoundTrip(d: string)
    requires NoCommas(d)
    ensures StripCommas(Group(d)) == d
    decreases |d|
  {
    if |d| <= 3 {
      StripPlain(d);
    } else {
      var front, back := d[..|d| - 3], d[|d| - 3..];
      var g := Group(front);
      assert Group(d) == (g + ",") + back;
      GroupRoundTrip(front);
      StripAppend(g + ",", back);
      StripAppend(g, ",");
      StripPlain(back);
      StripComma();
      assert d == front + back;
    }
  }

  lemma StripComma()
    ensures StripCommas(",") == ""
  {
    assert ","[..0] == "";
  }

  predicate CommasEveryFourth(r: string) {
    forall i :: 0 <= i < |r| ==> (r[i] == ',' <==> (|r| - i) % 4 == 0)
  }

  /** Commas sit exactly at every fourth position counted from the end, so each group after
      the first has three digits and the first has one to three. */
  lemma {:induction false} GroupCommaPositions(d: string)
    requires |d| > 0 && NoCommas(d)
    ensures CommasEveryFourth(Group(d))
    decreases |d|
  {
    var r := Group(d);
    if |d| > 3 {
      var front, back := d[..|d| - 3], d[|d| - 3..];
      GroupCommaPositions(front);
      var g := Group(front);
      assert CommasEveryFourth(g);
      assert r == g + "," + back;
      assert |r| == |g| + 4;
      forall i | 0 <= i < |r| ensures r[i] == ',' <==> (|r| - i) % 4 == 0 {
        if i < |g| {
          assert r[i] == g[i];
          ShiftByFour(|r| - i, |g| - i);
        } else if i == |g| {
          assert r[i] == ',' && |r| - i == 4;
        } else {
          assert r[i] == back[i - |g| - 1] == d[|d| - 3 + (i - |g| - 1)];
          assert 1 <= |r| - i <= 3;
        }
      }
    } else {
      forall i | 0 <= i < |r| ensures r[i] == ',' <==> (|r| - i) % 4 == 0 {
        assert 1 <= |r| - i <= 3;
      }
    }
  }

  lemma ShiftByFour(a: int, b: int)
    requires a == b + 4
    ensures a % 4 == b % 4
  {
  }

  /** `format_tokens(n)` without its commas is `str(n)`. */
  lemma FormatTokensDigits(n: int)
    ensures StripCommas(FormatTokens(n)) == IntToString(n)
  {
    if n < 0 {
      GroupRoundTrip(NatToString(-n));
      StripAppend("-", Group(NatToString(-n)));
      StripPlain("-");
    } else {
      GroupRoundTrip(NatToString(n));
    }
  }

  // ---------------------------------------------------------------------
  // format_table
  // ---------------------------------------------------------------------

  type Row = Values.Payload

  const Simple := "simple"
  const Grid := "grid"
  const Ascii := "ascii"

  /** `str(row.get(col, ""))` */
  function Cell(row: Row, col: string): string {
    if col in row.m then Values.StrOf(row.m[col]) else ""
  }

  /** The longest of some lengths; 0 for none. */
  function Longest(ls: seq<nat>): (w: nat)
    ensures forall j :: 0 <= j < |ls| ==> ls[j] <= w
    ensures |ls| > 0 ==> w in ls
  {
    if |ls| == 0 then 0
    else
      var w := Longest(ls[..|ls| - 1]);
      assert forall j :: 0 <= j < |ls| - 1 ==> ls[..|ls| - 1][j] == ls[j];
      if ls[|ls| - 1] > w then ls[|ls| - 1] else w
  }

  /** The lengths of a column's cells, row by row. */
  function CellLengths(data: seq<Row>, col: string): (r: seq<nat>)
    ensures |r| == |data| && forall j :: 0 <= j < |data| ==> r[j] == |Cell(data[j], col)|
  {
    seq(|data|, j requires 0 <= j < |data| => |Cell(data[j], col)|)
  }

  /** The width of a column: its name or its longest cell, whichever is longer. */
  function Width(data: seq<Row>, col: string): (w: nat)
    ensures |col| <= w && forall j :: 0 <= j < |data| ==> |Cell(data[j], col)| <= w
    ensures w == |col| || exists j :: 0 <= j < |data| && |Cell(data[j], col)| == w
  {
    var ls := CellLengths(data, col);
    Max(|col|, Longest(ls))
  }

  /** The columns shown: the given ones, or the first row's keys in order. */
  function Columns(data: seq<Row>, columns: Option<seq<string>>): seq<string>
    requires |data| > 0
  {
    if columns.Some? then columns.value else data[0].keys
  }

  /** The cells of one row, in column order. */
  function RowTexts(row: Row, cols: seq<string>): (r: seq<string>)
    ensures |r| == |cols| && forall i :: 0 <= i < |cols| ==> r[i] == Cell(row, cols[i])
  {
    seq(|cols|, i requires 0 <= i < |cols| => Cell(row, cols[i]))
  }

  /** Each text left-justified to its column's width. */
  function Padded(data: seq<Row>, cols: seq<string>, texts: seq<string>): (r: seq<string>)
    requires |texts| == |cols|
    ensures |r| == |cols|
    ensures forall i :: 0 <= i < |cols| ==> r[i] == LJust(texts[i], Width(data, cols[i]))
  {
    seq(|cols|, i requires 0 <= i < |cols| => LJust(texts[i], Width(data, cols[i])))
  }

  /** Padded header cells are exactly as wide as their columns. */
  lemma HeaderPadded(data: seq<Row>, cols: seq<string>)
    ensures forall i :: 0 <= i < |cols| ==> |Padded(data, cols, cols)[i]| == Width(data, cols[i])
  {
  }

  /** Padded body cells are exactly as wide as their columns. */
  lemma RowPadded(data: seq<Row>, cols: seq<string>, j: nat)
    requires j < |data|
    ensures forall i :: 0 <= i < |cols| ==> |Padded(data, cols, RowTexts(data[j], cols))[i]| == Width(data, cols[i])
  {
  }

  /** One line of the simple style: the padded texts joined by `" | "`. */
  function SimpleLine(data: seq<Row>, cols: seq<string>, texts: seq<string>): string
    requires |texts| == |cols|
  {
    Join(" | ", Padded(data, cols, texts))
  }

  /** The body lines of the simple style, one per row. */
  function SimpleBody(data: seq<Row>, cols: seq<string>): (r: seq<string>)
    ensures |r| == |data|
    ensures forall j :: 0 <= j < |data| ==> r[j] == SimpleLine(data, cols, RowTexts(data[j], cols))
  {
    seq(|data|, j requires 0 <= j < |data| => SimpleLine(data, cols, RowTexts(data[j], cols)))
  }

  function SimpleLines(data: seq<Row>, cols: seq<string>): seq<string> {
    var header := SimpleLine(data, cols, cols);
    [header, Repeat('-', |header|)] + SimpleBody(data, cols)
  }

  /** `"+" + "+".join(separators) + "+"` */
  function GridRule(data: seq<Row>, cols: seq<string>): string {
    "+" + Join("+", GridRuns(data, cols)) + "+"
  }

  /** A header or body line framed by `open`, `sep` and `close`, one space either side of each cell. */
  function Framed(data: seq<Row>, cols: seq<string>, texts: seq<string>, open: string, sep: string, close: string): string
    requires |texts| == |cols|
  {
    var padded := Padded(data, cols, texts);
    open + Join(sep, seq(|cols|, i requires 0 <= i < |cols| => " " + padded[i] + " ")) + close
  }

  /** The body lines of a framed style, one per row. */
  function FramedBody(data: seq<Row>, cols: seq<string>, open: string, sep: string, close: string): (r: seq<string>)
    ensures |r| == |data|
    ensures forall j :: 0 <= j < |data| ==> r[j] == Framed(data, cols, RowTexts(data[j], cols), open, sep, close)
  {
    seq(|data|, j requires 0 <= j < |data| => Framed(data, cols, RowTexts(data[j], cols), open, sep, close))
  }

  function GridLines(data: seq<Row>, cols: seq<string>): seq<string> {
    var rule := GridRule(data, cols);
    [rule, Framed(data, cols, cols, "|", "|", "|"), rule] + FramedBody(data, cols, "|", "|", "|") + [rule]
  }

  /** A box-drawing rule such as `┌─` + `─┬─`-joined runs of `─` + `─┐`. */
  function AsciiRule(data: seq<Row>, cols: seq<string>, open: string, sep: string, close: string): string {
    open + Join(sep, seq(|cols|, i requires 0 <= i < |cols| => Repeat('─', Width(data, cols[i])))) + close
  }

  function AsciiLines(data: seq<Row>, cols: seq<string>): seq<string> {
    [AsciiRule(data, cols, "┌─", "─┬─", "─┐"), Framed(data, cols, cols, "│", "│", "│"),
     AsciiRule(data, cols, "├─", "─┼─", "─┤")]
      + FramedBody(data, cols, "│", "│", "│") + [AsciiRule(data, cols, "└─", "─┴─", "─┘")]
  }

  /** The lines of a non-empty table in the given style; none for an unknown style. */
  function TableLines(data: seq<Row>, columns: Option<seq<string>>, style: string): (r: seq<string>)
    requires |data| > 0
    ensures style == Simple ==> |r| == |data| + 2
    ensures style == Grid || style == Ascii ==> |r| == |data| + 4
    ensures style != Simple && style != Grid && style != Ascii ==> r == []
  {
    var cols := Columns(data, columns);
    if style == Simple then SimpleLines(data, cols)
    else if style == Grid then GridLines(data, cols)
    else if style == Ascii then AsciiLines(data, cols)
    else []
  }

  /** `format_table(data, columns, style)` */
  function FormatTable(data: seq<Row>, columns: Option<seq<string>>, style: string): (r: string)
    ensures |data| == 0 ==> r == "(empty)"
    ensures |data| > 0 ==> r == Join("\n", TableLines(data, columns, style))
    ensures |data| > 0 && style != Simple && style != Grid && style != Ascii ==> r == ""
  {
    if |data| == 0 then "(empty)" else Join("\n", TableLines(data, columns, style))
  }

  /** Two lists of parts with the same lengths join to texts of the same length. */
  lemma {:induction false} JoinSameLength(sep: string, a: seq<string>, b: seq<string>)
    requires |a| == |b| && forall i :: 0 <= i < |a| ==> |a[i]| == |b[i]|
    ensures |Join(sep, a)| == |Join(sep, b)|
  {
    if |a| > 1 {
      JoinSameLength(sep, a[1..], b[1..]);
    }
  }

  /** A body line of the simple style is as long as its header. */
  lemma SimpleRowLength(data: seq<Row>, cols: seq<string>, j: nat)
    requires j < |data|
    ensures |SimpleLine(data, cols, RowTexts(data[j], cols))| == |SimpleLine(data, cols, cols)|
  {
    HeaderPadded(data, cols);
    RowPadded(data, cols, j);
    JoinSameLength(" | ", Padded(data, cols, RowTexts(data[j], cols)), Padded(data, cols, cols));
  }

  /** In the simple style every line has the header's length and the second line is all dashes. */
  lemma SimpleLinesAligned(data: seq<Row>, columns: Option<seq<string>>)
    requires |data| > 0
    ensures var lines := TableLines(data, columns, Simple);
            (forall k :: 0 <= k < |lines| ==> |lines[k]| == |lines[0]|)
            && forall c :: 0 <= c < |lines[1]| ==> lines[1][c] == '-'
  {
    var cols := Columns(data, columns);
    assert TableLines(data, columns, Simple) == SimpleLines(data, cols);
    SimpleAligned(data, cols);
  }

  lemma SimpleAligned(data: seq<Row>, cols: seq<string>)
    ensures var lines := SimpleLines(data, cols);
            (forall k :: 0 <= k < |lines| ==> |lines[k]| == |lines[0]|)
            && forall c :: 0 <= c < |lines[1]| ==> lines[1][c] == '-'
  {
    var header := SimpleLine(data, cols, cols);
    var body := SimpleBody(data, cols);
    forall j | 0 <= j < |body| ensures |body[j]| == |header| {
      SimpleRowLength(data, cols, j);
    }
    EqualLengths([header, Repeat('-', |header|)], body, |header|);
  }

  lemma EqualLengths(head: seq<string>, body: seq<string>, w: nat)
    requires forall j :: 0 <= j < |head| ==> |head[j]| == w
    requires forall j :: 0 <= j < |body| ==> |body[j]| == w
    ensures forall k :: 0 <= k < |head + body| ==> |(head + body)[k]| == w
  {
  }

  /** The separators of the grid style, one per column. */
  function GridRuns(data: seq<Row>, cols: seq<string>): (r: seq<string>)
    ensures |r| == |cols| && forall i :: 0 <= i < |cols| ==> |r[i]| == Width(data, cols[i]) + 2
  {
    seq(|cols|, i requires 0 <= i < |cols| => Repeat('-', Width(data, cols[i]) + 2))
  }

  /** A framed header or body line of the grid style is as long as its rule. */
  lemma GridFramedLength(data: seq<Row>, cols: seq<string>, texts: seq<string>)
    requires |texts| == |cols|
    requires forall i :: 0 <= i < |cols| ==> |Padded(data, cols, texts)[i]| == Width(data, cols[i])
    ensures |Framed(data, cols, texts, "|", "|", "|")| == |GridRule(data, cols)|
  {
    var padded := Padded(data, cols, texts);
    var cells := seq(|cols|, i requires 0 <= i < |cols| => " " + padded[i] + " ");
    assert Framed(data, cols, texts, "|", "|", "|") == "|" + Join("|", cells) + "|";
    assert GridRule(data, cols) == "+" + Join("+", GridRuns(data, cols)) + "+";
    JoinSameLength("|", cells, GridRuns(data, cols));
    JoinSepLength("|", "+", GridRuns(data, cols));
  }

  /** The separator's characters do not matter to the length, only its length. */
  lemma {:induction false} JoinSepLength(a: string, b: string, parts: seq<string>)
    requires |a| == |b|
    ensures |Join(a, parts)| == |Join(b, parts)|
  {
    if |parts| > 1 {
      JoinSepLength(a, b, parts[1..]);
    }
  }

  /** In the grid style every line has the same length. */
  lemma GridLinesAligned(data: seq<Row>, columns: Option<seq<string>>)
    requires |data| > 0
    ensures var lines := TableLines(data, columns, Grid);
            forall k :: 0 <= k < |lines| ==> |lines[k]| == |lines[0]|
  {
    var cols := Columns(data, columns);
    assert TableLines(data, columns, Grid) == GridLines(data, cols);
    GridAligned(data, cols);
  }

  lemma GridAligned(data: seq<Row>, cols: seq<string>)
    ensures var lines := GridLines(data, cols);
            forall k :: 0 <= k < |lines| ==> |lines[k]| == |lines[0]|
  {
    var rule := GridRule(data, cols);
    var body := FramedBody(data, cols, "|", "|", "|");
    var head := [rule, Framed(data, cols, cols, "|", "|", "|"), rule];
    HeaderPadded(data, cols);
    GridFramedLength(data, cols, cols);
    forall j | 0 <= j < |body| ensures |body[j]| == |rule| {
      GridRowLength(data, cols, j);
    }
    EqualLengths(head, body, |rule|);
    EqualLengths(head + body, [rule], |rule|);
  }

  lemma GridRowLength(data: seq<Row>, cols: seq<string>, j: nat)
    requires j < |data|
    ensures |FramedBody(data, cols, "|", "|", "|")[j]| == |GridRule(data, cols)|
  {
    RowPadded(data, cols, j);
    GridFramedLength(data, cols, RowTexts(data[j], cols));
  }

}

=== FILE: gateway.dfy ===
/** The gateway's state machine and connection table.

    A connection object is represented by an opaque number; whether a send
    through it raises is passed in as the outcome of that call. */
module Gateway {
  import opened Common

  datatype GatewayState = Initializing | Ready | Running | Degraded | Maintenance | Shutdown

  function StateValue(s: GatewayState): string {
    match s
    case Initializing => "initializing"
    case Ready => "ready"
    case Running => "running"
    case Degraded => "degraded"
    case Maintenance => "maintenance"
    case Shutdown => "shutdown"
  }

  /** `str(state)`, as the start error message prints it. */
  function StateName(s: GatewayState): string {
    match s
    case Initializing => "GatewayState.INITIALIZING"
    case Ready => "GatewayState.READY"
    case Running => "GatewayState.RUNNING"
    case Degraded => "GatewayState.DEGRADED"
    case Maintenance => "GatewayState.MAINTENANCE"
    case Shutdown => "GatewayState.SHUTDOWN"
  }

  datatype GatewayConfig = GatewayConfig(
    host: string, port: int, maxConnections: int, requestTimeoutMs: int,
    sessionTtlSeconds: int, maxMessageSizeMb: int)

  const DefaultConfig: GatewayConfig := GatewayConfig("127.0.0.1", 8000, 1000, 30000, 3600, 10)

  type Connection = nat

  datatype Stats = Stats(totalMessages: nat, totalConnections: nat, activeConnections: nat, errors: nat)

  datatype Gateway = Gateway(config: GatewayConfig, state: GatewayState,
                             connections: map<string, Connection>, stats: Stats, createdAt: int)

  /** `Gateway(config)` created at `now`. */
  function NewGateway(config: Option<GatewayConfig>, now: int): (g: Gateway)
    ensures g.state == Initializing && g.connections == map[] && g.stats == Stats(0, 0, 0, 0)
    ensures g.config == if config.Some? then config.value else DefaultConfig
  {
    Gateway(if config.Some? then config.value else DefaultConfig, Initializing, map[], Stats(0, 0, 0, 0), now)
  }

  /** `await gateway.initialize()`: READY from any state. */
  function Initialize(g: Gateway): (r: Gateway)
    ensures r == g.(state := Ready)
  {
    g.(state := Ready)
  }

  /** `await gateway.start()` */
  function Start(g: Gateway): (r: Result<Gateway>)
    ensures r.Ok? <==> g.state == Ready || g.state == Maintenance
    ensures r.Ok? ==> r.value == g.(state := Running)
    ensures r.Err? ==> r.error == Exception(RuntimeError, "Cannot start from state " + StateName(g.state))
  {
    if g.state == Ready || g.state == Maintenance then Ok(g.(state := Running))
    else Err(Exception(RuntimeError, "Cannot start from state " + StateName(g.state)))
  }

  /** `await gateway.stop()`: every connection is dropped, whatever closing it does. */
  function Stop(g: Gateway): (r: Gateway)
    ensures r.state == Shutdown && r.connections == map[] && r.stats == g.stats
  {
    g.(state := Shutdown, connections := map[])
  }

  /** `await gateway.register_connection(id, connection)` */
  function RegisterConnection(g: Gateway, id: string, c: Connection): (r: Result<Gateway>)
    ensures r.Err? <==> |g.connections| >= g.config.maxConnections
    ensures r.Err? ==> r.error == Exception(RuntimeError, "Max connections reached")
    ensures r.Ok? ==>
              r.value.connections == g.connections[id := c]
              && r.value.stats.totalConnections == g.stats.totalConnections + 1
              && r.value.stats.activeConnections == |r.value.connections|
              && r.value.state == g.state
  {
    if |g.connections| >= g.config.maxConnections then Err(Exception(RuntimeError, "Max connections reached"))
    else
      var conns := g.connections[id := c];
      Ok(g.(connections := conns,
            stats := g.stats.(totalConnections := g.stats.totalConnections + 1, activeConnections := |conns|)))
  }

  /** `await gateway.unregister_connection(id)` */
  function UnregisterConnection(g: Gateway, id: string): (r: Gateway)
    ensures id !in g.connections ==> r == g
    ensures id in g.connections ==>
              r.connections == g.connections - {id} && r.stats.activeConnections == |g.connections| - 1
  {
    if id in g.connections then
      var conns := g.connections - {id};
      g.(connections := conns, stats := g.stats.(activeConnections := |conns|))
    else g
  }

  /** `await gateway.send_message(id, message)`; `sendError` is what the connection's send
      raised, if anything. */
  function SendMessage(g: Gateway, id: string, sendError: Option<Exception>): (r: (Gateway, Result<()>))
    ensures id !in g.connections ==> r == (g, Err(Exception(ValueError, "Unknown connection: " + id)))
    ensures id in g.connections && sendError.None? ==>
              r == (g.(stats := g.stats.(totalMessages := g.stats.totalMessages + 1)), Ok(()))
    ensures id in g.connections && sendError.Some? ==>
              r == (g.(stats := g.stats.(totalMessages := g.stats.totalMessages + 1, errors := g.stats.errors + 1)),
                    Err(sendError.value))
  {
    if id !in g.connections then (g, Err(Exception(ValueError, "Unknown connection: " + id)))
    else
      var counted := g.stats.(totalMessages := g.stats.totalMessages + 1);
      match sendError
      case None => (g.(stats := counted), Ok(()))
      case Some(e) => (g.(stats := counted.(errors := counted.errors + 1)), Err(e))
  }

  datatype StateReport = StateReport(
    state: string, host: string, port: int, maxConnections: int,
    stats: Stats, uptimeSeconds: int)

  /** `gateway.get_state()` at time `now`: the active count is read off the table. */
  function GetState(g: Gateway, now: int): (r: StateReport)
    ensures r.stats.activeConnections == |g.connections| && r.uptimeSeconds == now - g.createdAt
    ensures r.state == StateValue(g.state) && r.maxConnections == g.config.maxConnections
    ensures r.host == g.config.host && r.port == g.config.port
    ensures r.stats.totalMessages == g.stats.totalMessages && r.stats.totalConnections == g.stats.totalConnections
            && r.stats.errors == g.stats.errors
  {
    StateReport(StateValue(g.state), g.config.host, g.config.port, g.config.maxConnections,
                g.stats.(activeConnections := |g.connections|), now - g.createdAt)
  }

  datatype Health = Health(healthy: bool, state: string, connections: nat, errors: nat)

  /** `await gateway.health_check()` */
  function HealthCheck(g: Gateway): (r: Health)
    ensures r.healthy <==> g.state == Ready || g.state == Running
    ensures r.connections == |g.connections| && r.errors == g.stats.errors
    ensures r.state == StateValue(g.state)
  {
    Health(g.state == Ready || g.state == Running, StateValue(g.state), |g.connections|, g.stats.errors)
  }

  // ---------------------------------------------------------------------
  // Properties
  // ---------------------------------------------------------------------

  /** The connection table never holds more than `max_connections` entries (none at all when the
      maximum is not positive). */
  predicate WithinCapacity(g: Gateway) {
    |g.connections| <= Max(g.config.maxConnections, 0)
  }

  lemma EveryOperationKeepsCapacity(g: Gateway, id: string, c: Connection, e: Option<Exception>)
    requires WithinCapacity(g)
    ensures WithinCapacity(Initialize(g)) && WithinCapacity(Stop(g))
    ensures Start(g).Ok? ==> WithinCapacity(Start(g).value)
    ensures RegisterConnection(g, id, c).Ok? ==> WithinCapacity(RegisterConnection(g, id, c).value)
    ensures WithinCapacity(UnregisterConnection(g, id)) && WithinCapacity(SendMessage(g, id, e).0)
  {
    if |g.connections| < g.config.maxConnections {
      assert |g.connections[id := c]| <= |g.connections| + 1;
    }
  }

  /** The lifecycle: a new gateway cannot start until initialised; after stopping it can only
      start again through `initialize`. */
  lemma Lifecycle(g0: Option<GatewayConfig>, now: int)
    ensures Start(NewGateway(g0, now)).Err?
    ensures Start(Initialize(NewGateway(g0, now))).Ok?
    ensures var running := Start(Initialize(NewGateway(g0, now))).value;
            HealthCheck(running).healthy && !HealthCheck(Stop(running)).healthy
            && Start(Stop(running)).Err? && Start(Initialize(Stop(running))).Ok?
  {
  }
}

=== FILE: health_check.dfy ===
/** Component health checks and their aggregation into an overall status and a
    report. A checker is either the simple flag-based checker or an arbitrary
    one whose outcome (a result, a timeout, or an exception message) is given by
    an oracle of the clock; the five-second timeout itself is not modelled. */
module HealthCheck {
  import opened Common
  import OrderedMap
  import Values

  datatype HealthStatus = Healthy | Degraded | Unhealthy

  function StatusValue(s: HealthStatus): string {
    match s
    case Healthy => "healthy"
    case Degraded => "degraded"
    case Unhealthy => "unhealthy"
  }

  datatype ComponentHealth = ComponentHealth(componentId: string, status: HealthStatus, message: string,
                                             checkedAt: int, details: Values.Payload)

  /** `ComponentHealth(component_id, status, message)` with the default details. */
  function Health(id: string, status: HealthStatus, message: string, now: int): ComponentHealth {
    ComponentHealth(id, status, message, now, OrderedMap.Empty())
  }

  /** What awaiting one checker produced. */
  datatype Outcome = Checked(health: ComponentHealth) | TimedOut | Raised(message: string)

  datatype Checker =
    | Simple(componentId: string, healthy: bool)
    | Custom(run: int -> Outcome)

  /** `SimpleHealthChecker(component_id)` */
  function NewSimple(id: string): (c: Checker)
    ensures c.Simple? && c.healthy
  {
    Simple(id, true)
  }

  /** `checker.check()` at time `now` */
  function Run(c: Checker, now: int): Outcome {
    match c
    case Simple(id, healthy) =>
      Checked(Health(id, if healthy then Healthy else Unhealthy, if healthy then "OK" else "Failed", now))
    case Custom(run) => run(now)
  }

  /** A simple checker reports HEALTHY with "OK" exactly when its flag is set, and UNHEALTHY
      with "Failed" otherwise, under its own id. */
  lemma SimpleReportsFlag(id: string, healthy: bool, now: int)
    ensures var o := Run(Simple(id, healthy), now);
            o.Checked? && o.health.componentId == id && o.health.checkedAt == now
            && (o.health.status == Healthy <==> healthy)
            && (o.health.message == "OK" <==> healthy)
            && (!healthy ==> o.health.status == Unhealthy && o.health.message == "Failed")
  {
  }

  const TimeoutMessage := "Health check timeout"

  /** The entry `check_all` stores for one component. */
  function Settle(id: string, o: Outcome, now: int): (h: ComponentHealth)
    ensures o.Checked? ==> h == o.health
    ensures o.TimedOut? ==> h == Health(id, Unhealthy, TimeoutMessage, now)
    ensures o.Raised? ==> h == Health(id, Unhealthy, o.message, now)
  {
    match o
    case Checked(health) => health
    case TimedOut => Health(id, Unhealthy, TimeoutMessage, now)
    case Raised(msg) => Health(id, Unhealthy, msg, now)
  }

  datatype System = System(checkers: OrderedMap.Dict<string, Checker>,
                           lastCheck: Option<OrderedMap.Dict<string, ComponentHealth>>)

  function NewSystem(): (s: System)
    ensures |s.checkers.keys| == 0 && s.lastCheck.None?
  {
    System(OrderedMap.Empty(), None)
  }

  /** `register_checker(component_id, checker)`: replaces any checker of that id in place. */
  function Register(s: System, id: string, c: Checker): (r: System)
    ensures id in r.checkers.m && r.lastCheck == s.lastCheck
    ensures r.checkers.m.Keys == s.checkers.m.Keys + {id}
    ensures forall k :: k in s.checkers.m && k != id ==> k in r.checkers.m && r.checkers.m[k] == s.checkers.m[k]
    ensures id in s.checkers.m ==> r.checkers.keys == s.checkers.keys
  {
    s.(checkers := OrderedMap.Put(s.checkers, id, c))
  }

  /** `check_all()` at time `now`: one entry per registered checker, in registration order. */
  function CheckAll(s: System, now: int): (r: (System, OrderedMap.Dict<string, ComponentHealth>))
    ensures r.1.keys == s.checkers.keys
    ensures forall id :: id in r.1.m ==> r.1.m[id] == Settle(id, Run(s.checkers.m[id], now), now)
    ensures r.0 == s.(lastCheck := Some(r.1))
  {
    var results := OrderedMap.OMap(s.checkers.keys,
                                   map id | id in s.checkers.m :: Settle(id, Run(s.checkers.m[id], now), now));
    (s.(lastCheck := Some(results)), results)
  }

  /** A failed check always leaves an UNHEALTHY entry carrying the reason. */
  lemma FailuresAreUnhealthy(s: System, now: int, id: string)
    requires id in s.checkers.m && !Run(s.checkers.m[id], now).Checked?
    ensures var h := CheckAll(s, now).1.m[id];
            h.status == Unhealthy && h.componentId == id
            && h.message == (if Run(s.checkers.m[id], now).TimedOut? then TimeoutMessage
                             else Run(s.checkers.m[id], now).message)
  {
  }

  /** Python truthiness of `self.last_check`. */
  predicate HasResults(last: Option<OrderedMap.Dict<string, ComponentHealth>>) {
    last.Some? && |last.value.keys| > 0
  }

  function Statuses(d: OrderedMap.Dict<string, ComponentHealth>): (r: seq<HealthStatus>)
    ensures |r| == |d.keys|
    ensures forall st :: st in r <==> exists id :: id in d.m && d.m[id].status == st
  {
    var r := seq(|d.keys|, i requires 0 <= i < |d.keys| => d.m[d.keys[i]].status);
    assert forall id :: id in d.m ==> r[OrderedMap.IndexOf(d.keys, id)] == d.m[id].status;
    r
  }

  /** `get_overall_status()` at time `now`: checks first when there are no results yet. */
  function OverallStatus(s: System, now: int): (r: (System, HealthStatus))
    ensures HasResults(s.lastCheck) ==> r.0 == s
    ensures !HasResults(s.lastCheck) ==> r.0 == CheckAll(s, now).0
    ensures !HasResults(r.0.lastCheck) ==> r.1 == Healthy
    ensures HasResults(r.0.lastCheck) ==>
              var ss := Statuses(r.0.lastCheck.value);
              (r.1 == Unhealthy <==> Unhealthy in ss)
              && (r.1 == Degraded <==> Unhealthy !in ss && Degraded in ss)
  {
    var s' := if HasResults(s.lastCheck) then s else CheckAll(s, now).0;
    if !HasResults(s'.lastCheck) then (s', Healthy)
    else
      var ss := Statuses(s'.lastCheck.value);
      if Unhealthy in ss then (s', Unhealthy)
      else if Degraded in ss then (s', Degraded)
      else (s', Healthy)
  }

  /** With no checker registered, the overall status is HEALTHY. */
  lemma NoCheckersIsHealthy(s: System, now: int)
    requires |s.checkers.keys| == 0 && !HasResults(s.lastCheck)
    ensures OverallStatus(s, now).1 == Healthy
    ensures !HasResults(OverallStatus(s, now).0.lastCheck)
  {
  }

  // ---------------------------------------------------------------------
  // A reference: the overall status is the most severe one
  // ---------------------------------------------------------------------

  function Severity(st: HealthStatus): nat {
    match st
    case Healthy => 0
    case Degraded => 1
    case Unhealthy => 2
  }

  /** The most severe status of `ss`; HEALTHY when there are none. */
  function Worst(ss: seq<HealthStatus>): HealthStatus {
    if |ss| == 0 then Healthy
    else
      var w := Worst(ss[..|ss| - 1]);
      if Severity(ss[|ss| - 1]) > Severity(w) then ss[|ss| - 1] else w
  }

  lemma {:induction false} WorstIsMostSevere(ss: seq<HealthStatus>)
    ensures forall st :: st in ss ==> Severity(st) <= Severity(Worst(ss))
    ensures |ss| > 0 ==> Worst(ss) in ss
  {
    if |ss| > 0 {
      var front := ss[..|ss| - 1];
      var x := ss[|ss| - 1];
      WorstIsMostSevere(front);
      assert Worst(ss) == if Severity(x) > Severity(Worst(front)) then x else Worst(front);
      forall st | st in ss ensures Severity(st) <= Severity(Worst(ss)) {
        var i :| 0 <= i < |ss| && ss[i] == st;
        if i < |front| {
          assert st in front;
        }
      }
      if |front| > 0 {
        assert Worst(front) in ss;
      }
    }
  }

  /** The overall status is the most severe component status. */
  lemma OverallIsWorst(s: System, now: int)
    ensures var (s', st) := OverallStatus(s, now);
            s'.lastCheck.Some? ==> st == Worst(Statuses(s'.lastCheck.value))
  {
    var (s', st) := OverallStatus(s, now);
    if s'.lastCheck.Some? {
      var ss := Statuses(s'.lastCheck.value);
      WorstIsMostSevere(ss);
      if |ss| == 0 {
        assert Worst(ss) == Healthy;
      }
    }
  }

  // ---------------------------------------------------------------------
  // The report
  // ---------------------------------------------------------------------

  datatype ComponentReport = ComponentReport(status: string, message: string, checkedAt: int,
                                             details: Values.Payload)

  datatype Report =
    | Unknown
    | Full(overallStatus: string, components: OrderedMap.Dict<string, ComponentReport>)

  /** `get_report()` */
  function GetReport(s: System): (r: Report)
    ensures !HasResults(s.lastCheck) <==> r.Unknown?
    ensures r.Full? ==>
              (r.overallStatus == "healthy" <==> forall st :: st in Statuses(s.lastCheck.value) ==> st == Healthy)
              && (r.overallStatus == "degraded" <==> exists st :: st in Statuses(s.lastCheck.value) && st != Healthy)
    ensures r.Full? ==>
              r.components.keys == s.lastCheck.value.keys
              && forall id :: id in r.components.m ==>
                   r.components.m[id].status == StatusValue(s.lastCheck.value.m[id].status)
                   && r.components.m[id].message == s.lastCheck.value.m[id].message
                   && r.components.m[id].checkedAt == s.lastCheck.value.m[id].checkedAt
                   && r.components.m[id].details == s.lastCheck.value.m[id].details
  {
    if !HasResults(s.lastCheck) then Unknown
    else
      var last := s.lastCheck.value;
      var ss := Statuses(last);
      var overall := if forall st :: st in ss ==> st == Healthy then "healthy" else "degraded";
      Full(overall, OrderedMap.OMap(last.keys, map id | id in last.m ::
        ComponentReport(StatusValue(last.m[id].status), last.m[id].message, last.m[id].checkedAt, last.m[id].details)))
  }

  /** The report calls a system "healthy" exactly when the overall status is HEALTHY; an
      UNHEALTHY system is reported as merely "degraded". */
  lemma ReportAgreesWithOverall(s: System, now: int)
    requires HasResults(s.lastCheck)
    ensures GetReport(s).overallStatus == "healthy" <==> OverallStatus(s, now).1 == Healthy
    ensures OverallStatus(s, now).1 == Unhealthy ==> GetReport(s).overallStatus == "degraded"
  {
  }

  /** Before any check the report is "unknown", and it stays so after checking with no checkers. */
  lemma ReportUnknownWithoutResults(s: System, now: int)
    requires |s.checkers.keys| == 0
    ensures GetReport(NewSystem()) == Unknown
    ensures GetReport(CheckAll(s, now).0) == Unknown
  {
  }
}

=== FILE: hitl.dfy ===
/** The human-in-the-loop axiom: which proposed tool calls need a human's
    approval, and which answers count as approval. */
module Hitl {
  import opened Common
  import opened Text
  import opened Values

  const DefaultCritical: seq<string> := ["shell_tool", "file_tool", "macos_tool"]

  datatype HitlAxiom = HitlAxiom(criticalTools: seq<string>)

  /** `HITLAxiom(critical_tools)`: a missing or empty list (both falsy) falls back to the default. */
  function NewHitl(critical: Option<seq<string>>): (h: HitlAxiom)
    ensures critical.Some? && |critical.value| > 0 ==> h.criticalTools == critical.value
    ensures critical.None? || |critical.value| == 0 ==> h.criticalTools == DefaultCritical
  {
    if critical.Some? && |critical.value| > 0 then HitlAxiom(critical.value) else HitlAxiom(DefaultCritical)
  }

  /** The text names "delete" or "remove". */
  predicate MentionsWord(text: string) {
    Contains(text, "delete") || Contains(text, "remove")
  }

  /** The lower-cased `str(args)` mentions a destructive word. */
  predicate Destructive(args: Payload) {
    MentionsWord(Lower(Render(args)))
  }

  /** A key whose lower-cased text names a destructive word. */
  predicate DestructiveKey(args: Payload) {
    exists k :: k in args.m && MentionsWord(Lower(k))
  }

  /** A string value whose lower-cased text names a destructive word. */
  predicate DestructiveValue(args: Payload) {
    exists k :: k in args.m && args.m[k].Str? && MentionsWord(Lower(args.m[k].s))
  }

  /** Arguments whose keys and string values hold no character that `repr` escapes, and whose
      float texts name neither word: the words can then show in `str(args)` only through a key
      or a string value. */
  predicate PlainPayload(args: Payload) {
    && (forall k :: k in args.m ==> Plain(k))
    && (forall k :: k in args.m && args.m[k].Str? ==> Plain(args.m[k].s))
    && (forall k :: k in args.m && args.m[k].Float? ==> !MentionsWord(Lower(args.m[k].text)))
  }

  /** `requires_review(tool_name, args)`: a critical tool always needs review, and so does any
      tool whose arguments name "delete" or "remove" in a key or a string value, in any case;
      a non-critical tool called without arguments does not, and for plain arguments nothing
      else makes a call need review. */
  function RequiresReview(h: HitlAxiom, tool: string, args: Payload): (r: bool)
    ensures tool in h.criticalTools ==> r
    ensures DestructiveKey(args) ==> r
    ensures DestructiveValue(args) ==> r
    ensures tool !in h.criticalTools && |args.keys| == 0 ==> !r
    ensures PlainPayload(args) ==> (r <==> tool in h.criticalTools || DestructiveKey(args) || DestructiveValue(args))
  {
    if tool in h.criticalTools then true
    else
      DestructiveWords(args);
      PlainShowsOnlyNamedWords(args);
      Destructive(args)
  }

  /** For plain arguments the rendering names a word exactly when a key or a string value does. */
  lemma PlainShowsOnlyNamedWords(args: Payload)
    ensures PlainPayload(args) ==> (Destructive(args) <==> DestructiveKey(args) || DestructiveValue(args))
  {
    DestructiveWords(args);
    if PlainPayload(args) && !DestructiveKey(args) && !DestructiveValue(args) {
      RenderWithoutWords(args, "delete");
      RenderWithoutWords(args, "remove");
    }
  }

  /** A word of the pair is absent from the rendering of plain arguments that name neither. */
  lemma RenderWithoutWords(args: Payload, w: string)
    requires w == "delete" || w == "remove"
    requires PlainPayload(args) && !DestructiveKey(args) && !DestructiveValue(args)
    ensures !Contains(Lower(Render(args)), w)
  {
    assert LetterWord(w);
    forall k | k in args.m
      ensures (args.m[k].Str? ==> Plain(args.m[k].s)) && !Contains(Lower(StrOf(args.m[k])), w)
    {
      var v := args.m[k];
      if !v.Str? && !v.Float? {
        ScalarNamesNoWord(v, w);
      }
    }
    RenderWithoutWord(args, w);
  }

  /** `None`, booleans and integers never render with either word. */
  lemma ScalarNamesNoWord(v: Value, w: string)
    requires w == "delete" || w == "remove"
    requires !v.Str? && !v.Float?
    ensures !Contains(Lower(StrOf(v)), w)
  {
    match v
    case Null => NotContainsLonger(Lower("None"), w);
    case Bool(b) => NotContainsLonger(Lower(if b then "True" else "False"), w);
    case Int(i) =>
      var t := IntToString(i);
      assert forall j :: 0 <= j < |t| ==> t[j] == '-' || '0' <= t[j] <= '9';
      NotContainsMissingFirst(Lower(t), w);
  }

  /** For plain arguments, a non-critical tool is reviewed only when a key or a string value
      names "delete" or "remove". */
  lemma PlainHarmlessCallNotReviewed(h: HitlAxiom, tool: string, args: Payload)
    requires tool !in h.criticalTools && PlainPayload(args)
    requires !DestructiveKey(args) && !DestructiveValue(args)
    ensures !RequiresReview(h, tool, args)
  {
  }

  /** The review test as evidently intended: a critical tool, or a key or string value that
      itself names "delete" or "remove". It never asks for a review that `RequiresReview` would
      not, and agrees with it on plain arguments; it differs only where `repr` escapes a
      character into letters that complete a word. */
  function RequiresReviewIntended(h: HitlAxiom, tool: string, args: Payload): (r: bool)
    ensures r ==> RequiresReview(h, tool, args)
    ensures PlainPayload(args) ==> r == RequiresReview(h, tool, args)
    ensures tool !in h.criticalTools && !DestructiveKey(args) && !DestructiveValue(args) ==> !r
  {
    tool in h.criticalTools || DestructiveKey(args) || DestructiveValue(args)
  }

  /** `{"note": "\r" + "emove"}`: a carriage return followed by "emove". */
  function CarriageReturnNote(): (p: Payload)
    ensures p.keys == ["note"] && p.m["note"] == Str("\r" + "emove")
  {
    OrderedMap.OMap(["note"], map["note" := Str("\r" + "emove")])
  }

  /** `str(args)` writes the carriage return as backslash and "r", so the rendering reads
      `{'note': '\remove'}` and a harmless tool is sent for review, though neither the key nor
      the value names a destructive word; the intended test lets it through. */
  lemma CarriageReturnRemove()
    ensures var p := CarriageReturnNote();
            && !DestructiveKey(p) && !DestructiveValue(p)
            && RequiresReview(NewHitl(None), "web_search", p)
            && !RequiresReviewIntended(NewHitl(None), "web_search", p)
  {
    CarriageReturnShowsRemove();
    CarriageReturnNamesNoWord();
  }

  lemma CarriageReturnShowsRemove()
    ensures Destructive(CarriageReturnNote())
  {
    var p := CarriageReturnNote();
    CarriageReturnRepr();
    assert "'\\remove'"[2..8] == "remove";
    assert OccursAt("'\\remove'", "remove", 2);
    ReprWordInRender(p, "note", "remove");
  }

  /** `repr("\r" + "emove")` is `'\remove'`. */
  lemma CarriageReturnRepr()
    ensures Repr(Str("\r" + "emove")) == "'\\remove'"
  {
    var s := "\r" + "emove";
    assert QuoteFor(s) == '\'';
    EscapeConcat("\r", "emove", '\'');
    assert Plain("emove");
    EscapePlain("emove", '\'');
    assert Escape("\r", '\'') == "\\r";
  }

  lemma CarriageReturnNamesNoWord()
    ensures !DestructiveKey(CarriageReturnNote()) && !DestructiveValue(CarriageReturnNote())
  {
    var p := CarriageReturnNote();
    var s := "\r" + "emove";
    NotContainsLonger(Lower("note"), "delete");
    NotContainsLonger(Lower("note"), "remove");
    NotContainsMissingFirst(Lower(s), "delete");
    NotContainsMissingFirst(Lower(s), "remove");
    assert forall k :: k in p.m ==> k == "note";
  }

  /** A destructive key or string value shows in the rendering; an empty payload renders as
      `{}`, which holds neither word. */
  lemma DestructiveWords(args: Payload)
    ensures DestructiveKey(args) ==> Destructive(args)
    ensures DestructiveValue(args) ==> Destructive(args)
    ensures |args.keys| == 0 ==> !Destructive(args)
  {
    if DestructiveKey(args) {
      KeyShows(args);
    }
    if DestructiveValue(args) {
      ValueShows(args);
    }
    if |args.keys| == 0 {
      EmptyShowsNothing(args);
    }
  }

  lemma KeyShows(args: Payload)
    requires DestructiveKey(args)
    ensures Destructive(args)
  {
    var k :| k in args.m && (Contains(Lower(k), "delete") || Contains(Lower(k), "remove"));
    WordShows(args, k, Lower(k), true);
  }

  lemma ValueShows(args: Payload)
    requires DestructiveValue(args)
    ensures Destructive(args)
  {
    var k :| k in args.m && args.m[k].Str?
             && (Contains(Lower(args.m[k].s), "delete") || Contains(Lower(args.m[k].s), "remove"));
    WordShows(args, k, Lower(args.m[k].s), false);
  }

  /** A destructive word in key `k` (or in its string value) shows in the rendering. */
  lemma WordShows(args: Payload, k: string, text: string, inKey: bool)
    requires k in args.m
    requires inKey ==> text == Lower(k)
    requires !inKey ==> args.m[k].Str? && text == Lower(args.m[k].s)
    requires Contains(text, "delete") || Contains(text, "remove")
    ensures Destructive(args)
  {
    var w := if Contains(text, "delete") then "delete" else "remove";
    assert Plain(w);
    if inKey {
      KeyWordInRender(args, k, w);
    } else {
      ValueWordInRender(args, k, args.m[k].s, w);
    }
  }

  lemma EmptyShowsNothing(args: Payload)
    requires |args.keys| == 0
    ensures !Destructive(args)
  {
    var text := Lower(Render(args));
    assert |Render(args)| == 2;
    NotContainsLonger(text, "delete");
    NotContainsLonger(text, "remove");
  }

  /** `a` and `b` are equal once case is ignored, compared character by character. */
  predicate SameIgnoringCase(a: string, b: string) {
    |a| == |b| && forall i :: 0 <= i < |a| ==> LowerChar(a[i]) == LowerChar(b[i])
  }

  /** Lower-cased text equals a word without capitals exactly when the two agree ignoring case. */
  lemma LowerEqualsWord(d: string, w: string)
    requires Lower(w) == w
    ensures Lower(d) == w <==> SameIgnoringCase(d, w)
  {
    if SameIgnoringCase(d, w) {
      assert forall i :: 0 <= i < |w| ==> LowerChar(w[i]) == Lower(w)[i];
      assert Lower(d) == w;
    }
  }

  /** `validate_approval(decision)`: the answer is, ignoring case, one of "approve", "yes", "y"
      or "a"; so only answers of one, three or seven characters approve. */
  function ValidateApproval(decision: string): (r: bool)
    ensures r <==> SameIgnoringCase(decision, "approve") || SameIgnoringCase(decision, "yes")
                   || SameIgnoringCase(decision, "y") || SameIgnoringCase(decision, "a")
    ensures r ==> |decision| == 1 || |decision| == 3 || |decision| == 7
  {
    assert Lower("approve") == "approve" && Lower("yes") == "yes" && Lower("y") == "y" && Lower("a") == "a";
    LowerEqualsWord(decision, "approve");
    LowerEqualsWord(decision, "yes");
    LowerEqualsWord(decision, "y");
    LowerEqualsWord(decision, "a");
    Lower(decision) in ["approve", "yes", "y", "a"]
  }

  /** A key whose lower-cased text contains "delete" or "remove" makes any tool need review. */
  lemma DestructiveKeyNeedsReview(h: HitlAxiom, tool: string, args: Payload, k: string)
    requires k in args.m
    requires Contains(Lower(k), "delete") || Contains(Lower(k), "remove")
    ensures RequiresReview(h, tool, args)
  {
  }

  /** A string argument whose lower-cased text contains "delete" or "remove" makes any tool need review. */
  lemma DestructiveValueNeedsReview(h: HitlAxiom, tool: string, args: Payload, k: string, s: string)
    requires k in args.m && args.m[k] == Str(s)
    requires Contains(Lower(s), "delete") || Contains(Lower(s), "remove")
    ensures RequiresReview(h, tool, args)
  {
  }

  /** With the default list, the trust gate's `shell_command` is not a critical tool:
      it needs review only when its arguments look destructive. */
  lemma ShellCommandNotCriticalByDefault(args: Payload)
    ensures RequiresReview(NewHitl(None), "shell_command", args) <==> Destructive(args)
  {
  }

  /** Approval ignores case, and the four accepted words are approvals. */
  lemma ApprovalWords(d: string)
    ensures ValidateApproval(d) == ValidateApproval(Lower(d))
    ensures ValidateApproval("Approve") && ValidateApproval("YES") && ValidateApproval("y") && ValidateApproval("A")
    ensures !ValidateApproval("no") && !ValidateApproval("")
  {
    LowerIdempotent(d);
    assert Lower("Approve") == "approve";
    assert Lower("YES") == "yes";
    assert Lower("A") == "a";
    assert Lower("y") == "y";
    assert Lower("no") == "no";
  }
}

=== FILE: hooks.dfy ===
/** Execution contexts and the registry of lifecycle hooks.

    A hook is identified by a number standing for the object's identity;
    what a hook does with a context is given as a function, which may also
    report that the hook raised. Timestamps written into error and warning
    lines are passed in as their ISO text. */
module Hooks {
  import opened Common

  /** The lifecycle events, with their string values. */
  datatype EventType =
    | ExecutionStart | ExecutionEnd | ExecutionError
    | InteractionStart | InteractionEnd | InteractionError
    | ReasoningStart | ReasoningEnd
    | ToolCallStart | ToolCallEnd | ToolCallError
    | ValidationStart | ValidationEnd | ValidationFailed
    | SafetyCheckStart | SafetyCheckPassed | SafetyCheckFailed
    | StateChange | StateError

  function EventValue(e: EventType): (r: string)
    ensures |r| > 0
  {
    match e
    case ExecutionStart => "execution.start"
    case ExecutionEnd => "execution.end"
    case ExecutionError => "execution.error"
    case InteractionStart => "interaction.start"
    case InteractionEnd => "interaction.end"
    case InteractionError => "interaction.error"
    case ReasoningStart => "reasoning.start"
    case ReasoningEnd => "reasoning.end"
    case ToolCallStart => "tool.call.start"
    case ToolCallEnd => "tool.call.end"
    case ToolCallError => "tool.call.error"
    case ValidationStart => "validation.start"
    case ValidationEnd => "validation.end"
    case ValidationFailed => "validation.failed"
    case SafetyCheckStart => "safety.check.start"
    case SafetyCheckPassed => "safety.check.passed"
    case SafetyCheckFailed => "safety.check.failed"
    case StateChange => "state.change"
    case StateError => "state.error"
  }

  datatype ExecutionContext = ExecutionContext(
    executionId: string,
    agentName: string,
    timestamp: int,
    eventType: EventType,
    interactionCount: int, toolCalls: int,
    reasoningSteps: int, validationChecks: int, safetyChecks: int,
    inputTokens: int, outputTokens: int, reasoningTokens: int, cachedTokens: int,
    errors: seq<string>, warnings: seq<string>,
    status: string,
    durationMs: Option<real>)

  /** `ExecutionContext(execution_id, agent_name)` created at time `now`. */
  function NewContext(executionId: string, agentName: string, now: int): (c: ExecutionContext)
    ensures c.status == "pending" && c.eventType == ExecutionStart && c.timestamp == now
    ensures c.interactionCount == 0 && c.toolCalls == 0 && c.reasoningSteps == 0
    ensures c.validationChecks == 0 && c.safetyChecks == 0
    ensures c.inputTokens == 0 && c.outputTokens == 0 && c.reasoningTokens == 0 && c.cachedTokens == 0
    ensures |c.errors| == 0 && |c.warnings| == 0 && c.durationMs.None?
  {
    ExecutionContext(executionId, agentName, now, ExecutionStart, 0, 0, 0, 0, 0, 0, 0, 0, 0,
                     [], [], "pending", None)
  }

  /** The line recorded for an error or warning: the ISO timestamp in brackets, then the text. */
  function Stamped(stamp: string, text: string): (r: string)
    ensures |r| == |stamp| + |text| + 3 && r[0] == '['
  {
    "[" + stamp + "] " + text
  }

  /** `context.add_error(error)` */
  function AddError(c: ExecutionContext, error: string, stamp: string): (r: ExecutionContext)
    ensures r.errors == c.errors + [Stamped(stamp, error)]
    ensures r.status == "failed"
    ensures r == c.(errors := r.errors, status := r.status)
  {
    c.(errors := c.errors + [Stamped(stamp, error)], status := "failed")
  }

  /** `context.add_warning(warning)` */
  function AddWarning(c: ExecutionContext, warning: string, stamp: string): (r: ExecutionContext)
    ensures r.warnings == c.warnings + [Stamped(stamp, warning)]
    ensures r == c.(warnings := r.warnings)
  {
    c.(warnings := c.warnings + [Stamped(stamp, warning)])
  }

  /** `context.increment_interaction()` */
  function IncrementInteraction(c: ExecutionContext): (r: ExecutionContext)
    ensures r.interactionCount == c.interactionCount + 1
    ensures r == c.(interactionCount := r.interactionCount)
  {
    c.(interactionCount := c.interactionCount + 1)
  }

  /** `context.increment_tool_call()` */
  function IncrementToolCall(c: ExecutionContext): (r: ExecutionContext)
    ensures r.toolCalls == c.toolCalls + 1
    ensures r == c.(toolCalls := r.toolCalls)
  {
    c.(toolCalls := c.toolCalls + 1)
  }

  // ---------------------------------------------------------------------
  // The registry
  // ---------------------------------------------------------------------

  type HookId = nat

  datatype HookRegistry = HookRegistry(hooks: seq<HookId>)

  predicate NoDuplicates(s: seq<HookId>) {
    forall i, j :: 0 <= i < j < |s| ==> s[i] != s[j]
  }

  /** `registry.register(hook)`: appended unless already present. */
  function Register(r: HookRegistry, h: HookId): (r': HookRegistry)
    ensures h in r'.hooks
    ensures h in r.hooks ==> r' == r
    ensures h !in r.hooks ==> r'.hooks == r.hooks + [h]
    ensures NoDuplicates(r.hooks) ==> NoDuplicates(r'.hooks)
  {
    if h in r.hooks then r else HookRegistry(r.hooks + [h])
  }

  /** `list.remove(h)`: drops the first occurrence. */
  function RemoveFirst(s: seq<HookId>, h: HookId): (r: seq<HookId>)
    requires h in s
    ensures |r| == |s| - 1
    ensures forall x :: x in r ==> x in s
    ensures NoDuplicates(s) ==> NoDuplicates(r) && h !in r
  {
    if s[0] == h then
      assert NoDuplicates(s) ==> h !in s[1..] by {
        if NoDuplicates(s) {
          forall k | 0 <= k < |s| - 1 ensures s[1..][k] != h {
            assert s[1..][k] == s[k + 1];
          }
        }
      }
      s[1..]
    else
      var rest := RemoveFirst(s[1..], h);
      assert NoDuplicates(s) ==> s[0] !in rest by {
        if NoDuplicates(s) {
          forall k | 0 <= k < |s| - 1 ensures s[1..][k] != s[0] {
            assert s[1..][k] == s[k + 1];
          }
        }
      }
      [s[0]] + rest
  }

  /** `registry.unregister(hook)`: a no-op for an absent hook. */
  function Unregister(r: HookRegistry, h: HookId): (r': HookRegistry)
    ensures h !in r.hooks ==> r' == r
    ensures h in r.hooks ==> |r'.hooks| == |r.hooks| - 1
    ensures NoDuplicates(r.hooks) ==> NoDuplicates(r'.hooks) && h !in r'.hooks
    ensures forall x :: x in r'.hooks ==> x in r.hooks
  {
    if h in r.hooks then HookRegistry(RemoveFirst(r.hooks, h)) else r
  }

  /** What one hook did with the shared context: its changes, and whether it then raised. */
  datatype HookStep = HookStep(context: ExecutionContext, raised: bool)

  /** The outcome of an `emit_*` call: the context after every hook ran, the hooks called
      in order, and those whose exceptions were printed and swallowed. */
  datatype Emission = Emission(context: ExecutionContext, called: seq<HookId>, failed: seq<HookId>)

  /** Any `emit_*`: every hook in registration order sees the context the previous hook left. */
  function Emit(hooks: seq<HookId>, c: ExecutionContext, run: (HookId, ExecutionContext) -> HookStep)
    : (e: Emission)
    ensures e.called == hooks
    ensures forall h :: h in e.failed ==> h in hooks
    ensures |e.failed| <= |hooks|
    decreases |hooks|
  {
    if |hooks| == 0 then Emission(c, [], [])
    else
      var step := run(hooks[0], c);
      var rest := Emit(hooks[1..], step.context, run);
      Emission(rest.context, [hooks[0]] + rest.called,
               (if step.raised then [hooks[0]] else []) + rest.failed)
  }

  /** A hook that raises does not stop the hooks after it: the emission over two lists is
      the emission over the first, continued over the second. */
  lemma {:induction false} EmitConcat(a: seq<HookId>, b: seq<HookId>, c: ExecutionContext,
                                      run: (HookId, ExecutionContext) -> HookStep)
    ensures var ea := Emit(a, c, run);
            var eb := Emit(b, ea.context, run);
            Emit(a + b, c, run) == Emission(eb.context, a + b, ea.failed + eb.failed)
    decreases |a|
  {
    if |a| == 0 {
      assert a + b == b;
    } else {
      var step := run(a[0], c);
      assert (a + b)[1..] == a[1..] + b;
      EmitConcat(a[1..], b, step.context, run);
    }
  }

  /** If every hook raises, all of them are still called and all are reported. */
  lemma {:induction false} AllRaisingStillAllCalled(hooks: seq<HookId>, c: ExecutionContext,
                                                    run: (HookId, ExecutionContext) -> HookStep)
    requires forall h, x :: run(h, x).raised
    ensures Emit(hooks, c, run).failed == hooks
    decreases |hooks|
  {
    if |hooks| > 0 {
      AllRaisingStillAllCalled(hooks[1..], run(hooks[0], c).context, run);
    }
  }

  /** Registering twice is registering once; unregistering undoes a fresh registration. */
  lemma RegisterIdempotentAndUndone(r: HookRegistry, h: HookId)
    requires h !in r.hooks
    ensures Register(Register(r, h), h) == Register(r, h)
    ensures Unregister(Register(r, h), h) == r
  {
    UndoAppend(r.hooks, h);
  }

  lemma {:induction false} UndoAppend(s: seq<HookId>, h: HookId)
    requires h !in s
    ensures RemoveFirst(s + [h], h) == s
  {
    if |s| > 0 {
      assert (s + [h])[1..] == s[1..] + [h];
      UndoAppend(s[1..], h);
    }
  }
}

=== FILE: hub.dfy ===
/** The event hub: per-type and wildcard subscriptions, the event queue and
    priority-ordered dispatch, taken as sequential steps.

    A handler is represented by its identity; what it does is outside the
    hub, and whatever it raises is swallowed, so a dispatch is described by
    the sequence of handlers it calls. The background processing loop and the
    blocking of `emit` on a full queue are not modelled. */
module Hub {
  import opened Common
  import Ranking
  import opened Event
  import OrderedMap

  type Handler = nat

  datatype Hub = Hub(subscribers: map<EventType, seq<Handler>>, wildcards: seq<Handler>, queue: seq<Event>)

  /** One handler invocation. */
  datatype Call = Call(handler: Handler, event: Event)

  function NewHub(): (h: Hub)
    ensures h.subscribers == map[] && h.wildcards == [] && h.queue == []
  {
    Hub(map[], [], [])
  }

  /** `self._subscribers.get(t, [])` */
  function Registered(h: Hub, t: EventType): seq<Handler> {
    if t in h.subscribers then h.subscribers[t] else []
  }

  /** `subscribe(t, handler)`: appended, duplicates included. */
  function Subscribe(h: Hub, t: EventType, f: Handler): (r: Hub)
    ensures t in r.subscribers && r.subscribers[t] == Registered(h, t) + [f]
    ensures forall u :: u != t ==> Registered(r, u) == Registered(h, u)
    ensures r.wildcards == h.wildcards && r.queue == h.queue
  {
    h.(subscribers := h.subscribers[t := Registered(h, t) + [f]])
  }

  /** `subscribe_all(handler)` */
  function SubscribeAll(h: Hub, f: Handler): (r: Hub)
    ensures r.wildcards == h.wildcards + [f]
    ensures r.subscribers == h.subscribers && r.queue == h.queue
  {
    h.(wildcards := h.wildcards + [f])
  }

  /** `list.remove(x)`: drops the first occurrence. */
  function RemoveFirst(s: seq<Handler>, x: Handler): (r: seq<Handler>)
    requires x in s
    ensures |r| == |s| - 1
    ensures multiset(r) == multiset(s) - multiset{x}
    ensures exists i :: 0 <= i < |s| && s[i] == x && x !in s[..i] && r == s[..i] + s[i + 1..]
  {
    var i := OrderedMap.IndexOf(s, x);
    assert s == s[..i] + [s[i]] + s[i + 1..];
    s[..i] + s[i + 1..]
  }

  const NotInList := Exception(ValueError, "list.remove(x): x not in list")

  /** `unsubscribe(t, handler)`: no-op for a type nobody subscribed to, an error for a handler
      missing from an existing list. */
  function Unsubscribe(h: Hub, t: EventType, f: Handler): (r: Result<Hub>)
    ensures t !in h.subscribers ==> r == Ok(h)
    ensures t in h.subscribers && f !in h.subscribers[t] ==> r == Err(NotInList)
    ensures t in h.subscribers && f in h.subscribers[t] ==>
              r.Ok? && r.value == h.(subscribers := h.subscribers[t := RemoveFirst(h.subscribers[t], f)])
  {
    if t !in h.subscribers then Ok(h)
    else if f !in h.subscribers[t] then Err(NotInList)
    else Ok(h.(subscribers := h.subscribers[t := RemoveFirst(h.subscribers[t], f)]))
  }

  /** `await emit(event)` on a queue with room. */
  function Emit(h: Hub, e: Event): (r: Hub)
    ensures r.queue == h.queue + [e] && r.subscribers == h.subscribers && r.wildcards == h.wildcards
  {
    h.(queue := h.queue + [e])
  }

  function EventPriority(e: Event): int { e.priority }

  /** The handlers `_dispatch(event)` should call: the type's subscribers, then the wildcard
      subscribers, without changing any subscription. */
  function Dispatch(h: Hub, e: Event): (calls: seq<Handler>)
    ensures |calls| == |Registered(h, e.eventType)| + |h.wildcards|
    ensures calls[..|Registered(h, e.eventType)|] == Registered(h, e.eventType)
    ensures calls[|Registered(h, e.eventType)|..] == h.wildcards
  {
    Registered(h, e.eventType) + h.wildcards
  }

  /** The calls made by dispatching `e` to the handlers `hs`, in order. */
  function HandlerCalls(hs: seq<Handler>, e: Event): (r: seq<Call>)
    ensures |r| == |hs| && forall i :: 0 <= i < |r| ==> r[i] == Call(hs[i], e)
  {
    seq(|hs|, i requires 0 <= i < |hs| => Call(hs[i], e))
  }

  /** Dispatches `es` in order: all the calls of the first event, then those of the rest. */
  function DispatchAll(h: Hub, es: seq<Event>): (calls: seq<Call>)
    ensures forall c :: c in calls ==>
              c.event in es && (c.handler in Registered(h, c.event.eventType) || c.handler in h.wildcards)
    ensures |es| == 0 ==> calls == []
    ensures |es| > 0 ==> |Dispatch(h, es[0])| <= |calls|
    ensures |es| > 0 ==> calls[..|Dispatch(h, es[0])|] == HandlerCalls(Dispatch(h, es[0]), es[0])
  {
    if |es| == 0 then []
    else
      var first := HandlerCalls(Dispatch(h, es[0]), es[0]);
      assert forall c :: c in first ==> c.event == es[0] && c.handler in Dispatch(h, es[0]);
      first + DispatchAll(h, es[1..])
  }

  /** The concatenation of a sequence of sequences. */
  function Flatten<T>(xss: seq<seq<T>>): (r: seq<T>)
    ensures |xss| > 0 ==> |xss[0]| <= |r| && r[..|xss[0]|] == xss[0]
  {
    if |xss| == 0 then [] else xss[0] + Flatten(xss[1..])
  }

  lemma {:induction false} FlattenConcat<T>(a: seq<seq<T>>, b: seq<seq<T>>)
    ensures Flatten(a + b) == Flatten(a) + Flatten(b)
  {
    if |a| > 0 {
      FlattenConcat(a[1..], b);
      assert (a + b)[0] == a[0] && (a + b)[1..] == a[1..] + b;
    } else {
      assert a + b == b;
    }
  }

  /** The `k`-th element of the `i`-th sequence sits after all the earlier sequences. */
  lemma {:induction false} FlattenIndex<T>(xss: seq<seq<T>>, i: int, k: int)
    requires 0 <= i < |xss| && 0 <= k < |xss[i]|
    ensures |Flatten(xss[..i])| + k < |Flatten(xss)| && Flatten(xss)[|Flatten(xss[..i])| + k] == xss[i][k]
  {
    assert xss[..i] + xss[i..] == xss;
    FlattenConcat(xss[..i], xss[i..]);
    assert xss[i..][0] == xss[i];
    assert Flatten(xss[i..])[..|xss[i]|][k] == xss[i][k];
  }

  /** The calls of each event, event by event. */
  function PerEvent(h: Hub, es: seq<Event>): (r: seq<seq<Call>>)
    ensures |r| == |es| && forall i :: 0 <= i < |es| ==> r[i] == HandlerCalls(Dispatch(h, es[i]), es[i])
  {
    seq(|es|, i requires 0 <= i < |es| => HandlerCalls(Dispatch(h, es[i]), es[i]))
  }

  /** Order: dispatching a batch is the calls of its first event, then those of the second, and so
      on. */
  lemma {:induction false} DispatchAllIsFlatten(h: Hub, es: seq<Event>)
    ensures DispatchAll(h, es) == Flatten(PerEvent(h, es))
  {
    if |es| > 0 {
      DispatchAllIsFlatten(h, es[1..]);
      assert PerEvent(h, es)[1..] == PerEvent(h, es[1..]);
    }
  }

  /** Dispatching two batches one after the other makes the calls of the first batch, then those
      of the second. */
  lemma {:induction false} DispatchAllConcat(h: Hub, a: seq<Event>, b: seq<Event>)
    ensures DispatchAll(h, a + b) == DispatchAll(h, a) + DispatchAll(h, b)
  {
    DispatchAllIsFlatten(h, a + b);
    DispatchAllIsFlatten(h, a);
    DispatchAllIsFlatten(h, b);
    PerEventConcat(h, a, b);
    FlattenConcat(PerEvent(h, a), PerEvent(h, b));
  }

  lemma {:induction false} PerEventConcat(h: Hub, a: seq<Event>, b: seq<Event>)
    ensures PerEvent(h, a + b) == PerEvent(h, a) + PerEvent(h, b)
  {
  }

  /** Completeness: every handler of every dispatched event is called on it, after the calls
      of the earlier events. */
  lemma {:induction false} DispatchAllComplete(h: Hub, es: seq<Event>, i: int, k: int)
    requires 0 <= i < |es| && 0 <= k < |Dispatch(h, es[i])|
    ensures var j := |DispatchAll(h, es[..i])| + k;
            j < |DispatchAll(h, es)| && DispatchAll(h, es)[j] == Call(Dispatch(h, es[i])[k], es[i])
  {
    var xss := PerEvent(h, es);
    DispatchAllIsFlatten(h, es);
    DispatchAllIsFlatten(h, es[..i]);
    PerEventPrefix(h, es, i);
    FlattenIndex(xss, i, k);
    assert xss[i][k] == Call(Dispatch(h, es[i])[k], es[i]);
  }

  lemma {:induction false} PerEventPrefix(h: Hub, es: seq<Event>, i: int)
    requires 0 <= i <= |es|
    ensures PerEvent(h, es[..i]) == PerEvent(h, es)[..i]
  {
  }

  /** `_process_queue()`: drains the queue, highest priority first, ties in emission order.
      Returns the hub, the events in the order dispatched, and the handler calls. */
  function ProcessQueue(h: Hub): (r: (Hub, seq<Event>, seq<Call>))
    ensures r.0 == h.(queue := [])
    ensures multiset(r.1) == multiset(h.queue) && Ranking.SortedDesc(r.1, EventPriority)
    ensures forall p :: Ranking.WithKey(r.1, EventPriority, p) == Ranking.WithKey(h.queue, EventPriority, p)
    ensures forall c :: c in r.2 ==> c.event in h.queue
    ensures r.2 == DispatchAll(h, r.1)
  {
    var order := Ranking.SortDesc(h.queue, EventPriority);
    Ranking.SortIsOrderedPermutation(h.queue, EventPriority);
    forall p ensures Ranking.WithKey(order, EventPriority, p) == Ranking.WithKey(h.queue, EventPriority, p) {
      Ranking.SortKeepsTies(h.queue, EventPriority, p);
    }
    var calls := DispatchAll(h, order);
    assert forall e :: e in order ==> e in multiset(h.queue);
    (h.(queue := []), order, calls)
  }

  // ---------------------------------------------------------------------
  // `_dispatch` as written
  // ---------------------------------------------------------------------

  /** `_dispatch(event)` as written: `handlers` is the stored list itself when the type has one,
      so extending it with the wildcard handlers changes the subscription. */
  function DispatchAsWritten(h: Hub, e: Event): (r: (Hub, seq<Handler>))
    ensures r.1 == Dispatch(h, e)
    ensures e.eventType in h.subscribers ==> r.0 == h.(subscribers := h.subscribers[e.eventType := r.1])
    ensures e.eventType !in h.subscribers ==> r.0 == h
  {
    var handlers := Registered(h, e.eventType) + h.wildcards;
    if e.eventType in h.subscribers then (h.(subscribers := h.subscribers[e.eventType := handlers]), handlers)
    else (h, handlers)
  }

  /** The hub after `n` as-written dispatches of `e`. */
  function AfterDispatchesAsWritten(h: Hub, e: Event, n: nat): Hub {
    if n == 0 then h else DispatchAsWritten(AfterDispatchesAsWritten(h, e, n - 1), e).0
  }

  /** `s` repeated `n` times. */
  function Cycle(s: seq<Handler>, n: nat): (r: seq<Handler>)
    ensures |r| == n * |s|
  {
    if n == 0 then [] else Cycle(s, n - 1) + s
  }

  /** The `n+1`-th as-written dispatch of a type that has a subscriber list calls that list
      followed by the wildcard handlers `n+1` times over. */
  lemma {:induction false} WildcardsAccumulate(h: Hub, e: Event, n: nat)
    requires e.eventType in h.subscribers
    ensures var h' := AfterDispatchesAsWritten(h, e, n);
            e.eventType in h'.subscribers
            && h'.subscribers[e.eventType] == h.subscribers[e.eventType] + Cycle(h.wildcards, n)
            && h'.wildcards == h.wildcards
            && DispatchAsWritten(h', e).1 == h.subscribers[e.eventType] + Cycle(h.wildcards, n + 1)
  {
    if n > 0 {
      WildcardsAccumulate(h, e, n - 1);
    }
  }

  /** A type without a subscriber list gets only the wildcard handlers, and nothing is stored. */
  lemma {:induction false} UnsubscribedTypeUnchanged(h: Hub, e: Event, n: nat)
    requires e.eventType !in h.subscribers
    ensures AfterDispatchesAsWritten(h, e, n) == h
    ensures DispatchAsWritten(h, e).1 == h.wildcards
  {
    if n > 0 {
      UnsubscribedTypeUnchanged(h, e, n - 1);
    }
  }

  /** One subscriber `1` for a type and one wildcard handler `2`: the second dispatch of that
      type calls the wildcard handler twice, where once is intended. */
  lemma WildcardRunsTwiceOnSecondDispatch(e: Event)
    ensures var h := SubscribeAll(Subscribe(NewHub(), e.eventType, 1), 2);
            DispatchAsWritten(DispatchAsWritten(h, e).0, e).1 == [1, 2, 2]
            && Dispatch(h, e) == [1, 2]
  {
    var h := SubscribeAll(Subscribe(NewHub(), e.eventType, 1), 2);
    WildcardsAccumulate(h, e, 1);
    assert Cycle(h.wildcards, 2) == [2, 2];
  }

  /** The intended dispatch changes nothing, so every dispatch of a type calls the same handlers. */
  lemma DispatchIsStable(h: Hub, e: Event, es: seq<Event>)
    ensures ProcessQueue(h).0.subscribers == h.subscribers && ProcessQueue(h).0.wildcards == h.wildcards
    ensures Dispatch(ProcessQueue(h).0, e) == Dispatch(h, e)
  {
  }
}

=== FILE: loader.dfy ===
/** The capability loader: registration, dependency resolution, activation and
    invocation of capabilities.

    A capability's own `activate`, `deactivate` and `invoke` are outside the
    loader: each capability carries what its `activate` and `deactivate`
    raise, if anything, activation is described by the names whose `activate`
    was called, and `invoke` is an oracle of the keyword arguments. Dependency resolution
    recurses without a visited set, so a cycle recurses until Python's
    recursion limit; the model takes that limit as a `fuel` parameter. The
    resolved dependencies are a Python `set`, whose iteration order is not
    specified, so activation takes that order as a parameter. */
module Loader {
  import opened Common
  import OrderedMap
  import Values

  datatype Metadata = Metadata(name: string, version: string, description: string,
                               dependencies: seq<string>, tags: seq<string>)

  /** A capability, with the exception its `activate()` and its `deactivate()` raise, if any. */
  datatype Capability = Capability(metadata: Metadata, invoke: Values.Payload -> Result<Values.Value>,
                                   activateError: Option<Exception>, deactivateError: Option<Exception>)

  datatype Loader = Loader(registry: OrderedMap.Dict<string, Capability>, inactive: set<string>,
                           graph: map<string, seq<string>>)

  function NewLoader(): (l: Loader)
    ensures |l.registry.keys| == 0 && l.inactive == {} && l.graph == map[]
  {
    Loader(OrderedMap.Empty(), {}, map[])
  }

  function AlreadyLoaded(name: string): Exception {
    Exception(ValueError, "Capability '" + name + "' already loaded")
  }

  /** `register(capability)` */
  function Register(l: Loader, c: Capability): (r: Result<Loader>)
    ensures c.metadata.name in l.registry.m <==> r.Err?
    ensures r.Err? ==> r.error == AlreadyLoaded(c.metadata.name)
    ensures r.Ok? ==> r.value.registry.keys == l.registry.keys + [c.metadata.name]
                      && r.value.registry.m == l.registry.m[c.metadata.name := c]
                      && r.value.graph == l.graph[c.metadata.name := c.metadata.dependencies]
                      && r.value.inactive == l.inactive
  {
    var name := c.metadata.name;
    if name in l.registry.m then Err(AlreadyLoaded(name))
    else Ok(l.(registry := OrderedMap.Put(l.registry, name, c), graph := l.graph[name := c.metadata.dependencies]))
  }

  /** `unload(name)`: forgets the capability and its dependencies but not an inactive mark. */
  function Unload(l: Loader, name: string): (r: Loader)
    ensures name !in r.registry.m
    ensures name in l.registry.m ==>
              r.registry.m == l.registry.m - {name} && r.graph == l.graph - {name}
    ensures name !in l.registry.m ==> r == l
    ensures r.inactive == l.inactive
  {
    if name in l.registry.m then l.(registry := OrderedMap.Remove(l.registry, name), graph := l.graph - {name})
    else l
  }

  /** `self._dependency_graph.get(name, [])` */
  function Deps(g: map<string, seq<string>>, name: string): seq<string> {
    if name in g then g[name] else []
  }

  // ---------------------------------------------------------------------
  // Dependency resolution
  // ---------------------------------------------------------------------

  /** `_resolve_dependencies(name)` with `fuel` levels of recursion left; `None` when the
      recursion limit is reached. */
  function Resolve(g: map<string, seq<string>>, name: string, fuel: nat): Option<set<string>>
    decreases fuel, 0, 0
  {
    if fuel == 0 then None else ResolveEach(g, Deps(g, name), fuel - 1)
  }

  /** The loop over one capability's dependencies: each dependency's own resolution, then the
      dependency itself. */
  function ResolveEach(g: map<string, seq<string>>, deps: seq<string>, fuel: nat): Option<set<string>>
    decreases fuel, 1, |deps|
  {
    if |deps| == 0 then Some({})
    else
      match Resolve(g, deps[0], fuel)
      case None => None
      case Some(first) =>
        match ResolveEach(g, deps[1..], fuel)
        case None => None
        case Some(rest) => Some(first + {deps[0]} + rest)
  }

  /** No name of `s` depends on a name outside `s`. */
  predicate Closed(g: map<string, seq<string>>, s: set<string>) {
    forall x :: x in s ==> forall d :: d in Deps(g, x) ==> d in s
  }

  /** The resolved set contains every listed dependency and is closed under dependencies. */
  lemma {:induction false} ResolveEachClosed(g: map<string, seq<string>>, deps: seq<string>, fuel: nat)
    requires ResolveEach(g, deps, fuel).Some?
    ensures var s := ResolveEach(g, deps, fuel).value;
            (forall d :: d in deps ==> d in s) && Closed(g, s)
    decreases fuel, |deps|
  {
    if |deps| > 0 {
      var first := Resolve(g, deps[0], fuel).value;
      var rest := ResolveEach(g, deps[1..], fuel).value;
      assert fuel > 0;
      ResolveEachClosed(g, Deps(g, deps[0]), fuel - 1);
      ResolveEachClosed(g, deps[1..], fuel);
      var s := first + {deps[0]} + rest;
      assert ResolveEach(g, deps, fuel).value == s;
      forall d | d in deps ensures d in s {
        if d != deps[0] {
          assert d in deps[1..];
        }
      }
    }
  }

  /** The resolved set lies inside every closed set holding the listed dependencies. */
  lemma {:induction false} ResolveEachLeast(g: map<string, seq<string>>, deps: seq<string>, fuel: nat, c: set<string>)
    requires ResolveEach(g, deps, fuel).Some?
    requires Closed(g, c) && forall d :: d in deps ==> d in c
    ensures ResolveEach(g, deps, fuel).value <= c
    decreases fuel, |deps|
  {
    if |deps| > 0 {
      assert fuel > 0;
      ResolveEachLeast(g, Deps(g, deps[0]), fuel - 1, c);
      ResolveEachLeast(g, deps[1..], fuel, c);
    }
  }

  /** The resolved dependencies of a capability are the least closed set holding its direct
      dependencies: all its transitive dependencies and nothing else. */
  lemma ResolveIsClosure(g: map<string, seq<string>>, name: string, fuel: nat, c: set<string>)
    requires Resolve(g, name, fuel).Some?
    ensures var s := Resolve(g, name, fuel).value;
            (forall d :: d in Deps(g, name) ==> d in s) && Closed(g, s)
            && (Closed(g, c) && (forall d :: d in Deps(g, name) ==> d in c) ==> s <= c)
  {
    ResolveEachClosed(g, Deps(g, name), fuel - 1);
    if Closed(g, c) && forall d :: d in Deps(g, name) ==> d in c {
      ResolveEachLeast(g, Deps(g, name), fuel - 1, c);
    }
  }

  /** A capability that depends on itself exhausts any recursion limit. */
  lemma {:induction false} SelfDependencyNeverResolves(g: map<string, seq<string>>, name: string, fuel: nat)
    requires name in g && |g[name]| > 0 && g[name][0] == name
    ensures Resolve(g, name, fuel).None?
    decreases fuel
  {
    if fuel > 0 {
      SelfDependencyNeverResolves(g, name, fuel - 1);
    }
  }

  // ---------------------------------------------------------------------
  // Activation
  // ---------------------------------------------------------------------

  /** The loader afterwards, the names whose `activate` was called, in order, and the exception
      that ended the call, if any. */
  datatype Outcome = Outcome(loader: Loader, activated: seq<string>, error: Option<Exception>)

  const RecursionLimit := Exception(RuntimeError, "maximum recursion depth exceeded")

  function DependencyMissing(name: string): Exception {
    Exception(ValueError, "Dependency '" + name + "' not found")
  }

  /** `order` enumerates the set `s`, each element once. */
  predicate Enumerates(order: seq<string>, s: set<string>) {
    (forall i, j :: 0 <= i < j < |order| ==> order[i] != order[j]) && (set x | x in order) == s
  }

  /** Dependency `d` gets past the loop of `activate` when the loader is `l`: it is registered,
      and its `activate` returns if it is inactive and so gets called. */
  predicate DepActivates(l: Loader, d: string) {
    d in l.registry.m && (d in l.inactive ==> l.registry.m[d].activateError.None?)
  }

  /** The exception a dependency that does not get past the loop raises. */
  function DepError(l: Loader, d: string): Exception
    requires !DepActivates(l, d)
  {
    if d !in l.registry.m then DependencyMissing(d) else l.registry.m[d].activateError.value
  }

  /** The loop of `activate` over the resolved dependencies, in iteration order. */
  function ActivateDeps(l: Loader, order: seq<string>): (o: Outcome)
    ensures o.loader.registry == l.registry && o.loader.graph == l.graph
    ensures l.inactive - (set d | d in order) <= o.loader.inactive <= l.inactive
    ensures o.error.None? <==> forall d :: d in order ==> DepActivates(l, d)
    ensures o.error.None? ==>
              o.loader.inactive == l.inactive - (set d | d in order)
              && forall x :: x in o.activated <==> x in order && x in l.inactive
    ensures o.error.Some? ==> FirstFailure(l, order, o.error.value)
    decreases |order|
  {
    if |order| == 0 then Outcome(l, [], None)
    else
      var d := order[0];
      if d !in l.registry.m then
        assert d in order && !DepActivates(l, d);
        Outcome(l, [], Some(DependencyMissing(d)))
      else if d in l.inactive && l.registry.m[d].activateError.Some? then
        assert d in order && !DepActivates(l, d);
        Outcome(l, [d], l.registry.m[d].activateError)
      else
        var l1 := l.(inactive := l.inactive - {d});
        var calls := if d in l.inactive then [d] else [];
        var o := ActivateDeps(l1, order[1..]);
        DepActivatesAfterPop(l, d);
        assert forall x :: x in order <==> x == d || x in order[1..];
        assert (set x | x in order) == {d} + (set x | x in order[1..]);
        assert o.error.Some? ==> FirstFailure(l, order, o.error.value) by {
          if o.error.Some? {
            FirstFailureShifts(l, order, o.error.value);
          }
        }
        Outcome(o.loader, calls + o.activated, o.error)
  }

  /** `e` is what the first name of `order` that does not get past the loop raises. */
  predicate FirstFailure(l: Loader, order: seq<string>, e: Exception) {
    exists i :: 0 <= i < |order| && !DepActivates(l, order[i])
                && (forall j :: 0 <= j < i ==> DepActivates(l, order[j]))
                && e == DepError(l, order[i])
  }

  /** The first failure of the rest of the loop, after the head was activated, is the first
      failure of the whole loop. */
  lemma FirstFailureShifts(l: Loader, order: seq<string>, e: Exception)
    requires |order| > 0 && DepActivates(l, order[0])
    requires FirstFailure(l.(inactive := l.inactive - {order[0]}), order[1..], e)
    ensures FirstFailure(l, order, e)
  {
    var l1 := l.(inactive := l.inactive - {order[0]});
    DepActivatesAfterPop(l, order[0]);
    var k :| 0 <= k < |order[1..]| && !DepActivates(l1, order[1..][k])
             && (forall j :: 0 <= j < k ==> DepActivates(l1, order[1..][j]))
             && e == DepError(l1, order[1..][k]);
    assert order[k + 1] == order[1..][k];
    forall j | 0 <= j < k + 1 ensures DepActivates(l, order[j]) {
      if j > 0 {
        assert order[j] == order[1..][j - 1];
      }
    }
  }

  /** Once a registered dependency has been activated, whether any name gets past the loop, and
      what it raises if not, is as before. */
  lemma DepActivatesAfterPop(l: Loader, d: string)
    requires DepActivates(l, d)
    ensures forall x :: DepActivates(l.(inactive := l.inactive - {d}), x) <==> DepActivates(l, x)
    ensures forall x :: !DepActivates(l, x) ==> DepError(l.(inactive := l.inactive - {d}), x) == DepError(l, x)
  {
  }

  /** `await activate(name)`, resolving with `fuel` levels of recursion. */
  function Activate(l: Loader, name: string, fuel: nat, order: seq<string>): (o: Outcome)
    requires Resolve(l.graph, name, fuel).Some? ==> Enumerates(order, Resolve(l.graph, name, fuel).value)
    ensures o.loader.registry == l.registry && o.loader.graph == l.graph && o.loader.inactive <= l.inactive
    ensures Resolve(l.graph, name, fuel).None? ==> o == Outcome(l, [], Some(RecursionLimit))
    ensures o.error.None? <==>
              Resolve(l.graph, name, fuel).Some? && name in l.registry.m
              && (forall d :: d in Resolve(l.graph, name, fuel).value ==> DepActivates(l, d))
              && l.registry.m[name].activateError.None?
    ensures o.error.None? ==>
              var deps := Resolve(l.graph, name, fuel).value;
              o.loader == l.(inactive := l.inactive - deps - {name})
              && |o.activated| > 0 && o.activated[|o.activated| - 1] == name
              && forall d :: d in o.activated[..|o.activated| - 1] <==> d in deps && d in l.inactive
    ensures Resolve(l.graph, name, fuel).Some? && name in l.registry.m
            && (forall d :: d in Resolve(l.graph, name, fuel).value ==> DepActivates(l, d))
            && l.registry.m[name].activateError.Some? ==>
              o.error == l.registry.m[name].activateError
              && o.loader == l.(inactive := l.inactive - Resolve(l.graph, name, fuel).value)
    ensures Resolve(l.graph, name, fuel).Some? && name !in l.registry.m
            && (forall d :: d in Resolve(l.graph, name, fuel).value ==> DepActivates(l, d)) ==>
              o.error == Some(Exception(KeyError, "'" + name + "'"))
              && o.loader == l.(inactive := l.inactive - Resolve(l.graph, name, fuel).value)
  {
    match Resolve(l.graph, name, fuel)
    case None => Outcome(l, [], Some(RecursionLimit))
    case Some(deps) =>
      assert forall x :: x in order <==> x in deps by {
        assert (set x | x in order) == deps;
      }
      var o := ActivateDeps(l, order);
      if o.error.Some? then o
      else if name !in l.registry.m then
        assert (set x | x in order) == deps;
        Outcome(o.loader, o.activated, Some(Exception(KeyError, "'" + name + "'")))
      else if l.registry.m[name].activateError.Some? then
        assert (set x | x in order) == deps;
        Outcome(o.loader, o.activated + [name], l.registry.m[name].activateError)
      else
        assert (set x | x in order) == deps;
        Outcome(o.loader.(inactive := o.loader.inactive - {name}), o.activated + [name], None)
  }

  /** `await deactivate(name)`: unknown names are ignored, and a `deactivate` that raises
      leaves the loader as it was. Only the named capability is marked, not its dependents. */
  function Deactivate(l: Loader, name: string): (r: Result<Loader>)
    ensures name !in l.registry.m ==> r == Ok(l)
    ensures name in l.registry.m ==>
              (r.Err? <==> l.registry.m[name].deactivateError.Some?)
              && (r.Err? ==> r.error == l.registry.m[name].deactivateError.value)
              && (r.Ok? ==> r.value == l.(inactive := l.inactive + {name}))
  {
    if name !in l.registry.m then Ok(l)
    else
      match l.registry.m[name].deactivateError
      case Some(e) => Err(e)
      case None => Ok(l.(inactive := l.inactive + {name}))
  }

  function NotRegistered(name: string): Exception {
    Exception(ValueError, "Capability '" + name + "' not registered")
  }

  function NotActive(name: string): Exception {
    Exception(RuntimeError, "Capability '" + name + "' is not active")
  }

  /** `await invoke(name, **kwargs)` */
  function Invoke(l: Loader, name: string, kwargs: Values.Payload): (r: Result<Values.Value>)
    ensures name !in l.registry.m ==> r == Err(NotRegistered(name))
    ensures name in l.registry.m && name in l.inactive ==> r == Err(NotActive(name))
    ensures name in l.registry.m && name !in l.inactive ==> r == l.registry.m[name].invoke(kwargs)
  {
    if name !in l.registry.m then Err(NotRegistered(name))
    else if name in l.inactive then Err(NotActive(name))
    else l.registry.m[name].invoke(kwargs)
  }

  /** `list_capabilities()` */
  function ListCapabilities(l: Loader): (r: map<string, Metadata>)
    ensures r.Keys == l.registry.m.Keys
    ensures forall n :: n in r ==> r[n] == l.registry.m[n].metadata
  {
    map n | n in l.registry.m :: l.registry.m[n].metadata
  }

  /** `list_active()`: registered names without an inactive mark, in registration order. */
  function ListActive(l: Loader): (r: seq<string>)
    ensures forall n :: n in r <==> n in l.registry.m && n !in l.inactive
    ensures forall i, j :: 0 <= i < j < |r| ==> r[i] != r[j]
  {
    Filter(l.registry.keys, l.inactive)
  }

  /** The elements of `s` outside `out`, in order. */
  function Filter(s: seq<string>, out: set<string>): (r: seq<string>)
    ensures forall x :: x in r <==> x in s && x !in out
    ensures OrderedMap.Distinct(s) ==> forall i, j :: 0 <= i < j < |r| ==> r[i] != r[j]
  {
    if |s| == 0 then []
    else
      var rest := Filter(s[1..], out);
      if s[0] in out then rest
      else
        assert OrderedMap.Distinct(s) ==> s[0] !in s[1..] && OrderedMap.Distinct(s[1..]) by {
          if OrderedMap.Distinct(s) {
            OrderedMap.HeadNotInTail(s);
          }
        }
        [s[0]] + rest
  }

  /** A freshly registered capability is active before any `activate`, and invoking it
      delegates to it. */
  lemma FreshlyRegisteredIsActive(l: Loader, c: Capability, kwargs: Values.Payload)
    requires c.metadata.name !in l.registry.m && c.metadata.name !in l.inactive
    ensures Register(l, c).Ok?
    ensures c.metadata.name in ListActive(Register(l, c).value)
    ensures Invoke(Register(l, c).value, c.metadata.name, kwargs) == c.invoke(kwargs)
  {
  }

  /** Deactivating, unloading and registering again leaves the capability inactive. */
  lemma InactiveMarkSurvivesUnload(l: Loader, c: Capability, kwargs: Values.Payload)
    requires c.metadata.name in l.registry.m && l.registry.m[c.metadata.name].deactivateError.None?
    ensures var name := c.metadata.name;
            var l' := Register(Unload(Deactivate(l, name).value, name), c);
            l'.Ok? && name !in ListActive(l'.value) && Invoke(l'.value, name, kwargs) == Err(NotActive(name))
  {
  }

  /** After a successful `activate(name)`, the capability and all its dependencies can be
      invoked, each delegating to its own `invoke`. */
  lemma ActivateThenInvoke(l: Loader, name: string, fuel: nat, order: seq<string>, kwargs: Values.Payload)
    requires Resolve(l.graph, name, fuel).Some? ==> Enumerates(order, Resolve(l.graph, name, fuel).value)
    requires Activate(l, name, fuel, order).error.None?
    ensures var l' := Activate(l, name, fuel, order).loader;
            Invoke(l', name, kwargs) == l.registry.m[name].invoke(kwargs)
            && forall d :: d in Resolve(l.graph, name, fuel).value ==>
                             Invoke(l', d, kwargs) == l.registry.m[d].invoke(kwargs)
  {
  }

  /** An `activate()` of the capability itself that raises leaves an inactive capability
      inactive, so invoking it still raises. */
  lemma RaisingActivateKeepsInactive(l: Loader, name: string, fuel: nat, order: seq<string>, kwargs: Values.Payload)
    requires Resolve(l.graph, name, fuel).Some? ==> Enumerates(order, Resolve(l.graph, name, fuel).value)
    requires name in l.registry.m && name in l.inactive && l.registry.m[name].activateError.Some?
    requires Resolve(l.graph, name, fuel).Some? ==> name !in Resolve(l.graph, name, fuel).value
    ensures Activate(l, name, fuel, order).error.Some?
    ensures Invoke(Activate(l, name, fuel, order).loader, name, kwargs) == Err(NotActive(name))
  {
  }

  /** A successful `deactivate(name)` makes invoking it raise, whatever it was before. */
  lemma DeactivateThenInvoke(l: Loader, name: string, kwargs: Values.Payload)
    requires name in l.registry.m && l.registry.m[name].deactivateError.None?
    ensures Deactivate(l, name).Ok?
    ensures Invoke(Deactivate(l, name).value, name, kwargs) == Err(NotActive(name))
  {
  }
}

=== FILE: loop.dfy ===
/** The autonomous loop: drives the agent for up to `max_steps` turns towards
    a goal, feeding each turn's outcome back as the next input.

    The agent's turn (a reply, `None`, or a raised exception), the human's
    answer to a review prompt and a concurrent `stop()` are given as
    functions of the step number. Nothing in `run` catches an exception from
    the agent: it escapes with `running` still set and the entries appended
    so far kept. */
module Loop {
  import opened Common
  import opened Text
  import opened Agent
  import Hitl

  datatype Entry = Entry(step: int, result: Reply)

  /** The loop object: its `running` flag and its history, which persists across runs. */
  datatype LoopState = LoopState(running: bool, history: seq<Entry>)

  datatype Oracles = Oracles(
    process: (int, string) -> Result<Option<Reply>>,  // the agent's turn at a step on an input
    human: int -> string,                     // the raw answer typed at a review prompt
    stopRequested: int -> bool)               // `stop()` was called before the check of this step

  function NewLoop(): (l: LoopState)
    ensures !l.running && |l.history| == 0
  {
    LoopState(false, [])
  }

  /** `loop.stop()` */
  function Stop(l: LoopState): (r: LoopState)
    ensures !r.running && r.history == l.history
  {
    l.(running := false)
  }

  const Phrases: seq<string> := ["goal achieved", "task complete", "finished", "all done"]

  function InitialInput(goal: string): string {
    "Keep working towards this goal: " + goal + ". If the goal is fully achieved, end the session by stating it."
  }

  /** A text reply that announces completion. */
  predicate Completes(r: Reply) {
    r.Text? && ContainsAny(Lower(r.content), Phrases)
  }

  predicate Approved(answer: string) {
    Lower(answer) in ["y", "yes", "a"]
  }

  /** The input of the step after a reply that did not complete the goal. */
  function NextInput(r: Reply, goal: string, answer: string): string {
    match r
    case ActionResult(content) =>
      "The previous action returned: " + content + ". Continue working on the goal: " + goal
    case HitlReview(tool, _) =>
      if Approved(answer) then
        "Action '" + tool + "' was approved and executed. Continue towards goal: " + goal
      else
        "Action '" + tool + "' was REJECTED by the user. Find another way to achieve the goal: " + goal
    case _ =>
      "I've noted your response. Continue towards the goal: " + goal
  }

  /** What the steps from some step on do: the entries they append, and the exception that
      escaped, if one did. */
  datatype Outcome = Outcome(entries: seq<Entry>, raised: Option<Exception>)

  /** The steps from `step` on, given the current input. */
  function Steps(step: int, maxSteps: int, input: string, goal: string, o: Oracles): Outcome
    decreases maxSteps - step + 1
  {
    if step > maxSteps then Outcome([], None)
    else if step > 1 && o.stopRequested(step) then Outcome([], None)
    else
      match o.process(step, input)
      case Err(e) => Outcome([], Some(e))
      case Ok(None) => Outcome([], None)
      case Ok(Some(r)) =>
        if Completes(r) then Outcome([Entry(step, r)], None)
        else
          var rest := Steps(step + 1, maxSteps, NextInput(r, goal, o.human(step)), goal, o);
          Outcome([Entry(step, r)] + rest.entries, rest.raised)
  }

  /** Appended entries are numbered `from`, `from + 1`, ... and never go past `max_steps`. */
  lemma {:induction false} StepsNumbered(step: int, maxSteps: int, input: string, goal: string, o: Oracles)
    requires step >= 1
    ensures var s := Steps(step, maxSteps, input, goal, o).entries;
            (|s| <= if maxSteps >= step then maxSteps - step + 1 else 0)
            && forall i :: 0 <= i < |s| ==> s[i].step == step + i
    decreases maxSteps - step + 1
  {
    if step <= maxSteps && !(step > 1 && o.stopRequested(step)) && o.process(step, input).Ok?
       && o.process(step, input).value.Some? {
      var r := o.process(step, input).value.value;
      if !Completes(r) {
        StepsNumbered(step + 1, maxSteps, NextInput(r, goal, o.human(step)), goal, o);
      }
    }
  }

  /** `await loop.run(goal, max_steps)`: the loop's new state, and the exception that escaped
      the run, if one did; the returned list is the loop's history. */
  method Run(l: LoopState, goal: string, maxSteps: int, o: Oracles) returns (r: LoopState, raised: Option<Exception>)
    ensures raised == Steps(1, maxSteps, InitialInput(goal), goal, o).raised
    ensures r.running <==> raised.Some?
    ensures r.history == l.history + Steps(1, maxSteps, InitialInput(goal), goal, o).entries
  {
    var history := l.history;
    var input := InitialInput(goal);
    var step := 1;
    var done := false;
    raised := None;
    ghost var total := Steps(1, maxSteps, input, goal, o);
    while step <= maxSteps && !done
      invariant step >= 1
      invariant done ==> raised == total.raised && l.history + total.entries == history
      invariant !done ==> raised.None? && total.raised == Steps(step, maxSteps, input, goal, o).raised
                          && l.history + total.entries == history + Steps(step, maxSteps, input, goal, o).entries
      decreases maxSteps - step + 1, if done then 0 else 1
    {
      if step > 1 && o.stopRequested(step) {
        StopEndsRun(step, maxSteps, input, goal, o);
        done := true;
      } else {
        var result := o.process(step, input);
        if result.Err? {
          RaiseEndsRun(step, maxSteps, input, goal, o);
          raised := Some(result.error);
          done := true;
        } else if result.value.None? {
          NoReplyEndsRun(step, maxSteps, input, goal, o);
          done := true;
        } else {
          var reply := result.value.value;
          var e := Entry(step, reply);
          if Completes(reply) {
            CompletionEndsRun(step, maxSteps, input, goal, o);
            history := history + [e];
            done := true;
          } else {
            var next := NextInput(reply, goal, o.human(step));
            ReplyContinues(step, maxSteps, input, goal, o);
            AppendAssoc(history, [e], Steps(step + 1, maxSteps, next, goal, o).entries);
            history := history + [e];
            input := next;
            step := step + 1;
          }
        }
      }
    }
    if !done {
      assert Steps(step, maxSteps, input, goal, o) == Outcome([], None);
    }
    return LoopState(raised.Some?, history), raised;
  }

  // ---------------------------------------------------------------------
  // Properties of a run
  // ---------------------------------------------------------------------

  /** One run appends at most `max_steps` entries, numbered 1, 2, ... in order; earlier
      history is kept. */
  lemma RunBounds(l: LoopState, goal: string, maxSteps: int, o: Oracles)
    ensures var s := Steps(1, maxSteps, InitialInput(goal), goal, o).entries;
            |s| <= (if maxSteps > 0 then maxSteps else 0)
            && forall i :: 0 <= i < |s| ==> s[i].step == i + 1
  {
    StepsNumbered(1, maxSteps, InitialInput(goal), goal, o);
  }

  /** A stop requested before a later step ends the run there without appending. */
  lemma StopEndsRun(step: int, maxSteps: int, input: string, goal: string, o: Oracles)
    requires step > 1 && o.stopRequested(step)
    ensures Steps(step, maxSteps, input, goal, o) == Outcome([], None)
  {
  }

  /** A `None` reply ends the run without appending. */
  lemma NoReplyEndsRun(step: int, maxSteps: int, input: string, goal: string, o: Oracles)
    requires step <= maxSteps && !(step > 1 && o.stopRequested(step))
    requires o.process(step, input) == Ok(None)
    ensures Steps(step, maxSteps, input, goal, o) == Outcome([], None)
  {
  }

  /** An exception from the agent ends the run at once, appending nothing for that step. */
  lemma RaiseEndsRun(step: int, maxSteps: int, input: string, goal: string, o: Oracles)
    requires step <= maxSteps && !(step > 1 && o.stopRequested(step))
    requires o.process(step, input).Err?
    ensures Steps(step, maxSteps, input, goal, o) == Outcome([], Some(o.process(step, input).error))
  {
  }

  /** A completing text reply is appended and ends the run. */
  lemma CompletionEndsRun(step: int, maxSteps: int, input: string, goal: string, o: Oracles)
    requires step <= maxSteps && !(step > 1 && o.stopRequested(step))
    requires o.process(step, input).Ok? && o.process(step, input).value.Some?
    requires Completes(o.process(step, input).value.value)
    ensures Steps(step, maxSteps, input, goal, o) == Outcome([Entry(step, o.process(step, input).value.value)], None)
  {
  }

  /** A reply that does not complete the goal is appended, and the run goes on with the
      next input. */
  lemma ReplyContinues(step: int, maxSteps: int, input: string, goal: string, o: Oracles)
    requires step <= maxSteps && !(step > 1 && o.stopRequested(step))
    requires o.process(step, input).Ok? && o.process(step, input).value.Some?
    requires !Completes(o.process(step, input).value.value)
    ensures var r := o.process(step, input).value.value;
            var rest := Steps(step + 1, maxSteps, NextInput(r, goal, o.human(step)), goal, o);
            Steps(step, maxSteps, input, goal, o) == Outcome([Entry(step, r)] + rest.entries, rest.raised)
  {
  }

  /** An action result never ends the run, even when it contains a completion phrase. */
  lemma ActionResultContinues(step: int, maxSteps: int, input: string, goal: string, o: Oracles, content: string)
    requires step <= maxSteps && !(step > 1 && o.stopRequested(step))
    requires o.process(step, input) == Ok(Some(ActionResult(content)))
    ensures var rest := Steps(step + 1, maxSteps,
                              "The previous action returned: " + content + ". Continue working on the goal: " + goal,
                              goal, o);
            Steps(step, maxSteps, input, goal, o) == Outcome([Entry(step, ActionResult(content))] + rest.entries, rest.raised)
  {
  }

  /** "All done" in any case ends the run. */
  lemma AllDoneCompletes()
    ensures Completes(Text("ALL DONE!"))
  {
    assert Lower("ALL DONE!") == "all done!";
    assert OccursAt("all done!", "all done", 0);
    assert Phrases[3] == "all done";
  }

  /** A review answer of "y", "yes" or "a" (any case) approves; "approve" does not,
      although the review axiom's own approval check accepts it. */
  lemma LoopApprovalWords()
    ensures Approved("Y") && Approved("yes") && Approved("A")
    ensures !Approved("approve") && !Approved("n")
  {
    assert Lower("Y") == "y";
    assert Lower("A") == "a";
    assert Lower("yes") == "yes";
    assert Lower("approve") == "approve";
    assert Lower("n") == "n";
  }

  /** The loop's review prompt and the review axiom's own check accept the same answers,
      except "approve" in any case, which only the axiom accepts. */
  lemma ApprovalWordsDiffer(answer: string)
    ensures Hitl.ValidateApproval(answer) <==> Approved(answer) || Lower(answer) == "approve"
    ensures Approved(answer) ==> Hitl.ValidateApproval(answer)
  {
  }

  /** The agent's turn as `process` is written, seen by the loop. */
  function WrittenAgent(a: AgentState, c: Collaborators): (int, string) -> Result<Option<Reply>> {
    (step: int, input: string) =>
      match ProcessAsWritten(a, c, input)
      case Err(e) => Err(e)
      case Ok(t) => Ok(t.reply)
  }

  /** Driving the agent as written, once its tools are fetched, the first step raises
      AttributeError for every goal: the run appends nothing and leaves the loop running. */
  lemma WrittenAgentFailsFirstStep(a: AgentState, c: Collaborators, goal: string, maxSteps: int,
                                   human: int -> string, stop: int -> bool)
    requires c.synapse.Some? && c.synapse.value.tools.Ok? && maxSteps >= 1
    ensures var out := Steps(1, maxSteps, InitialInput(goal), goal, Oracles(WrittenAgent(a, c), human, stop));
            out.entries == [] && out.raised.Some? && out.raised.value.kind == AttributeError
  {
    var o := Oracles(WrittenAgent(a, c), human, stop);
    AsWrittenRaises(a, c, InitialInput(goal));
    assert o.process(1, InitialInput(goal)).Err?;
    RaiseEndsRun(1, maxSteps, InitialInput(goal), goal, o);
  }
}

=== FILE: lru_cache.dfy ===
/** The least-recently-used cache: an ordered dictionary whose order runs
    from least to most recently used. */
module LruCache {
  import opened Common
  import OrderedMap
  import SC = SimpleCache

  datatype Lru<V> = Lru(maxSize: int, store: SC.Store<V>, stats: SC.Stats)

  function NewLru<V>(maxSize: int): (c: Lru<V>)
    ensures |c.store.keys| == 0 && c.stats == SC.NoStats
  {
    Lru(maxSize, OrderedMap.Empty(), SC.NoStats)
  }

  /** `await lru.get(key)`: a hit moves the key to the most-recent end. */
  function Get<V>(c: Lru<V>, key: string, now: int): (r: (Lru<V>, Option<V>))
    ensures key !in c.store.m ==> r == (c.(stats := c.stats.(misses := c.stats.misses + 1)), None)
    ensures key in c.store.m && SC.IsExpired(c.store.m[key], now) ==>
              r.1.None? && r.0.store == OrderedMap.Remove(c.store, key)
              && r.0.stats == c.stats.(misses := c.stats.misses + 1)
    ensures key in c.store.m && !SC.IsExpired(c.store.m[key], now) ==>
              r.1 == Some(c.store.m[key].value)
              && r.0.store.keys == OrderedMap.Without(c.store.keys, key) + [key]
              && r.0.store.m == c.store.m[key := SC.Touch(c.store.m[key], now)]
              && r.0.stats == c.stats.(hits := c.stats.hits + 1)
    ensures r.0.maxSize == c.maxSize
  {
    if key !in c.store.m then
      (c.(stats := c.stats.(misses := c.stats.misses + 1)), None)
    else
      var e := c.store.m[key];
      if SC.IsExpired(e, now) then
        (c.(store := OrderedMap.Remove(c.store, key), stats := c.stats.(misses := c.stats.misses + 1)), None)
      else
        var moved := OrderedMap.MoveToEnd(c.store, key);
        (c.(store := OrderedMap.Put(moved, key, SC.Touch(e, now)), stats := c.stats.(hits := c.stats.hits + 1)),
         Some(e.value))
  }

  /** `await lru.set(key, value, ttl_seconds)`. A new key on a full cache evicts the
      least recently used key first; on an empty cache with `max_size <= 0` the
      eviction's `next(iter(...))` raises `StopIteration` inside the coroutine, which
      the awaiting caller receives as a `RuntimeError` (PEP 479). */
  function Set<V>(c: Lru<V>, key: string, value: V, ttl: Option<int>, now: int): (r: Result<Lru<V>>)
    ensures r.Err? <==> key !in c.store.m && |c.store.keys| >= c.maxSize && |c.store.keys| == 0
    ensures r.Err? ==> r.error == Exception(RuntimeError, "coroutine raised StopIteration")
    ensures r.Ok? ==> key in r.value.store.m && r.value.store.m[key] == SC.NewEntry(key, value, ttl, now)
                      && r.value.store.keys[|r.value.store.keys| - 1] == key
                      && r.value.stats.sets == c.stats.sets + 1 && r.value.maxSize == c.maxSize
    ensures key in c.store.m ==>
              r.Ok? && r.value.store.keys == OrderedMap.Without(c.store.keys, key) + [key]
              && r.value.stats.evictions == c.stats.evictions
    ensures key !in c.store.m && |c.store.keys| < c.maxSize ==>
              r.Ok? && r.value.store.keys == c.store.keys + [key]
              && r.value.stats.evictions == c.stats.evictions
    ensures key !in c.store.m && |c.store.keys| >= c.maxSize && |c.store.keys| > 0 ==>
              r.Ok? && r.value.store.keys == c.store.keys[1..] + [key]
              && c.store.keys[0] !in r.value.store.m
              && r.value.stats.evictions == c.stats.evictions + 1
  {
    if key in c.store.m then
      var moved := OrderedMap.MoveToEnd(c.store, key);
      Ok(Insert(c.(store := moved), key, value, ttl, now))
    else if |c.store.keys| >= c.maxSize then
      if |c.store.keys| == 0 then
        Err(Exception(RuntimeError, "coroutine raised StopIteration"))
      else
        var lru := c.store.keys[0];
        var evicted := c.(store := OrderedMap.Remove(c.store, lru),
                          stats := c.stats.(evictions := c.stats.evictions + 1));
        FirstRemoved(c.store);
        Ok(Insert(evicted, key, value, ttl, now))
    else
      Ok(Insert(c, key, value, ttl, now))
  }

  /** `store[key] = CacheEntry(...)` followed by counting the set. */
  function Insert<V>(c: Lru<V>, key: string, value: V, ttl: Option<int>, now: int): (r: Lru<V>)
    ensures r.store == OrderedMap.Put(c.store, key, SC.NewEntry(key, value, ttl, now))
    ensures r.stats == c.stats.(sets := c.stats.sets + 1) && r.maxSize == c.maxSize
  {
    c.(store := OrderedMap.Put(c.store, key, SC.NewEntry(key, value, ttl, now)),
       stats := c.stats.(sets := c.stats.sets + 1))
  }

  lemma FirstRemoved<V>(d: SC.Store<V>)
    requires |d.keys| > 0
    ensures OrderedMap.Without(d.keys, d.keys[0]) == d.keys[1..]
  {
    OrderedMap.HeadNotInTail(d.keys);
  }

  /** `await lru.delete(key)` */
  function Delete<V>(c: Lru<V>, key: string): (r: (Lru<V>, bool))
    ensures r.1 <==> key in c.store.m
    ensures r.0.store == OrderedMap.Remove(c.store, key) && key !in r.0.store.m
    ensures r.0.stats == if r.1 then c.stats.(deletes := c.stats.deletes + 1) else c.stats
  {
    if key in c.store.m then
      (c.(store := OrderedMap.Remove(c.store, key), stats := c.stats.(deletes := c.stats.deletes + 1)), true)
    else (c, false)
  }

  /** `await lru.exists(key)`: drops an expired entry, does not count, does not reorder. */
  function Exists<V>(c: Lru<V>, key: string, now: int): (r: (Lru<V>, bool))
    ensures r.1 <==> key in c.store.m && !SC.IsExpired(c.store.m[key], now)
    ensures r.0.stats == c.stats && r.0.maxSize == c.maxSize
    ensures r.1 ==> r.0 == c
    ensures !r.1 ==> r.0.store == OrderedMap.Remove(c.store, key)
  {
    if key in c.store.m && !SC.IsExpired(c.store.m[key], now) then (c, true)
    else if key in c.store.m then (c.(store := OrderedMap.Remove(c.store, key)), false)
    else (c, false)
  }

  /** `await lru.clear()` */
  function Clear<V>(c: Lru<V>): (r: Lru<V>)
    ensures |r.store.keys| == 0 && r.stats == c.stats && r.maxSize == c.maxSize
  {
    c.(store := OrderedMap.Empty())
  }

  function GetStats<V>(c: Lru<V>): (r: SC.StatsReport)
    ensures r.size == |c.store.m| && r.maxSize == c.maxSize
    ensures r.totalRequests == c.stats.hits + c.stats.misses
  {
    OrderedMap.SizeIsKeyCount(c.store);
    SC.Report(c.stats, |c.store.keys|, c.maxSize)
  }

  // ---------------------------------------------------------------------
  // Properties
  // ---------------------------------------------------------------------

  /** With `max_size >= 1` the cache never holds more than `max_size` entries. */
  predicate Bounded<V>(c: Lru<V>) {
    |c.store.keys| <= c.maxSize
  }

  lemma SetKeepsBound<V>(c: Lru<V>, key: string, value: V, ttl: Option<int>, now: int)
    requires Bounded(c) && c.maxSize >= 1
    ensures Set(c, key, value, ttl, now).Ok?
    ensures Bounded(Set(c, key, value, ttl, now).value)
  {
    if key in c.store.m {
      OrderedMap.WithoutDistinct(c.store.keys, key);
    }
  }

  lemma OtherOpsKeepBound<V>(c: Lru<V>, key: string, now: int)
    requires Bounded(c)
    ensures Bounded(Get(c, key, now).0) && Bounded(Delete(c, key).0)
    ensures Bounded(Exists(c, key, now).0) && Bounded(Clear(c))
  {
    OrderedMap.WithoutDistinct(c.store.keys, key);
  }

  /** A zero-capacity cache cannot take its first entry. */
  lemma ZeroCapacityRaises<V>(key: string, value: V, now: int)
    ensures Set(NewLru<V>(0), key, value, None, now).Err?
  {
  }

  /** Reading a key protects it from the next eviction: after a hit on `k`, filling a
      full cache with a new key evicts something else (when there is something else). */
  lemma HitProtectsFromEviction<V>(c: Lru<V>, k: string, newKey: string, value: V, now: int)
    requires k in c.store.m && !SC.IsExpired(c.store.m[k], now)
    requires newKey !in c.store.m && |c.store.keys| >= c.maxSize && |c.store.keys| >= 2
    ensures var c1 := Get(c, k, now).0;
            Set(c1, newKey, value, None, now).Ok? && k in Set(c1, newKey, value, None, now).value.store.m
  {
    var c1 := Get(c, k, now).0;
    OrderedMap.WithoutDistinct(c.store.keys, k);
    assert c1.store.keys[|c1.store.keys| - 1] == k;
    assert |c1.store.keys| >= 2;
    OrderedMap.WithoutDistinct(c1.store.keys, c1.store.keys[0]);
    assert k in c1.store.keys[1..];
  }
}

=== FILE: metrics.dfy ===
/** Metric collection with bounded per-name history, and the registry of
    named collectors. A history is a `deque(maxlen=max_history)`: appending
    to a full one drops its oldest entry. Timestamps are whole seconds from
    the caller's clock; values are real numbers. */
module Metrics {
  import opened Common
  import OrderedMap
  import Aggregate

  datatype MetricType = Counter | Gauge | Histogram | Timer

  function TypeValue(t: MetricType): string {
    match t
    case Counter => "counter"
    case Gauge => "gauge"
    case Histogram => "histogram"
    case Timer => "timer"
  }

  datatype Metric = Metric(name: string, value: real, metricType: MetricType, timestamp: int,
                           labels: map<string, string>)

  datatype Collector = Collector(metrics: OrderedMap.Dict<string, seq<Metric>>, maxHistory: int)

  const DefaultMaxHistory := 1000

  /** `MetricCollector(max_history)` */
  function NewCollector(maxHistory: int): (c: Collector)
    ensures |c.metrics.keys| == 0 && c.maxHistory == maxHistory
  {
    Collector(OrderedMap.Empty(), maxHistory)
  }

  const NegativeMaxlen := Exception(ValueError, "maxlen must be non-negative")

  /** `deque.append` on a deque bounded by `n`: the oldest entries fall off the front. */
  function BoundedAppend(d: seq<Metric>, m: Metric, n: nat): (r: seq<Metric>)
    ensures |r| == Min(|d| + 1, n)
    ensures r == (d + [m])[|d| + 1 - |r|..]
  {
    var all := d + [m];
    all[|all| - Min(|all|, n)..]
  }

  /** `r` is `c` after appending `m` to the history of its name: that history grows by a
      bounded append and every other history is as it was. */
  ghost predicate Appended(c: Collector, r: Collector, m: Metric) {
    r.maxHistory == c.maxHistory
    && History(r, m.name) == BoundedAppend(History(c, m.name), m, Max(c.maxHistory, 0))
    && forall k :: k != m.name ==> History(r, k) == History(c, k)
  }

  /** `record(metric)`: a new name gets a fresh bounded history, which cannot be created with
      a negative bound. */
  function Record(c: Collector, m: Metric): (r: Result<Collector>)
    ensures r.Err? <==> m.name !in c.metrics.m && c.maxHistory < 0
    ensures r.Err? ==> r.error == NegativeMaxlen
    ensures r.Ok? ==> Appended(c, r.value, m)
  {
    if m.name !in c.metrics.m && c.maxHistory < 0 then Err(NegativeMaxlen)
    else
      var history := if m.name in c.metrics.m then c.metrics.m[m.name] else [];
      Ok(c.(metrics := OrderedMap.Put(c.metrics, m.name, BoundedAppend(history, m, Max(c.maxHistory, 0)))))
  }

  /** `labels or {}` */
  function LabelsOrEmpty(labels: Option<map<string, string>>): map<string, string> {
    if labels.Some? then labels.value else map[]
  }

  /** `counter(name, value=1.0, labels)` at time `now` */
  function CounterAt(c: Collector, name: string, value: real, labels: Option<map<string, string>>, now: int): (r: Result<Collector>)
    ensures r.Err? <==> name !in c.metrics.m && c.maxHistory < 0
    ensures r.Ok? ==> Appended(c, r.value, Metric(name, value, Counter, now, LabelsOrEmpty(labels)))
  {
    Record(c, Metric(name, value, Counter, now, LabelsOrEmpty(labels)))
  }

  /** `gauge(name, value, labels)` at time `now` */
  function GaugeAt(c: Collector, name: string, value: real, labels: Option<map<string, string>>, now: int): (r: Result<Collector>)
    ensures r.Err? <==> name !in c.metrics.m && c.maxHistory < 0
    ensures r.Ok? ==> Appended(c, r.value, Metric(name, value, Gauge, now, LabelsOrEmpty(labels)))
  {
    Record(c, Metric(name, value, Gauge, now, LabelsOrEmpty(labels)))
  }

  /** `histogram(name, value, labels)` at time `now` */
  function HistogramAt(c: Collector, name: string, value: real, labels: Option<map<string, string>>, now: int): (r: Result<Collector>)
    ensures r.Err? <==> name !in c.metrics.m && c.maxHistory < 0
    ensures r.Ok? ==> Appended(c, r.value, Metric(name, value, Histogram, now, LabelsOrEmpty(labels)))
  {
    Record(c, Metric(name, value, Histogram, now, LabelsOrEmpty(labels)))
  }

  /** `timer(name, duration_ms, labels)` at time `now` */
  function TimerAt(c: Collector, name: string, durationMs: real, labels: Option<map<string, string>>, now: int): (r: Result<Collector>)
    ensures r.Err? <==> name !in c.metrics.m && c.maxHistory < 0
    ensures r.Ok? ==> Appended(c, r.value, Metric(name, durationMs, Timer, now, LabelsOrEmpty(labels)))
  {
    Record(c, Metric(name, durationMs, Timer, now, LabelsOrEmpty(labels)))
  }

  /** `self.metrics.get(name, [])` */
  function History(c: Collector, name: string): seq<Metric> {
    if name in c.metrics.m then c.metrics.m[name] else []
  }

  /** `get_metrics(name)`: a non-empty name selects that history (empty if unknown); no name,
      or the empty name, selects them all. */
  function GetMetrics(c: Collector, name: Option<string>): (r: map<string, seq<Metric>>)
    ensures name.Some? && name.value != "" ==> r == map[name.value := History(c, name.value)]
    ensures !(name.Some? && name.value != "") ==> r == c.metrics.m
  {
    if name.Some? && name.value != "" then map[name.value := History(c, name.value)] else c.metrics.m
  }

  /** `get_latest(name)` */
  function GetLatest(c: Collector, name: string): (r: Option<Metric>)
    ensures |History(c, name)| == 0 <==> r.None?
    ensures r.Some? ==> r.value == History(c, name)[|History(c, name)| - 1]
  {
    var h := History(c, name);
    if |h| == 0 then None else Some(h[|h| - 1])
  }

  datatype Stats = Stats(count: nat, min: real, max: real, avg: real, latest: real, metricType: string)

  /** The values of a history, oldest first. */
  function ValuesOf(h: seq<Metric>): (r: seq<real>)
    ensures |r| == |h| && forall i :: 0 <= i < |h| ==> r[i] == h[i].value
  {
    seq(|h|, i requires 0 <= i < |h| => h[i].value)
  }

  /** The least and greatest values of a non-empty history are values it holds, and bound all
      the others. */
  lemma HistoryExtrema(h: seq<Metric>)
    requires |h| > 0
    ensures forall i :: 0 <= i < |h| ==> Aggregate.Least(ValuesOf(h)) <= h[i].value <= Aggregate.Greatest(ValuesOf(h))
    ensures exists i :: 0 <= i < |h| && h[i].value == Aggregate.Least(ValuesOf(h))
    ensures exists i :: 0 <= i < |h| && h[i].value == Aggregate.Greatest(ValuesOf(h))
  {
    var vs := ValuesOf(h);
    Aggregate.ExtremaBound(vs);
    Aggregate.ExtremaAreElements(vs);
    var i :| 0 <= i < |vs| && vs[i] == Aggregate.Least(vs);
    var j :| 0 <= j < |vs| && vs[j] == Aggregate.Greatest(vs);
    assert h[i].value == Aggregate.Least(vs) && h[j].value == Aggregate.Greatest(vs);
  }

  /** `get_stats(name)` */
  function GetStats(c: Collector, name: string): (r: Option<Stats>)
    ensures r.None? <==> |History(c, name)| == 0
    ensures r.Some? ==>
              var h := History(c, name);
              r.value.count == |h| && r.value.latest == h[|h| - 1].value
              && r.value.metricType == TypeValue(h[|h| - 1].metricType)
              && r.value.min <= r.value.latest <= r.value.max
              && r.value.min <= r.value.avg <= r.value.max
              && (forall i :: 0 <= i < |h| ==> r.value.min <= h[i].value <= r.value.max)
              && (exists i :: 0 <= i < |h| && h[i].value == r.value.min)
              && (exists i :: 0 <= i < |h| && h[i].value == r.value.max)
              && r.value.avg * (r.value.count as real) == Aggregate.Sum(ValuesOf(h))
  {
    var h := History(c, name);
    if |h| == 0 then None
    else
      var vs := ValuesOf(h);
      HistoryExtrema(h);
      Aggregate.MeanBetween(vs);
      Some(Stats(|vs|, Aggregate.Least(vs), Aggregate.Greatest(vs), Aggregate.Sum(vs) / (|vs| as real),
                 vs[|vs| - 1], TypeValue(h[|h| - 1].metricType)))
  }

  /** Right after `record(m)` with a positive bound, the statistics of `m.name` end with `m`:
      its value is the latest one, within the extremes, and its type is reported. */
  lemma RecordThenStats(c: Collector, m: Metric)
    requires c.maxHistory > 0
    ensures GetStats(Record(c, m).value, m.name).Some?
    ensures var s := GetStats(Record(c, m).value, m.name).value;
            s.latest == m.value && s.min <= m.value <= s.max && s.metricType == TypeValue(m.metricType)
            && 1 <= s.count <= c.maxHistory
  {
    RecordThenLatest(c, m, m.name + "'");
  }

  /** `clear(name)`: a non-empty name removes that history only; otherwise everything. */
  function Clear(c: Collector, name: Option<string>): (r: Collector)
    ensures name.Some? && name.value != "" ==>
              r.metrics.m == c.metrics.m - {name.value}
    ensures !(name.Some? && name.value != "") ==> |r.metrics.keys| == 0
    ensures r.maxHistory == c.maxHistory
  {
    if name.Some? && name.value != "" then c.(metrics := OrderedMap.Remove(c.metrics, name.value))
    else c.(metrics := OrderedMap.Empty())
  }

  // ---------------------------------------------------------------------
  // Bounded history
  // ---------------------------------------------------------------------

  /** `record` succeeds: the name already has a history, or a new one can be made. */
  predicate CanRecord(c: Collector, name: string) {
    name in c.metrics.m || c.maxHistory >= 0
  }

  /** Every history respects the bound. */
  predicate Bounded(c: Collector) {
    forall k :: k in c.metrics.m ==> |c.metrics.m[k]| <= Max(c.maxHistory, 0)
  }

  /** Recording changes the history of the recorded name only, by a bounded append. */
  lemma RecordHistory(c: Collector, m: Metric, k: string)
    requires CanRecord(c, m.name)
    ensures Record(c, m).value.maxHistory == c.maxHistory
    ensures History(Record(c, m).value, k)
            == if k == m.name then BoundedAppend(History(c, k), m, Max(c.maxHistory, 0)) else History(c, k)
  {
  }

  /** Recording keeps every history within `max_history`. */
  lemma RecordKeepsBound(c: Collector, m: Metric)
    requires Bounded(c) && CanRecord(c, m.name)
    ensures Bounded(Record(c, m).value)
  {
    var c' := Record(c, m).value;
    forall k | k in c'.metrics.m ensures |c'.metrics.m[k]| <= Max(c'.maxHistory, 0) {
      RecordHistory(c, m, k);
      assert History(c', k) == c'.metrics.m[k];
    }
  }

  /** With a positive bound the recorded metric becomes the latest of its name, and no other
      name is touched. */
  lemma RecordThenLatest(c: Collector, m: Metric, other: string)
    requires c.maxHistory > 0 && other != m.name
    ensures GetLatest(Record(c, m).value, m.name) == Some(m)
    ensures History(Record(c, m).value, other) == History(c, other)
  {
    RecordHistory(c, m, m.name);
    RecordHistory(c, m, other);
  }

  /** Recording `ms` one after another. */
  function RecordAll(c: Collector, ms: seq<Metric>): Result<Collector> {
    if |ms| == 0 then Ok(c)
    else
      var c' :- RecordAll(c, ms[..|ms| - 1]);
      Record(c', ms[|ms| - 1])
  }

  /** The history of a name is the last `max_history` metrics recorded under it (all of them when
      fewer were recorded), oldest first. */
  lemma {:induction false} HistoryIsRecentSuffix(c: Collector, ms: seq<Metric>, name: string)
    requires c.maxHistory >= 0 && name !in c.metrics.m
    requires forall i :: 0 <= i < |ms| ==> ms[i].name == name
    ensures RecordAll(c, ms).Ok? && RecordAll(c, ms).value.maxHistory == c.maxHistory
    ensures var h := History(RecordAll(c, ms).value, name);
            |h| == Min(|ms|, c.maxHistory) && h == ms[|ms| - |h|..]
  {
    if |ms| > 0 {
      var front := ms[..|ms| - 1];
      HistoryIsRecentSuffix(c, front, name);
      var c' := RecordAll(c, front).value;
      RecordStep(c', ms[|ms| - 1], c.maxHistory);
      SuffixStep(ms, History(c', name), c.maxHistory);
    }
  }

  /** One recording step under a non-negative bound. */
  lemma RecordStep(c: Collector, m: Metric, n: nat)
    requires c.maxHistory == n
    ensures Record(c, m).Ok? && Record(c, m).value.maxHistory == n
    ensures History(Record(c, m).value, m.name) == BoundedAppend(History(c, m.name), m, n)
  {
    RecordHistory(c, m, m.name);
  }

  /** Appending the next metric to the last `n` of `ms[..|ms|-1]` gives the last `n` of `ms`. */
  lemma SuffixStep(ms: seq<Metric>, h: seq<Metric>, n: nat)
    requires |ms| > 0 && |h| == Min(|ms| - 1, n) && h == ms[..|ms| - 1][|ms| - 1 - |h|..]
    ensures var r := BoundedAppend(h, ms[|ms| - 1], n);
            |r| == Min(|ms|, n) && r == ms[|ms| - |r|..]
  {
    assert h + [ms[|ms| - 1]] == ms[|ms| - 1 - |h|..];
  }

  /** `clear(name)` removes that name and leaves every other history as it was. */
  lemma ClearOnlyThatName(c: Collector, name: string, other: string)
    requires name != "" && other != name
    ensures History(Clear(c, Some(name)), name) == [] && GetStats(Clear(c, Some(name)), name).None?
    ensures History(Clear(c, Some(name)), other) == History(c, other)
    ensures History(Clear(c, None), other) == [] && Clear(c, Some("")) == Clear(c, None)
  {
  }

  // ---------------------------------------------------------------------
  // The registry of collectors
  // ---------------------------------------------------------------------

  datatype Registry = Registry(collectors: OrderedMap.Dict<string, Collector>)

  /** `get_collector(name)`: get or create with the default history bound. */
  function GetCollector(r: Registry, name: string): (res: (Registry, Collector))
    ensures name in res.0.collectors.m && res.1 == res.0.collectors.m[name]
    ensures name in r.collectors.m ==> res == (r, r.collectors.m[name])
    ensures name !in r.collectors.m ==> res.1 == NewCollector(DefaultMaxHistory)
  {
    if name in r.collectors.m then (r, r.collectors.m[name])
    else
      var c := NewCollector(DefaultMaxHistory);
      (Registry(OrderedMap.Put(r.collectors, name, c)), c)
  }

  /** `get_collector` is idempotent: the second call changes nothing and returns the same collector. */
  lemma GetCollectorIdempotent(r: Registry, name: string)
    ensures var (r1, c1) := GetCollector(r, name);
            GetCollector(r1, name) == (r1, c1)
  {
  }

  /** `record_metric(collector_name, metric)` */
  function RecordMetric(r: Registry, collectorName: string, m: Metric): (res: Result<Registry>)
    ensures res.Ok? <==> Record(GetCollector(r, collectorName).1, m).Ok?
    ensures res.Ok? ==> collectorName in res.value.collectors.m
                        && res.value.collectors.m[collectorName] == Record(GetCollector(r, collectorName).1, m).value
  {
    var (r1, c) := GetCollector(r, collectorName);
    var c' :- Record(c, m);
    Ok(Registry(OrderedMap.Put(r1.collectors, collectorName, c')))
  }

  /** The stats of every non-empty history of a collector. */
  function CollectorStats(c: Collector): (r: map<string, Stats>)
    ensures forall k :: k in r <==> k in c.metrics.m && |c.metrics.m[k]| > 0
    ensures forall k :: k in r ==> GetStats(c, k) == Some(r[k])
  {
    map k | k in c.metrics.m && |c.metrics.m[k]| > 0 :: GetStats(c, k).value
  }

  /** `get_all_stats()`: every collector, each with only its non-empty histories. */
  function GetAllStats(r: Registry): (res: map<string, map<string, Stats>>)
    ensures res.Keys == r.collectors.m.Keys
    ensures forall n :: n in res ==> res[n] == CollectorStats(r.collectors.m[n])
  {
    map n | n in r.collectors.m :: CollectorStats(r.collectors.m[n])
  }

  /** An empty history (possible only with a zero bound) has no entry in the stats. */
  lemma EmptyHistoryOmitted(r: Registry, n: string, name: string)
    requires n in r.collectors.m && name in r.collectors.m[n].metrics.m
    requires r.collectors.m[n].metrics.m[name] == []
    ensures name !in GetAllStats(r)[n]
  {
  }
}

=== FILE: ordered_map.dfy ===
/** A Python `dict` as the modelled code uses it: a finite map together with
    the insertion order of its keys. Replacing the value of a present key
    keeps the key's position; deleting a key and inserting it again moves it
    to the end. `MoveToEnd` is `OrderedDict.move_to_end`. */
module OrderedMap {

  ghost predicate Distinct<K(!new)>(s: seq<K>) {
    forall i, j :: 0 <= i < j < |s| ==> s[i] != s[j]
  }

  datatype OMap<K(==, !new), V> = OMap(keys: seq<K>, m: map<K, V>) {
    ghost predicate Valid() {
      Distinct(keys) && (forall k :: k in m <==> k in keys)
    }
  }

  /** A well-formed dict: the order lists every key exactly once. */
  type Dict<K(==, !new), V> = d: OMap<K, V> | d.Valid() witness OMap([], map[])

  function Empty<K(==, !new), V>(): (r: Dict<K, V>)
    ensures |r.keys| == 0 && r.m == map[]
  {
    OMap([], map[])
  }

  /** `seq` without the elements equal to `x`. */
  function Without<K(==, !new)>(s: seq<K>, x: K): (r: seq<K>)
    ensures |r| <= |s|
    ensures forall y :: y in r <==> y in s && y != x
    ensures x !in s ==> r == s
  {
    if |s| == 0 then []
    else if s[0] == x then Without(s[1..], x)
    else [s[0]] + Without(s[1..], x)
  }

  lemma {:induction false} WithoutDistinct<K(!new)>(s: seq<K>, x: K)
    requires Distinct(s)
    ensures Distinct(Without(s, x))
    ensures x in s ==> |Without(s, x)| == |s| - 1
  {
    if |s| > 0 {
      WithoutDistinct(s[1..], x);
      HeadNotInTail(s);
    }
  }

  lemma HeadNotInTail<K(!new)>(s: seq<K>)
    requires Distinct(s) && |s| > 0
    ensures s[0] !in s[1..]
  {
    forall j | 0 <= j < |s| - 1
      ensures s[1..][j] != s[0]
    {
      assert s[1..][j] == s[j + 1];
    }
  }

  /** `d[k] = v` */
  function Put<K(==, !new), V>(d: Dict<K, V>, k: K, v: V): (r: Dict<K, V>)
    ensures r.m == d.m[k := v]
    ensures k in d.m ==> r.keys == d.keys
    ensures k !in d.m ==> r.keys == d.keys + [k]
  {
    if k in d.m then OMap(d.keys, d.m[k := v]) else OMap(d.keys + [k], d.m[k := v])
  }

  /** `d.pop(k, None)` / `if k in d: del d[k]` */
  function Remove<K(==, !new), V>(d: Dict<K, V>, k: K): (r: Dict<K, V>)
    ensures r.m == d.m - {k}
    ensures r.keys == Without(d.keys, k)
    ensures k !in d.m ==> r == d
  {
    if k in d.m then
      WithoutDistinct(d.keys, k);
      OMap(Without(d.keys, k), d.m - {k})
    else d
  }

  lemma {:induction false} WithoutAppend<K(!new)>(s: seq<K>, x: K)
    requires x !in s
    ensures Without(s + [x], x) == s
  {
    if |s| > 0 {
      assert (s + [x])[1..] == s[1..] + [x];
      WithoutAppend(s[1..], x);
    }
  }

  /** Storing a new key and removing it again gives back the dictionary. */
  lemma PutThenRemove<K(!new), V>(d: Dict<K, V>, k: K, v: V)
    requires k !in d.m
    ensures Remove(Put(d, k, v), k) == d
  {
    WithoutAppend(d.keys, k);
    assert d.m[k := v] - {k} == d.m;
  }

  /** `OrderedDict.move_to_end(k)` */
  function MoveToEnd<K(==, !new), V>(d: Dict<K, V>, k: K): (r: Dict<K, V>)
    requires k in d.m
    ensures r.m == d.m
    ensures r.keys == Without(d.keys, k) + [k]
  {
    WithoutDistinct(d.keys, k);
    OMap(Without(d.keys, k) + [k], d.m)
  }

  /** `list(d.values())` */
  function Values<K(==, !new), V>(d: Dict<K, V>): (r: seq<V>)
    ensures |r| == |d.keys|
    ensures forall i :: 0 <= i < |r| ==> r[i] == d.m[d.keys[i]]
  {
    seq(|d.keys|, i requires 0 <= i < |d.keys| => d.m[d.keys[i]])
  }

  /** `len(d)` equals the length of the key order. */
  lemma SizeIsKeyCount<K(!new), V>(d: Dict<K, V>)
    ensures |d.m| == |d.keys|
  {
    DistinctCard(d.keys);
    assert d.m.Keys == set k | k in d.keys;
  }

  lemma {:induction false} DistinctCard<K(!new)>(s: seq<K>)
    requires Distinct(s)
    ensures |set k | k in s| == |s|
  {
    if |s| > 0 {
      DistinctCard(s[1..]);
      var rest := set k | k in s[1..];
      assert (set k | k in s) == rest + {s[0]};
      HeadNotInTail(s);
      assert s[0] !in rest;
    }
  }

  /** The index of a present key in the order. */
  function IndexOf<K(==, !new)>(s: seq<K>, k: K): (i: nat)
    requires k in s
    ensures i < |s| && s[i] == k
    ensures forall j :: 0 <= j < i ==> s[j] != k
  {
    if s[0] == k then 0 else 1 + IndexOf(s[1..], k)
  }

  // ---------------------------------------------------------------------
  // Comprehensions over the stored values
  // ---------------------------------------------------------------------

  /** `r` lists keys of `keys` in the order they appear there. */
  predicate InKeyOrder<K(==, !new)>(keys: seq<K>, r: seq<K>)
    requires forall k :: k in r ==> k in keys
  {
    forall i, j :: 0 <= i < j < |r| ==> IndexOf(keys, r[i]) < IndexOf(keys, r[j])
  }

  lemma ConsKeepsKeyOrder<K(!new)>(keys: seq<K>, rest: seq<K>, withHead: bool)
    requires |keys| > 0 && keys[0] !in keys[1..]
    requires forall k :: k in rest ==> k in keys[1..]
    requires InKeyOrder(keys[1..], rest)
    ensures var r := if withHead then [keys[0]] + rest else rest;
            (forall k :: k in r ==> k in keys) && InKeyOrder(keys, r)
  {
    var r := if withHead then [keys[0]] + rest else rest;
    var b := if withHead then 1 else 0;
    forall k | k in r
      ensures k in keys
    {
      if k != keys[0] {
        IndexOfTail(keys, k);
      }
    }
    forall i, j | 0 <= i < j < |r|
      ensures IndexOf(keys, r[i]) < IndexOf(keys, r[j])
    {
      assert r[j] == rest[j - b];
      IndexOfTail(keys, r[j]);
      if b == 0 || i > 0 {
        assert r[i] == rest[i - b];
        IndexOfTail(keys, r[i]);
      }
    }
  }

  /** A key of the tail that is not the head sits one place further along the whole order. */
  lemma IndexOfTail<K(!new)>(keys: seq<K>, k: K)
    requires |keys| > 0 && k in keys[1..] && k != keys[0]
    ensures k in keys && IndexOf(keys, k) == 1 + IndexOf(keys[1..], k)
  {
  }

  /** The keys among `keys` whose value satisfies `f`, in order. */
  function KeysWhere<K(==, !new), V>(d: Dict<K, V>, keys: seq<K>, f: V -> bool): (r: seq<K>)
    requires forall k :: k in keys ==> k in d.m
    ensures forall k :: k in r <==> k in keys && f(d.m[k])
    ensures Distinct(keys) ==> Distinct(r)
    ensures Distinct(keys) ==> InKeyOrder(keys, r)
  {
    if |keys| == 0 then []
    else
      var rest := KeysWhere(d, keys[1..], f);
      assert Distinct(keys) ==> keys[0] !in keys[1..] && Distinct(keys[1..]) by {
        if Distinct(keys) {
          HeadNotInTail(keys);
        }
      }
      var r := if f(d.m[keys[0]]) then [keys[0]] + rest else rest;
      assert Distinct(keys) ==> InKeyOrder(keys, r) by {
        if Distinct(keys) {
          ConsKeepsKeyOrder(keys, rest, f(d.m[keys[0]]));
        }
      }
      r
  }

  /** The values stored under `ids`, in the order of `ids`. */
  function ValuesAt<K(==, !new), V>(d: Dict<K, V>, ids: seq<K>): (r: seq<V>)
    requires forall k :: k in ids ==> k in d.m
    ensures |r| == |ids| && forall i :: 0 <= i < |r| ==> r[i] == d.m[ids[i]]
  {
    seq(|ids|, i requires 0 <= i < |ids| => d.m[ids[i]])
  }

  /** A list comprehension `[v for v in vs if f(v)]`. */
  function FilterSeq<V(==, !new)>(vs: seq<V>, f: V -> bool): (r: seq<V>)
    ensures forall v :: v in r <==> v in vs && f(v)
    ensures |r| <= |vs|
  {
    if |vs| == 0 then [] else (if f(vs[0]) then [vs[0]] else []) + FilterSeq(vs[1..], f)
  }

  /** A comprehension over a concatenation is the concatenation of the comprehensions. */
  lemma {:induction false} FilterSeqAppend<V(!new)>(a: seq<V>, b: seq<V>, f: V -> bool)
    ensures FilterSeq(a + b, f) == FilterSeq(a, f) + FilterSeq(b, f)
  {
    if |a| == 0 {
      assert a + b == b;
    } else {
      assert (a + b)[1..] == a[1..] + b;
      FilterSeqAppend(a[1..], b, f);
    }
  }

  /** Selecting keys and then looking their values up is the comprehension over the values. */
  lemma {:induction false} KeysWhereThenLookUp<K(!new), V(!new)>(d: Dict<K, V>, keys: seq<K>, f: V -> bool)
    requires forall k :: k in keys ==> k in d.m
    ensures ValuesAt(d, KeysWhere(d, keys, f)) == FilterSeq(ValuesAt(d, keys), f)
  {
    if |keys| > 0 {
      var head := if f(d.m[keys[0]]) then [keys[0]] else [];
      var rest := KeysWhere(d, keys[1..], f);
      KeysWhereThenLookUp(d, keys[1..], f);
      KeysWhereCons(d, keys, f);
      ValuesAtCons(d, keys);
      ValuesAtConcat(d, head, rest);
      FilterSeqCons(ValuesAt(d, keys), f);
    }
  }

  lemma KeysWhereCons<K(!new), V>(d: Dict<K, V>, keys: seq<K>, f: V -> bool)
    requires |keys| > 0 && forall k :: k in keys ==> k in d.m
    ensures KeysWhere(d, keys, f) == (if f(d.m[keys[0]]) then [keys[0]] else []) + KeysWhere(d, keys[1..], f)
  {
  }

  lemma FilterSeqCons<V(!new)>(vs: seq<V>, f: V -> bool)
    requires |vs| > 0
    ensures FilterSeq(vs, f) == (if f(vs[0]) then [vs[0]] else []) + FilterSeq(vs[1..], f)
  {
  }

  lemma ValuesAtCons<K(!new), V>(d: Dict<K, V>, ids: seq<K>)
    requires |ids| > 0 && forall k :: k in ids ==> k in d.m
    ensures ValuesAt(d, ids) == [d.m[ids[0]]] + ValuesAt(d, ids[1..])
  {
    assert ValuesAt(d, ids)[1..] == ValuesAt(d, ids[1..]);
  }

  lemma ValuesAtConcat<K(!new), V>(d: Dict<K, V>, a: seq<K>, b: seq<K>)
    requires forall k :: k in a + b ==> k in d.m
    ensures ValuesAt(d, a + b) == ValuesAt(d, a) + ValuesAt(d, b)
  {
    assert forall k :: k in a ==> k in a + b;
    assert forall k :: k in b ==> k in a + b;
  }

  /** All keys in order, looked up, are the values in storage order. */
  lemma AllValuesAt<K(!new), V>(d: Dict<K, V>)
    ensures ValuesAt(d, d.keys) == Values(d)
  {
  }
}

=== FILE: permissions.dfy ===
/** Permission sets, policy rules and the policy evaluator. */
module Permissions {
  import opened Common

  datatype Permission = Read | Write | Execute | Delete | Admin | Configure

  datatype PermissionSet = PermissionSet(granted: set<Permission>)

  /** `PermissionSet(permissions)`: `None` and the empty set both start empty. */
  function NewPermissionSet(ps: Option<set<Permission>>): (r: PermissionSet)
    ensures r.granted == if ps.Some? then ps.value else {}
  {
    PermissionSet(if ps.Some? then ps.value else {})
  }

  function Grant(s: PermissionSet, p: Permission): (r: PermissionSet)
    ensures r.granted == s.granted + {p}
  {
    PermissionSet(s.granted + {p})
  }

  function Revoke(s: PermissionSet, p: Permission): (r: PermissionSet)
    ensures r.granted == s.granted - {p}
  {
    PermissionSet(s.granted - {p})
  }

  /** `has(p)`: ADMIN grants everything. */
  predicate Has(s: PermissionSet, p: Permission) {
    Admin in s.granted || p in s.granted
  }

  /** `has_all(ps)` */
  predicate HasAll(s: PermissionSet, ps: set<Permission>) {
    Admin in s.granted || ps <= s.granted
  }

  /** `has_any(ps)` */
  predicate HasAny(s: PermissionSet, ps: set<Permission>) {
    Admin in s.granted || ps * s.granted != {}
  }

  /** `has_all` is `has` of every member, and `has_any` is `has` of some member
      (the empty set: all trivially, any only through ADMIN). */
  lemma HasAllAnyByMembers(s: PermissionSet, ps: set<Permission>)
    ensures HasAll(s, ps) <==> forall p :: p in ps ==> Has(s, p)
    ensures HasAny(s, ps) <==> Admin in s.granted || exists p :: p in ps && Has(s, p)
    ensures HasAll(s, {}) && (HasAny(s, {}) <==> Admin in s.granted)
  {
    if HasAny(s, ps) && Admin !in s.granted {
      var p :| p in ps * s.granted;
    }
    if !(Admin in s.granted) && (exists p :: p in ps && Has(s, p)) {
      var p :| p in ps && Has(s, p);
      assert p in ps * s.granted;
    }
  }

  /** Granting makes a permission held; revoking ADMIN removes its override. */
  lemma GrantRevoke(s: PermissionSet, p: Permission, q: Permission)
    ensures Has(Grant(s, p), p)
    ensures Has(Revoke(s, Admin), q) <==> q != Admin && q in s.granted
    ensures p != Admin ==> (Has(Revoke(s, p), p) <==> Admin in s.granted)
  {
  }

  /** The context a rule is evaluated in: its `"permissions"` and `"role"` entries, if any. */
  datatype Context = Context(permissions: Option<PermissionSet>, role: Option<string>)

  datatype Rule =
    | SimpleRule(permission: Permission)
    | RoleBasedRule(allowedRoles: set<string>)

  /** `rule.evaluate(context)`: a missing permission set is an empty one; a missing role is in no set. */
  predicate EvaluateRule(r: Rule, c: Context) {
    match r
    case SimpleRule(p) => c.permissions.Some? && Has(c.permissions.value, p)
    case RoleBasedRule(allowed) => c.role.Some? && c.role.value in allowed
  }

  lemma SimpleRuleNeedsPermissions(p: Permission, role: Option<string>)
    ensures !EvaluateRule(SimpleRule(p), Context(None, role))
    ensures EvaluateRule(SimpleRule(p), Context(Some(PermissionSet({Admin})), role))
  {
  }

  datatype PolicyEvaluator = PolicyEvaluator(policies: map<string, seq<Rule>>)

  function RegisterPolicy(e: PolicyEvaluator, name: string, rules: seq<Rule>): (r: PolicyEvaluator)
    ensures r.policies == e.policies[name := rules]
  {
    PolicyEvaluator(e.policies[name := rules])
  }

  /** `all(rule.evaluate(context) for rule in rules)` */
  predicate AllRules(rules: seq<Rule>, c: Context) {
    if |rules| == 0 then true else EvaluateRule(rules[0], c) && AllRules(rules[1..], c)
  }

  /** `evaluate(policy_name, context)`: unknown and empty policies deny. */
  function Evaluate(e: PolicyEvaluator, name: string, c: Context): (r: bool)
    ensures r <==> name in e.policies && |e.policies[name]| > 0
                   && forall i :: 0 <= i < |e.policies[name]| ==> EvaluateRule(e.policies[name][i], c)
  {
    if name !in e.policies || |e.policies[name]| == 0 then false
    else
      AllRulesMeansEvery(e.policies[name], c);
      AllRules(e.policies[name], c)
  }

  lemma {:induction false} AllRulesMeansEvery(rules: seq<Rule>, c: Context)
    ensures AllRules(rules, c) <==> forall i :: 0 <= i < |rules| ==> EvaluateRule(rules[i], c)
  {
    if |rules| > 0 {
      AllRulesMeansEvery(rules[1..], c);
      assert forall i :: 1 <= i < |rules| ==> rules[i] == rules[1..][i - 1];
    }
  }

  /** `any(self.evaluate(name, context) for name in policy_names)` */
  function EvaluateAny(e: PolicyEvaluator, names: seq<string>, c: Context): (r: bool)
    ensures r <==> exists i :: 0 <= i < |names| && Evaluate(e, names[i], c)
    ensures |names| == 0 ==> !r
  {
    if |names| == 0 then false
    else
      var rest := EvaluateAny(e, names[1..], c);
      assert rest <==> exists i :: 1 <= i < |names| && Evaluate(e, names[i], c) by {
        if rest {
          var i :| 0 <= i < |names| - 1 && Evaluate(e, names[1..][i], c);
          assert names[1..][i] == names[i + 1];
        }
        if exists i :: 1 <= i < |names| && Evaluate(e, names[i], c) {
          var i :| 1 <= i < |names| && Evaluate(e, names[i], c);
          assert names[1..][i - 1] == names[i];
        }
      }
      Evaluate(e, names[0], c) || rest
  }

  /** Re-registering a policy replaces its rules; a policy made only of the role rule grants exactly
      the allowed roles. */
  lemma RolePolicy(e: PolicyEvaluator, name: string, roles: set<string>, c: Context)
    ensures Evaluate(RegisterPolicy(e, name, [RoleBasedRule(roles)]), name, c)
            <==> c.role.Some? && c.role.value in roles
  {
    var e' := RegisterPolicy(e, name, [RoleBasedRule(roles)]);
    assert e'.policies[name][0] == RoleBasedRule(roles);
  }
}

=== FILE: pricing.dfy ===
/** Per-million-token model pricing and the registry of known models.
    Prices and costs are exact `real`s; binary floating-point rounding is
    not modelled. */
module Pricing {
  import opened Common
  import OrderedMap

  datatype Provider = OpenAI | Anthropic | Ollama | Custom

  /** The provider's `.value`. */
  function ProviderName(p: Provider): (r: string)
    ensures |r| > 0
  {
    match p
    case OpenAI => "openai"
    case Anthropic => "anthropic"
    case Ollama => "ollama"
    case Custom => "custom"
  }

  datatype ModelPricing = ModelPricing(
    modelId: string,
    provider: Provider,
    inputPrice: real,              // USD per 1M input tokens
    outputPrice: real,             // USD per 1M output tokens
    reasoningPrice: Option<real>,  // USD per 1M reasoning tokens
    cachedPrice: Option<real>,     // USD per 1M cached input tokens
    contextWindow: int,
    maxOutput: int,
    supportsVision: bool,
    supportsReasoning: bool)

  const Million: real := 1000000.0

  /** Python truthiness of an optional price: present and non-zero. */
  predicate Truthy(p: Option<real>) {
    p.Some? && p.value != 0.0
  }

  /** A pricing with the dataclass defaults for everything after the two base prices. */
  function Basic(id: string, provider: Provider, input: real, output: real,
                 reasoning: Option<real>, cached: Option<real>): (p: ModelPricing)
    ensures p.modelId == id && p.provider == provider && p.inputPrice == input && p.outputPrice == output
    ensures p.reasoningPrice == reasoning && p.cachedPrice == cached
    ensures p.contextWindow == 128000 && p.maxOutput == 128000
  {
    ModelPricing(id, provider, input, output, reasoning, cached, 128000, 128000, false, false)
  }

  /** `calculate_input_cost(tokens, cached_tokens)`: cached tokens are billed at the cached
      price when there is a non-zero one, and not at all otherwise. */
  function InputCost(p: ModelPricing, tokens: int, cached: int): (r: real)
    ensures cached > 0 && Truthy(p.cachedPrice) ==>
              r == (((tokens - cached) as real) * p.inputPrice + (cached as real) * p.cachedPrice.value) / Million
    ensures !(cached > 0 && Truthy(p.cachedPrice)) ==>
              r == ((tokens - cached) as real) * p.inputPrice / Million
  {
    var cost := ((tokens - cached) as real * p.inputPrice) / Million;
    if cached > 0 && Truthy(p.cachedPrice) then
      cost + ((cached as real) * p.cachedPrice.value) / Million
    else cost
  }

  /** `calculate_output_cost(tokens, reasoning_tokens)`: reasoning tokens are billed at
      the reasoning price when there is a non-zero one, and at the output price otherwise. */
  function OutputCost(p: ModelPricing, tokens: int, reasoning: int): (r: real)
    ensures reasoning > 0 && Truthy(p.reasoningPrice) ==>
              r == (((tokens - reasoning) as real) * p.outputPrice + (reasoning as real) * p.reasoningPrice.value) / Million
    ensures reasoning > 0 && !Truthy(p.reasoningPrice) ==> r == (tokens as real) * p.outputPrice / Million
    ensures reasoning <= 0 ==> r == ((tokens - reasoning) as real) * p.outputPrice / Million
  {
    var cost := ((tokens - reasoning) as real * p.outputPrice) / Million;
    if reasoning > 0 && Truthy(p.reasoningPrice) then
      cost + ((reasoning as real) * p.reasoningPrice.value) / Million
    else if reasoning > 0 then
      cost + ((reasoning as real) * p.outputPrice) / Million
    else cost
  }

  /** `calculate_total_cost` */
  function TotalCost(p: ModelPricing, input: int, output: int, cached: int, reasoning: int): (r: real)
    ensures r == InputCost(p, input, cached) + OutputCost(p, output, reasoning)
    ensures cached == 0 && reasoning == 0 ==>
              r == ((input as real) * p.inputPrice + (output as real) * p.outputPrice) / Million
  {
    InputCost(p, input, cached) + OutputCost(p, output, reasoning)
  }

  // ---------------------------------------------------------------------
  // Properties of the cost functions
  // ---------------------------------------------------------------------

  /** Without a cached price, cached tokens are simply not billed. */
  lemma CachedFreeWithoutPrice(p: ModelPricing, tokens: int, cached: int)
    requires !Truthy(p.cachedPrice)
    ensures InputCost(p, tokens, cached) == InputCost(p, tokens - cached, 0)
  {
  }

  /** A cached price equal to the input price makes caching irrelevant. */
  lemma CacheAtFullPrice(p: ModelPricing, tokens: int, cached: int)
    requires p.cachedPrice == Some(p.inputPrice) && cached >= 0
    ensures InputCost(p, tokens, cached) == InputCost(p, tokens, 0)
  {
    assert ((tokens - cached) as real) * p.inputPrice + (cached as real) * p.inputPrice
        == (tokens as real) * p.inputPrice;
  }

  /** Without a reasoning price, the reasoning split never changes the output cost. */
  lemma ReasoningSplitIrrelevant(p: ModelPricing, tokens: int, r1: int, r2: int)
    requires !Truthy(p.reasoningPrice) && r1 >= 0 && r2 >= 0
    ensures OutputCost(p, tokens, r1) == OutputCost(p, tokens, r2)
  {
  }

  /** With non-negative prices and token counts (cached and reasoning tokens being parts
      of their totals), every cost is non-negative. */
  lemma CostNonNegative(p: ModelPricing, input: int, output: int, cached: int, reasoning: int)
    requires p.inputPrice >= 0.0 && p.outputPrice >= 0.0
    requires p.cachedPrice.Some? ==> p.cachedPrice.value >= 0.0
    requires p.reasoningPrice.Some? ==> p.reasoningPrice.value >= 0.0
    requires 0 <= cached <= input && 0 <= reasoning <= output
    ensures TotalCost(p, input, output, cached, reasoning) >= 0.0
  {
    assert ((input - cached) as real) * p.inputPrice >= 0.0;
    assert ((output - reasoning) as real) * p.outputPrice >= 0.0;
    assert (output as real) * p.outputPrice >= 0.0;
    if p.cachedPrice.Some? {
      assert (cached as real) * p.cachedPrice.value >= 0.0;
    }
    if p.reasoningPrice.Some? {
      assert (reasoning as real) * p.reasoningPrice.value >= 0.0;
    }
  }

  // ---------------------------------------------------------------------
  // The registry
  // ---------------------------------------------------------------------

  type Registry = OrderedMap.Dict<string, ModelPricing>

  /** The built-in price list, in the order the registry loads it. */
  const DefaultModels: seq<ModelPricing> := [
    ModelPricing("gpt-5", OpenAI, 1.25, 10.00, Some(10.00), Some(0.625), 128000, 128000, false, true),
    ModelPricing("gpt-5-mini", OpenAI, 0.25, 2.00, Some(2.00), Some(0.125), 128000, 128000, false, true),
    ModelPricing("gpt-5-nano", OpenAI, 0.05, 0.40, Some(0.40), Some(0.025), 128000, 128000, false, true),
    Basic("gpt-4o", OpenAI, 5.00, 15.00, None, Some(2.50)),
    ModelPricing("claude-3-opus", Anthropic, 15.00, 75.00, None, Some(7.50), 200000, 128000, false, false),
    ModelPricing("claude-3-sonnet", Anthropic, 3.00, 15.00, None, Some(1.50), 200000, 128000, false, false),
    Basic("claude-3-haiku", Anthropic, 0.80, 4.00, None, Some(0.40)),
    Basic("gpt-oss-20b", Ollama, 0.00, 0.00, None, None),
    Basic("gpt-oss-120b", Ollama, 0.00, 0.00, None, None),
    Basic("llama2", Ollama, 0.00, 0.00, None, None)
  ]

  /** Every stored pricing sits under its own model id. */
  predicate Keyed(reg: Registry) {
    forall id :: id in reg.m ==> reg.m[id].modelId == id
  }

  /** `register_model(pricing)`: adds or replaces by `model_id`. */
  function RegisterModel(reg: Registry, p: ModelPricing): (r: Registry)
    ensures r.m == reg.m[p.modelId := p]
    ensures p.modelId in reg.m ==> r.keys == reg.keys
    ensures p.modelId !in reg.m ==> r.keys == reg.keys + [p.modelId]
    ensures Keyed(reg) ==> Keyed(r)
  {
    OrderedMap.Put(reg, p.modelId, p)
  }

  /** Registering every pricing of `ps` in order. */
  function RegisterAll(reg: Registry, ps: seq<ModelPricing>): (r: Registry)
    ensures Keyed(reg) ==> Keyed(r)
    ensures forall id :: id in r.m ==> (id in reg.m && r.m[id] == reg.m[id]) || r.m[id] in ps
    decreases |ps|
  {
    if |ps| == 0 then reg else RegisterAll(RegisterModel(reg, ps[0]), ps[1..])
  }

  /** The model ids of `ps`, in order. */
  function Ids(ps: seq<ModelPricing>): (r: seq<string>)
    ensures |r| == |ps| && forall i :: 0 <= i < |ps| ==> r[i] == ps[i].modelId
  {
    seq(|ps|, i requires 0 <= i < |ps| => ps[i].modelId)
  }

  /** The ids of a non-empty list: the head's id, then the tail's. */
  lemma IdsCons(ps: seq<ModelPricing>)
    requires |ps| > 0
    ensures Ids(ps) == [ps[0].modelId] + Ids(ps[1..])
  {
    assert Ids(ps)[1..] == Ids(ps[1..]);
  }

  /** Registering pricings leaves every stored pricing whose id none of them uses in place. */
  lemma {:induction false} RegisterAllKeeps(reg: Registry, ps: seq<ModelPricing>)
    ensures forall id :: id in reg.m && id !in Ids(ps) ==>
              id in RegisterAll(reg, ps).m && RegisterAll(reg, ps).m[id] == reg.m[id]
    decreases |ps|
  {
    if |ps| > 0 {
      assert Ids(ps) == [ps[0].modelId] + Ids(ps[1..]);
      RegisterAllKeeps(RegisterModel(reg, ps[0]), ps[1..]);
    }
  }

  /** Registering pricings under distinct new ids appends the ids in order. */
  lemma {:induction false} RegisterAllKeys(reg: Registry, ps: seq<ModelPricing>)
    requires forall i :: 0 <= i < |ps| ==> ps[i].modelId !in reg.m
    requires forall i, j :: 0 <= i < j < |ps| ==> ps[i].modelId != ps[j].modelId
    ensures RegisterAll(reg, ps).keys == reg.keys + Ids(ps)
    decreases |ps|
  {
    if |ps| > 0 {
      var id, tail := ps[0].modelId, ps[1..];
      var reg' := RegisterModel(reg, ps[0]);
      FreshTail(reg, ps);
      RegisterAllKeys(reg', tail);
      IdsCons(ps);
      AppendAssoc(reg.keys, [id], Ids(tail));
    }
  }

  /** Registering pricings under distinct new ids stores each pricing under its own id. */
  lemma {:induction false} RegisterAllStores(reg: Registry, ps: seq<ModelPricing>)
    requires forall i :: 0 <= i < |ps| ==> ps[i].modelId !in reg.m
    requires forall i, j :: 0 <= i < j < |ps| ==> ps[i].modelId != ps[j].modelId
    ensures forall i :: 0 <= i < |ps| ==>
              ps[i].modelId in RegisterAll(reg, ps).m && RegisterAll(reg, ps).m[ps[i].modelId] == ps[i]
    decreases |ps|
  {
    if |ps| > 0 {
      var reg' := RegisterModel(reg, ps[0]);
      FreshTail(reg, ps);
      RegisterAllStores(reg', ps[1..]);
      RegisterAllKeeps(reg', ps[1..]);

      forall i | 0 <= i < |ps|
        ensures ps[i].modelId in RegisterAll(reg, ps).m && RegisterAll(reg, ps).m[ps[i].modelId] == ps[i]
      {
        if i > 0 {
          assert ps[1..][i - 1] == ps[i];
        }
      }
    }
  }

  /** After registering the head of `ps`, the ids of its tail are still new and distinct. */
  lemma FreshTail(reg: Registry, ps: seq<ModelPricing>)
    requires |ps| > 0
    requires forall i :: 0 <= i < |ps| ==> ps[i].modelId !in reg.m
    requires forall i, j :: 0 <= i < j < |ps| ==> ps[i].modelId != ps[j].modelId
    ensures forall i :: 0 <= i < |ps[1..]| ==> ps[1..][i].modelId !in RegisterModel(reg, ps[0]).m
    ensures forall i, j :: 0 <= i < j < |ps[1..]| ==> ps[1..][i].modelId != ps[1..][j].modelId
    ensures ps[0].modelId !in Ids(ps[1..])
  {
    forall j | 0 <= j < |ps[1..]| ensures Ids(ps[1..])[j] != ps[0].modelId {
      assert ps[1..][j] == ps[j + 1];
    }
    forall i | 0 <= i < |ps[1..]| ensures ps[1..][i].modelId !in RegisterModel(reg, ps[0]).m {
      assert ps[1..][i] == ps[i + 1];
    }
    forall i, j | 0 <= i < j < |ps[1..]| ensures ps[1..][i].modelId != ps[1..][j].modelId {
      assert ps[1..][i] == ps[i + 1] && ps[1..][j] == ps[j + 1];
    }
  }

  /** The default ids are pairwise distinct. */
  lemma DefaultIdsDistinct()
    ensures forall i, j :: 0 <= i < j < |DefaultModels| ==> DefaultModels[i].modelId != DefaultModels[j].modelId
  {
  }

  /** Registering pricings with distinct ids into an empty registry stores exactly them,
      each under its own id, in list order. */
  lemma RegisterAllIntoEmpty(ps: seq<ModelPricing>)
    requires forall i, j :: 0 <= i < j < |ps| ==> ps[i].modelId != ps[j].modelId
    ensures Keyed(RegisterAll(OrderedMap.Empty(), ps))
    ensures RegisterAll(OrderedMap.Empty(), ps).keys == Ids(ps)
    ensures forall i :: 0 <= i < |ps| ==> RegisterAll(OrderedMap.Empty(), ps).m[ps[i].modelId] == ps[i]
  {
    var empty: Registry := OrderedMap.Empty();
    assert empty.m == map[];
    RegisterAllKeys(empty, ps);
    RegisterAllStores(empty, ps);
  }

  /** `ModelPricingRegistry()`: every default pricing, under its own id, in list order, and
      nothing else. */
  function NewRegistry(): (r: Registry)
    ensures Keyed(r)
    ensures r.keys == Ids(DefaultModels)
    ensures forall i :: 0 <= i < |DefaultModels| ==> r.m[DefaultModels[i].modelId] == DefaultModels[i]
  {
    DefaultIdsDistinct();
    RegisterAllIntoEmpty(DefaultModels);
    RegisterAll(OrderedMap.Empty(), DefaultModels)
  }

  /** `get_model_pricing(model_id)` */
  function GetModelPricing(reg: Registry, id: string): (r: Option<ModelPricing>)
    ensures r.Some? <==> id in reg.m
    ensures r.Some? ==> r.value == reg.m[id]
  {
    if id in reg.m then Some(reg.m[id]) else None
  }

  /** The ids among `ids` whose pricing has provider `p`, order kept. */
  function ByProvider(ids: seq<string>, reg: Registry, p: Provider): (r: seq<string>)
    requires forall id :: id in ids ==> id in reg.m
    ensures forall id :: id in r <==> id in ids && reg.m[id].provider == p
    ensures |r| <= |ids|
    ensures OrderedMap.Distinct(ids) ==> OrderedMap.Distinct(r)
  {
    if |ids| == 0 then []
    else
      var rest := ByProvider(ids[1..], reg, p);
      DistinctHead(ids);
      if reg.m[ids[0]].provider == p then [ids[0]] + rest else rest
  }

  lemma DistinctHead<K(!new)>(s: seq<K>)
    requires |s| > 0
    ensures OrderedMap.Distinct(s) ==> s[0] !in s[1..] && OrderedMap.Distinct(s[1..])
  {
    if OrderedMap.Distinct(s) {
      OrderedMap.HeadNotInTail(s);
    }
  }

  /** `list_models(provider)`: every model id, or those of one provider, in registry order. */
  function ListModels(reg: Registry, provider: Option<Provider>): (r: seq<string>)
    ensures provider.None? ==> r == reg.keys
    ensures provider.Some? ==> forall id :: id in r <==> id in reg.m && reg.m[id].provider == provider.value
    ensures OrderedMap.Distinct(r)
  {
    match provider
    case None => reg.keys
    case Some(p) => ByProvider(reg.keys, reg, p)
  }

  /** `get_models_by_provider(provider)` */
  function GetModelsByProvider(reg: Registry, p: Provider): (r: Registry)
    ensures forall id :: id in r.m <==> id in reg.m && reg.m[id].provider == p
    ensures forall id :: id in r.m ==> r.m[id] == reg.m[id]
    ensures r.keys == ListModels(reg, Some(p))
  {
    var ids := ByProvider(reg.keys, reg, p);
    OrderedMap.OMap(ids, map id | id in ids :: reg.m[id])
  }

  /** The breakdown dictionary of `estimate_cost`. */
  datatype Breakdown = Breakdown(
    inputCost: real, outputCost: real, totalCost: real,
    inputTokens: int, outputTokens: int, cachedTokens: int, reasoningTokens: int)

  /** `estimate_cost(model_id, ...)` */
  function EstimateCost(reg: Registry, id: string, input: int, output: int, cached: int, reasoning: int)
    : (r: Option<(real, Breakdown)>)
    ensures r.None? <==> id !in reg.m
    ensures r.Some? ==>
              r.value.0 == r.value.1.totalCost
              && r.value.1.totalCost == r.value.1.inputCost + r.value.1.outputCost
              && r.value.1.inputCost == InputCost(reg.m[id], input, cached)
              && r.value.1.outputCost == OutputCost(reg.m[id], output, reasoning)
              && r.value.1.inputTokens == input && r.value.1.outputTokens == output
              && r.value.1.cachedTokens == cached && r.value.1.reasoningTokens == reasoning
  {
    match GetModelPricing(reg, id)
    case None => None
    case Some(p) =>
      var inCost := InputCost(p, input, cached);
      var outCost := OutputCost(p, output, reasoning);
      var total := inCost + outCost;
      Some((total, Breakdown(inCost, outCost, total, input, output, cached, reasoning)))
  }

  // ---------------------------------------------------------------------
  // Properties of the registry
  // ---------------------------------------------------------------------

  /** After `register_model(p)`, looking up `p.model_id` yields `p`; other ids are untouched. */
  lemma RegisterThenGet(reg: Registry, p: ModelPricing, other: string)
    requires other != p.modelId
    ensures GetModelPricing(RegisterModel(reg, p), p.modelId) == Some(p)
    ensures GetModelPricing(RegisterModel(reg, p), other) == GetModelPricing(reg, other)
  {
  }

  /** A registry built from pricings with distinct ids finds exactly those ids, each with
      its own pricing. */
  lemma FoundAfterRegisterAll(ps: seq<ModelPricing>, id: string)
    requires forall i, j :: 0 <= i < j < |ps| ==> ps[i].modelId != ps[j].modelId
    ensures GetModelPricing(RegisterAll(OrderedMap.Empty(), ps), id).Some? <==> id in Ids(ps)
    ensures forall p :: p in ps && p.modelId == id ==> GetModelPricing(RegisterAll(OrderedMap.Empty(), ps), id) == Some(p)
  {
    RegisterAllIntoEmpty(ps);
    forall p | p in ps && p.modelId == id
      ensures GetModelPricing(RegisterAll(OrderedMap.Empty(), ps), id) == Some(p)
    {
      var i :| 0 <= i < |ps| && ps[i] == p;
    }
  }

  /** A fresh registry finds exactly the default ids, each with its default pricing. */
  lemma DefaultsFound(id: string)
    ensures GetModelPricing(NewRegistry(), id).Some? <==> id in Ids(DefaultModels)
    ensures forall p :: p in DefaultModels && p.modelId == id ==> GetModelPricing(NewRegistry(), id) == Some(p)
  {
    DefaultIdsDistinct();
    FoundAfterRegisterAll(DefaultModels, id);
  }

  /** Every default local (Ollama) model is free for any token counts. */
  lemma OllamaModelsFree(p: ModelPricing, input: int, output: int, cached: int, reasoning: int)
    requires p in DefaultModels && p.provider == Ollama
    ensures TotalCost(p, input, output, cached, reasoning) == 0.0
  {
    var i :| 0 <= i < |DefaultModels| && DefaultModels[i] == p;
    assert i >= 7;
  }

  /** Every default model carries non-negative prices. */
  lemma DefaultPricesNonNegative(p: ModelPricing)
    requires p in DefaultModels
    ensures p.inputPrice >= 0.0 && p.outputPrice >= 0.0
    ensures p.cachedPrice.Some? ==> p.cachedPrice.value >= 0.0
    ensures p.reasoningPrice.Some? ==> p.reasoningPrice.value >= 0.0
  {
    var i :| 0 <= i < |DefaultModels| && DefaultModels[i] == p;
  }

  /** A worked figure: one million input and one million output tokens of gpt-5 cost 11.25. */
  lemma Gpt5Figure()
    ensures TotalCost(DefaultModels[0], 1000000, 1000000, 0, 0) == 11.25
  {
  }
}

=== FILE: providers.dfy ===
/** The registry of transport providers. A provider's `initialize` and
    `terminate` are outside the registry and assumed to return; what its
    `dispatch` reports for a packet is an oracle. */
module Providers {
  import opened Common
  import OrderedMap
  import Values

  datatype TransportType = Sync | Async | Webhook | Polling

  datatype Config = Config(transport: TransportType, timeout: int, retryCount: int, enabled: bool,
                           metadata: Values.Payload)

  /** `ProviderConfig()` */
  function DefaultConfig(): (c: Config)
    ensures c.transport == Async && c.timeout == 30 && c.retryCount == 3 && c.enabled
  {
    Config(Async, 30, 3, true, OrderedMap.Empty())
  }

  datatype Packet = Packet(origin: string, destination: string, payload: string, metadata: Values.Payload)

  datatype Provider = Provider(config: Config, dispatch: Packet -> bool)

  datatype Registry = Registry(providers: OrderedMap.Dict<string, Provider>, active: set<string>)

  function NewRegistry(): (r: Registry)
    ensures |r.providers.keys| == 0 && r.active == {}
  {
    Registry(OrderedMap.Empty(), {})
  }

  /** Only registered providers are active. */
  predicate ActiveRegistered(r: Registry) {
    forall n :: n in r.active ==> n in r.providers.m
  }

  function AlreadyRegistered(name: string): Exception {
    Exception(ValueError, "Provider '" + name + "' already registered")
  }

  function NotFound(name: string): Exception {
    Exception(ValueError, "Provider '" + name + "' not found")
  }

  function Disabled(name: string): Exception {
    Exception(ValueError, "Provider '" + name + "' is disabled")
  }

  /** `register(name, provider)` */
  function Register(r: Registry, name: string, p: Provider): (res: Result<Registry>)
    ensures res.Err? <==> name in r.providers.m
    ensures res.Err? ==> res.error == AlreadyRegistered(name)
    ensures res.Ok? ==> res.value.providers.m == r.providers.m[name := p]
                        && res.value.providers.keys == r.providers.keys + [name]
                        && res.value.active == r.active
  {
    if name in r.providers.m then Err(AlreadyRegistered(name))
    else Ok(r.(providers := OrderedMap.Put(r.providers, name, p)))
  }

  /** `unregister(name)`: removes the provider and its active mark; unknown names are ignored. */
  function Unregister(r: Registry, name: string): (res: Registry)
    ensures name in r.providers.m ==>
              res.providers.m == r.providers.m - {name} && res.active == r.active - {name}
    ensures name !in r.providers.m ==> res == r
  {
    if name in r.providers.m then Registry(OrderedMap.Remove(r.providers, name), r.active - {name}) else r
  }

  /** `get(name)` */
  function Get(r: Registry, name: string): (res: Option<Provider>)
    ensures res.Some? <==> name in r.providers.m
    ensures res.Some? ==> res.value == r.providers.m[name]
  {
    if name in r.providers.m then Some(r.providers.m[name]) else None
  }

  /** `list_providers()` */
  function ListProviders(r: Registry): (res: seq<string>)
    ensures OrderedMap.Distinct(res) && forall n :: n in res <==> n in r.providers.m
  {
    r.providers.keys
  }

  /** `await dispatch_packet(name, packet)`: an enabled provider dispatches whether or not it is
      active. */
  function DispatchPacket(r: Registry, name: string, packet: Packet): (res: Result<bool>)
    ensures name !in r.providers.m ==> res == Err(NotFound(name))
    ensures name in r.providers.m && !r.providers.m[name].config.enabled ==> res == Err(Disabled(name))
    ensures name in r.providers.m && r.providers.m[name].config.enabled ==>
              res == Ok(r.providers.m[name].dispatch(packet))
  {
    match Get(r, name)
    case None => Err(NotFound(name))
    case Some(p) => if !p.config.enabled then Err(Disabled(name)) else Ok(p.dispatch(packet))
  }

  /** `await activate_provider(name)` */
  function ActivateProvider(r: Registry, name: string): (res: Result<Registry>)
    ensures res.Err? <==> name !in r.providers.m
    ensures res.Err? ==> res.error == NotFound(name)
    ensures res.Ok? ==> res.value == r.(active := r.active + {name})
  {
    if name !in r.providers.m then Err(NotFound(name)) else Ok(r.(active := r.active + {name}))
  }

  /** `await deactivate_provider(name)`: unknown names are ignored. */
  function DeactivateProvider(r: Registry, name: string): (res: Registry)
    ensures name in r.providers.m ==> res == r.(active := r.active - {name})
    ensures name !in r.providers.m ==> res == r
  {
    if name in r.providers.m then r.(active := r.active - {name}) else r
  }

  /** The loop of `activate_all` over `names`, a suffix of the providers in registration order. */
  function ActivateEach(r: Registry, names: seq<string>): (res: Registry)
    requires forall n :: n in names ==> n in r.providers.m
    ensures res.providers == r.providers
    ensures res.active == r.active + set n | n in names && r.providers.m[n].config.enabled
    decreases |names|
  {
    if |names| == 0 then r
    else
      var n := names[0];
      var r1 := if r.providers.m[n].config.enabled then ActivateProvider(r, n).value else r;
      var res := ActivateEach(r1, names[1..]);
      assert forall x :: x in names <==> x == n || x in names[1..];
      res
  }

  /** `await activate_all()`: every enabled provider becomes active, and no other. */
  function ActivateAll(r: Registry): (res: Registry)
    ensures res.providers == r.providers
    ensures res.active == r.active + set n | n in r.providers.m && r.providers.m[n].config.enabled
  {
    ActivateEach(r, r.providers.keys)
  }

  /** The loop of `deactivate_all` over a listing of the active set. */
  function DeactivateEach(r: Registry, names: seq<string>): Registry
    decreases |names|
  {
    if |names| == 0 then r else DeactivateEach(DeactivateProvider(r, names[0]), names[1..])
  }

  /** `await deactivate_all()`, where `order` is the iteration order of the active set, which
      Python does not specify. */
  function DeactivateAll(r: Registry, order: seq<string>): (res: Registry)
    requires forall n :: n in order <==> n in r.active
  {
    DeactivateEach(r, order)
  }

  /** Whatever the iteration order, deactivating all leaves active only names that are no longer
      registered, so none when every active provider is registered. */
  lemma {:induction false} DeactivateAllClears(r: Registry, order: seq<string>)
    requires forall n :: n in order <==> n in r.active
    ensures DeactivateAll(r, order).providers == r.providers
    ensures DeactivateAll(r, order).active == r.active - r.providers.m.Keys
    ensures ActiveRegistered(r) ==> DeactivateAll(r, order).active == {}
  {
    DeactivateEachRemoves(r, order);
  }

  lemma {:induction false} DeactivateEachRemoves(r: Registry, names: seq<string>)
    ensures DeactivateEach(r, names).providers == r.providers
    ensures DeactivateEach(r, names).active
            == r.active - (set n | n in names && n in r.providers.m)
    decreases |names|
  {
    if |names| > 0 {
      DeactivateEachRemoves(DeactivateProvider(r, names[0]), names[1..]);
      assert forall x :: x in names <==> x == names[0] || x in names[1..];
    }
  }

  /** `is_active(name)` */
  predicate IsActive(r: Registry, name: string) {
    name in r.active
  }

  /** Every operation keeps the active names among the registered ones. */
  lemma OperationsKeepActiveRegistered(r: Registry, name: string, p: Provider, order: seq<string>)
    requires ActiveRegistered(r)
    requires forall n :: n in order <==> n in r.active
    ensures Register(r, name, p).Ok? ==> ActiveRegistered(Register(r, name, p).value)
    ensures ActiveRegistered(Unregister(r, name))
    ensures ActivateProvider(r, name).Ok? ==> ActiveRegistered(ActivateProvider(r, name).value)
    ensures ActiveRegistered(DeactivateProvider(r, name))
    ensures ActiveRegistered(ActivateAll(r))
    ensures ActiveRegistered(DeactivateAll(r, order))
  {
    DeactivateAllClears(r, order);
  }

  /** Unregistering an active provider leaves it neither listed nor active, and dispatching
      to it fails. */
  lemma UnregisterForgets(r: Registry, name: string, packet: Packet)
    requires name in r.providers.m && IsActive(r, name)
    ensures !IsActive(Unregister(r, name), name) && name !in ListProviders(Unregister(r, name))
    ensures DispatchPacket(Unregister(r, name), name, packet) == Err(NotFound(name))
  {
  }
}

=== FILE: ranking.dfy ===
/** Python's stable sort by an integer key, highest first
    (`sorted(xs, key=k, reverse=True)` and `xs.sort(key=k, reverse=True)`):
    a reversed Python sort still keeps equal elements in their original order.
    The router orders routes this way and the event hub orders events. */
module Ranking {

  predicate SortedDesc<T(==, !new)>(s: seq<T>, key: T -> int) {
    forall i, j :: 0 <= i < j < |s| ==> key(s[i]) >= key(s[j])
  }

  /** The elements of `s` with key `p`, in their order in `s`. */
  function WithKey<T(==, !new)>(s: seq<T>, key: T -> int, p: int): (r: seq<T>)
    ensures forall x :: x in r <==> x in s && key(x) == p
  {
    if |s| == 0 then [] else (if key(s[0]) == p then [s[0]] else []) + WithKey(s[1..], key, p)
  }

  lemma {:induction false} WithKeyAppend<T(!new)>(a: seq<T>, b: seq<T>, key: T -> int, p: int)
    ensures WithKey(a + b, key, p) == WithKey(a, key, p) + WithKey(b, key, p)
  {
    if |a| == 0 {
      assert a + b == b;
    } else {
      assert (a + b)[1..] == a[1..] + b;
      WithKeyAppend(a[1..], b, key, p);
    }
  }

  /** Inserts `x` after every element whose key is at least its own. */
  function Insert<T(==, !new)>(t: seq<T>, x: T, key: T -> int): (r: seq<T>)
    ensures |r| == |t| + 1
  {
    if |t| == 0 then [x]
    else if key(t[0]) >= key(x) then [t[0]] + Insert(t[1..], x, key)
    else [x] + t
  }

  /** The stable sort, highest key first. */
  function SortDesc<T(==, !new)>(s: seq<T>, key: T -> int): (r: seq<T>)
    ensures |r| == |s|
  {
    if |s| == 0 then [] else Insert(SortDesc(s[..|s| - 1], key), s[|s| - 1], key)
  }

  lemma {:induction false} InsertPermutes<T(!new)>(t: seq<T>, x: T, key: T -> int)
    ensures multiset(Insert(t, x, key)) == multiset(t) + multiset{x}
  {
    if |t| > 0 && key(t[0]) >= key(x) {
      InsertPermutes(t[1..], x, key);
      assert t == [t[0]] + t[1..];
    }
  }

  lemma SortedCons<T(!new)>(h: T, s: seq<T>, key: T -> int)
    requires SortedDesc(s, key) && forall y :: y in s ==> key(y) <= key(h)
    ensures SortedDesc([h] + s, key)
  {
    forall i, j | 0 <= i < j < |[h] + s| ensures key(([h] + s)[i]) >= key(([h] + s)[j]) {
      assert ([h] + s)[j] == s[j - 1];
      if i > 0 {
        assert ([h] + s)[i] == s[i - 1];
      }
    }
  }

  lemma {:induction false} InsertSorted<T(!new)>(t: seq<T>, x: T, key: T -> int)
    requires SortedDesc(t, key)
    ensures SortedDesc(Insert(t, x, key), key)
  {
    InsertPermutes(t, x, key);
    if |t| > 0 {
      if key(t[0]) >= key(x) {
        InsertSorted(t[1..], x, key);
        var rest := Insert(t[1..], x, key);
        InsertPermutes(t[1..], x, key);
        forall y | y in rest ensures key(y) <= key(t[0]) {
          assert y in multiset(rest);
          if y != x {
            assert y in t[1..];
            var k :| 0 <= k < |t[1..]| && t[1..][k] == y;
            assert t[k + 1] == y;
          }
        }
        SortedCons(t[0], rest, key);
      } else {
        forall y | y in t ensures key(y) <= key(x) {
          var k :| 0 <= k < |t| && t[k] == y;
        }
        SortedCons(x, t, key);
      }
    }
  }

  /** The sorted list is a permutation of the input, ordered by descending key. */
  lemma {:induction false} SortIsOrderedPermutation<T(!new)>(s: seq<T>, key: T -> int)
    ensures multiset(SortDesc(s, key)) == multiset(s) && SortedDesc(SortDesc(s, key), key)
  {
    if |s| > 0 {
      var front := s[..|s| - 1];
      SortIsOrderedPermutation(front, key);
      InsertPermutes(SortDesc(front, key), s[|s| - 1], key);
      InsertSorted(SortDesc(front, key), s[|s| - 1], key);
      assert s == front + [s[|s| - 1]];
    }
  }

  lemma {:induction false} NoneWithKey<T(!new)>(t: seq<T>, key: T -> int, p: int)
    requires forall i :: 0 <= i < |t| ==> key(t[i]) < p
    ensures WithKey(t, key, p) == []
  {
    if |t| > 0 {
      assert forall i :: 0 <= i < |t[1..]| ==> t[1..][i] == t[i + 1];
      NoneWithKey(t[1..], key, p);
    }
  }

  lemma {:induction false} InsertKeepsTies<T(!new)>(t: seq<T>, x: T, key: T -> int, p: int)
    requires SortedDesc(t, key)
    ensures WithKey(Insert(t, x, key), key, p) == WithKey(t, key, p) + (if key(x) == p then [x] else [])
  {
    if |t| > 0 {
      if key(t[0]) >= key(x) {
        assert SortedDesc(t[1..], key) by {
          forall i, j | 0 <= i < j < |t[1..]| ensures key(t[1..][i]) >= key(t[1..][j]) {
            assert t[1..][i] == t[i + 1] && t[1..][j] == t[j + 1];
          }
        }
        InsertKeepsTies(t[1..], x, key, p);
      } else if key(x) == p {
        NoneWithKey(t, key, p);
      }
    }
  }

  /** The sorted sequence is ordered by descending key. Stability is `SortKeepsTies`. */
  lemma SortSorted<T(!new)>(s: seq<T>, key: T -> int)
    ensures SortedDesc(SortDesc(s, key), key)
  {
    SortIsOrderedPermutation(s, key);
  }

  lemma WithKeySingle<T(!new)>(x: T, key: T -> int, p: int)
    ensures WithKey([x], key, p) == if key(x) == p then [x] else []
  {
    assert [x][1..] == [];
  }

  lemma {:induction false} SortKeepsTies<T(!new)>(s: seq<T>, key: T -> int, p: int)
    ensures WithKey(SortDesc(s, key), key, p) == WithKey(s, key, p)
  {
    if |s| > 0 {
      var front := s[..|s| - 1];
      var x := s[|s| - 1];
      var single := if key(x) == p then [x] else [];
      SortKeepsTies(front, key, p);
      SortSorted(front, key);
      InsertKeepsTies(SortDesc(front, key), x, key, p);
      WithKeySingle(x, key, p);
      assert s == front + [x];
      WithKeyAppend(front, [x], key, p);
      calc {
        WithKey(SortDesc(s, key), key, p);
        WithKey(Insert(SortDesc(front, key), x, key), key, p);
        WithKey(SortDesc(front, key), key, p) + single;
        WithKey(front, key, p) + WithKey([x], key, p);
        WithKey(s, key, p);
      }
    }
  }


  /** The head of the sorted list is an element of the input with the highest key. */
  lemma SortedHeadIsMax<T(!new)>(s: seq<T>, key: T -> int)
    requires |s| > 0
    ensures SortDesc(s, key)[0] in s
    ensures forall x :: x in s ==> key(x) <= key(SortDesc(s, key)[0])
  {
    var r := SortDesc(s, key);
    SortIsOrderedPermutation(s, key);
    var h := r[0];
    assert h in multiset(s);
    forall x | x in s ensures key(x) <= key(h) {
      assert x in multiset(r);
      var k :| 0 <= k < |r| && r[k] == x;
    }
  }

  /** The index in the input of the head of the sorted list: the first element of the highest
      key. */
  ghost function HeadIndex<T(!new)>(s: seq<T>, key: T -> int): (i: nat)
    requires |s| > 0
    ensures i < |s| && s[i] == SortDesc(s, key)[0]
    ensures forall j :: 0 <= j < |s| ==> key(s[j]) <= key(s[i])
    ensures forall j :: 0 <= j < i ==> key(s[j]) < key(s[i])
  {
    var r := SortDesc(s, key);
    SortedHeadIsMax(s, key);
    var h := r[0];
    SortKeepsTies(s, key, key(h));
    assert WithKey(r, key, key(h))[0] == h by {
      assert r == [h] + r[1..];
      WithKeyAppend([h], r[1..], key, key(h));
    }
    var i := FirstWithKey(s, key, key(h));
    assert forall j :: 0 <= j < |s| ==> s[j] in s;
    i
  }

  /** The index of the first element with key `p`, which heads `WithKey(s, key, p)`. */
  function FirstWithKey<T(!new)>(s: seq<T>, key: T -> int, p: int): (i: nat)
    requires |WithKey(s, key, p)| > 0
    ensures i < |s| && s[i] == WithKey(s, key, p)[0] && key(s[i]) == p
    ensures forall j :: 0 <= j < i ==> key(s[j]) != p
  {
    if key(s[0]) == p then 0
    else
      var k := FirstWithKey(s[1..], key, p);
      assert forall j :: 1 <= j < k + 1 ==> s[j] == s[1..][j - 1];
      k + 1
  }
}

=== FILE: reactor.dfy ===
/** The reactor controller's thermal-limit axiom: a concrete override axiom
    that clamps a proposed setpoint to 400.0. */
module Reactor {
  import opened Common
  import opened Values
  import opened Safety
  import OrderedMap

  const Limit: real := 400.0

  /** The value of `value > 400.0` for a dynamic value; comparing a string or
      `None` with a float raises `TypeError`. */
  function ExceedsLimit(v: Value): Result<bool> {
    match v
    case Int(i) => Ok(i as real > Limit)
    case Float(f, _) => Ok(f > Limit)
    case Bool(b) => Ok(false)
    case Str(_) => Err(Exception(TypeError, "'>' not supported between instances of 'str' and 'float'"))
    case Null => Err(Exception(TypeError, "'>' not supported between instances of 'NoneType' and 'float'"))
  }

  /** The proposed setpoint is at or below the limit. */
  predicate WithinLimit(v: Value) {
    ExceedsLimit(v) == Ok(false)
  }

  /** `enforce_thermal_limits(args)` */
  function EnforceThermalLimits(args: Payload): (r: AxiomOutcome)
    ensures !("value" in args.m && "target_id" in args.m) ==> r == Pass
    ensures r.Override? ==>
              r.p.keys == args.keys
              && r.p.m == args.m["value" := Float(Limit, "400.0")]
    ensures r.Pass? && "value" in args.m && "target_id" in args.m ==> WithinLimit(args.m["value"])
    ensures "value" in args.m && "target_id" in args.m ==>
              (r.Raised? <==> ExceedsLimit(args.m["value"]).Err?)
              && (r.Raised? ==> r.e == ExceedsLimit(args.m["value"]).error && r.e.kind == TypeError)
              && (r.Override? <==> ExceedsLimit(args.m["value"]) == Ok(true))
              && (r.Pass? <==> WithinLimit(args.m["value"]))
    ensures !r.Block? && !r.Other?
  {
    if "value" in args.m && "target_id" in args.m then
      match ExceedsLimit(args.m["value"])
      case Err(e) => Raised(e)
      case Ok(over) =>
        if over then Override(OrderedMap.Put(args, "value", Float(Limit, "400.0"))) else Pass
    else Pass
  }

  /** The clamp is idempotent: a clamped payload passes the axiom. */
  lemma ClampIsIdempotent(args: Payload)
    requires EnforceThermalLimits(args).Override?
    ensures EnforceThermalLimits(EnforceThermalLimits(args).p) == Pass
  {
  }

  /** A registry holding only this axiom lets through exactly the payloads whose
      setpoint is within the limit, and clamps the rest. */
  lemma GuardedRegistry(args: Payload)
    requires "value" in args.m && "target_id" in args.m
    requires args.m["value"].Int? || args.m["value"].Float?
    ensures var reg := Register(OrderedMap.Empty(), "axiom", "OVERRIDE", "enforce_thermal_limits", EnforceThermalLimits);
            var out := ValidateOutput(reg, args);
            out.Ok? && "value" in out.value.m && WithinLimit(out.value.m["value"])
            && out.value.keys == args.keys
  {
    var reg := Register(OrderedMap.Empty(), "axiom", "OVERRIDE", "enforce_thermal_limits", EnforceThermalLimits);
    var a := Axiom("enforce_thermal_limits", EnforceThermalLimits, "OVERRIDE");
    assert reg.keys == ["enforce_thermal_limits"];
    assert OrderedMap.Values(reg) == [a];
    var out := EnforceThermalLimits(args);
    if out.Override? {
      assert Run(["enforce_thermal_limits"], [a], args) == Run([], [], out.p);
    } else {
      assert out.Pass?;
      assert Run(["enforce_thermal_limits"], [a], args) == Run([], [], args);
    }
  }
}

=== FILE: reasoning_axiom.dfy ===
/** The reasoning-quality axiom: a high-stakes tool may only run after a
    thought of at least five characters. */
module ReasoningCheck {
  import opened Common

  const DefaultHighStakes: seq<string> := ["shell", "file_tool"]

  datatype ReasoningAxiom = ReasoningAxiom(highStakesTools: seq<string>)

  /** `ReasoningAxiom(high_stakes_tools)`: a missing or empty list falls back to the default. */
  function NewReasoningAxiom(tools: Option<seq<string>>): (a: ReasoningAxiom)
    ensures tools.Some? && |tools.value| > 0 ==> a.highStakesTools == tools.value
    ensures tools.None? || |tools.value| == 0 ==> a.highStakesTools == DefaultHighStakes
  {
    if tools.Some? && |tools.value| > 0 then ReasoningAxiom(tools.value) else ReasoningAxiom(DefaultHighStakes)
  }

  /** `validate_reasoning(tool_name, thought)` */
  function ValidateReasoning(a: ReasoningAxiom, tool: string, thought: string): (r: bool)
    ensures tool !in a.highStakesTools ==> r
    ensures tool in a.highStakesTools ==> (r <==> |thought| >= 5)
  {
    if tool !in a.highStakesTools then true
    else if |thought| == 0 || |thought| < 5 then false
    else true
  }

  /** Lengthening the thought never turns a pass into a failure. */
  lemma LongerThoughtStillPasses(a: ReasoningAxiom, tool: string, thought: string, extra: string)
    requires ValidateReasoning(a, tool, thought)
    ensures ValidateReasoning(a, tool, thought + extra)
  {
  }

  /** With the defaults, `macos_system` is low-stakes and passes even with no thought at all. */
  lemma MacosSystemPassesByDefault()
    ensures ValidateReasoning(NewReasoningAxiom(None), "macos_system", "")
    ensures !ValidateReasoning(NewReasoningAxiom(None), "shell", "ok")
  {
  }
}

=== FILE: router.dfy ===
/** The message router: route registration, priority-ordered matching and dispatch
    with retries and fallbacks.

    A route's matcher, evaluated against the context being routed, is given as the
    set of route ids it accepts (`matched`); whether the handler succeeds on a given
    attempt is given by `succeeds(routeId, attempt)`. Fallback calls are recorded
    and their exceptions, like the source's, have no effect. */
module Router {
  import opened Common
  import opened OrderedMap
  import Ranking

  datatype Route = Route(routeId: string, priority: int, enabled: bool, maxAttempts: int, hasFallback: bool)

  /** `Route(route_id, matcher, handler)` with the declared defaults. */
  function DefaultRoute(id: string): (r: Route)
    ensures r.priority == 0 && r.enabled && r.maxAttempts == 3 && !r.hasFallback && r.routeId == id
  {
    Route(id, 0, true, 3, false)
  }

  /** The sort key of routes. */
  function Priority(r: Route): int { r.priority }

  // ---------------------------------------------------------------------
  // Registration
  // ---------------------------------------------------------------------

  datatype RouteStats = RouteStats(called: nat, success: nat, failed: nat)

  datatype Stats = Stats(totalRouted: nat, successful: nat, failed: nat, bypassed: nat,
                         routes: map<string, RouteStats>)

  datatype Router = Router(routes: Dict<string, Route>, stats: Stats)

  function NewRouter(): (r: Router)
    ensures |r.routes.keys| == 0 && r.stats == Stats(0, 0, 0, 0, map[])
  {
    Router(Empty(), Stats(0, 0, 0, 0, map[]))
  }

  /** Every route is stored under its own id and has a statistics entry. */
  predicate Wellformed(r: Router) {
    r.stats.routes.Keys == r.routes.m.Keys
    && (forall id :: id in r.routes.m ==> r.routes.m[id].routeId == id)
  }

  /** `router.register(route)` */
  function Register(r: Router, rt: Route): (res: Result<Router>)
    ensures res.Err? <==> rt.routeId in r.routes.m
    ensures res.Err? ==> res.error == Exception(ValueError, "Route " + rt.routeId + " already registered")
    ensures res.Ok? ==> res.value.routes == Put(r.routes, rt.routeId, rt)
                        && res.value.stats == r.stats.(routes := r.stats.routes[rt.routeId := RouteStats(0, 0, 0)])
    ensures Wellformed(r) && res.Ok? ==> Wellformed(res.value)
  {
    if rt.routeId in r.routes.m then Err(Exception(ValueError, "Route " + rt.routeId + " already registered"))
    else Ok(Router(Put(r.routes, rt.routeId, rt),
                   r.stats.(routes := r.stats.routes[rt.routeId := RouteStats(0, 0, 0)])))
  }

  /** `router.unregister(route_id)`: the route and its statistics both go. */
  function Unregister(r: Router, id: string): (res: Router)
    ensures id !in r.routes.m ==> res == r
    ensures id in r.routes.m ==>
              res.routes == Remove(r.routes, id) && res.stats == r.stats.(routes := r.stats.routes - {id})
    ensures Wellformed(r) ==> Wellformed(res)
  {
    if id in r.routes.m then Router(Remove(r.routes, id), r.stats.(routes := r.stats.routes - {id}))
    else r
  }

  /** Registering a new route and unregistering it again gives back the router. */
  lemma RegisterThenUnregister(r: Router, rt: Route)
    requires Wellformed(r) && rt.routeId !in r.routes.m
    ensures Register(r, rt).Ok?
    ensures var r' := Unregister(Register(r, rt).value, rt.routeId);
            r' == r
  {
    var id := rt.routeId;
    OrderedMap.PutThenRemove(r.routes, id, rt);
    assert id !in r.stats.routes;
    assert r.stats.routes[id := RouteStats(0, 0, 0)] - {id} == r.stats.routes;
  }

  // ---------------------------------------------------------------------
  // Matching
  // ---------------------------------------------------------------------

  /** The enabled routes of `s` whose matcher accepted the context, in order. */
  function Eligible(s: seq<Route>, matched: set<string>): (r: seq<Route>)
    ensures forall x :: x in r <==> x in s && x.enabled && x.routeId in matched
  {
    if |s| == 0 then []
    else (if s[0].enabled && s[0].routeId in matched then [s[0]] else []) + Eligible(s[1..], matched)
  }

  lemma {:induction false} EligibleKeepsOrder(s: seq<Route>, matched: set<string>)
    requires Ranking.SortedDesc(s, Priority)
    ensures Ranking.SortedDesc(Eligible(s, matched), Priority)
  {
    if |s| > 0 {
      EligibleKeepsOrder(s[1..], matched);
      var rest := Eligible(s[1..], matched);
      forall y | y in rest ensures y.priority <= s[0].priority {
        var k :| 0 <= k < |s[1..]| && s[1..][k] == y;
        assert s[k + 1] == y;
      }
    }
  }

  lemma {:induction false} EligibleByPriority(s: seq<Route>, matched: set<string>, p: int)
    ensures Ranking.WithKey(Eligible(s, matched), Priority, p) == Eligible(Ranking.WithKey(s, Priority, p), matched)
  {
    if |s| > 0 {
      EligibleByPriority(s[1..], matched, p);
      var head := if s[0].enabled && s[0].routeId in matched then [s[0]] else [];
      Ranking.WithKeyAppend(head, Eligible(s[1..], matched), Priority, p);
      var head' := if s[0].priority == p then [s[0]] else [];
      EligibleAppend(head', Ranking.WithKey(s[1..], Priority, p), matched);
    }
  }

  lemma {:induction false} EligibleAppend(a: seq<Route>, b: seq<Route>, matched: set<string>)
    ensures Eligible(a + b, matched) == Eligible(a, matched) + Eligible(b, matched)
  {
    if |a| == 0 {
      assert a + b == b;
    } else {
      assert (a + b)[1..] == a[1..] + b;
      EligibleAppend(a[1..], b, matched);
    }
  }

  /** `router.find_routes(context)` */
  function FindRoutes(r: Router, matched: set<string>): (res: seq<Route>)
    ensures forall x :: x in res <==> x in r.routes.m.Values && x.enabled && x.routeId in matched
    ensures Ranking.SortedDesc(res, Priority)
    ensures forall p :: Ranking.WithKey(res, Priority, p) == Ranking.WithKey(Eligible(Values(r.routes), matched), Priority, p)
  {
    var all := Values(r.routes);
    var sorted := Ranking.SortDesc(all, Priority);
    Ranking.SortIsOrderedPermutation(all, Priority);
    assert forall x :: x in sorted <==> x in all by {
      assert forall x :: x in sorted <==> x in multiset(sorted);
    }
    assert forall x :: x in all <==> x in r.routes.m.Values by {
      forall x | x in r.routes.m.Values ensures x in all {
        var id :| id in r.routes.m && r.routes.m[id] == x;
        assert id in r.routes.keys;
        var i :| 0 <= i < |r.routes.keys| && r.routes.keys[i] == id;
        assert all[i] == x;
      }
    }
    EligibleKeepsOrder(sorted, matched);
    forall p ensures Ranking.WithKey(Eligible(sorted, matched), Priority, p) == Ranking.WithKey(Eligible(all, matched), Priority, p) {
      EligibleByPriority(sorted, matched, p);
      EligibleByPriority(all, matched, p);
      Ranking.SortKeepsTies(all, Priority, p);
    }
    Eligible(sorted, matched)
  }

  // ---------------------------------------------------------------------
  // Dispatch
  // ---------------------------------------------------------------------

  /** Some attempt numbered `a` to `rt.maxAttempts` succeeds. */
  predicate SucceedsFrom(rt: Route, succeeds: (string, int) -> bool, a: int) {
    exists b :: a <= b <= rt.maxAttempts && succeeds(rt.routeId, b)
  }

  /** What trying one route did: the attempt numbers tried, whether one succeeded, and whether
      the final attempt failed (which is when the fallback runs and the failure is counted). */
  datatype RouteRun = RouteRun(attempts: seq<int>, succeeded: bool, exhausted: bool)

  /** The attempt loop from attempt `a` on. */
  function RunFrom(rt: Route, succeeds: (string, int) -> bool, a: int): (r: RouteRun)
    requires a >= 1
    ensures r.succeeded <==> SucceedsFrom(rt, succeeds, a)
    ensures r.exhausted <==> a <= rt.maxAttempts && !r.succeeded
    ensures |r.attempts| == if a > rt.maxAttempts then 0 else if r.succeeded then |r.attempts| else rt.maxAttempts - a + 1
    ensures |r.attempts| <= Max(rt.maxAttempts - a + 1, 0)
    ensures forall i :: 0 <= i < |r.attempts| ==> r.attempts[i] == a + i
    ensures r.succeeded ==> |r.attempts| > 0 && succeeds(rt.routeId, r.attempts[|r.attempts| - 1])
    ensures forall i :: 0 <= i < |r.attempts| - 1 ==> !succeeds(rt.routeId, r.attempts[i])
    ensures !r.succeeded ==> forall i :: 0 <= i < |r.attempts| ==> !succeeds(rt.routeId, r.attempts[i])
    decreases Max(rt.maxAttempts - a + 1, 0)
  {
    if a > rt.maxAttempts then RouteRun([], false, false)
    else if succeeds(rt.routeId, a) then RouteRun([a], true, false)
    else if a == rt.maxAttempts then RouteRun([a], false, true)
    else
      var rest := RunFrom(rt, succeeds, a + 1);
      assert SucceedsFrom(rt, succeeds, a) <==> SucceedsFrom(rt, succeeds, a + 1) by {
        if SucceedsFrom(rt, succeeds, a) {
          var b :| a <= b <= rt.maxAttempts && succeeds(rt.routeId, b);
          assert b != a;
        }
      }
      RouteRun([a] + rest.attempts, rest.succeeded, rest.exhausted)
  }

  /** `for attempt in range(1, max_attempts + 1)` for one route. */
  function RunRoute(rt: Route, succeeds: (string, int) -> bool): (r: RouteRun)
    ensures r.succeeded <==> SucceedsFrom(rt, succeeds, 1)
    ensures r.exhausted <==> rt.maxAttempts >= 1 && !r.succeeded
    ensures |r.attempts| <= Max(rt.maxAttempts, 0)
    ensures rt.maxAttempts <= 0 ==> r == RouteRun([], false, false)
    ensures forall i :: 0 <= i < |r.attempts| ==> r.attempts[i] == i + 1
    ensures r.succeeded ==> |r.attempts| > 0 && succeeds(rt.routeId, r.attempts[|r.attempts| - 1])
    ensures forall i :: 0 <= i < |r.attempts| - 1 ==> !succeeds(rt.routeId, r.attempts[i])
    ensures !r.succeeded ==> forall i :: 0 <= i < |r.attempts| ==> !succeeds(rt.routeId, r.attempts[i])
  {
    RunFrom(rt, succeeds, 1)
  }

  /** One handler call: the route's id and the attempt number. */
  datatype Call = Call(routeId: string, attempt: int)

  function CallsOf(rt: Route, attempts: seq<int>): (r: seq<Call>)
    ensures |r| == |attempts| && forall i :: 0 <= i < |r| ==> r[i] == Call(rt.routeId, attempts[i])
  {
    seq(|attempts|, i requires 0 <= i < |attempts| => Call(rt.routeId, attempts[i]))
  }

  /** The outcome of routing one message. */
  datatype Dispatch = Dispatch(stats: Stats, delivered: bool, calls: seq<Call>, fallbacks: seq<string>)

  /** No attempt of any of the routes succeeds. */
  predicate AllFail(ms: seq<Route>, succeeds: (string, int) -> bool) {
    forall i :: 0 <= i < |ms| ==> !SucceedsFrom(ms[i], succeeds, 1)
  }

  /** The number of routes that are tried to their last attempt without success. */
  function ExhaustedCount(ms: seq<Route>): nat {
    if |ms| == 0 then 0 else (if ms[0].maxAttempts >= 1 then 1 else 0) + ExhaustedCount(ms[1..])
  }

  /** The dispatch state after a route none of whose attempts succeeded. */
  function AfterFailedRoute(st: Stats, rt: Route, succeeds: (string, int) -> bool): Stats
    requires rt.routeId in st.routes
  {
    var rs := st.routes[rt.routeId].(called := st.routes[rt.routeId].called + 1);
    if RunRoute(rt, succeeds).exhausted then st.(failed := st.failed + 1, routes := st.routes[rt.routeId := rs.(failed := rs.failed + 1)])
    else st.(routes := st.routes[rt.routeId := rs])
  }

  /** The loop over the matching routes. */
  function DispatchOver(st: Stats, ms: seq<Route>, succeeds: (string, int) -> bool): (r: Dispatch)
    requires forall x :: x in ms ==> x.routeId in st.routes
    ensures r.delivered <==> !AllFail(ms, succeeds)
    ensures r.stats.routes.Keys == st.routes.Keys
    ensures r.stats.totalRouted == st.totalRouted && r.stats.bypassed == st.bypassed
    ensures r.stats.successful == st.successful + (if r.delivered then 1 else 0)
    ensures !r.delivered ==> r.stats.failed == st.failed + ExhaustedCount(ms)
    decreases |ms|
  {
    if |ms| == 0 then Dispatch(st, false, [], [])
    else
      var rt := ms[0];
      var run := RunRoute(rt, succeeds);
      if run.succeeded then
        var rs := st.routes[rt.routeId].(called := st.routes[rt.routeId].called + 1);
        Dispatch(st.(successful := st.successful + 1, routes := st.routes[rt.routeId := rs.(success := rs.success + 1)]),
                 true, CallsOf(rt, run.attempts), [])
      else
        var rest := DispatchOver(AfterFailedRoute(st, rt, succeeds), ms[1..], succeeds);
        AllFailTail(ms, succeeds);
        Dispatch(rest.stats, rest.delivered, CallsOf(rt, run.attempts) + rest.calls,
                 (if run.exhausted && rt.hasFallback then [rt.routeId] else []) + rest.fallbacks)
  }

  lemma AllFailTail(ms: seq<Route>, succeeds: (string, int) -> bool)
    requires |ms| > 0 && !SucceedsFrom(ms[0], succeeds, 1)
    ensures AllFail(ms, succeeds) <==> AllFail(ms[1..], succeeds)
  {
    if AllFail(ms[1..], succeeds) {
      forall i | 0 <= i < |ms| ensures !SucceedsFrom(ms[i], succeeds, 1) {
        if i > 0 { assert ms[i] == ms[1..][i - 1]; }
      }
    }
  }

  /** A message is delivered by the first matching route that has any successful attempt:
      every route before it failed all of its attempts. */
  lemma {:induction false} DeliveredByFirstSucceeding(st: Stats, ms: seq<Route>, succeeds: (string, int) -> bool)
    requires forall x :: x in ms ==> x.routeId in st.routes
    ensures DispatchOver(st, ms, succeeds).delivered ==>
              exists k :: 0 <= k < |ms| && SucceedsFrom(ms[k], succeeds, 1) && AllFail(ms[..k], succeeds)
    decreases |ms|
  {
    if |ms| > 0 && DispatchOver(st, ms, succeeds).delivered {
      if SucceedsFrom(ms[0], succeeds, 1) {
        assert AllFail(ms[..0], succeeds);
      } else {
        var st1 := AfterFailedRoute(st, ms[0], succeeds);
        DeliveredByFirstSucceeding(st1, ms[1..], succeeds);
        var k :| 0 <= k < |ms[1..]| && SucceedsFrom(ms[1..][k], succeeds, 1) && AllFail(ms[1..][..k], succeeds);
        assert ms[k + 1] == ms[1..][k];
        forall i | 0 <= i < k + 1 ensures !SucceedsFrom(ms[i], succeeds, 1) {
          if i > 0 { assert ms[i] == ms[1..][..k][i - 1]; }
        }
        assert AllFail(ms[..k + 1], succeeds);
      }
    }
  }

  lemma DispatchStep(st: Stats, ms: seq<Route>, succeeds: (string, int) -> bool)
    requires forall x :: x in ms ==> x.routeId in st.routes
    requires |ms| > 0 && !SucceedsFrom(ms[0], succeeds, 1)
    ensures var rest := DispatchOver(AfterFailedRoute(st, ms[0], succeeds), ms[1..], succeeds);
            DispatchOver(st, ms, succeeds).calls == CallsOf(ms[0], RunRoute(ms[0], succeeds).attempts) + rest.calls
            && DispatchOver(st, ms, succeeds).delivered == rest.delivered
  {
  }

  /** Every handler call belongs to a matching route and is within that route's attempt budget. */
  lemma {:induction false} CallsWithinBudget(st: Stats, ms: seq<Route>, succeeds: (string, int) -> bool)
    requires forall x :: x in ms ==> x.routeId in st.routes
    ensures forall c :: c in DispatchOver(st, ms, succeeds).calls ==>
              exists i :: 0 <= i < |ms| && ms[i].routeId == c.routeId && 1 <= c.attempt <= ms[i].maxAttempts
    decreases |ms|
  {
    if |ms| > 0 {
      var rt := ms[0];
      var own := CallsOf(rt, RunRoute(rt, succeeds).attempts);
      var d := DispatchOver(st, ms, succeeds);
      var restCalls: seq<Call> := [];
      if !SucceedsFrom(rt, succeeds, 1) {
        var st1 := AfterFailedRoute(st, rt, succeeds);
        CallsWithinBudget(st1, ms[1..], succeeds);
        DispatchStep(st, ms, succeeds);
        restCalls := DispatchOver(st1, ms[1..], succeeds).calls;
      }
      assert d.calls == own + restCalls;
      forall c | c in d.calls
        ensures exists i :: 0 <= i < |ms| && ms[i].routeId == c.routeId && 1 <= c.attempt <= ms[i].maxAttempts
      {
        if c in restCalls {
          var i :| 0 <= i < |ms[1..]| && ms[1..][i].routeId == c.routeId && 1 <= c.attempt <= ms[1..][i].maxAttempts;
          assert ms[i + 1] == ms[1..][i];
        } else {
          var j :| 0 <= j < |own| && own[j] == c;
          assert ms[0].routeId == c.routeId && 1 <= c.attempt <= ms[0].maxAttempts;
        }
      }
    }
  }

  /** Every handler call but the last failed; the last succeeded exactly when the message was
      delivered. */
  lemma {:induction false} OnlyLastCallSucceeds(st: Stats, ms: seq<Route>, succeeds: (string, int) -> bool)
    requires forall x :: x in ms ==> x.routeId in st.routes
    ensures var d := DispatchOver(st, ms, succeeds);
            (forall i :: 0 <= i < |d.calls| - 1 ==> !succeeds(d.calls[i].routeId, d.calls[i].attempt))
            && (d.delivered <==> |d.calls| > 0 && succeeds(d.calls[|d.calls| - 1].routeId, d.calls[|d.calls| - 1].attempt))
    decreases |ms|
  {
    if |ms| > 0 {
      if !SucceedsFrom(ms[0], succeeds, 1) {
        var st1 := AfterFailedRoute(st, ms[0], succeeds);
        OnlyLastCallSucceeds(st1, ms[1..], succeeds);
        DispatchStep(st, ms, succeeds);
        FailedRunCallsFail(ms[0], succeeds);
        OwnThenRest(CallsOf(ms[0], RunRoute(ms[0], succeeds).attempts),
                    DispatchOver(st1, ms[1..], succeeds).calls, succeeds);
      } else {
        SucceededStep(st, ms, succeeds);
      }
    }
  }

  /** Every call of a route that never succeeds fails. */
  lemma FailedRunCallsFail(rt: Route, succeeds: (string, int) -> bool)
    requires !SucceedsFrom(rt, succeeds, 1)
    ensures var own := CallsOf(rt, RunRoute(rt, succeeds).attempts);
            forall i :: 0 <= i < |own| ==> !succeeds(own[i].routeId, own[i].attempt)
  {
  }

  /** When the first route succeeds, its own calls are all the calls, and only the last of them
      succeeds. */
  lemma SucceededStep(st: Stats, ms: seq<Route>, succeeds: (string, int) -> bool)
    requires forall x :: x in ms ==> x.routeId in st.routes
    requires |ms| > 0 && SucceedsFrom(ms[0], succeeds, 1)
    ensures var d := DispatchOver(st, ms, succeeds);
            (forall i :: 0 <= i < |d.calls| - 1 ==> !succeeds(d.calls[i].routeId, d.calls[i].attempt))
            && d.delivered && |d.calls| > 0
            && succeeds(d.calls[|d.calls| - 1].routeId, d.calls[|d.calls| - 1].attempt)
  {
    assert DispatchOver(st, ms, succeeds).calls == CallsOf(ms[0], RunRoute(ms[0], succeeds).attempts);
  }

  lemma OwnThenRest(own: seq<Call>, rest: seq<Call>, succeeds: (string, int) -> bool)
    requires forall i :: 0 <= i < |own| ==> !succeeds(own[i].routeId, own[i].attempt)
    requires forall i :: 0 <= i < |rest| - 1 ==> !succeeds(rest[i].routeId, rest[i].attempt)
    ensures var all := own + rest;
            (forall i :: 0 <= i < |all| - 1 ==> !succeeds(all[i].routeId, all[i].attempt))
            && ((|all| > 0 && succeeds(all[|all| - 1].routeId, all[|all| - 1].attempt))
                <==> (|rest| > 0 && succeeds(rest[|rest| - 1].routeId, rest[|rest| - 1].attempt)))
  {
    var all := own + rest;
    forall i | 0 <= i < |all| - 1 ensures !succeeds(all[i].routeId, all[i].attempt) {
      if i >= |own| {
        assert all[i] == rest[i - |own|];
      }
    }
    if |rest| > 0 {
      assert all[|all| - 1] == rest[|rest| - 1];
    }
  }

  /** A fallback runs only for a route whose every attempt failed, and only once per such route. */
  lemma {:induction false} FallbacksOnlyAfterExhaustion(st: Stats, ms: seq<Route>, succeeds: (string, int) -> bool)
    requires forall x :: x in ms ==> x.routeId in st.routes
    ensures forall id :: id in DispatchOver(st, ms, succeeds).fallbacks ==>
              exists i :: 0 <= i < |ms| && ms[i].routeId == id && ms[i].hasFallback && ms[i].maxAttempts >= 1
                          && !SucceedsFrom(ms[i], succeeds, 1)
    ensures |DispatchOver(st, ms, succeeds).fallbacks| <= |ms|
    decreases |ms|
  {
    if |ms| > 0 && !SucceedsFrom(ms[0], succeeds, 1) {
      var st1 := AfterFailedRoute(st, ms[0], succeeds);
      FallbacksOnlyAfterExhaustion(st1, ms[1..], succeeds);
      forall id | id in DispatchOver(st1, ms[1..], succeeds).fallbacks
        ensures exists i :: 0 <= i < |ms| && ms[i].routeId == id && ms[i].hasFallback && ms[i].maxAttempts >= 1
                            && !SucceedsFrom(ms[i], succeeds, 1)
      {
        var i :| 0 <= i < |ms[1..]| && ms[1..][i].routeId == id && ms[1..][i].hasFallback && ms[1..][i].maxAttempts >= 1
                 && !SucceedsFrom(ms[1..][i], succeeds, 1);
        assert ms[i + 1] == ms[1..][i];
      }
    }
  }

  /** `await router.route(context, message)` */
  function RouteMessage(r: Router, matched: set<string>, succeeds: (string, int) -> bool): (d: Dispatch)
    requires Wellformed(r)
    ensures d.stats.totalRouted == r.stats.totalRouted + 1
    ensures |FindRoutes(r, matched)| == 0 ==>
              d == Dispatch(r.stats.(totalRouted := r.stats.totalRouted + 1, bypassed := r.stats.bypassed + 1), false, [], [])
    ensures |FindRoutes(r, matched)| > 0 ==> d.stats.bypassed == r.stats.bypassed
    ensures d.delivered <==> !AllFail(FindRoutes(r, matched), succeeds)
    ensures d.stats.successful == r.stats.successful + (if d.delivered then 1 else 0)
    ensures d.stats.routes.Keys == r.stats.routes.Keys
  {
    var ms := FindRoutes(r, matched);
    var st := r.stats.(totalRouted := r.stats.totalRouted + 1);
    if |ms| == 0 then Dispatch(st.(bypassed := st.bypassed + 1), false, [], [])
    else
      assert forall x :: x in ms ==> x.routeId in st.routes by {
        forall x | x in ms ensures x.routeId in st.routes {
          var id :| id in r.routes.m && r.routes.m[id] == x;
        }
      }
      DispatchOver(st, ms, succeeds)
  }

  /** The router after routing one message. */
  function AfterRoute(r: Router, matched: set<string>, succeeds: (string, int) -> bool): (res: Router)
    requires Wellformed(r)
    ensures res.routes == r.routes && Wellformed(res)
    ensures res.stats == RouteMessage(r, matched, succeeds).stats
  {
    r.(stats := RouteMessage(r, matched, succeeds).stats)
  }

  /** Each routed message adds one to the total and at most one to delivered or bypassed. */
  predicate CountsAgree(r: Router) {
    r.stats.successful + r.stats.bypassed <= r.stats.totalRouted
  }

  lemma RoutingKeepsCounts(r: Router, matched: set<string>, succeeds: (string, int) -> bool)
    requires Wellformed(r) && CountsAgree(r)
    ensures CountsAgree(AfterRoute(r, matched, succeeds))
  {
  }

  datatype Report = Report(stats: Stats, routesRegistered: nat, successRate: real)

  /** `router.get_stats()` */
  function GetStats(r: Router): (rep: Report)
    ensures rep.stats == r.stats && rep.routesRegistered == |r.routes.m|
    ensures r.stats.totalRouted == 0 ==> rep.successRate == 0.0
    ensures r.stats.totalRouted > 0 ==> rep.successRate * r.stats.totalRouted as real == r.stats.successful as real
  {
    SizeIsKeyCount(r.routes);
    Report(r.stats, |r.routes.keys|,
           if r.stats.totalRouted > 0 then r.stats.successful as real / r.stats.totalRouted as real else 0.0)
  }

  /** The success rate is a proportion. */
  lemma SuccessRateBounded(r: Router)
    requires CountsAgree(r)
    ensures 0.0 <= GetStats(r).successRate <= 1.0
  {
    if r.stats.totalRouted > 0 {
      var t := r.stats.totalRouted as real;
      var rate := GetStats(r).successRate;
      assert rate * t <= t;
      assert rate * t >= 0.0;
    }
  }

  /** A route with no attempts is counted as called but its handler never runs and no
      outcome is recorded for it. */
  lemma ZeroAttemptsNeverRun(st: Stats, rt: Route, succeeds: (string, int) -> bool)
    requires rt.maxAttempts <= 0 && rt.routeId in st.routes
    ensures var d := DispatchOver(st, [rt], succeeds);
            !d.delivered && d.calls == [] && d.fallbacks == [] && d.stats.failed == st.failed
            && d.stats.routes[rt.routeId] == st.routes[rt.routeId].(called := st.routes[rt.routeId].called + 1)
  {
    assert !SucceedsFrom(rt, succeeds, 1);
    assert [rt][1..] == [];
  }
}

=== FILE: safety.dfy ===
/** The executive registry: an ordered chain of safety axioms that every
    proposed tool call passes through before it runs.

    An axiom handler is modelled as a pure function from the working payload
    to the value it returns: `True` passes, a dictionary replaces the working
    payload, `False` blocks, anything else is ignored, and a raised exception
    propagates. A handler that mutates the payload it was given and then
    returns `True` is not modelled (a handler's effect is its return value). */
module Safety {
  import opened Common
  import opened Values
  import OrderedMap

  /** What a handler returned. */
  datatype AxiomOutcome =
    | Pass                   // `True`
    | Override(p: Payload)   // a `dict`
    | Block                  // `False`
    | Other                  // `None`, `1`, a string, ...
    | Raised(e: Exception)   // the handler raised

  datatype Axiom = Axiom(name: string, handler: Payload -> AxiomOutcome, onViolation: string)

  /** Axioms keyed by the handler's function name, in registration order. */
  type Registry = OrderedMap.Dict<string, Axiom>

  function BlockMessage(name: string): string {
    "Operation blocked by safety axiom: " + name
  }

  /** `register(name, on_violation)(func)`: the `name` argument is ignored and
      the axiom is stored under the function's own name. */
  function Register(reg: Registry, name: string, onViolation: string,
                    funcName: string, handler: Payload -> AxiomOutcome): (r: Registry)
    ensures funcName in r.m && r.m[funcName] == Axiom(funcName, handler, onViolation)
    ensures forall k :: k in reg.m && k != funcName ==> k in r.m && r.m[k] == reg.m[k]
    ensures funcName in reg.m ==> r.keys == reg.keys
    ensures funcName !in reg.m ==> r.keys == reg.keys + [funcName]
  {
    OrderedMap.Put(reg, funcName, Axiom(funcName, handler, onViolation))
  }

  /** The chain over the axioms in order, starting from `p`. */
  function Run(names: seq<string>, axioms: seq<Axiom>, p: Payload): Result<Payload>
    requires |names| == |axioms|
  {
    if |axioms| == 0 then Ok(p)
    else
      match axioms[0].handler(p)
      case Pass => Run(names[1..], axioms[1..], p)
      case Override(q) => Run(names[1..], axioms[1..], q)
      case Block => Err(Exception(AxiomViolationError, BlockMessage(names[0])))
      case Other => Run(names[1..], axioms[1..], p)
      case Raised(e) => Err(e)
  }

  /** `validate_output(payload)` */
  function ValidateOutput(reg: Registry, payload: Payload): Result<Payload> {
    Run(reg.keys, OrderedMap.Values(reg), payload)
  }

  /** The step one axiom performs on the working payload. */
  function Step(name: string, a: Axiom, p: Payload): Result<Payload> {
    match a.handler(p)
    case Pass => Ok(p)
    case Override(q) => Ok(q)
    case Block => Err(Exception(AxiomViolationError, BlockMessage(name)))
    case Other => Ok(p)
    case Raised(e) => Err(e)
  }

  /** The chain written as the registry's loop: run axioms in order, stop at the
      first block or exception. */
  method ValidateLoop(reg: Registry, payload: Payload) returns (r: Result<Payload>)
    ensures r == ValidateOutput(reg, payload)
  {
    var axioms := OrderedMap.Values(reg);
    var names := reg.keys;
    var working := payload;
    var i := 0;
    while i < |axioms|
      invariant 0 <= i <= |axioms|
      invariant Run(names, axioms, payload) == Run(names[i..], axioms[i..], working)
    {
      var s := Step(names[i], axioms[i], working);
      if s.Err? {
        return s;
      }
      working := s.value;
      i := i + 1;
    }
    return Ok(working);
  }

  // ---------------------------------------------------------------------
  // Properties of the chain
  // ---------------------------------------------------------------------

  /** Running a concatenation runs the first part, then the second part on its result. */
  lemma {:induction false} RunConcat(n1: seq<string>, a1: seq<Axiom>, n2: seq<string>, a2: seq<Axiom>, p: Payload)
    requires |n1| == |a1| && |n2| == |a2|
    ensures Run(n1 + n2, a1 + a2, p)
         == match Run(n1, a1, p)
            case Ok(q) => Run(n2, a2, q)
            case Err(e) => Err(e)
  {
    if |a1| > 0 {
      assert (n1 + n2)[1..] == n1[1..] + n2;
      assert (a1 + a2)[1..] == a1[1..] + a2;
      match a1[0].handler(p)
      case Pass => RunConcat(n1[1..], a1[1..], n2, a2, p);
      case Override(q) => RunConcat(n1[1..], a1[1..], n2, a2, q);
      case Block =>
      case Other => RunConcat(n1[1..], a1[1..], n2, a2, p);
      case Raised(_) =>
    } else {
      assert n1 + n2 == n2 && a1 + a2 == a2;
    }
  }

  /** When every axiom passes (or returns a non-dict, non-boolean), the result is the input. */
  lemma {:induction false} AllPassKeepsPayload(names: seq<string>, axioms: seq<Axiom>, p: Payload)
    requires |names| == |axioms|
    requires forall i :: 0 <= i < |axioms| ==> axioms[i].handler(p).Pass? || axioms[i].handler(p).Other?
    ensures Run(names, axioms, p) == Ok(p)
  {
    if |axioms| > 0 {
      AllPassKeepsPayload(names[1..], axioms[1..], p);
    }
  }

  /** A successful result is either the input itself or a payload some axiom returned. */
  lemma {:induction false} ResultIsInputOrOverride(names: seq<string>, axioms: seq<Axiom>, p: Payload)
    requires |names| == |axioms|
    ensures Run(names, axioms, p).Ok? ==>
              Run(names, axioms, p).value == p
              || exists i, q :: 0 <= i < |axioms| && axioms[i].handler(q) == Override(Run(names, axioms, p).value)
  {
    if |axioms| > 0 {
      var out := axioms[0].handler(p);
      match out
      case Pass =>
        ResultIsInputOrOverride(names[1..], axioms[1..], p);
        ShiftOverride(axioms, Run(names[1..], axioms[1..], p));
      case Other =>
        ResultIsInputOrOverride(names[1..], axioms[1..], p);
        ShiftOverride(axioms, Run(names[1..], axioms[1..], p));
      case Override(q) =>
        ResultIsInputOrOverride(names[1..], axioms[1..], q);
        ShiftOverride(axioms, Run(names[1..], axioms[1..], q));
        if Run(names, axioms, p).Ok? && Run(names, axioms, p).value == q {
          assert axioms[0].handler(p) == Override(q);
        }
      case Block =>
      case Raised(_) =>
    }
  }

  lemma ShiftOverride(axioms: seq<Axiom>, r: Result<Payload>)
    requires |axioms| > 0
    ensures r.Ok? && (exists i, q :: 0 <= i < |axioms[1..]| && axioms[1..][i].handler(q) == Override(r.value))
        ==> (exists i, q :: 0 <= i < |axioms| && axioms[i].handler(q) == Override(r.value))
  {
    if r.Ok? && exists i, q :: 0 <= i < |axioms[1..]| && axioms[1..][i].handler(q) == Override(r.value) {
      var v := r.value;
      var i, q :| 0 <= i < |axioms[1..]| && axioms[1..][i].handler(q) == Override(v);
      assert axioms[i + 1].handler(q) == Override(v);
    }
  }

  /** The first axiom that blocks stops the chain with its name in the message, and no later axiom runs. */
  lemma {:induction false} FirstBlockStops(names: seq<string>, axioms: seq<Axiom>, p: Payload, k: nat)
    requires |names| == |axioms| && k < |axioms|
    requires forall i :: 0 <= i < k ==> axioms[i].handler(p).Pass? || axioms[i].handler(p).Other?
    requires axioms[k].handler(p).Block?
    ensures Run(names, axioms, p) == Err(Exception(AxiomViolationError, BlockMessage(names[k])))
  {
    if k > 0 {
      FirstBlockStops(names[1..], axioms[1..], p, k - 1);
    }
  }

  /** Re-registering a function name replaces its handler and keeps its place in the run order. */
  lemma ReRegisterKeepsPosition(reg: Registry, name: string, mode: string, funcName: string,
                                h: Payload -> AxiomOutcome, i: nat)
    requires funcName in reg.m && i < |reg.keys| && reg.keys[i] == funcName
    ensures var r := Register(reg, name, mode, funcName, h);
            r.keys[i] == funcName && OrderedMap.Values(r)[i].handler == h
  {
  }

  /** The stored violation mode is never consulted: changing every axiom's mode changes nothing. */
  lemma {:induction false} ModeIrrelevant(names: seq<string>, axioms: seq<Axiom>, modes: seq<string>, p: Payload)
    requires |names| == |axioms| == |modes|
    ensures Run(names, axioms, p)
         == Run(names, seq(|axioms|, i requires 0 <= i < |axioms| => axioms[i].(onViolation := modes[i])), p)
  {
    var changed := seq(|axioms|, i requires 0 <= i < |axioms| => axioms[i].(onViolation := modes[i]));
    if |axioms| > 0 {
      assert changed[1..] == seq(|axioms[1..]|, i requires 0 <= i < |axioms[1..]| => axioms[1..][i].(onViolation := modes[1..][i]));
      assert changed[0].handler == axioms[0].handler;
      match axioms[0].handler(p)
      case Pass => ModeIrrelevant(names[1..], axioms[1..], modes[1..], p);
      case Other => ModeIrrelevant(names[1..], axioms[1..], modes[1..], p);
      case Override(q) => ModeIrrelevant(names[1..], axioms[1..], modes[1..], q);
      case Block =>
      case Raised(_) =>
    }
  }

  // ---------------------------------------------------------------------
  // Order is observable
  // ---------------------------------------------------------------------

  function XIs(x: int): Payload {
    OrderedMap.Put(OrderedMap.Empty(), "x", Int(x))
  }

  /** Sets `x` to 2. */
  function SetXToTwo(p: Payload): AxiomOutcome {
    Override(OrderedMap.Put(p, "x", Int(2)))
  }

  /** Blocks when `x` is an integer above 1. */
  function BlockBigX(p: Payload): AxiomOutcome {
    if "x" in p.m && p.m["x"].Int? && p.m["x"].i > 1 then Block else Pass
  }

  /** With an overriding axiom A and a blocking axiom B, A-then-B blocks while B-then-A passes. */
  lemma OrderIsObservable()
    ensures var a := Axiom("a", SetXToTwo, "OVERRIDE");
            var b := Axiom("b", BlockBigX, "BLOCK");
            Run(["a", "b"], [a, b], XIs(1)) == Err(Exception(AxiomViolationError, BlockMessage("b")))
            && Run(["b", "a"], [b, a], XIs(1)) == Ok(XIs(2))
  {
    var a := Axiom("a", SetXToTwo, "OVERRIDE");
    var b := Axiom("b", BlockBigX, "BLOCK");
    assert OrderedMap.Put(XIs(1), "x", Int(2)) == XIs(2);
    assert Run(["a", "b"], [a, b], XIs(1)) == Run(["b"], [b], XIs(2));
    assert Run(["b", "a"], [b, a], XIs(1)) == Run(["a"], [a], XIs(1));
    assert a.handler(XIs(1)) == Override(XIs(2));
    assert Run(["a"], [a], XIs(1)) == Run([], [], XIs(2));
  }
}

=== FILE: scheduler.dfy ===
/** Temporal patterns, scheduled tasks and the task scheduler. A handler is an
    oracle of the clock telling whether calling it returns normally; the
    clock is the `now` parameter. */
module Scheduler {
  import opened Common
  import opened Text
  import OrderedMap

  // ---------------------------------------------------------------------
  // Temporal patterns
  // ---------------------------------------------------------------------

  /** A cron-like pattern; every field is free text, "*" by default. */
  datatype Pattern = Pattern(minute: string, hour: string, dayOfMonth: string, month: string,
                             dayOfWeek: string)

  function DefaultPattern(): (p: Pattern)
    ensures p.minute == p.hour == p.dayOfMonth == p.month == p.dayOfWeek == "*"
  {
    Pattern("*", "*", "*", "*", "*")
  }

  function Fields(p: Pattern): (r: seq<string>)
    ensures |r| == 5
  {
    [p.minute, p.hour, p.dayOfMonth, p.month, p.dayOfWeek]
  }

  /** `str(pattern)`: the five fields separated by single spaces. */
  function PatternString(p: Pattern): string {
    Join(" ", Fields(p))
  }

  /** Splitting on every space, as `s.split(" ")` does. */
  function SplitSpaces(s: string): (r: seq<string>)
    ensures |r| >= 1
  {
    if |s| == 0 then [""]
    else if s[0] == ' ' then [""] + SplitSpaces(s[1..])
    else
      var rest := SplitSpaces(s[1..]);
      [[s[0]] + rest[0]] + rest[1..]
  }

  lemma {:induction false} SplitWord(a: string, tail: string)
    requires ' ' !in a
    ensures SplitSpaces(a + tail)[0] == a + SplitSpaces(tail)[0]
    ensures SplitSpaces(a + tail)[1..] == SplitSpaces(tail)[1..]
  {
    if |a| > 0 {
      assert (a + tail)[1..] == a[1..] + tail;
      assert ' ' !in a[1..] by {
        forall i | 0 <= i < |a[1..]| ensures a[1..][i] != ' ' {
          assert a[1..][i] == a[i + 1];
        }
      }
      SplitWord(a[1..], tail);
      assert [a[0]] + a[1..] == a;
    } else {
      assert a + tail == tail;
    }
  }

  lemma {:induction false} SplitJoin(parts: seq<string>)
    requires |parts| >= 1
    requires forall i :: 0 <= i < |parts| ==> ' ' !in parts[i]
    ensures SplitSpaces(Join(" ", parts)) == parts
  {
    if |parts| == 1 {
      SplitWord(parts[0], "");
      assert parts[0] + "" == parts[0];
    } else {
      var rest := Join(" ", parts[1..]);
      assert Join(" ", parts) == parts[0] + (" " + rest);
      SplitWord(parts[0], " " + rest);
      assert (" " + rest)[1..] == rest;
      assert SplitSpaces(" " + rest) == [""] + SplitSpaces(rest);
      SplitJoin(parts[1..]);
      assert parts[0] + "" == parts[0];
      assert parts == [parts[0]] + parts[1..];
    }
  }

  /** The string form loses nothing: splitting it on spaces gives back the five fields, when
      no field holds a space. */
  lemma PatternStringRoundTrip(p: Pattern)
    requires forall i :: 0 <= i < 5 ==> ' ' !in Fields(p)[i]
    ensures SplitSpaces(PatternString(p)) == Fields(p)
  {
    SplitJoin(Fields(p));
  }

  // The default pattern prints as five stars, and one that only sets the hour to every sixth
  // hour prints that field second.
  lemma PatternStringExamples()
    ensures PatternString(DefaultPattern()) == "* * * * *"
    ensures PatternString(DefaultPattern().(hour := "*/6")) == "* */6 * * *"
  {
  }

  // ---------------------------------------------------------------------
  // Tasks and the scheduler
  // ---------------------------------------------------------------------

  /** A scheduled task; times are whole seconds. */
  datatype Task = Task(taskId: string, taskLabel: string, pattern: Pattern, handlerId: string,
                       enabled: bool, lastExecution: Option<int>, executionCount: int)

  /** `ScheduledTask(task_id=…, label=…, temporal_pattern=…, handler_id=…)` with the defaults. */
  function NewTask(id: string, taskLabel: string, pattern: Pattern, handlerId: string): (t: Task)
    ensures t.taskId == id && t.handlerId == handlerId && t.pattern == pattern
    ensures t.enabled && t.lastExecution.None? && t.executionCount == 0
  {
    Task(id, taskLabel, pattern, handlerId, true, None, 0)
  }

  /** A handler: whether a call at time `now` returns normally rather than raising. */
  datatype Handler = Handler(completes: int -> bool)

  datatype TaskScheduler = TaskScheduler(tasks: OrderedMap.Dict<string, Task>,
                                         handlers: map<string, Handler>, running: bool)

  function NewScheduler(): (s: TaskScheduler)
    ensures |s.tasks.keys| == 0 && s.handlers == map[] && !s.running
  {
    TaskScheduler(OrderedMap.Empty(), map[], false)
  }

  /** `define_handler(handler_id, handler)`: replaces any handler of that id. */
  function DefineHandler(s: TaskScheduler, id: string, h: Handler): (r: TaskScheduler)
    ensures r.handlers == s.handlers[id := h] && r.tasks == s.tasks && r.running == s.running
  {
    s.(handlers := s.handlers[id := h])
  }

  function AlreadyScheduled(id: string): Exception {
    Exception(ValueError, "Task '" + id + "' already scheduled")
  }

  function HandlerNotFound(id: string): Exception {
    Exception(ValueError, "Handler '" + id + "' not found")
  }

  /** `schedule(task)` */
  function Schedule(s: TaskScheduler, t: Task): (r: Result<TaskScheduler>)
    ensures r.Err? <==> t.taskId in s.tasks.m
    ensures r.Err? ==> r.error == AlreadyScheduled(t.taskId)
    ensures r.Ok? ==> r.value.tasks.m == s.tasks.m[t.taskId := t]
                      && r.value.tasks.keys == s.tasks.keys + [t.taskId]
                      && r.value.handlers == s.handlers
  {
    if t.taskId in s.tasks.m then Err(AlreadyScheduled(t.taskId))
    else Ok(s.(tasks := OrderedMap.Put(s.tasks, t.taskId, t)))
  }

  /** `unschedule(task_id)`: reports whether the task was there. */
  function Unschedule(s: TaskScheduler, id: string): (r: (TaskScheduler, bool))
    ensures r.1 <==> id in s.tasks.m
    ensures r.0.tasks.m == s.tasks.m - {id} && r.0.handlers == s.handlers
    ensures !r.1 ==> r.0 == s
  {
    if id in s.tasks.m then (s.(tasks := OrderedMap.Remove(s.tasks, id)), true) else (s, false)
  }

  /** `get_task(task_id)` */
  function GetTask(s: TaskScheduler, id: string): (r: Option<Task>)
    ensures r.Some? <==> id in s.tasks.m
    ensures r.Some? ==> r.value == s.tasks.m[id]
  {
    if id in s.tasks.m then Some(s.tasks.m[id]) else None
  }

  /** `list_tasks()`, in scheduling order. */
  function ListTasks(s: TaskScheduler): (r: seq<Task>)
    ensures |r| == |s.tasks.keys|
    ensures forall i :: 0 <= i < |r| ==> r[i] == s.tasks.m[s.tasks.keys[i]]
  {
    OrderedMap.Values(s.tasks)
  }

  /** Sets a task's `enabled` flag in place; unknown ids are ignored. */
  function SetEnabled(s: TaskScheduler, id: string, on: bool): (r: TaskScheduler)
    ensures r.handlers == s.handlers && r.running == s.running && r.tasks.keys == s.tasks.keys
    ensures r.tasks.m.Keys == s.tasks.m.Keys
    ensures forall k :: k in r.tasks.m ==>
              r.tasks.m[k] == if k == id then s.tasks.m[k].(enabled := on) else s.tasks.m[k]
  {
    match GetTask(s, id)
    case None => s
    case Some(t) => s.(tasks := OrderedMap.Put(s.tasks, id, t.(enabled := on)))
  }

  /** `enable_task(task_id)` */
  function EnableTask(s: TaskScheduler, id: string): (r: TaskScheduler)
    ensures id !in s.tasks.m ==> r == s
    ensures id in s.tasks.m ==> id in r.tasks.m && r.tasks.m[id] == s.tasks.m[id].(enabled := true)
    ensures r.tasks.keys == s.tasks.keys && r.handlers == s.handlers && r.running == s.running
    ensures forall k :: k in s.tasks.m && k != id ==> k in r.tasks.m && r.tasks.m[k] == s.tasks.m[k]
  {
    SetEnabled(s, id, true)
  }

  /** `disable_task(task_id)` */
  function DisableTask(s: TaskScheduler, id: string): (r: TaskScheduler)
    ensures id !in s.tasks.m ==> r == s
    ensures id in s.tasks.m ==> id in r.tasks.m && r.tasks.m[id] == s.tasks.m[id].(enabled := false)
    ensures r.tasks.keys == s.tasks.keys && r.handlers == s.handlers && r.running == s.running
    ensures forall k :: k in s.tasks.m && k != id ==> k in r.tasks.m && r.tasks.m[k] == s.tasks.m[k]
  {
    SetEnabled(s, id, false)
  }

  /** Enabling after disabling gives back a task that was enabled, and both are idempotent. */
  lemma EnableDisableInverse(s: TaskScheduler, id: string)
    requires id in s.tasks.m && s.tasks.m[id].enabled
    ensures EnableTask(DisableTask(s, id), id) == s
    ensures DisableTask(DisableTask(s, id), id) == DisableTask(s, id)
    ensures EnableTask(s, id) == s
  {
    assert s.tasks.m[id := s.tasks.m[id]] == s.tasks.m;
  }

  /** `await execute_task(task_id)` at time `now`. A missing or disabled task is left alone;
      a missing handler raises; a handler that raises is reported and leaves the task as it
      was; one that returns records the time and counts the run. */
  function ExecuteTask(s: TaskScheduler, id: string, now: int): (r: Result<TaskScheduler>)
    ensures (id !in s.tasks.m || !s.tasks.m[id].enabled) ==> r == Ok(s)
    ensures id in s.tasks.m && s.tasks.m[id].enabled ==>
              (r.Err? <==> s.tasks.m[id].handlerId !in s.handlers)
    ensures r.Err? ==> r.error == HandlerNotFound(s.tasks.m[id].handlerId)
    ensures r.Ok? ==> r.value.handlers == s.handlers && r.value.tasks.keys == s.tasks.keys
                      && r.value.running == s.running
                      && forall k :: k in s.tasks.m && k != id ==> k in r.value.tasks.m
                                                                     && r.value.tasks.m[k] == s.tasks.m[k]
  {
    match GetTask(s, id)
    case None => Ok(s)
    case Some(t) =>
      if !t.enabled then Ok(s)
      else if t.handlerId !in s.handlers then Err(HandlerNotFound(t.handlerId))
      else if !s.handlers[t.handlerId].completes(now) then Ok(s)
      else
        var t' := t.(lastExecution := Some(now), executionCount := t.executionCount + 1);
        Ok(s.(tasks := OrderedMap.Put(s.tasks, id, t')))
  }

  /** Executing a runnable task changes only its last-execution time and its count, and only
      when the handler returns. */
  lemma ExecuteCountsSuccess(s: TaskScheduler, id: string, now: int)
    requires id in s.tasks.m && s.tasks.m[id].enabled && s.tasks.m[id].handlerId in s.handlers
    ensures ExecuteTask(s, id, now).Ok?
    ensures var t := s.tasks.m[id];
            var t' := ExecuteTask(s, id, now).value.tasks.m[id];
            if s.handlers[t.handlerId].completes(now)
            then t' == t.(lastExecution := Some(now), executionCount := t.executionCount + 1)
            else t' == t
  {
  }

  /** The runs at the given times, stopping at the first error. */
  function ExecuteAt(s: TaskScheduler, id: string, times: seq<int>): Result<TaskScheduler>
    decreases |times|
  {
    if |times| == 0 then Ok(s)
    else
      var s1 :- ExecuteTask(s, id, times[0]);
      ExecuteAt(s1, id, times[1..])
  }

  /** How many of the times the handler returns normally at. */
  function Successes(h: Handler, times: seq<int>): (n: nat)
    ensures n <= |times|
  {
    if |times| == 0 then 0 else (if h.completes(times[0]) then 1 else 0) + Successes(h, times[1..])
  }

  /** Over repeated runs of a runnable task, the execution count grows by the number of runs
      whose handler returned, and nothing else in the task changes but the last-execution
      time. */
  lemma {:induction false} ExecutionCountIsSuccesses(s: TaskScheduler, id: string, times: seq<int>)
    requires id in s.tasks.m && s.tasks.m[id].enabled && s.tasks.m[id].handlerId in s.handlers
    ensures ExecuteAt(s, id, times).Ok?
    ensures var r := ExecuteAt(s, id, times).value;
            var t := s.tasks.m[id];
            r.handlers == s.handlers && id in r.tasks.m
            && r.tasks.m[id].executionCount == t.executionCount + Successes(s.handlers[t.handlerId], times)
            && r.tasks.m[id] == t.(lastExecution := r.tasks.m[id].lastExecution,
                                   executionCount := r.tasks.m[id].executionCount)
    decreases |times|
  {
    if |times| > 0 {
      ExecuteCountsSuccess(s, id, times[0]);
      var s1 := ExecuteTask(s, id, times[0]).value;
      ExecutionCountIsSuccesses(s1, id, times[1..]);
    }
  }

  /** Scheduling a new task and unscheduling it restores the task table. */
  lemma ScheduleUnscheduleInverse(s: TaskScheduler, t: Task)
    requires t.taskId !in s.tasks.m
    ensures var s1 := Schedule(s, t).value;
            GetTask(s1, t.taskId) == Some(t)
            && Unschedule(s1, t.taskId).1
            && Unschedule(s1, t.taskId).0.tasks.m == s.tasks.m
            && GetTask(Unschedule(s1, t.taskId).0, t.taskId).None?
  {
    assert s.tasks.m[t.taskId := t] - {t.taskId} == s.tasks.m;
  }

  /** `await start()` and `stop()` */
  function Start(s: TaskScheduler): (r: TaskScheduler)
    ensures r.running && r.tasks == s.tasks && r.handlers == s.handlers
  {
    s.(running := true)
  }

  function Stop(s: TaskScheduler): (r: TaskScheduler)
    ensures !r.running && r.tasks == s.tasks && r.handlers == s.handlers
  {
    s.(running := false)
  }
}

=== FILE: session.dfy ===
/** Gateway sessions: the session manager and the session store.

    Times are whole seconds; the clock reading `now` and the new session's id are
    passed in. Session metadata and data are maps from names to values. */
module Session {
  import opened Common
  import opened OrderedMap
  import Values

  datatype SessionState = Active | Idle | Suspended | Closed

  function StateValue(s: SessionState): string {
    match s
    case Active => "active"
    case Idle => "idle"
    case Suspended => "suspended"
    case Closed => "closed"
  }

  datatype Session = Session(
    sessionId: string, connectionId: string, state: SessionState,
    createdAt: int, lastActivity: int,
    metadata: map<string, Values.Value>, data: map<string, Values.Value>,
    messageCount: int)

  /** `session.is_expired(ttl)`: strictly more than `ttl` seconds since the last activity. */
  predicate IsExpired(s: Session, ttl: int, now: int) {
    now - s.lastActivity > ttl
  }

  type Sessions = Dict<string, Session>

  datatype Stats = Stats(totalCreated: int, totalClosed: int, currentActive: int)

  datatype Manager = Manager(sessions: Sessions, ttl: int, stats: Stats)

  /** `SessionManager(ttl_seconds)` */
  function NewManager(ttl: int): (m: Manager)
    ensures |m.sessions.keys| == 0 && m.ttl == ttl && m.stats == Stats(0, 0, 0)
  {
    Manager(Empty(), ttl, Stats(0, 0, 0))
  }

  // ---------------------------------------------------------------------
  // Counting sessions by state
  // ---------------------------------------------------------------------

  /** The number of stored sessions in state `st`. */
  function CountState(d: Sessions, st: SessionState): nat {
    |IdsIn(d.m, st)|
  }

  /** The sessions among `keys` in state `st`, in order (a list comprehension over the values). */
  function Filtered(d: Sessions, keys: seq<string>, st: SessionState): (r: seq<Session>)
    requires forall k :: k in keys ==> k in d.m
    ensures |r| <= |keys|
    ensures forall s :: s in r ==> s.state == st
    ensures forall i :: 0 <= i < |keys| && d.m[keys[i]].state == st ==> d.m[keys[i]] in r
  {
    if |keys| == 0 then []
    else
      var front := Filtered(d, keys[..|keys| - 1], st);
      var last := d.m[keys[|keys| - 1]];
      assert forall i :: 0 <= i < |keys| - 1 ==> keys[i] == keys[..|keys| - 1][i];
      front + (if last.state == st then [last] else [])
  }

  /** The ids among `keys` of sessions in state `st`. */
  function Matching(d: Sessions, keys: seq<string>, st: SessionState): set<string>
    requires forall k :: k in keys ==> k in d.m
  {
    set k | k in keys && d.m[k].state == st
  }

  lemma MatchingSnoc(d: Sessions, keys: seq<string>, st: SessionState)
    requires forall k :: k in keys ==> k in d.m
    requires |keys| > 0
    ensures var x := keys[|keys| - 1];
            Matching(d, keys, st) == Matching(d, keys[..|keys| - 1], st) + (if d.m[x].state == st then {x} else {})
  {
    assert forall k :: k in keys <==> k in keys[..|keys| - 1] || k == keys[|keys| - 1];
  }

  /** Adding an element that is not there adds one to the size. */
  lemma CardAddFresh(a: set<string>, x: string, add: bool)
    requires x !in a
    ensures |a + (if add then {x} else {})| == |a| + (if add then 1 else 0)
  {
  }

  /** The length of the filtered list is the count of sessions in that state. */
  lemma {:induction false} FilteredCount(d: Sessions, keys: seq<string>, st: SessionState)
    requires forall k :: k in keys ==> k in d.m
    requires Distinct(keys)
    ensures |Filtered(d, keys, st)| == |Matching(d, keys, st)|
  {
    if |keys| > 0 {
      var front := keys[..|keys| - 1];
      var x := keys[|keys| - 1];
      assert Distinct(front);
      assert x !in front;
      FilteredCount(d, front, st);
      MatchingSnoc(d, keys, st);
      CardAddFresh(Matching(d, front, st), x, d.m[x].state == st);
    }
  }

  lemma AllKeysFilteredCount(d: Sessions, st: SessionState)
    ensures |Filtered(d, d.keys, st)| == CountState(d, st)
  {
    FilteredCount(d, d.keys, st);
    assert Matching(d, d.keys, st) == IdsIn(d.m, st);
  }

  /** The ids of a map's sessions in state `st`. */
  function IdsIn(m: map<string, Session>, st: SessionState): set<string> {
    set k | k in m.Keys && m[k].state == st
  }

  lemma IdsAfterUpdate(m: map<string, Session>, id: string, s: Session, st: SessionState)
    ensures IdsIn(m[id := s], st) == (IdsIn(m, st) - {id}) + (if s.state == st then {id} else {})
  {
  }

  /** Replacing an element's membership changes the size by at most one each way. */
  lemma CardReplace(a: set<string>, id: string, add: bool)
    ensures |(a - {id}) + (if add then {id} else {})| == |a| - (if id in a then 1 else 0) + (if add then 1 else 0)
  {
    var rest := a - {id};
    if id in a {
      assert a == rest + {id};
    } else {
      assert rest == a;
    }
  }

  /** Replacing one session changes the count of a state only by that session's own change. */
  lemma CountAfterReplace(d: Sessions, id: string, s: Session, st: SessionState)
    requires id in d.m
    ensures CountState(Put(d, id, s), st)
            == CountState(d, st) - (if d.m[id].state == st then 1 else 0) + (if s.state == st then 1 else 0)
  {
    IdsAfterUpdate(d.m, id, s, st);
    assert id in IdsIn(d.m, st) <==> d.m[id].state == st;
    CardReplace(IdsIn(d.m, st), id, s.state == st);
  }

  /** Adding a session under a new id. */
  lemma CountAfterAdd(d: Sessions, id: string, s: Session, st: SessionState)
    ensures id !in d.m ==> CountState(Put(d, id, s), st) == CountState(d, st) + (if s.state == st then 1 else 0)
  {
    if id !in d.m {
      IdsAfterUpdate(d.m, id, s, st);
      assert IdsIn(d.m, st) - {id} == IdsIn(d.m, st);
      assert CountState(Put(d, id, s), st) == |IdsIn(d.m[id := s], st)|;
    }
  }

  function ActiveCount(m: Manager): nat {
    CountState(m.sessions, Active)
  }

  // ---------------------------------------------------------------------
  // The manager
  // ---------------------------------------------------------------------

  /** `create_session(connection_id, metadata)`: an ACTIVE session stored under `newId`; the
      active figure is recounted. */
  function CreateSession(m: Manager, connectionId: string, metadata: Option<map<string, Values.Value>>,
                         newId: string, now: int): (r: (Manager, Session))
    ensures r.1 == Session(newId, connectionId, Active, now, now,
                           if metadata.Some? then metadata.value else map[], map[], 0)
    ensures r.0.sessions == Put(m.sessions, newId, r.1) && r.0.ttl == m.ttl
    ensures r.0.stats.totalCreated == m.stats.totalCreated + 1 && r.0.stats.totalClosed == m.stats.totalClosed
    ensures r.0.stats.currentActive == ActiveCount(r.0)
    ensures newId !in m.sessions.m ==> ActiveCount(r.0) == ActiveCount(m) + 1
  {
    var s := Session(newId, connectionId, Active, now, now,
                     if metadata.Some? then metadata.value else map[], map[], 0);
    var sessions := Put(m.sessions, newId, s);
    CountAfterAdd(m.sessions, newId, s, Active);
    (Manager(sessions, m.ttl, m.stats.(totalCreated := m.stats.totalCreated + 1,
                                        currentActive := CountState(sessions, Active))), s)
  }

  /** `get_session(id)` */
  function GetSession(m: Manager, id: string): (r: Option<Session>)
    ensures r.Some? <==> id in m.sessions.m
    ensures r.Some? ==> r.value == m.sessions.m[id]
  {
    if id in m.sessions.m then Some(m.sessions.m[id]) else None
  }

  /** `update_session(id, data)`: any stored session, closed or not, takes the data, is touched
      and counts one more message. */
  function UpdateSession(m: Manager, id: string, data: map<string, Values.Value>, now: int)
    : (r: (Manager, Option<Session>))
    ensures id !in m.sessions.m ==> r == (m, None)
    ensures id in m.sessions.m ==>
              var s := m.sessions.m[id];
              r.1 == Some(s.(data := s.data + data, lastActivity := now, messageCount := s.messageCount + 1))
              && r.0 == m.(sessions := Put(m.sessions, id, r.1.value))
    ensures id in m.sessions.m ==> r.1.value.state == m.sessions.m[id].state && ActiveCount(r.0) == ActiveCount(m)
  {
    if id !in m.sessions.m then (m, None)
    else
      var s := m.sessions.m[id];
      var s' := s.(data := s.data + data, lastActivity := now, messageCount := s.messageCount + 1);
      CountAfterReplace(m.sessions, id, s', Active);
      (m.(sessions := Put(m.sessions, id, s')), Some(s'))
  }

  /** `close_session(id)`: closing counts even when the session was already closed. */
  function CloseSession(m: Manager, id: string): (r: (Manager, bool))
    ensures r.1 <==> id in m.sessions.m
    ensures !r.1 ==> r.0 == m
    ensures r.1 ==>
              r.0.sessions == Put(m.sessions, id, m.sessions.m[id].(state := Closed))
              && r.0.stats.totalClosed == m.stats.totalClosed + 1
              && r.0.stats.totalCreated == m.stats.totalCreated
              && r.0.stats.currentActive == ActiveCount(r.0)
              && ActiveCount(r.0) == ActiveCount(m) - (if m.sessions.m[id].state == Active then 1 else 0)
    ensures r.0.ttl == m.ttl && r.0.sessions.keys == m.sessions.keys
  {
    if id !in m.sessions.m then (m, false)
    else
      var sessions := Put(m.sessions, id, m.sessions.m[id].(state := Closed));
      CountAfterReplace(m.sessions, id, m.sessions.m[id].(state := Closed), Active);
      (Manager(sessions, m.ttl, m.stats.(totalClosed := m.stats.totalClosed + 1,
                                          currentActive := CountState(sessions, Active))), true)
  }

  /** `suspend_session(id)`: the stored active figure is not recounted. */
  function SuspendSession(m: Manager, id: string): (r: (Manager, bool))
    ensures r.1 <==> id in m.sessions.m
    ensures !r.1 ==> r.0 == m
    ensures r.1 ==> r.0 == m.(sessions := Put(m.sessions, id, m.sessions.m[id].(state := Suspended)))
  {
    if id !in m.sessions.m then (m, false)
    else (m.(sessions := Put(m.sessions, id, m.sessions.m[id].(state := Suspended))), true)
  }

  /** The ids among `keys` whose sessions have expired, in order. */
  function ExpiredAmong(d: Sessions, keys: seq<string>, ttl: int, now: int): (r: seq<string>)
    requires forall k :: k in keys ==> k in d.m
    ensures forall k :: k in r <==> k in keys && IsExpired(d.m[k], ttl, now)
  {
    if |keys| == 0 then []
    else (if IsExpired(d.m[keys[0]], ttl, now) then [keys[0]] else []) + ExpiredAmong(d, keys[1..], ttl, now)
  }

  /** The loop of `cleanup_expired` over the snapshot `keys`. */
  function CleanupOver(m: Manager, keys: seq<string>, now: int): (r: (Manager, seq<string>))
    requires forall k :: k in keys ==> k in m.sessions.m
    ensures r.1 == ExpiredAmong(m.sessions, keys, m.ttl, now)
    ensures r.0.sessions.keys == m.sessions.keys && r.0.sessions.m.Keys == m.sessions.m.Keys
    ensures r.0.ttl == m.ttl && r.0.stats.totalCreated == m.stats.totalCreated
    ensures r.0.stats.totalClosed == m.stats.totalClosed + |r.1|
    ensures forall k :: k in m.sessions.m ==>
              r.0.sessions.m[k] == (if k in r.1 then m.sessions.m[k].(state := Closed) else m.sessions.m[k])
    ensures |r.1| > 0 ==> r.0.stats.currentActive == ActiveCount(r.0)
    ensures |r.1| == 0 ==> r.0 == m
    decreases |keys|
  {
    if |keys| == 0 then (m, [])
    else
      var k := keys[0];
      if IsExpired(m.sessions.m[k], m.ttl, now) then
        var m1 := CloseSession(m, k).0;
        var rest := CleanupOver(m1, keys[1..], now);
        assert ExpiredAmong(m1.sessions, keys[1..], m.ttl, now) == ExpiredAmong(m.sessions, keys[1..], m.ttl, now)
        by { ExpiredUnchangedByClosing(m.sessions, k, keys[1..], m.ttl, now); }
        (rest.0, [k] + rest.1)
      else
        CleanupOver(m, keys[1..], now)
  }

  /** Closing a session does not touch its last activity, so it cannot change which ids have expired. */
  lemma {:induction false} ExpiredUnchangedByClosing(d: Sessions, id: string, keys: seq<string>, ttl: int, now: int)
    requires id in d.m
    requires forall k :: k in keys ==> k in d.m
    ensures ExpiredAmong(Put(d, id, d.m[id].(state := Closed)), keys, ttl, now) == ExpiredAmong(d, keys, ttl, now)
  {
    if |keys| > 0 {
      ExpiredUnchangedByClosing(d, id, keys[1..], ttl, now);
    }
  }

  /** `cleanup_expired()`: expired sessions are closed but stay stored. */
  function CleanupExpired(m: Manager, now: int): (r: (Manager, seq<string>))
    ensures forall k :: k in r.1 <==> k in m.sessions.m && IsExpired(m.sessions.m[k], m.ttl, now)
    ensures r.0.sessions.keys == m.sessions.keys && r.0.sessions.m.Keys == m.sessions.m.Keys
    ensures r.0.stats.totalClosed == m.stats.totalClosed + |r.1|
    ensures forall k :: k in m.sessions.m ==>
              r.0.sessions.m[k] == (if k in r.1 then m.sessions.m[k].(state := Closed) else m.sessions.m[k])
    ensures |r.1| > 0 ==> r.0.stats.currentActive == ActiveCount(r.0)
    ensures |r.1| == 0 ==> r.0 == m
  {
    CleanupOver(m, m.sessions.keys, now)
  }

  /** The condition of `get_sessions_by_connection`. */
  function OnConnection(connectionId: string): Session -> bool {
    (s: Session) => s.connectionId == connectionId
  }

  /** The condition of `get_all_active` (and of the counts by state). */
  function InState(st: SessionState): Session -> bool {
    (s: Session) => s.state == st
  }

  /** `get_sessions_by_connection(connection_id)`: the sessions of the connection, each once, in
      storage order. */
  function SessionsByConnection(m: Manager, connectionId: string): (r: seq<Session>)
    ensures forall s :: s in r ==> s.connectionId == connectionId && s in m.sessions.m.Values
    ensures forall k :: k in m.sessions.m && m.sessions.m[k].connectionId == connectionId ==> m.sessions.m[k] in r
    ensures var ids := KeysWhere(m.sessions, m.sessions.keys, OnConnection(connectionId));
            |r| == |ids| && forall i :: 0 <= i < |r| ==> r[i] == m.sessions.m[ids[i]]
  {
    var ids := KeysWhere(m.sessions, m.sessions.keys, OnConnection(connectionId));
    var r := ValuesAt(m.sessions, ids);
    assert forall k :: k in ids ==> r[IndexOf(ids, k)] == m.sessions.m[k];
    r
  }

  /** `get_all_active()`: the active sessions, each once, in storage order. */
  function AllActive(m: Manager): (r: seq<Session>)
    ensures |r| == ActiveCount(m)
    ensures forall s :: s in r ==> s.state == Active
    ensures forall k :: k in m.sessions.m && m.sessions.m[k].state == Active ==> m.sessions.m[k] in r
    ensures var ids := KeysWhere(m.sessions, m.sessions.keys, InState(Active));
            |r| == |ids| && forall i :: 0 <= i < |r| ==> r[i] == m.sessions.m[ids[i]]
  {
    AllKeysFilteredCount(m.sessions, Active);
    FilteredIsComprehension(m.sessions, m.sessions.keys, Active);
    KeysWhereThenLookUp(m.sessions, m.sessions.keys, InState(Active));
    Filtered(m.sessions, m.sessions.keys, Active)
  }

  /** The sessions among `keys` in a state are the comprehension over their values. */
  lemma {:induction false} FilteredIsComprehension(d: Sessions, keys: seq<string>, st: SessionState)
    requires forall k :: k in keys ==> k in d.m
    ensures Filtered(d, keys, st) == FilterSeq(ValuesAt(d, keys), InState(st))
  {
    if |keys| > 0 {
      var front := keys[..|keys| - 1];
      var last := d.m[keys[|keys| - 1]];
      FilteredIsComprehension(d, front, st);
      assert ValuesAt(d, keys) == ValuesAt(d, front) + [last];
      FilterSeqAppend(ValuesAt(d, front), [last], InState(st));
      assert [last][1..] == [];
      assert FilterSeq([last], InState(st)) == (if last.state == st then [last] else []);
      assert Filtered(d, keys, st) == Filtered(d, front, st) + (if last.state == st then [last] else []);
    }
  }

  /** Both queries are `[s for s in self.sessions.values() if ...]`. */
  lemma QueriesAreComprehensions(m: Manager, connectionId: string)
    ensures SessionsByConnection(m, connectionId) == FilterSeq(OrderedMap.Values(m.sessions), OnConnection(connectionId))
    ensures AllActive(m) == FilterSeq(OrderedMap.Values(m.sessions), InState(Active))
  {
    AllValuesAt(m.sessions);
    KeysWhereThenLookUp(m.sessions, m.sessions.keys, OnConnection(connectionId));
    KeysWhereThenLookUp(m.sessions, m.sessions.keys, InState(Active));
    FilteredIsComprehension(m.sessions, m.sessions.keys, Active);
  }

  datatype Report = Report(stats: Stats, totalSessions: nat, activeSessions: nat, suspendedSessions: nat)

  /** `get_stats()`: the stored figures next to counts taken from the table. */
  function GetStats(m: Manager): (r: Report)
    ensures r.stats == m.stats && r.totalSessions == |m.sessions.m|
    ensures r.activeSessions == ActiveCount(m) && r.suspendedSessions == CountState(m.sessions, Suspended)
  {
    SizeIsKeyCount(m.sessions);
    AllKeysFilteredCount(m.sessions, Suspended);
    Report(m.stats, |m.sessions.keys|, |AllActive(m)|, |Filtered(m.sessions, m.sessions.keys, Suspended)|)
  }

  // ---------------------------------------------------------------------
  // Properties of the manager
  // ---------------------------------------------------------------------

  /** The stored active figure agrees with the table. */
  predicate Consistent(m: Manager) {
    m.stats.currentActive == ActiveCount(m)
  }

  /** Creating, updating, closing and cleaning up keep the active figure accurate. */
  lemma RecountingOperationsKeepConsistent(m: Manager, id: string, connectionId: string,
                                           metadata: Option<map<string, Values.Value>>,
                                           data: map<string, Values.Value>, now: int)
    requires Consistent(m)
    ensures Consistent(CreateSession(m, connectionId, metadata, id, now).0)
    ensures Consistent(UpdateSession(m, id, data, now).0)
    ensures Consistent(CloseSession(m, id).0)
    ensures Consistent(CleanupExpired(m, now).0)
  {
  }

  /** Suspending an active session leaves the stored active figure one too high. */
  lemma SuspendLeavesStaleActiveCount(m: Manager, id: string)
    requires Consistent(m) && id in m.sessions.m && m.sessions.m[id].state == Active
    ensures SuspendSession(m, id).0.stats.currentActive == ActiveCount(SuspendSession(m, id).0) + 1
  {
    CountAfterReplace(m.sessions, id, m.sessions.m[id].(state := Suspended), Active);
  }

  /** Expired sessions stay expired after cleanup, so a second cleanup at the same time reports
      them again and counts them as closed a second time. */
  lemma CleanupRepeats(m: Manager, now: int)
    ensures var first := CleanupExpired(m, now);
            var second := CleanupExpired(first.0, now);
            (forall k :: k in second.1 <==> k in first.1)
            && second.0.stats.totalClosed == m.stats.totalClosed + |first.1| + |second.1|
  {
    var first := CleanupExpired(m, now);
    forall k | k in m.sessions.m
      ensures first.0.sessions.m[k].lastActivity == m.sessions.m[k].lastActivity
    {
    }
  }

  /** A session created at `now` is not expired at `now` under a non-negative ttl; the id is the
      one handed in. */
  lemma CreatedIsLive(m: Manager, connectionId: string, newId: string, now: int)
    requires m.ttl >= 0
    ensures var (m', s) := CreateSession(m, connectionId, None, newId, now);
            s.sessionId == newId && GetSession(m', newId) == Some(s) && !IsExpired(s, m.ttl, now)
            && newId !in CleanupExpired(m', now).1
  {
  }

  // ---------------------------------------------------------------------
  // The store
  // ---------------------------------------------------------------------

  /** `session.to_dict()`; timestamps stay whole seconds instead of ISO strings. */
  datatype Stored = Stored(
    sessionId: string, connectionId: string, state: string, createdAt: int, lastActivity: int,
    metadata: map<string, Values.Value>, messageCount: int)

  function ToStored(s: Session): (r: Stored)
    ensures r.sessionId == s.sessionId && r.lastActivity == s.lastActivity && r.state == StateValue(s.state)
    ensures r.messageCount == s.messageCount && r.metadata == s.metadata
    ensures r.connectionId == s.connectionId && r.createdAt == s.createdAt
  {
    Stored(s.sessionId, s.connectionId, StateValue(s.state), s.createdAt, s.lastActivity, s.metadata, s.messageCount)
  }

  type Store = Dict<string, Stored>

  /** `await store.save(session)` */
  function Save(st: Store, s: Session): (r: Store)
    ensures r.m == st.m[s.sessionId := ToStored(s)]
  {
    Put(st, s.sessionId, ToStored(s))
  }

  /** `await store.load(id)` */
  function Load(st: Store, id: string): (r: Option<Stored>)
    ensures r.Some? <==> id in st.m
    ensures r.Some? ==> r.value == st.m[id]
  {
    if id in st.m then Some(st.m[id]) else None
  }

  /** `await store.delete(id)` */
  function Delete(st: Store, id: string): (r: Store)
    ensures r.m == st.m - {id}
    ensures id !in st.m ==> r == st
  {
    Remove(st, id)
  }

  /** The store's expiry test: last activity strictly before `now - ttl`. */
  predicate StoredExpired(e: Stored, ttl: int, now: int) {
    e.lastActivity < now - ttl
  }

  /** The loop of `clear_expired` over the snapshot `keys`. */
  function ClearOver(st: Store, keys: seq<string>, ttl: int, now: int): (r: (Store, nat))
    requires forall k :: k in keys ==> k in st.m
    requires Distinct(keys)
    ensures forall k :: k in r.0.m <==> k in st.m && (k in keys ==> !StoredExpired(st.m[k], ttl, now))
    ensures forall k :: k in r.0.m ==> r.0.m[k] == st.m[k]
    ensures |st.m| == |r.0.m| + r.1
    decreases |keys|
  {
    if |keys| == 0 then (st, 0)
    else
      var k := keys[0];
      HeadNotInTail(keys);
      assert Distinct(keys[1..]);
      if StoredExpired(st.m[k], ttl, now) then
        var st1 := Remove(st, k);
        var rest := ClearOver(st1, keys[1..], ttl, now);
        (rest.0, rest.1 + 1)
      else
        ClearOver(st, keys[1..], ttl, now)
  }

  /** `await store.clear_expired(ttl)`: the expired entries are deleted and counted. */
  function ClearExpired(st: Store, ttl: int, now: int): (r: (Store, nat))
    ensures forall k :: k in r.0.m <==> k in st.m && !StoredExpired(st.m[k], ttl, now)
    ensures forall k :: k in r.0.m ==> r.0.m[k] == st.m[k]
    ensures r.1 == |st.m| - |r.0.m|
  {
    ClearOver(st, st.keys, ttl, now)
  }

  /** The store and the manager agree on which sessions have expired. */
  lemma ExpiryAgrees(s: Session, ttl: int, now: int)
    ensures StoredExpired(ToStored(s), ttl, now) <==> IsExpired(s, ttl, now)
  {
  }

  /** Saving then loading returns the session's record; clearing never removes a session that
      was active within the ttl. */
  lemma SaveLoadAndClear(st: Store, s: Session, ttl: int, now: int)
    requires !IsExpired(s, ttl, now)
    ensures Load(Save(st, s), s.sessionId) == Some(ToStored(s))
    ensures Load(ClearExpired(Save(st, s), ttl, now).0, s.sessionId) == Some(ToStored(s))
  {
  }
}

=== FILE: simple_cache.dfy ===
/** Cache entries with an optional time-to-live, and the simple in-memory
    cache that evicts the least recently accessed entry when full.

    Clock readings are whole seconds passed in as `now`. */
module SimpleCache {
  import opened Common
  import OrderedMap

  datatype CacheEntry<V> = CacheEntry(
    key: string, value: V, createdAt: int, accessedAt: int, ttl: Option<int>, accessCount: nat)

  /** A fresh entry as `set` creates it. */
  function NewEntry<V>(key: string, value: V, ttl: Option<int>, now: int): (e: CacheEntry<V>)
    ensures e.accessCount == 0 && e.createdAt == now && e.accessedAt == now
  {
    CacheEntry(key, value, now, now, ttl, 0)
  }

  /** `entry.is_expired()` */
  predicate IsExpired<V>(e: CacheEntry<V>, now: int) {
    match e.ttl
    case None => false
    case Some(t) => now - e.createdAt > t
  }

  /** `entry.touch()` */
  function Touch<V>(e: CacheEntry<V>, now: int): (r: CacheEntry<V>)
    ensures r.accessCount == e.accessCount + 1 && r.accessedAt == now
    ensures r.key == e.key && r.value == e.value && r.createdAt == e.createdAt && r.ttl == e.ttl
  {
    e.(accessedAt := now, accessCount := e.accessCount + 1)
  }

  datatype Stats = Stats(hits: nat, misses: nat, sets: nat, deletes: nat, evictions: nat)

  datatype StatsReport = StatsReport(
    hits: nat, misses: nat, sets: nat, deletes: nat, evictions: nat,
    size: nat, maxSize: int, hitRate: real, totalRequests: nat)

  const NoStats: Stats := Stats(0, 0, 0, 0, 0)

  /** Shared by both caches: `get_stats()` */
  function Report(stats: Stats, size: nat, maxSize: int): (r: StatsReport)
    ensures r.totalRequests == stats.hits + stats.misses
    ensures r.totalRequests == 0 ==> r.hitRate == 0.0
    ensures r.totalRequests > 0 ==> r.hitRate * (r.totalRequests as real) == (stats.hits as real) * 100.0
    ensures 0.0 <= r.hitRate <= 100.0
  {
    var total := stats.hits + stats.misses;
    var rate := if total > 0 then (stats.hits as real) / (total as real) * 100.0 else 0.0;
    StatsReport(stats.hits, stats.misses, stats.sets, stats.deletes, stats.evictions,
                size, maxSize, rate, total)
  }

  type Store<V> = OrderedMap.Dict<string, CacheEntry<V>>

  datatype Cache<V> = Cache(maxSize: int, store: Store<V>, stats: Stats)

  function NewCache<V>(maxSize: int): (c: Cache<V>)
    ensures |c.store.keys| == 0 && c.stats == NoStats
  {
    Cache(maxSize, OrderedMap.Empty(), NoStats)
  }

  /** The index of the first smallest element: Python's `min` keeps the first of equal minima. */
  function FirstMinIndex(s: seq<int>): (i: nat)
    requires |s| > 0
    ensures i < |s|
    ensures forall j :: 0 <= j < |s| ==> s[i] <= s[j]
    ensures forall j :: 0 <= j < i ==> s[j] > s[i]
  {
    if |s| == 1 then 0
    else
      var j := FirstMinIndex(s[1..]) + 1;
      if s[0] <= s[j] then 0 else j
  }

  /** The position of `min(store.keys(), key=lambda k: store[k].accessed_at)`:
      no entry was accessed earlier, and every entry before it was accessed later. */
  function OldestIndex<V>(store: Store<V>): (i: nat)
    requires |store.keys| > 0
    ensures i < |store.keys|
    ensures forall j :: 0 <= j < |store.keys| ==>
              store.m[store.keys[i]].accessedAt <= store.m[store.keys[j]].accessedAt
    ensures forall j :: 0 <= j < i ==>
              store.m[store.keys[j]].accessedAt > store.m[store.keys[i]].accessedAt
  {
    var times := seq(|store.keys|, j requires 0 <= j < |store.keys| => store.m[store.keys[j]].accessedAt);
    var i := FirstMinIndex(times);
    assert forall j :: 0 <= j < |store.keys| ==> store.m[store.keys[j]].accessedAt == times[j];
    i
  }

  function OldestKey<V>(store: Store<V>): (k: string)
    requires |store.keys| > 0
    ensures k in store.m
  {
    store.keys[OldestIndex(store)]
  }

  /** `await cache.get(key)`: the new cache and the returned value. */
  function Get<V>(c: Cache<V>, key: string, now: int): (r: (Cache<V>, Option<V>))
    ensures key !in c.store.m ==> r == (c.(stats := c.stats.(misses := c.stats.misses + 1)), None)
    ensures key in c.store.m && IsExpired(c.store.m[key], now) ==>
              r.1.None? && r.0.store == OrderedMap.Remove(c.store, key)
              && r.0.stats == c.stats.(misses := c.stats.misses + 1)
    ensures key in c.store.m && !IsExpired(c.store.m[key], now) ==>
              r.1 == Some(c.store.m[key].value)
              && r.0.store.keys == c.store.keys
              && r.0.store.m == c.store.m[key := Touch(c.store.m[key], now)]
              && r.0.stats == c.stats.(hits := c.stats.hits + 1)
    ensures r.0.maxSize == c.maxSize
  {
    if key !in c.store.m then
      (c.(stats := c.stats.(misses := c.stats.misses + 1)), None)
    else
      var e := c.store.m[key];
      if IsExpired(e, now) then
        (c.(store := OrderedMap.Remove(c.store, key), stats := c.stats.(misses := c.stats.misses + 1)), None)
      else
        (c.(store := OrderedMap.Put(c.store, key, Touch(e, now)), stats := c.stats.(hits := c.stats.hits + 1)),
         Some(e.value))
  }

  /** Whether `set` evicts before inserting. */
  predicate MustEvict<V>(c: Cache<V>, key: string) {
    |c.store.keys| >= c.maxSize && key !in c.store.m && |c.store.keys| > 0
  }

  /** `await cache.set(key, value, ttl_seconds)` */
  function Set<V>(c: Cache<V>, key: string, value: V, ttl: Option<int>, now: int): (r: Cache<V>)
    ensures key in r.store.m && r.store.m[key] == NewEntry(key, value, ttl, now)
    ensures r.stats.sets == c.stats.sets + 1
    ensures r.maxSize == c.maxSize
    ensures !MustEvict(c, key) ==> r.store == OrderedMap.Put(c.store, key, NewEntry(key, value, ttl, now))
                                   && r.stats.evictions == c.stats.evictions
    ensures MustEvict(c, key) ==>
              r.store == OrderedMap.Put(OrderedMap.Remove(c.store, OldestKey(c.store)), key, NewEntry(key, value, ttl, now))
              && r.stats.evictions == c.stats.evictions + 1
  {
    var c1 :=
      if MustEvict(c, key) then
        c.(store := OrderedMap.Remove(c.store, OldestKey(c.store)),
           stats := c.stats.(evictions := c.stats.evictions + 1))
      else c;
    c1.(store := OrderedMap.Put(c1.store, key, NewEntry(key, value, ttl, now)),
        stats := c1.stats.(sets := c1.stats.sets + 1))
  }

  /** `await cache.delete(key)` */
  function Delete<V>(c: Cache<V>, key: string): (r: (Cache<V>, bool))
    ensures r.1 <==> key in c.store.m
    ensures r.0.store == OrderedMap.Remove(c.store, key) && key !in r.0.store.m
    ensures r.0.stats == if r.1 then c.stats.(deletes := c.stats.deletes + 1) else c.stats
  {
    if key in c.store.m then
      (c.(store := OrderedMap.Remove(c.store, key), stats := c.stats.(deletes := c.stats.deletes + 1)), true)
    else (c, false)
  }

  /** `await cache.exists(key)`: drops an expired entry, never touches the statistics. */
  function Exists<V>(c: Cache<V>, key: string, now: int): (r: (Cache<V>, bool))
    ensures r.1 <==> key in c.store.m && !IsExpired(c.store.m[key], now)
    ensures r.0.stats == c.stats && r.0.maxSize == c.maxSize
    ensures r.1 ==> r.0 == c
    ensures !r.1 ==> r.0.store == OrderedMap.Remove(c.store, key)
  {
    if key in c.store.m && !IsExpired(c.store.m[key], now) then (c, true)
    else if key in c.store.m then (c.(store := OrderedMap.Remove(c.store, key)), false)
    else (c, false)
  }

  /** `await cache.clear()`: the statistics survive. */
  function Clear<V>(c: Cache<V>): (r: Cache<V>)
    ensures |r.store.keys| == 0 && r.stats == c.stats && r.maxSize == c.maxSize
  {
    c.(store := OrderedMap.Empty())
  }

  function GetStats<V>(c: Cache<V>): (r: StatsReport)
    ensures r.size == |c.store.m| && r.maxSize == c.maxSize
    ensures r.totalRequests == c.stats.hits + c.stats.misses
  {
    OrderedMap.SizeIsKeyCount(c.store);
    Report(c.stats, |c.store.keys|, c.maxSize)
  }

  // ---------------------------------------------------------------------
  // Properties
  // ---------------------------------------------------------------------

  /** The store never holds more than `max(max_size, 1)` entries. */
  predicate Bounded<V>(c: Cache<V>) {
    |c.store.keys| <= Max(c.maxSize, 1)
  }

  lemma SetKeepsBound<V>(c: Cache<V>, key: string, value: V, ttl: Option<int>, now: int)
    requires Bounded(c)
    ensures Bounded(Set(c, key, value, ttl, now))
  {
    var r := Set(c, key, value, ttl, now);
    if MustEvict(c, key) {
      var k := OldestKey(c.store);
      OrderedMap.WithoutDistinct(c.store.keys, k);
    }
  }

  /** Every other operation also keeps the bound. */
  lemma OtherOpsKeepBound<V>(c: Cache<V>, key: string, now: int)
    requires Bounded(c)
    ensures Bounded(Get(c, key, now).0) && Bounded(Delete(c, key).0)
    ensures Bounded(Exists(c, key, now).0) && Bounded(Clear(c))
  {
    OrderedMap.WithoutDistinct(c.store.keys, key);
  }

  /** Overwriting a present key never evicts and resets the access count. */
  lemma OverwriteNeverEvicts<V>(c: Cache<V>, key: string, value: V, ttl: Option<int>, now: int)
    requires key in c.store.m
    ensures var r := Set(c, key, value, ttl, now);
            r.stats.evictions == c.stats.evictions && r.store.keys == c.store.keys
            && r.store.m[key].accessCount == 0
  {
  }

  /** After storing without a TTL, a lookup at any later time hits. */
  lemma SetThenGetHits<V>(c: Cache<V>, key: string, value: V, t1: int, t2: int)
    ensures var r := Get(Set(c, key, value, None, t1), key, t2);
            r.1 == Some(value) && r.0.stats.hits == c.stats.hits + 1
  {
  }

  /** With a TTL, a lookup hits exactly while no more than `ttl` seconds have passed. */
  lemma TtlBoundary<V>(c: Cache<V>, key: string, value: V, ttl: int, t1: int, t2: int)
    ensures Get(Set(c, key, value, Some(ttl), t1), key, t2).1.Some? <==> t2 - t1 <= ttl
  {
  }
}

=== FILE: situational.dfy ===
/** Situational context: the user's time, place and day as a record, and the
    fixed block that prefixes a prompt with it. The clock's formatted readings
    are parameters; the configuration the injector holds is never read. */
module Situational {
  import opened Text

  /** One reading of the host's clock: formatted as `%Y-%m-%d %H:%M:%S` in the host's own
      zone, the same instant formatted in UTC, and the weekday name in the host's zone. */
  datatype Clock = Clock(localStamp: string, utcStamp: string, weekday: string)

  datatype Context = Context(timestampUtc: string, userLocalTime: string, userTimezone: string,
                             location: string, dayOfWeek: string, frameworkStatus: string)

  const PacificZone := "America/Los_Angeles"
  const PacificLocation := "São Francisco, CA"
  const UnknownLocation := "Unknown"
  const FrameworkStatus := "v0.4.0-ULTRA (Active)"

  /** The place a time zone stands for. */
  function LocationOf(tz: string): (r: string)
    ensures r == PacificLocation <==> tz == PacificZone
    ensures r == UnknownLocation <==> tz != PacificZone
  {
    if tz == PacificZone then PacificLocation else UnknownLocation
  }

  /** `get_current_context(user_timezone)` read against `clock`, as written: the one local
      reading `now()` fills both stamps, so the "UTC" stamp is the local time with " UTC"
      appended. */
  function GetCurrentContext(tz: string, clock: Clock): (c: Context)
    ensures c.timestampUtc == c.userLocalTime + " UTC"
    ensures c.userLocalTime == clock.localStamp && c.dayOfWeek == clock.weekday
    ensures c.userTimezone == tz && c.location == LocationOf(tz)
    ensures c.frameworkStatus == FrameworkStatus
  {
    var now := clock.localStamp;
    Context(now + " UTC", now, tz, LocationOf(tz), clock.weekday, FrameworkStatus)
  }

  /** The context with the stamp its key promises: the UTC reading of the same instant. */
  function GetCurrentContextUtc(tz: string, clock: Clock): (c: Context)
    ensures c.timestampUtc == clock.utcStamp + " UTC"
    ensures c.userLocalTime == clock.localStamp && c.dayOfWeek == clock.weekday
    ensures c.userTimezone == tz && c.location == LocationOf(tz)
    ensures c.frameworkStatus == FrameworkStatus
  {
    Context(clock.utcStamp + " UTC", clock.localStamp, tz, LocationOf(tz), clock.weekday, FrameworkStatus)
  }

  /** As written, the "UTC" stamp is the true UTC time exactly when the host's zone shows the
      same wall-clock time as UTC; the two contexts differ in that stamp only. */
  lemma UtcStampIsLocal(tz: string, clock: Clock)
    ensures GetCurrentContext(tz, clock).timestampUtc == clock.utcStamp + " UTC"
            <==> clock.localStamp == clock.utcStamp
    ensures GetCurrentContext(tz, clock) == GetCurrentContextUtc(tz, clock) <==> clock.localStamp == clock.utcStamp
    ensures GetCurrentContextUtc(tz, clock) == GetCurrentContext(tz, clock).(timestampUtc := clock.utcStamp + " UTC")
  {
    if GetCurrentContext(tz, clock).timestampUtc == clock.utcStamp + " UTC" {
      var a, b := clock.localStamp, clock.utcStamp;
      assert (a + " UTC")[..|a|] == a && (b + " UTC")[..|b|] == b;
      assert |a| == |b|;
    }
  }

  /** A host eight hours behind UTC: at 09:00 local the written stamp says 09:00 UTC, while
      the instant is 17:00 UTC. */
  lemma PacificHostMislabelsUtc()
    ensures var clock := Clock("2026-01-05 09:00:00", "2026-01-05 17:00:00", "Monday");
            GetCurrentContext(PacificZone, clock).timestampUtc == "2026-01-05 09:00:00 UTC"
            && GetCurrentContextUtc(PacificZone, clock).timestampUtc == "2026-01-05 17:00:00 UTC"
  {
  }

  const Header := "--- SITUATIONAL CONTEXT ---\n"
  const Footer := "---------------------------\n\n"

  function TimeLine(c: Context): string {
    "Current Time: " + c.userLocalTime + " (" + c.userTimezone + ")\n"
  }

  function LocationLine(c: Context): string {
    "Location: " + c.location + "\n"
  }

  function DayLine(c: Context): string {
    "Day: " + c.dayOfWeek + "\n"
  }

  function StatusLine(c: Context): string {
    "Status: " + c.frameworkStatus + "\n"
  }

  /** The situational block. */
  function Block(c: Context): string {
    Header + TimeLine(c) + LocationLine(c) + DayLine(c) + StatusLine(c) + Footer
  }

  /** `inject(prompt, context)`: the block, then the prompt unchanged. */
  function Inject(prompt: string, c: Context): (r: string)
    ensures |r| == |Block(c)| + |prompt|
    ensures r[..|Block(c)|] == Block(c) && r[|Block(c)|..] == prompt
    ensures r[..|Header|] == Header
  {
    var b := Block(c);
    assert b[..|Header|] == Header;
    b + prompt
  }

  /** The prompt can be read back from the injected text, so injection never loses or alters
      any part of it. */
  lemma InjectIsInjective(p1: string, p2: string, c: Context)
    requires Inject(p1, c) == Inject(p2, c)
    ensures p1 == p2
  {
    assert p1 == Inject(p1, c)[|Block(c)|..];
  }

  /** The block lists the time, the location, the day and the status, in that order, each on
      its own line straight after the header. */
  lemma BlockOrder(prompt: string, c: Context)
    ensures var r := Inject(prompt, c);
            var t := |Header|;
            var l := t + |TimeLine(c)|;
            var d := l + |LocationLine(c)|;
            var s := d + |DayLine(c)|;
            OccursAt(r, TimeLine(c), t) && OccursAt(r, LocationLine(c), l)
            && OccursAt(r, DayLine(c), d) && OccursAt(r, StatusLine(c), s)
            && OccursAt(r, Footer, s + |StatusLine(c)|)
  {
    var r := Inject(prompt, c);
    var t := |Header|;
    var l := t + |TimeLine(c)|;
    var d := l + |LocationLine(c)|;
    var s := d + |DayLine(c)|;
    var f := s + |StatusLine(c)|;
    assert r == Header + TimeLine(c) + LocationLine(c) + DayLine(c) + StatusLine(c) + Footer + prompt;
    assert r[t..l] == TimeLine(c);
    assert r[l..d] == LocationLine(c);
    assert r[d..s] == DayLine(c);
    assert r[s..f] == StatusLine(c);
    assert r[f..f + |Footer|] == Footer;
  }

  /** The injected block never shows the UTC stamp, so the prompt reads the same with either
      context. */
  lemma InjectIgnoresUtcStamp(prompt: string, tz: string, clock: Clock)
    ensures Inject(prompt, GetCurrentContext(tz, clock)) == Inject(prompt, GetCurrentContextUtc(tz, clock))
  {
    UtcStampIsLocal(tz, clock);
  }

  /** A prompt injected with the current context names the Pacific location exactly for the
      Pacific time zone. */
  lemma PacificPromptNamesLocation(prompt: string, tz: string, clock: Clock)
    ensures var c := GetCurrentContextUtc(tz, clock);
            c.location == PacificLocation <==> tz == PacificZone
    ensures tz == PacificZone ==>
              Contains(Inject(prompt, GetCurrentContextUtc(tz, clock)), "Location: " + PacificLocation + "\n")
  {
    var c := GetCurrentContextUtc(tz, clock);
    BlockOrder(prompt, c);
  }
}

=== FILE: strategies.dfy ===
/** Route selection strategies: by priority, by load, round robin and by context.

    The random weighted strategy is not part of this model. */
module Strategies {
  import opened Common
  import opened Text
  import opened Router
  import Ranking

  const NoCandidates: Exception := Exception(ValueError, "No candidates available")

  /** The fields of a routing context the strategies read. */
  datatype RoutingContext = RoutingContext(source: string, destination: string, messageType: string, priority: int)

  // ---------------------------------------------------------------------
  // Priority
  // ---------------------------------------------------------------------

  /** `PriorityStrategy.select`: the first candidate of the highest priority. */
  function SelectPriority(cs: seq<Route>): (r: Result<Route>)
    ensures r.Err? <==> |cs| == 0
    ensures r.Err? ==> r.error == NoCandidates
    ensures r.Ok? ==> exists i :: FirstHighestAt(cs, i) && cs[i] == r.value
  {
    if |cs| == 0 then Err(NoCandidates)
    else
      ghost var i := Ranking.HeadIndex(cs, Priority);
      assert FirstHighestAt(cs, i);
      Ok(Ranking.SortDesc(cs, Priority)[0])
  }

  /** `cs[i]` has the highest priority and every candidate before it a lower one. */
  predicate FirstHighestAt(cs: seq<Route>, i: int) {
    0 <= i < |cs|
    && (forall j :: 0 <= j < |cs| ==> cs[j].priority <= cs[i].priority)
    && (forall j :: 0 <= j < i ==> cs[j].priority < cs[i].priority)
  }

  lemma FirstHighestUnique(cs: seq<Route>, i: int, k: int)
    requires FirstHighestAt(cs, i) && FirstHighestAt(cs, k)
    ensures i == k
  {
    assert cs[i].priority == cs[k].priority;
  }

  /** A plain left-to-right scan that keeps the first strictly better candidate. */
  function ScanHighest(cs: seq<Route>): (i: nat)
    requires |cs| > 0
    ensures FirstHighestAt(cs, i)
  {
    if |cs| == 1 then 0
    else
      var k := ScanHighest(cs[..|cs| - 1]);
      assert forall j :: 0 <= j < |cs| - 1 ==> cs[j] == cs[..|cs| - 1][j];
      if cs[|cs| - 1].priority > cs[k].priority then |cs| - 1 else k
  }

  /** Sorting and taking the head picks the same candidate as the scan: ties keep list order. */
  lemma PriorityIsScan(cs: seq<Route>)
    requires |cs| > 0
    ensures SelectPriority(cs) == Ok(cs[ScanHighest(cs)])
  {
    var r := SelectPriority(cs);
    var i :| FirstHighestAt(cs, i) && cs[i] == r.value;
    var k := ScanHighest(cs);
    FirstHighestUnique(cs, i, k);
  }

  // ---------------------------------------------------------------------
  // Load balancing
  // ---------------------------------------------------------------------

  datatype LoadBalancer = LoadBalancer(loads: map<string, int>)

  /** The ids of the candidates. */
  function Ids(cs: seq<Route>): set<string> {
    set i | 0 <= i < |cs| :: cs[i].routeId
  }

  /** Candidates not seen before start with load 0. */
  function InitLoads(loads: map<string, int>, cs: seq<Route>): (r: map<string, int>)
    ensures forall i :: 0 <= i < |cs| ==> cs[i].routeId in r
    ensures r.Keys == loads.Keys + Ids(cs)
    ensures forall id :: id in loads ==> r[id] == loads[id]
    ensures forall id :: id in r && id !in loads ==> r[id] == 0
  {
    map id | id in loads.Keys + Ids(cs) :: if id in loads then loads[id] else 0
  }

  /** `min(candidates, key=load)`: the first candidate of least load. */
  function FirstLeastLoaded(loads: map<string, int>, cs: seq<Route>): (i: nat)
    requires |cs| > 0 && forall j :: 0 <= j < |cs| ==> cs[j].routeId in loads
    ensures i < |cs|
    ensures forall j :: 0 <= j < |cs| ==> loads[cs[i].routeId] <= loads[cs[j].routeId]
    ensures forall j :: 0 <= j < i ==> loads[cs[j].routeId] > loads[cs[i].routeId]
  {
    if |cs| == 1 then 0
    else
      var k := FirstLeastLoaded(loads, cs[..|cs| - 1]);
      assert forall j :: 0 <= j < |cs| - 1 ==> cs[j] == cs[..|cs| - 1][j];
      if loads[cs[|cs| - 1].routeId] < loads[cs[k].routeId] then |cs| - 1 else k
  }

  /** `LoadBalancedStrategy.select`: the chosen route's load goes up by one. */
  function SelectLoadBalanced(lb: LoadBalancer, cs: seq<Route>): (r: (LoadBalancer, Result<Route>))
    ensures |cs| == 0 ==> r == (lb, Err(NoCandidates))
    ensures |cs| > 0 ==>
              var l0 := InitLoads(lb.loads, cs);
              r.1.Ok? && r.1.value in cs
              && (forall j :: 0 <= j < |cs| ==> l0[r.1.value.routeId] <= l0[cs[j].routeId])
              && r.0.loads == l0[r.1.value.routeId := l0[r.1.value.routeId] + 1]
    ensures |cs| > 0 ==>
              var l0 := InitLoads(lb.loads, cs);
              var i := FirstLeastLoaded(l0, cs);
              r.1.value == cs[i] && forall j :: 0 <= j < i ==> l0[cs[j].routeId] > l0[r.1.value.routeId]
  {
    if |cs| == 0 then (lb, Err(NoCandidates))
    else
      var l0 := InitLoads(lb.loads, cs);
      var i := FirstLeastLoaded(l0, cs);
      (LoadBalancer(l0[cs[i].routeId := l0[cs[i].routeId] + 1]), Ok(cs[i]))
  }

  /** `decrement_load(route_id)`: never below zero; unknown ids are ignored. */
  function DecrementLoad(lb: LoadBalancer, id: string): (r: LoadBalancer)
    ensures id !in lb.loads ==> r == lb
    ensures id in lb.loads ==> r.loads == lb.loads[id := Max(0, lb.loads[id] - 1)] && r.loads[id] >= 0
  {
    if id in lb.loads then LoadBalancer(lb.loads[id := Max(0, lb.loads[id] - 1)]) else lb
  }

  /** The candidates' loads differ by at most one. */
  predicate Balanced(loads: map<string, int>, cs: seq<Route>)
    requires forall i :: 0 <= i < |cs| ==> cs[i].routeId in loads
  {
    forall i, j :: 0 <= i < |cs| && 0 <= j < |cs| ==> loads[cs[i].routeId] <= loads[cs[j].routeId] + 1
  }

  /** Always serving a least-loaded candidate keeps a balanced set of loads balanced. */
  lemma SelectionKeepsBalance(lb: LoadBalancer, cs: seq<Route>)
    requires |cs| > 0 && Balanced(InitLoads(lb.loads, cs), cs)
    ensures var r := SelectLoadBalanced(lb, cs);
            (forall i :: 0 <= i < |cs| ==> cs[i].routeId in r.0.loads) && Balanced(r.0.loads, cs)
  {
    var k := SelectedIndex(lb, cs);
    BumpLeastKeepsBalance(InitLoads(lb.loads, cs), cs, k);
  }

  /** The position the load balancer serves. */
  lemma SelectedIndex(lb: LoadBalancer, cs: seq<Route>) returns (k: nat)
    requires |cs| > 0
    ensures var l0 := InitLoads(lb.loads, cs);
            k < |cs| && (forall j :: 0 <= j < |cs| ==> l0[cs[k].routeId] <= l0[cs[j].routeId])
            && SelectLoadBalanced(lb, cs).0.loads == l0[cs[k].routeId := l0[cs[k].routeId] + 1]
  {
    k := FirstLeastLoaded(InitLoads(lb.loads, cs), cs);
  }

  lemma BumpLeastKeepsBalance(l0: map<string, int>, cs: seq<Route>, k: nat)
    requires forall i :: 0 <= i < |cs| ==> cs[i].routeId in l0
    requires k < |cs| && Balanced(l0, cs)
    requires forall j :: 0 <= j < |cs| ==> l0[cs[k].routeId] <= l0[cs[j].routeId]
    ensures var l1 := l0[cs[k].routeId := l0[cs[k].routeId] + 1];
            (forall i :: 0 <= i < |cs| ==> cs[i].routeId in l1) && Balanced(l1, cs)
  {
    var s := cs[k].routeId;
    var l1 := l0[s := l0[s] + 1];
    forall i, j | 0 <= i < |cs| && 0 <= j < |cs|
      ensures l1[cs[i].routeId] <= l1[cs[j].routeId] + 1
    {
      assert l0[cs[i].routeId] <= l0[s] + 1;
    }
  }

  // ---------------------------------------------------------------------
  // Round robin
  // ---------------------------------------------------------------------

  datatype RoundRobin = RoundRobin(currentIndex: nat)

  /** `RoundRobinStrategy.select` */
  function SelectRoundRobin(rr: RoundRobin, cs: seq<Route>): (r: (RoundRobin, Result<Route>))
    ensures |cs| == 0 ==> r == (rr, Err(NoCandidates))
    ensures |cs| > 0 ==> r == (RoundRobin(rr.currentIndex + 1), Ok(cs[rr.currentIndex % |cs|]))
  {
    if |cs| == 0 then (rr, Err(NoCandidates))
    else (RoundRobin(rr.currentIndex + 1), Ok(cs[rr.currentIndex % |cs|]))
  }

  /** The selection `k` calls later, for an unchanged candidate list. */
  function SelectedAfter(rr: RoundRobin, cs: seq<Route>, k: nat): Result<Route>
    requires |cs| > 0
    decreases k
  {
    if k == 0 then SelectRoundRobin(rr, cs).1 else SelectedAfter(SelectRoundRobin(rr, cs).0, cs, k - 1)
  }

  lemma {:induction false} SelectedAfterIndex(rr: RoundRobin, cs: seq<Route>, k: nat)
    requires |cs| > 0
    ensures SelectedAfter(rr, cs, k) == Ok(cs[(rr.currentIndex + k) % |cs|])
    decreases k
  {
    if k > 0 {
      SelectedAfterIndex(SelectRoundRobin(rr, cs).0, cs, k - 1);
    }
  }

  /** Over any `n` consecutive calls with the same `n` candidates, every candidate is chosen. */
  lemma RoundRobinCoversAll(rr: RoundRobin, cs: seq<Route>, i: nat)
    requires i < |cs|
    ensures exists k :: 0 <= k < |cs| && SelectedAfter(rr, cs, k) == Ok(cs[i])
  {
    var n := |cs|;
    var c := rr.currentIndex;
    var q := c / n;
    var r := c % n;
    var k := if r <= i then i - r else i + n - r;
    SelectedAfterIndex(rr, cs, k);
    if r <= i {
      ModUnique(c + k, q, i, n);
    } else {
      ModUnique(c + k, q + 1, i, n);
    }
  }

  /** Euclidean division is unique. */
  lemma ModUnique(x: int, q: int, i: int, n: int)
    requires n > 0 && 0 <= i < n && x == q * n + i
    ensures x % n == i
  {
    var d := x / n;
    var m := x % n;
    assert (q - d) * n == m - i;
    MulOutside(q - d, n);
  }

  /** A non-zero multiple of `n` is at least `n` away from zero. */
  lemma MulOutside(a: int, n: int)
    requires n > 0
    ensures a >= 1 ==> a * n >= n
    ensures a <= -1 ==> a * n <= -n
  {
    if a >= 1 {
      assert a * n == (a - 1) * n + n;
    }
    if a <= -1 {
      assert a * n == -((-a - 1) * n) - n;
    }
  }

  // ---------------------------------------------------------------------
  // Context-aware selection
  // ---------------------------------------------------------------------

  /** The default context mapper: the context's source. */
  function DefaultMapper(c: RoutingContext): (key: string)
    ensures key == c.source
  {
    c.source
  }

  const NoMetadata: Exception := Exception(AttributeError, "'Route' object has no attribute 'metadata'")

  /** `ContextAwareStrategy.select` as written: the loop tests the first candidate's id and then
      reads `route.metadata`, a field a route does not have. */
  function SelectContextAwareAsWritten(cs: seq<Route>, key: string): (r: Result<Route>)
    ensures |cs| == 0 ==> r == Err(NoCandidates)
    ensures |cs| > 0 ==> (r.Ok? <==> Contains(cs[0].routeId, key))
    ensures r.Ok? ==> r.value == cs[0]
    ensures |cs| > 0 && r.Err? ==> r.error == NoMetadata
  {
    if |cs| == 0 then Err(NoCandidates)
    else if Contains(cs[0].routeId, key) then Ok(cs[0])
    else Err(NoMetadata)
  }

  /** A candidate list whose first id lacks the key always raises, so the promised fallback to
      the first candidate is unreachable. */
  lemma ContextAwareRaisesOnMiss()
    ensures var rs := [DefaultRoute("billing"), DefaultRoute("support")];
            SelectContextAwareAsWritten(rs, "support") == Err(NoMetadata)
  {
    var rs := [DefaultRoute("billing"), DefaultRoute("support")];
    NotContainsMissingFirst("billing", "support");
  }

  /** The candidate matched by id or by metadata text, scanning from `from`. */
  function FirstMatching(cs: seq<Route>, key: string, metadata: string -> string, from: nat): (r: Option<nat>)
    requires from <= |cs|
    ensures r.Some? ==> from <= r.value < |cs|
                        && (Contains(cs[r.value].routeId, key) || Contains(metadata(cs[r.value].routeId), key))
    ensures forall j :: from <= j < (if r.Some? then r.value else |cs|) ==>
              !Contains(cs[j].routeId, key) && !Contains(metadata(cs[j].routeId), key)
    decreases |cs| - from
  {
    if from == |cs| then None
    else if Contains(cs[from].routeId, key) || Contains(metadata(cs[from].routeId), key) then Some(from)
    else FirstMatching(cs, key, metadata, from + 1)
  }

  /** `ContextAwareStrategy.select` as evidently intended: routes carry metadata (its text is
      `metadata(routeId)`), the first candidate matching by id or metadata wins, and the first
      candidate is the fallback. */
  function SelectContextAware(cs: seq<Route>, key: string, metadata: string -> string): (r: Result<Route>)
    ensures r.Err? <==> |cs| == 0
    ensures r.Err? ==> r.error == NoCandidates
    ensures r.Ok? ==> r.value in cs
    ensures r.Ok? ==>
              (exists i :: 0 <= i < |cs| && cs[i] == r.value
                 && (Contains(cs[i].routeId, key) || Contains(metadata(cs[i].routeId), key))
                 && forall j :: 0 <= j < i ==> !Contains(cs[j].routeId, key) && !Contains(metadata(cs[j].routeId), key))
              || (r.value == cs[0]
                  && forall j :: 0 <= j < |cs| ==> !Contains(cs[j].routeId, key) && !Contains(metadata(cs[j].routeId), key))
  {
    if |cs| == 0 then Err(NoCandidates)
    else
      match FirstMatching(cs, key, metadata, 0)
      case Some(i) => Ok(cs[i])
      case None => Ok(cs[0])
  }

  /** Wherever the code as written returns a route, the intended selection returns the same one. */
  lemma IntendedAgreesWhereDefined(cs: seq<Route>, key: string, metadata: string -> string)
    requires SelectContextAwareAsWritten(cs, key).Ok?
    ensures SelectContextAware(cs, key, metadata) == SelectContextAwareAsWritten(cs, key)
  {
  }
}

=== FILE: text.dfy ===
/** String operations the modelled code relies on: Python's `str.lower`,
    `str.upper`, the `in` substring test, `str.join`, `str.ljust`,
    `str.replace` and the decimal rendering of integers. Case mapping is
    ASCII-only. */
module Text {
  import Common

  function LowerChar(c: char): char {
    if 'A' <= c <= 'Z' then (c as int + 32) as char else c
  }

  function UpperChar(c: char): char {
    if 'a' <= c <= 'z' then (c as int - 32) as char else c
  }

  /** `s.lower()` */
  function Lower(s: string): (r: string)
    ensures |r| == |s|
    ensures forall i :: 0 <= i < |s| ==> r[i] == LowerChar(s[i])
  {
    seq(|s|, i requires 0 <= i < |s| => LowerChar(s[i]))
  }

  /** `s.upper()` */
  function Upper(s: string): (r: string)
    ensures |r| == |s|
    ensures forall i :: 0 <= i < |s| ==> r[i] == UpperChar(s[i])
  {
    seq(|s|, i requires 0 <= i < |s| => UpperChar(s[i]))
  }

  /** `needle` occurs in `hay` starting at position `i`. */
  predicate OccursAt(hay: string, needle: string, i: int) {
    0 <= i && i + |needle| <= |hay| && hay[i..i + |needle|] == needle
  }

  /** `needle in hay` */
  predicate Contains(hay: string, needle: string) {
    exists i :: 0 <= i <= |hay| - |needle| && OccursAt(hay, needle, i)
  }

  /** `any(n in hay for n in needles)` */
  predicate ContainsAny(hay: string, needles: seq<string>) {
    exists j :: 0 <= j < |needles| && Contains(hay, needles[j])
  }

  /** `sep.join(parts)` */
  function Join(sep: string, parts: seq<string>): string {
    if |parts| == 0 then ""
    else if |parts| == 1 then parts[0]
    else parts[0] + sep + Join(sep, parts[1..])
  }

  /** A run of `n` copies of `c` (Python's `c * n`, empty for `n <= 0`). */
  function Repeat(c: char, n: int): (r: string)
    ensures |r| == Common.Max(n, 0)
    ensures forall i :: 0 <= i < |r| ==> r[i] == c
  {
    if n <= 0 then "" else seq(n, _ => c)
  }

  /** `s.ljust(width)`: pads with spaces on the right up to `width`. */
  function LJust(s: string, width: int): (r: string)
    ensures |r| == Common.Max(|s|, width)
    ensures r[..|s|] == s
    ensures forall i :: |s| <= i < |r| ==> r[i] == ' '
  {
    if |s| >= width then s else s + Repeat(' ', width - |s|)
  }

  /** `s.replace(pat, rep)`: every non-overlapping occurrence, left to right. */
  function ReplaceAll(s: string, pat: string, rep: string): string
    requires |pat| > 0
    decreases |s|
  {
    if |s| == 0 then ""
    else if |pat| <= |s| && s[..|pat|] == pat then rep + ReplaceAll(s[|pat|..], pat, rep)
    else [s[0]] + ReplaceAll(s[1..], pat, rep)
  }

  function DigitChar(d: nat): char
    requires d < 10
  {
    "0123456789"[d]
  }

  /** `str(n)` for a natural number. */
  function NatToString(n: nat): (r: string)
    ensures |r| >= 1
    ensures forall i :: 0 <= i < |r| ==> '0' <= r[i] <= '9'
    decreases n
  {
    if n < 10 then [DigitChar(n)] else NatToString(n / 10) + [DigitChar(n % 10)]
  }

  /** `str(i)` for an integer. */
  function IntToString(i: int): string {
    if i < 0 then "-" + NatToString(-i) else NatToString(i)
  }

  // ---------------------------------------------------------------------
  // Lemmas
  // ---------------------------------------------------------------------

  lemma LowerConcat(a: string, b: string)
    ensures Lower(a + b) == Lower(a) + Lower(b)
  {
  }

  lemma LowerIdempotent(s: string)
    ensures Lower(Lower(s)) == Lower(s)
  {
  }

  /** A substring of a part is a substring of any concatenation around it. */
  lemma ContainsInMiddle(a: string, b: string, c: string, needle: string)
    requires Contains(b, needle)
    ensures Contains(a + b + c, needle)
  {
    var i :| 0 <= i <= |b| - |needle| && OccursAt(b, needle, i);
    var s := a + b + c;
    assert s[|a| + i..|a| + i + |needle|] == b[i..i + |needle|];
    assert OccursAt(s, needle, |a| + i);
  }

  /** A needle none of whose characters occurs in a non-empty separator is found in
      `a + sep + b` only when it is found in `a` or in `b`: no occurrence can straddle `sep`. */
  lemma ContainsAcross(a: string, sep: string, b: string, needle: string)
    requires |needle| > 0 && |sep| > 0
    requires forall i, j :: 0 <= i < |sep| && 0 <= j < |needle| ==> sep[i] != needle[j]
    requires Contains(a + sep + b, needle)
    ensures Contains(a, needle) || Contains(b, needle)
  {
    var s := a + sep + b;
    var i :| 0 <= i <= |s| - |needle| && OccursAt(s, needle, i);
    OverlapSharesChar(a, sep, b, needle, i);
    if i + |needle| <= |a| {
      assert a[i..i + |needle|] == s[i..i + |needle|];
      assert OccursAt(a, needle, i);
    } else {
      var k := i - |a| - |sep|;
      assert b[k..k + |needle|] == s[i..i + |needle|];
      assert OccursAt(b, needle, k);
    }
  }

  /** An occurrence that overlaps the separator shares the character at the first covered
      separator position. */
  lemma OverlapSharesChar(a: string, sep: string, b: string, needle: string, i: int)
    requires |needle| > 0 && |sep| > 0
    requires OccursAt(a + sep + b, needle, i)
    ensures var j := if i < |a| then |a| else i;
            i + |needle| > |a| && i < |a| + |sep| ==> sep[j - |a|] == needle[j - i]
  {
    var s := a + sep + b;
    var j := if i < |a| then |a| else i;
    if i + |needle| > |a| && i < |a| + |sep| {
      assert s[j] == sep[j - |a|];
      assert s[j] == s[i..i + |needle|][j - i];
    }
  }

  /** Lowercasing preserves substrings. */
  lemma ContainsLower(hay: string, needle: string)
    requires Contains(hay, needle)
    ensures Contains(Lower(hay), Lower(needle))
  {
    var i :| 0 <= i <= |hay| - |needle| && OccursAt(hay, needle, i);
    assert Lower(hay)[i..i + |needle|] == Lower(needle);
    assert OccursAt(Lower(hay), Lower(needle), i);
  }

  lemma ContainsSelf(s: string)
    ensures Contains(s, s)
  {
    assert s[0..|s|] == s;
    assert OccursAt(s, s, 0);
  }

  /** Every string contains the empty string. */
  lemma ContainsEmpty(s: string)
    ensures Contains(s, "")
  {
    assert s[0..0] == "";
    assert OccursAt(s, "", 0);
  }

  /** A needle longer than the haystack is never contained. */
  lemma NotContainsLonger(hay: string, needle: string)
    requires |needle| > |hay|
    ensures !Contains(hay, needle)
  {
  }

  /** A needle whose first character never occurs in the haystack is not contained. */
  lemma NotContainsMissingFirst(hay: string, needle: string)
    requires |needle| > 0
    requires forall i :: 0 <= i < |hay| ==> hay[i] != needle[0]
    ensures !Contains(hay, needle)
  {
    forall i | 0 <= i <= |hay| - |needle|
      ensures !OccursAt(hay, needle, i)
    {
      assert hay[i..i + |needle|][0] == hay[i] != needle[0];
    }
  }

  lemma JoinLength(sep: string, parts: seq<string>, w: nat)
    requires forall i :: 0 <= i < |parts| ==> |parts[i]| == w
    ensures |parts| > 0 ==> |Join(sep, parts)| == |parts| * w + (|parts| - 1) * |sep|
  {
    if |parts| > 1 {
      JoinLength(sep, parts[1..], w);
    }
  }

  /** A haystack in which the needle's first two characters never appear side by side does
      not contain the needle. */
  lemma NotContainsWithoutPair(hay: string, needle: string)
    requires |needle| >= 2
    requires forall i :: 0 <= i < |hay| - 1 ==> !(hay[i] == needle[0] && hay[i + 1] == needle[1])
    ensures !Contains(hay, needle)
  {
    forall i | 0 <= i <= |hay| - |needle|
      ensures !OccursAt(hay, needle, i)
    {
      assert hay[i..i + |needle|][0] == hay[i] && hay[i..i + |needle|][1] == hay[i + 1];
    }
  }
}

=== FILE: token_tracking.dfy ===
/** The two concrete lifecycle hooks: token accounting and the event log. */
module TokenTracking {
  import opened Common
  import opened Hooks
  import Values

  datatype TokenUsage = TokenUsage(input: int, output: int, reasoning: int, cached: int, total: int)

  const NoUsage: TokenUsage := TokenUsage(0, 0, 0, 0, 0)

  /** `usage.add(other)` */
  function Add(u: TokenUsage, v: TokenUsage): (r: TokenUsage)
    ensures r.input == u.input + v.input && r.output == u.output + v.output
    ensures r.reasoning == u.reasoning + v.reasoning && r.cached == u.cached + v.cached
    ensures r.total == u.total + v.total
  {
    TokenUsage(u.input + v.input, u.output + v.output, u.reasoning + v.reasoning,
               u.cached + v.cached, u.total + v.total)
  }

  lemma AddMonoid(u: TokenUsage, v: TokenUsage, w: TokenUsage)
    ensures Add(Add(u, v), w) == Add(u, Add(v, w))
    ensures Add(u, v) == Add(v, u)
    ensures Add(u, NoUsage) == u
  {
  }

  /** The usage one finished execution contributes; its total leaves cached tokens out. */
  function UsageOf(c: ExecutionContext): (u: TokenUsage)
    ensures u.total == u.input + u.output + u.reasoning
    ensures u.input == c.inputTokens && u.output == c.outputTokens
    ensures u.reasoning == c.reasoningTokens && u.cached == c.cachedTokens
  {
    TokenUsage(c.inputTokens, c.outputTokens, c.reasoningTokens, c.cachedTokens,
               c.inputTokens + c.outputTokens + c.reasoningTokens)
  }

  datatype TokenTrackingHook = TokenTrackingHook(
    executions: seq<ExecutionContext>, totalUsage: TokenUsage, executionCount: int)

  function NewTokenTracker(): (h: TokenTrackingHook)
    ensures |h.executions| == 0 && h.totalUsage == NoUsage && h.executionCount == 0
  {
    TokenTrackingHook([], NoUsage, 0)
  }

  /** `on_execution_start` */
  function OnExecutionStart(c: ExecutionContext): (r: ExecutionContext)
    ensures r == c.(status := "running")
  {
    c.(status := "running")
  }

  /** `on_execution_end`: the completed context and the updated tracker. */
  function OnExecutionEnd(h: TokenTrackingHook, c: ExecutionContext): (r: (TokenTrackingHook, ExecutionContext))
    ensures r.1 == c.(status := "completed")
    ensures r.0.executions == h.executions + [r.1]
    ensures r.0.executionCount == h.executionCount + 1
    ensures r.0.totalUsage == Add(h.totalUsage, UsageOf(c))
    ensures r.0.totalUsage.total == h.totalUsage.total + c.inputTokens + c.outputTokens + c.reasoningTokens
  {
    var done := c.(status := "completed");
    (TokenTrackingHook(h.executions + [done], Add(h.totalUsage, UsageOf(c)), h.executionCount + 1), done)
  }

  /** `on_event`: only the three start events are counted. */
  function OnEvent(c: ExecutionContext, e: EventType): (r: ExecutionContext)
    ensures e == ReasoningStart ==> r == c.(reasoningSteps := c.reasoningSteps + 1)
    ensures e == ValidationStart ==> r == c.(validationChecks := c.validationChecks + 1)
    ensures e == SafetyCheckStart ==> r == c.(safetyChecks := c.safetyChecks + 1)
    ensures e !in {ReasoningStart, ValidationStart, SafetyCheckStart} ==> r == c
  {
    match e
    case ReasoningStart => c.(reasoningSteps := c.reasoningSteps + 1)
    case ValidationStart => c.(validationChecks := c.validationChecks + 1)
    case SafetyCheckStart => c.(safetyChecks := c.safetyChecks + 1)
    case _ => c
  }

  /** `on_tool_call` */
  function OnToolCall(c: ExecutionContext): (r: ExecutionContext)
    ensures r == c.(toolCalls := c.toolCalls + 1)
  {
    IncrementToolCall(c)
  }

  /** `on_error`: the error is recorded and the execution marked failed. */
  function OnError(c: ExecutionContext, error: string, stamp: string): (r: ExecutionContext)
    ensures r.status == "failed" && r.errors == c.errors + [Stamped(stamp, error)]
  {
    AddError(c, error, stamp)
  }

  datatype Summary = Summary(executionCount: int, totalUsage: TokenUsage, executions: seq<ExecutionContext>)

  function GetExecutionSummary(h: TokenTrackingHook): (s: Summary)
    ensures s.executionCount == h.executionCount && s.totalUsage == h.totalUsage
    ensures s.executions == h.executions
  {
    Summary(h.executionCount, h.totalUsage, h.executions)
  }

  /** The tracker's bookkeeping: the count is the number of stored executions, and the
      accumulated usage is the sum of their usages. */
  predicate Accounted(h: TokenTrackingHook) {
    h.executionCount == |h.executions| && h.totalUsage == SumUsage(h.executions)
  }

  function SumUsage(cs: seq<ExecutionContext>): TokenUsage {
    if |cs| == 0 then NoUsage else Add(SumUsage(cs[..|cs| - 1]), UsageOf(cs[|cs| - 1]))
  }

  lemma EndKeepsAccounted(h: TokenTrackingHook, c: ExecutionContext)
    requires Accounted(h)
    ensures Accounted(OnExecutionEnd(h, c).0)
  {
    var h' := OnExecutionEnd(h, c).0;
    assert h'.executions[..|h'.executions| - 1] == h.executions;
    assert UsageOf(c.(status := "completed")) == UsageOf(c);
  }

  /** In an accounted tracker the total never includes cached tokens. */
  lemma {:induction false} TotalExcludesCached(cs: seq<ExecutionContext>)
    ensures var u := SumUsage(cs); u.total == u.input + u.output + u.reasoning
  {
    if |cs| > 0 {
      TotalExcludesCached(cs[..|cs| - 1]);
    }
  }

  // ---------------------------------------------------------------------
  // The event logger
  // ---------------------------------------------------------------------

  datatype LogEntry =
    | StartEntry(timestamp: string, executionId: string, agent: string)
    | EndEntry(timestamp: string, executionId: string, agent: string, status: string, durationMs: Option<real>)
    | EventEntry(timestamp: string, executionId: string, event: string)
    | ToolEntry(timestamp: string, executionId: string, tool: string, args: string)
    | ErrorEntry(timestamp: string, executionId: string, error: string)

  datatype EventLogger = EventLogger(verbose: bool, events: seq<LogEntry>)

  const ArgsLimit: nat := 200

  /** `str(args)[:200]` */
  function TruncatedArgs(args: Values.Payload): (r: string)
    ensures |r| <= ArgsLimit
    ensures |r| <= |Values.Render(args)| && r == Values.Render(args)[..|r|]
    ensures |Values.Render(args)| <= ArgsLimit ==> r == Values.Render(args)
  {
    var s := Values.Render(args);
    if |s| <= ArgsLimit then s else s[..ArgsLimit]
  }

  function LogStart(l: EventLogger, c: ExecutionContext, stamp: string): (r: EventLogger)
    ensures r.events == l.events + [StartEntry(stamp, c.executionId, c.agentName)]
    ensures r.verbose == l.verbose
  {
    l.(events := l.events + [StartEntry(stamp, c.executionId, c.agentName)])
  }

  function LogEnd(l: EventLogger, c: ExecutionContext, stamp: string): (r: EventLogger)
    ensures r.events == l.events + [EndEntry(stamp, c.executionId, c.agentName, c.status, c.durationMs)]
    ensures r.verbose == l.verbose
  {
    l.(events := l.events + [EndEntry(stamp, c.executionId, c.agentName, c.status, c.durationMs)])
  }

  /** `on_event`: recorded only by a verbose logger. */
  function LogEvent(l: EventLogger, c: ExecutionContext, e: EventType, stamp: string): (r: EventLogger)
    ensures l.verbose ==> r.events == l.events + [EventEntry(stamp, c.executionId, EventValue(e))]
    ensures !l.verbose ==> r == l
  {
    if l.verbose then l.(events := l.events + [EventEntry(stamp, c.executionId, EventValue(e))]) else l
  }

  /** `on_tool_call`: always recorded, with the rendered arguments cut to 200 characters. */
  function LogToolCall(l: EventLogger, c: ExecutionContext, tool: string, args: Values.Payload, stamp: string)
    : (r: EventLogger)
    ensures r.events == l.events + [ToolEntry(stamp, c.executionId, tool, TruncatedArgs(args))]
    ensures var e := r.events[|l.events|];
            e.ToolEntry? && e.tool == tool && e.executionId == c.executionId && |e.args| <= ArgsLimit
    ensures r.verbose == l.verbose
  {
    l.(events := l.events + [ToolEntry(stamp, c.executionId, tool, TruncatedArgs(args))])
  }

  function LogError(l: EventLogger, c: ExecutionContext, error: string, stamp: string): (r: EventLogger)
    ensures r.events == l.events + [ErrorEntry(stamp, c.executionId, error)]
  {
    l.(events := l.events + [ErrorEntry(stamp, c.executionId, error)])
  }

  function ClearEvents(l: EventLogger): (r: EventLogger)
    ensures |r.events| == 0 && r.verbose == l.verbose
  {
    l.(events := [])
  }

  /** Every recorded tool call's argument text is at most 200 characters. */
  predicate ArgsBounded(l: EventLogger) {
    forall i :: 0 <= i < |l.events| && l.events[i].ToolEntry? ==> |l.events[i].args| <= ArgsLimit
  }

  lemma LoggingKeepsArgsBounded(l: EventLogger, c: ExecutionContext, tool: string, args: Values.Payload,
                                e: EventType, error: string, stamp: string)
    requires ArgsBounded(l)
    ensures ArgsBounded(LogToolCall(l, c, tool, args, stamp))
    ensures ArgsBounded(LogStart(l, c, stamp)) && ArgsBounded(LogEnd(l, c, stamp))
    ensures ArgsBounded(LogEvent(l, c, e, stamp)) && ArgsBounded(LogError(l, c, error, stamp))
  {
    var r := LogToolCall(l, c, tool, args, stamp);
    forall i | 0 <= i < |r.events| && r.events[i].ToolEntry?
      ensures |r.events[i].args| <= ArgsLimit
    {
      if i < |l.events| {
        assert r.events[i] == l.events[i];
      }
    }
  }

  /** A quiet logger records no plain events; only verbose logging can grow the log on `on_event`. */
  lemma QuietIgnoresEvents(l: EventLogger, c: ExecutionContext, e: EventType, stamp: string)
    ensures |LogEvent(l, c, e, stamp).events| == |l.events| + (if l.verbose then 1 else 0)
  {
  }
}

=== FILE: tool_registry.dfy ===
/** The registry of native tools the agent can offer to the model. */
module ToolRegistry {
  import opened Common
  import opened Values
  import OrderedMap

  /** A native tool: its name, its definition for the model, and what running it
      with keyword arguments returns (or raises). */
  datatype Tool = Tool(name: string, definition: Payload, run: Payload -> Result<string>)

  type Registry = OrderedMap.Dict<string, Tool>

  /** `register(tool)`: keyed by the tool's name, replacing an earlier tool of that name. */
  function Register(reg: Registry, t: Tool): (r: Registry)
    ensures t.name in r.m && r.m[t.name] == t
    ensures forall n :: n in reg.m && n != t.name ==> n in r.m && r.m[n] == reg.m[n]
    ensures t.name in reg.m ==> r.keys == reg.keys
    ensures t.name !in reg.m ==> r.keys == reg.keys + [t.name]
  {
    OrderedMap.Put(reg, t.name, t)
  }

  /** `get_tool(name)` */
  function GetTool(reg: Registry, name: string): (r: Result<Tool>)
    ensures name in reg.m <==> r.Ok?
    ensures r.Ok? ==> r.value == reg.m[name]
    ensures r.Err? ==> r.error == Exception(ValueError, "Tool '" + name + "' not found in registry")
  {
    if name !in reg.m then Err(Exception(ValueError, "Tool '" + name + "' not found in registry"))
    else Ok(reg.m[name])
  }

  /** `list_tools()` */
  function ListTools(reg: Registry): (r: seq<string>)
    ensures OrderedMap.Distinct(r)
    ensures forall n :: n in r <==> n in reg.m
  {
    reg.keys
  }

  /** `get_all_definitions()` */
  function AllDefinitions(reg: Registry): (r: seq<Payload>)
    ensures |r| == |reg.keys| == |reg.m|
    ensures forall i :: 0 <= i < |r| ==> r[i] == reg.m[reg.keys[i]].definition
  {
    OrderedMap.SizeIsKeyCount(reg);
    var tools := OrderedMap.Values(reg);
    seq(|tools|, i requires 0 <= i < |tools| => tools[i].definition)
  }

  /** `await execute_tool(name, **kwargs)` */
  function ExecuteTool(reg: Registry, name: string, kwargs: Payload): (r: Result<string>)
    ensures name !in reg.m ==> r == Err(Exception(ValueError, "Tool '" + name + "' not found in registry"))
    ensures name in reg.m ==> r == reg.m[name].run(kwargs)
  {
    var t :- GetTool(reg, name);
    t.run(kwargs)
  }

  /** Registering then looking up returns the tool; re-registering a name replaces the
      tool but keeps its place in the listing. */
  lemma RegisterThenGet(reg: Registry, t: Tool, u: Tool)
    requires u.name == t.name
    ensures GetTool(Register(reg, t), t.name) == Ok(t)
    ensures GetTool(Register(Register(reg, t), u), t.name) == Ok(u)
    ensures ListTools(Register(Register(reg, t), u)) == ListTools(Register(reg, t))
  {
  }

  /** The names of `ts`, in order. */
  function Names(ts: seq<Tool>): (r: seq<string>)
    ensures |r| == |ts| && forall i :: 0 <= i < |ts| ==> r[i] == ts[i].name
  {
    if |ts| == 0 then [] else [ts[0].name] + Names(ts[1..])
  }

  /** The listing is in first-registration order: registering a sequence of distinct
      new names appends them in order. */
  lemma ListingOrder(reg: Registry, ts: seq<Tool>)
    requires forall i :: 0 <= i < |ts| ==> ts[i].name !in reg.m
    requires forall i, j :: 0 <= i < j < |ts| ==> ts[i].name != ts[j].name
    ensures ListTools(RegisterAll(reg, ts)) == ListTools(reg) + Names(ts)
  {
    KeysInOrder(reg, ts);
  }

  lemma {:induction false} KeysInOrder(reg: Registry, ts: seq<Tool>)
    requires forall i :: 0 <= i < |ts| ==> ts[i].name !in reg.m
    requires forall i, j :: 0 <= i < j < |ts| ==> ts[i].name != ts[j].name
    ensures RegisterAll(reg, ts).keys == reg.keys + Names(ts)
    decreases |ts|
  {
    if |ts| > 0 {
      TailStaysFresh(reg, ts);
      KeysInOrder(Register(reg, ts[0]), ts[1..]);
      KeysStep(reg, ts);
    }
  }

  /** One step of the listing order: the first new name goes to the end of the keys, and the
      rest follow it. */
  lemma KeysStep(reg: Registry, ts: seq<Tool>)
    requires |ts| > 0 && ts[0].name !in reg.m
    requires RegisterAll(Register(reg, ts[0]), ts[1..]).keys == Register(reg, ts[0]).keys + Names(ts[1..])
    ensures RegisterAll(reg, ts).keys == reg.keys + Names(ts)
  {
    var keys, n, rest := reg.keys, ts[0].name, Names(ts[1..]);
    assert Names(ts) == [n] + rest;
    AppendAssoc(keys, [n], rest);
  }


  /** After registering the first of distinct new tools, the others are still distinct and new. */
  lemma TailStaysFresh(reg: Registry, ts: seq<Tool>)
    requires |ts| > 0
    requires forall i :: 0 <= i < |ts| ==> ts[i].name !in reg.m
    requires forall i, j :: 0 <= i < j < |ts| ==> ts[i].name != ts[j].name
    ensures var r1 := Register(reg, ts[0]);
            (forall i :: 0 <= i < |ts[1..]| ==> ts[1..][i].name !in r1.m)
            && forall i, j :: 0 <= i < j < |ts[1..]| ==> ts[1..][i].name != ts[1..][j].name
  {
    var r1 := Register(reg, ts[0]);
    var rest := ts[1..];
    forall i | 0 <= i < |rest| ensures rest[i].name !in r1.m {
      assert rest[i] == ts[i + 1];
    }
    forall i, j | 0 <= i < j < |rest| ensures rest[i].name != rest[j].name {
      assert rest[i] == ts[i + 1] && rest[j] == ts[j + 1];
    }
  }

  function RegisterAll(reg: Registry, ts: seq<Tool>): Registry
    decreases |ts|
  {
    if |ts| == 0 then reg else RegisterAll(Register(reg, ts[0]), ts[1..])
  }
}

=== FILE: trust.dfy ===
/** The trust gate: which tool names a security context at a given trust
    level may run. */
module Trust {

  datatype TrustLevel = Isolated | Standard | Full

  /** Tools that only `Full` trust may run. */
  const HighRisk: seq<string> := ["shell_command", "file_system", "web_browser"]

  /** Tools that `Isolated` trust may not run either. */
  const MediumRisk: seq<string> := ["read_file", "search_web"]

  /** `SecurityContext(level).can_execute(tool)`: full trust runs everything, standard trust
      everything but the three high-risk tools, isolated trust also not the two medium-risk ones. */
  function CanExecute(level: TrustLevel, tool: string): (r: bool)
    ensures level == Full ==> r
    ensures level == Standard ==> (!r <==> tool in {"shell_command", "file_system", "web_browser"})
    ensures level == Isolated ==>
              (!r <==> tool in {"shell_command", "file_system", "web_browser", "read_file", "search_web"})
  {
    match level
    case Isolated => tool !in HighRisk && tool !in MediumRisk
    case Standard => tool !in HighRisk
    case Full => true
  }

  /** Permission only grows with trust: Isolated ⊆ Standard ⊆ Full. */
  lemma Monotone(tool: string)
    ensures CanExecute(Isolated, tool) ==> CanExecute(Standard, tool)
    ensures CanExecute(Standard, tool) ==> CanExecute(Full, tool)
  {
  }

  /** Standard trust denies exactly the three high-risk names. */
  lemma StandardDeniesExactly(tool: string)
    ensures !CanExecute(Standard, tool)
        <==> tool == "shell_command" || tool == "file_system" || tool == "web_browser"
  {
  }

  /** Isolated trust denies exactly the high-risk names and the two medium-risk names. */
  lemma IsolatedDeniesExactly(tool: string)
    ensures !CanExecute(Isolated, tool)
        <==> tool in {"shell_command", "file_system", "web_browser", "read_file", "search_web"}
  {
  }

  /** The native search tool is called `web_search`, which neither list names,
      so it runs even at the lowest trust level. */
  lemma NativeSearchAlwaysAllowed()
    ensures forall level :: CanExecute(level, "web_search")
  {
  }
}

=== FILE: values.dfy ===
/** Dynamic values carried in tool-call arguments and other payload
    dictionaries, and Python's `str()` rendering of such a dictionary.

    A float keeps the text Python would print for it next to its value,
    because shortest round-trip float formatting is outside this model.
    String rendering escapes backslashes, the chosen quote, newline,
    carriage return and tab; other non-printable characters (which Python
    writes as `\xNN`) are not modelled. */
module Values {
  import opened Text
  import OrderedMap

  datatype Value =
    | Null
    | Bool(b: bool)
    | Int(i: int)
    | Float(f: real, text: string)
    | Str(s: string)

  /** A `Dict[str, Any]` payload, in insertion order. */
  type Payload = OrderedMap.Dict<string, Value>

  /** The characters `repr` of a string rewrites. */
  predicate Special(c: char) {
    c == '\\' || c == '\'' || c == '"' || c == '\n' || c == '\r' || c == '\t'
  }

  /** No character of `w` is rewritten by string escaping. */
  predicate Plain(w: string) {
    forall i :: 0 <= i < |w| ==> !Special(w[i])
  }

  /** Python picks double quotes only when the text holds a single quote and no double quote. */
  function QuoteFor(s: string): char {
    if '\'' in s && '"' !in s then '"' else '\''
  }

  function EscapeChar(c: char, q: char): string {
    if c == '\\' then "\\\\"
    else if c == q then ['\\', c]
    else if c == '\n' then "\\n"
    else if c == '\r' then "\\r"
    else if c == '\t' then "\\t"
    else [c]
  }

  function Escape(s: string, q: char): string {
    if |s| == 0 then "" else EscapeChar(s[0], q) + Escape(s[1..], q)
  }

  /** `repr(s)` for a string. */
  function ReprStr(s: string): string {
    var q := QuoteFor(s);
    [q] + Escape(s, q) + [q]
  }

  /** `repr(v)` */
  function Repr(v: Value): string {
    match v
    case Null => "None"
    case Bool(b) => if b then "True" else "False"
    case Int(i) => IntToString(i)
    case Float(_, text) => text
    case Str(s) => ReprStr(s)
  }

  /** `str(v)`: strings are shown bare, everything else as its `repr`. */
  function StrOf(v: Value): string {
    if v.Str? then v.s else Repr(v)
  }

  function Item(p: Payload, i: nat): string
    requires i < |p.keys|
  {
    ReprStr(p.keys[i]) + ": " + Repr(p.m[p.keys[i]])
  }

  /** `str(d)` for a payload dictionary: `{'k': v, ...}` in insertion order. */
  function Render(p: Payload): (r: string)
    ensures |r| >= 2 && r[0] == '{' && r[|r| - 1] == '}'
  {
    "{" + Join(", ", seq(|p.keys|, i requires 0 <= i < |p.keys| => Item(p, i))) + "}"
  }

  // ---------------------------------------------------------------------
  // Escaping preserves plain substrings
  // ---------------------------------------------------------------------

  lemma {:induction false} EscapeConcat(a: string, b: string, q: char)
    ensures Escape(a + b, q) == Escape(a, q) + Escape(b, q)
  {
    if |a| == 0 {
      assert a + b == b;
    } else {
      assert (a + b)[1..] == a[1..] + b;
      EscapeConcat(a[1..], b, q);
    }
  }

  lemma {:induction false} EscapePlain(w: string, q: char)
    requires Plain(w)
    requires q == '\'' || q == '"'
    ensures Escape(w, q) == w
  {
    if |w| > 0 {
      EscapePlain(w[1..], q);
    }
  }

  /** Lower-casing and escaping commute, since no escaped character is a letter. */
  lemma {:induction false} LowerEscape(s: string, q: char)
    requires q == '\'' || q == '"'
    ensures Lower(Escape(s, q)) == Escape(Lower(s), q)
  {
    if |s| > 0 {
      LowerEscape(s[1..], q);
      assert Lower(s)[1..] == Lower(s[1..]);
      LowerConcat(EscapeChar(s[0], q), Escape(s[1..], q));
    }
  }

  /** A plain word inside a string is still inside its escaped form. */
  lemma ContainsEscaped(s: string, w: string, q: char)
    requires Contains(s, w) && Plain(w)
    requires q == '\'' || q == '"'
    ensures Contains(Escape(s, q), w)
  {
    var i :| 0 <= i <= |s| - |w| && OccursAt(s, w, i);
    assert s == s[..i] + w + s[i + |w|..];
    EscapeConcat(s[..i] + w, s[i + |w|..], q);
    EscapeConcat(s[..i], w, q);
    EscapePlain(w, q);
    ContainsSelf(w);
    ContainsInMiddle(Escape(s[..i], q), w, Escape(s[i + |w|..], q), w);
  }

  /** A plain lower-case word in the lower-cased text of `s` survives `repr` and lower-casing. */
  lemma ContainsLowerRepr(s: string, w: string)
    requires Contains(Lower(s), w) && Plain(w)
    ensures Contains(Lower(ReprStr(s)), w)
  {
    var q := QuoteFor(s);
    ContainsEscaped(Lower(s), w, q);
    LowerEscape(s, q);
    LowerConcat([q] + Escape(s, q), [q]);
    LowerConcat([q], Escape(s, q));
    ContainsInMiddle(Lower([q]), Lower(Escape(s, q)), Lower([q]), w);
  }

  /** Every part of a join is a substring of the join. */
  lemma {:induction false} ContainsJoin(sep: string, parts: seq<string>, i: nat, w: string)
    requires i < |parts| && Contains(parts[i], w)
    ensures Contains(Join(sep, parts), w)
  {
    if |parts| == 1 {
    } else if i == 0 {
      ContainsInMiddle("", parts[0], sep + Join(sep, parts[1..]), w);
      assert "" + parts[0] + (sep + Join(sep, parts[1..])) == Join(sep, parts);
    } else {
      ContainsJoin(sep, parts[1..], i - 1, w);
      ContainsInMiddle(parts[0] + sep, Join(sep, parts[1..]), "", w);
      assert parts[0] + sep + Join(sep, parts[1..]) + "" == Join(sep, parts);
    }
  }

  /** A word found in one rendered item of a payload is found in the lower-cased rendering. */
  lemma ContainsRenderItem(p: Payload, i: nat, w: string)
    requires i < |p.keys| && Contains(Lower(Item(p, i)), w)
    ensures Contains(Lower(Render(p)), w)
  {
    var items := seq(|p.keys|, j requires 0 <= j < |p.keys| => Item(p, j));
    var lowered := seq(|items|, j requires 0 <= j < |items| => Lower(items[j]));
    LowerJoin(", ", items);
    assert lowered[i] == Lower(Item(p, i));
    ContainsJoin(", ", lowered, i, w);
    LowerConcat("{" + Join(", ", items), "}");
    LowerConcat("{", Join(", ", items));
    assert Lower(", ") == ", ";
    ContainsInMiddle(Lower("{"), Join(", ", lowered), Lower("}"), w);
  }

  /** Lower-casing a join of a separator without capitals lowers each part. */
  lemma {:induction false} LowerJoin(sep: string, parts: seq<string>)
    requires Lower(sep) == sep
    ensures Lower(Join(sep, parts))
         == Join(sep, seq(|parts|, j requires 0 <= j < |parts| => Lower(parts[j])))
  {
    var lowered := seq(|parts|, j requires 0 <= j < |parts| => Lower(parts[j]));
    if |parts| > 1 {
      LowerJoin(sep, parts[1..]);
      assert lowered[1..] == seq(|parts[1..]|, j requires 0 <= j < |parts[1..]| => Lower(parts[1..][j]));
      LowerConcat(parts[0] + sep, Join(sep, parts[1..]));
      LowerConcat(parts[0], sep);
    }
  }

  /** A plain word in the lower-cased text of a key appears in the lower-cased rendering. */
  lemma KeyWordInRender(p: Payload, k: string, w: string)
    requires k in p.m && Contains(Lower(k), w) && Plain(w)
    ensures Contains(Lower(Render(p)), w)
  {
    var i := OrderedMap.IndexOf(p.keys, k);
    ContainsLowerRepr(k, w);
    var rest := ": " + Repr(p.m[k]);
    LowerConcat(ReprStr(k), rest);
    ContainsInMiddle("", Lower(ReprStr(k)), Lower(rest), w);
    assert "" + Lower(ReprStr(k)) + Lower(rest) == Lower(Item(p, i));
    ContainsRenderItem(p, i, w);
  }

  /** A plain word in the lower-cased text of a string value appears in the lower-cased rendering. */
  lemma ValueWordInRender(p: Payload, k: string, s: string, w: string)
    requires k in p.m && p.m[k] == Str(s) && Contains(Lower(s), w) && Plain(w)
    ensures Contains(Lower(Render(p)), w)
  {
    var i := OrderedMap.IndexOf(p.keys, k);
    ContainsLowerRepr(s, w);
    var front := ReprStr(k) + ": ";
    LowerConcat(front, ReprStr(s));
    ContainsInMiddle(Lower(front), Lower(ReprStr(s)), "", w);
    assert Lower(front) + Lower(ReprStr(s)) + "" == Lower(Item(p, i));
    ContainsRenderItem(p, i, w);
  }

  /** A word of lower-case ASCII letters that shows in the lower-cased text of some value's
      `repr` shows in the lower-cased rendering. */
  lemma ReprWordInRender(p: Payload, k: string, w: string)
    requires k in p.m && Contains(Repr(p.m[k]), w) && Lower(w) == w
    ensures Contains(Lower(Render(p)), w)
  {
    var i := OrderedMap.IndexOf(p.keys, k);
    ContainsLower(Repr(p.m[k]), w);
    var front := ReprStr(k) + ": ";
    LowerConcat(front, Repr(p.m[k]));
    ContainsInMiddle(Lower(front), Lower(Repr(p.m[k])), "", w);
    assert Lower(front) + Lower(Repr(p.m[k])) + "" == Lower(Item(p, i));
    ContainsRenderItem(p, i, w);
  }

  // ---------------------------------------------------------------------
  // Words the rendering does not contain
  // ---------------------------------------------------------------------

  /** A non-empty word of lower-case ASCII letters. */
  predicate LetterWord(w: string) {
    |w| > 0 && forall i :: 0 <= i < |w| ==> 'a' <= w[i] <= 'z'
  }

  /** Text without lower-case letters. */
  predicate NoLetters(s: string) {
    forall i :: 0 <= i < |s| ==> !('a' <= s[i] <= 'z')
  }

  /** Punctuation between two parts cannot be crossed by a word of letters. */
  lemma ApartByPunctuation(a: string, sep: string, b: string, w: string)
    requires LetterWord(w) && |sep| > 0 && NoLetters(sep)
    requires !Contains(a, w) && !Contains(b, w)
    ensures !Contains(a + sep + b, w)
  {
    if Contains(a + sep + b, w) {
      ContainsAcross(a, sep, b, w);
    }
  }

  /** The `repr` of a plain string holds a word of letters only when the string does. */
  lemma QuotedWithoutWord(s: string, w: string)
    requires LetterWord(w) && Plain(s) && !Contains(Lower(s), w)
    ensures !Contains(Lower(ReprStr(s)), w)
  {
    var q := QuoteFor(s);
    EscapePlain(s, q);
    assert ReprStr(s) == [q] + s + [q];
    LowerConcat([q] + s, [q]);
    LowerConcat([q], s);
    assert Lower([q]) == [q];
    NotContainsLonger("", w);
    ApartByPunctuation(Lower(s), [q], "", w);
    assert Lower(s) + [q] + "" == Lower(s) + [q];
    ApartByPunctuation("", [q], Lower(s) + [q], w);
    assert "" + [q] + (Lower(s) + [q]) == Lower(ReprStr(s));
  }

  /** One rendered item holds a word of letters only when its key or its value's text does. */
  lemma ItemWithoutWord(p: Payload, i: nat, w: string)
    requires i < |p.keys| && LetterWord(w)
    requires var k := p.keys[i];
             Plain(k) && !Contains(Lower(k), w)
             && (p.m[k].Str? ==> Plain(p.m[k].s)) && !Contains(Lower(StrOf(p.m[k])), w)
    ensures !Contains(Lower(Item(p, i)), w)
  {
    var k := p.keys[i];
    var v := p.m[k];
    QuotedWithoutWord(k, w);
    if v.Str? {
      QuotedWithoutWord(v.s, w);
    }
    LowerConcat(ReprStr(k) + ": ", Repr(v));
    LowerConcat(ReprStr(k), ": ");
    assert Lower(": ") == ": ";
    ApartByPunctuation(Lower(ReprStr(k)), ": ", Lower(Repr(v)), w);
  }

  /** Parts joined by punctuation hold a word of letters only when some part does. */
  lemma {:induction false} JoinWithoutWord(sep: string, parts: seq<string>, w: string)
    requires LetterWord(w) && |sep| > 0 && NoLetters(sep)
    requires forall j :: 0 <= j < |parts| ==> !Contains(parts[j], w)
    ensures !Contains(Join(sep, parts), w)
  {
    if |parts| == 0 {
      NotContainsLonger("", w);
    } else if |parts| > 1 {
      JoinWithoutWord(sep, parts[1..], w);
      ApartByPunctuation(parts[0], sep, Join(sep, parts[1..]), w);
    }
  }

  /** Braces around text without a word of letters add none. */
  lemma BracedWithoutWord(joined: string, w: string)
    requires LetterWord(w) && !Contains(joined, w)
    ensures !Contains("{" + joined + "}", w)
  {
    NotContainsLonger("", w);
    ApartByPunctuation(joined, "}", "", w);
    assert joined + "}" + "" == joined + "}";
    ApartByPunctuation("", "{", joined + "}", w);
    assert "" + "{" + (joined + "}") == "{" + joined + "}";
  }

  /** The lower-cased rendering is the braced join of the lower-cased items. */
  lemma LowerRender(p: Payload)
    ensures Lower(Render(p))
         == "{" + Join(", ", seq(|p.keys|, j requires 0 <= j < |p.keys| => Lower(Item(p, j)))) + "}"
  {
    var items := seq(|p.keys|, j requires 0 <= j < |p.keys| => Item(p, j));
    assert Lower(", ") == ", ";
    LowerJoin(", ", items);
    assert seq(|items|, j requires 0 <= j < |items| => Lower(items[j]))
        == seq(|p.keys|, j requires 0 <= j < |p.keys| => Lower(Item(p, j)));
    LowerConcat("{" + Join(", ", items), "}");
    LowerConcat("{", Join(", ", items));
    assert Lower("{") == "{" && Lower("}") == "}";
  }

  /** The rendering of a payload whose keys and string values are plain holds a word of
      letters only when some key, or the text of some value, holds it. */
  lemma RenderWithoutWord(p: Payload, w: string)
    requires LetterWord(w)
    requires forall k :: k in p.m ==> Plain(k) && !Contains(Lower(k), w)
    requires forall k :: k in p.m ==> (p.m[k].Str? ==> Plain(p.m[k].s)) && !Contains(Lower(StrOf(p.m[k])), w)
    ensures !Contains(Lower(Render(p)), w)
  {
    var lowered := seq(|p.keys|, j requires 0 <= j < |p.keys| => Lower(Item(p, j)));
    forall j | 0 <= j < |lowered|
      ensures !Contains(lowered[j], w)
    {
      ItemWithoutWord(p, j, w);
    }
    JoinWithoutWord(", ", lowered, w);
    BracedWithoutWord(Join(", ", lowered), w);
    LowerRender(p);
  }
}
